=== FILE: README.md ===
# A C-subset to MIPS compiler, and a word counter, in Dafny

This project models the core of a small teaching compiler that translates a
subset of C (no structs, unions or floating point) into MIPS assembly for the
SPIM simulator, and the word-count utility that ships with it. Everything is
modelled with immutable datatypes and pure functions over sequences; each
stage threads an explicit state record where the C code mutates globals.

**Front-end bookkeeping the core relies on.**
- `Integers`: `atoi`, `"%d"` and 32-bit wrap-around.
- `Strings`: the fixed-length name buffers.
- `HashMap`: the fixed-capacity map that every table is built on.
- `ScopeStack`: the block stack.
- `Types`, `Util` and `Conversions`: type ranks, usual arithmetic conversions, the nearest power of two.
- `Ast`, `Literals` and `ConstEval`: expression trees, escape and character literals, constant evaluation with C's truncating division.
- `TypeTree` and `Symbols`: declaration types and symbol-table entries.

**IR generation** (`Ir`, `IrValues`, `IrOps`, `IrExpr`, `IrStmt`).
- The program is a position-ordered list of three-address instructions.
- Each instruction carries a kind, seven operand slots, a position, a scope tag, a liveness flag and an optional offset variable.
- Insertion and removal work by position, exactly as the linked list does: an inserted instruction takes the next position, and a removed instruction's successor inherits its position.
- Every expression and statement form is lowered: arithmetic with pointer scaling, assignment and compound assignment, short-circuit `&&`/`||` and `?:` merged by a `phi`, increments (on a pointer operand an increment or decrement is `Undefined`, because the C code reads its step constant before setting it), casts, calls, `if`, the three loops, `break`/`continue`/`goto`/`return`, labels, and functions.
- The contracts state the shape of the code each form produces, its jump targets and its scope tags.

**Optimisation pass 1** (`Opt1`): one top-to-bottom sweep.
- Constant folding, done in C int arithmetic.
- Removal of `+ 0`, `- 0` and `/ 1`.
- Shifts for multiplication and unsigned division by powers of two.
- Multiplication by other constants decomposed into shifts and additions.
- Loads and stores take their address-of as an offset.

**Optimisation pass 2** (`Opt2`): rounds repeated until one removes nothing.
- Delete the block of a label no `goto` targets.
- Delete a goto immediately followed by its label.
- Delete unused constants.

**MIPS code generation**, as decisions rather than text:
- `MipsRegisters`: the register bump allocator and the variable address map.
- `MipsFrame`: frame layout, prologue, epilogue and `$t` register spills around calls.
- `MipsBranch`: plain and fused conditional branches.
- `MipsSelect`: opcode dispatch, immediate forms, syscalls and parameter passing.
- `MipsCast`: width casts.

**Word count** (`WordCount`).
- Words are split on space, tab and newline.
- Each word is inserted into a list kept sorted by word.
- The list counts newlines in its head node.
- The model proves that each reported count is the number of times the word occurs in the text.

**Failure modes.** A failure is an `Err` of a `Result`:
- `Aborts` marks an `assert` or `exit` in the C code;
- `Undefined` marks a path on which the C code has undefined behaviour (a NULL dereference, an out-of-bounds table read, division by zero while folding).

Where a comment and the code differ, the model follows the code. Two examples:
- the `x * 1` removal after both multiply branches return is never reached;
- the `a/2 => a >> 1` rewrite also fires for `2 / a`.

Where the code is wrong, the model keeps the behaviour as written next to a corrected definition; see Findings.

## Model

| member | source | states |
|---|---|---|
| Integers.Wrap32 | src/compiler/optimization-1.c:155 | the value a C `int` holds after the folded sum is assigned: a 32-bit value congruent to the exact one modulo 2^32, and the exact one whenever it is in range |
| Integers.ToUInt32 | src/compiler/optimization-1.c:119 | the value a C `unsigned int` holds: in [0, 2^32) and congruent to the exact value modulo 2^32, the exact value whenever it fits |
| Integers.WrapOfUnsigned | src/compiler/optimization-1.c:119-120 | the unsigned and the signed reading of the same 32 bits convert into each other without loss |
| Integers.CDiv | src/compiler/optimization-1.c:331 | C's `/`: the remainder it leaves is smaller than the divisor in magnitude and zero or of the dividend's sign, so the quotient truncates toward zero |
| Integers.CRem | src/compiler/optimization-1.c:370 | C's `%`: smaller than the divisor in magnitude, zero or of the dividend's sign, and dividend = quotient·divisor + remainder |
| Integers.IntToDecimal | src/compiler/ir.c:44-46 | `sprintf("%d")` yields at least one character and starts with '-' exactly for negative values |
| Integers.AtoiOfDecimal | src/compiler/optimization-1.c:155 | `atoi` of the text `sprintf("%d")` wrote for a constant gives the constant back |
| Integers.DecimalInjective | src/compiler/ir.c:44-48 | two different constants never share their map text |
| Integers.DecimalOfInt32IsShort | src/compiler/helpers/hash-map.h:9 | any 32-bit value prints in at most 11 characters, so it fits the 50-character value slot of the map |
| Integers.TakeDigits | src/compiler/optimization-1.c:98 | the part of the text `atoi` reads: the longest all-digit prefix |
| Strings.ContainsMeansOccurs | src/compiler/symbol.c:42-44 | the `strstr` search succeeds exactly when the substring occurs at some index |
| Strings.ContainsPrefix | src/compiler/ir.c:85 | a text that begins with the substring contains it |
| HashMap.Initialise | src/compiler/helpers/hash-map.c:8-21 | a fresh map has size 0 and key -1 in every one of its 100 slots |
| HashMap.InitialIsEmpty | src/compiler/helpers/hash-map.c:14-18 | a map of size 0 knows no key |
| HashMap.FindFrom | src/compiler/helpers/hash-map.c:31-36 | the first slot in use at or after the start whose key matches, and none exactly when no such slot exists |
| HashMap.Get | src/compiler/helpers/hash-map.c:47-55 | `get_value` is NULL exactly when no slot in use holds the key, and otherwise a value stored with that key |
| HashMap.Add | src/compiler/helpers/hash-map.c:28-45 | aborts exactly when the map is full, even for a key already present; otherwise the key then reads back the new value, every other key reads as before, and the size grows by one exactly when the key was new |
| HashMap.AddKeepsKeysDistinct | src/compiler/helpers/hash-map.c:38-40 | appending only keys not yet present keeps the keys in use pairwise distinct |
| HashMap.OverwritePreservesOthers | src/compiler/helpers/hash-map.c:32-34 | overwriting the slot of an existing key keeps that key at its slot and every other key's lookup unchanged |
| HashMap.AppendPreservesOthers | src/compiler/helpers/hash-map.c:38-40 | appending a new key makes it found at the old size and leaves every other key's lookup unchanged |
| ScopeStack.Push | src/compiler/helpers/stack.c:23-31 | on a full stack nothing changes; otherwise the element goes on top and the contents grow by exactly it |
| ScopeStack.Pop | src/compiler/helpers/stack.c:33-43 | on an empty stack NULL and no change; otherwise the top element is returned and the remaining contents plus it are the old contents |
| ScopeStack.Peek | src/compiler/helpers/stack.c:45-47 | the element last pushed and not yet popped |
| ScopeStack.PushThenPop | src/compiler/helpers/stack.c:23-43 | popping right after a push onto a stack that is not full returns the pushed element and restores the stack |
| Types.BasicSize | src/compiler/type.c:43-57 | the width is 1, 2 or 4 bytes for the integer types (long as wide as int) and 0 exactly for the types that are not integers |
| Types.SizeAndPointeeSize | src/compiler/type.c:59-79 | a pointer occupies one 4-byte word however wide its pointee is; a basic type has a nonzero size exactly when it is an integer type, and then its size is the scale `type_size` gives it in pointer arithmetic |
| Types.Rank | src/compiler/type.c:81-94 | the conversion rank is one of 0, 20, 30, 40, 50 |
| Types.RankAgreesWithSize | src/compiler/type.c:81-94 | only integer types have a rank, a strictly higher rank is never narrower, and equal ranks mean the same basic type (or two types without a width) |
| Types.PointeeSize | src/compiler/type.c:876-901 | a basic or pointer type scales by the width of its basic type and fails the assert exactly when that type is not an integer; arrays, functions and labels scale by 0 |
| Types.TypeIsEqualProperties | src/compiler/type.c:598-612 | `TypeIsEqual`, which never equates a pointer with an array, is reflexive and symmetric, transitive within one kind, and holds between `int` and `int *` |
| Types.PointerOperationsAreEqualityOperationsPlusArithmetic | src/compiler/type.c:656-662 | an operator is allowed on pointers exactly when it is a truth-valued operator, `+`, `-` or `=`; no compound assignment is allowed |
| Util.MyLog2 | src/compiler/helpers/util-functions.c:234-244 | 0 maps to INT_MAX; every other unsigned value v maps to the k with 2^k <= v < 2^(k+1), which is below 32 |
| Util.MyLog2OfPower | src/compiler/helpers/util-functions.c:234-244 | the logarithm of 2^k is k |
| Util.MyLog2Unique | src/compiler/helpers/util-functions.c:234-244 | any k bracketing v between 2^k and 2^(k+1) is the logarithm of v |
| Util.IsPowerOfTwo | src/compiler/helpers/util-functions.c:246-249 | holds exactly when the unsigned reading of the 32-bit value has one set bit: for positive values exactly the powers of two, for negative values only INT_MIN |
| Util.IsPowerOfTwoMeaning | src/compiler/helpers/util-functions.c:248 | `c != 0 && (c & (c - 1)) == 0` on 32 bits holds exactly when the unsigned reading of c is a power of two |
| Util.PowerOfTwoBits | src/compiler/helpers/util-functions.c:248 | for a positive value, clearing its lowest set bit gives zero exactly when it is a power of two |
| Util.PowersOfTwoTable | src/compiler/helpers/util-functions.c:15 | the i-th entry of the table is 2^i |
| Util.FirstNearestIndex | src/compiler/helpers/util-functions.c:254-259 | the first table index whose distance to c is least: no entry is nearer, and every earlier entry is strictly farther |
| Util.NearestIsNearest | src/compiler/helpers/util-functions.c:251-261 | the nearest power of two is a table entry, no entry is nearer to c, and every smaller entry is strictly farther |
| Util.ScanFindsNearest | src/compiler/helpers/util-functions.c:251-261 | the strict-minimum scan over the table picks the same entry as the closed form with ties going to the smaller entry |
| Util.FindNearestPowerOfTwo | src/compiler/helpers/util-functions.c:251-261 | the loop as written returns the nearest entry and never its placeholder 99, for every c whose distances do not overflow |
| Util.TypeMax | src/compiler/helpers/util-functions.c:160-190 | an integer type has a positive maximum; any other type gives 0 and counts a range error |
| Util.TypeMin | src/compiler/helpers/util-functions.c:197-215 | every unsigned type starts at 0 without an error; a signed integer type has a negative minimum; a signed non-integer gives 0 and counts a range error |
| Util.RangesAgreeWithSizes | src/compiler/helpers/util-functions.h:12-34 | the bounds are those of the type's width in bits, two's complement for signed types, except that signed char stops at -127 |
| Util.CanRepresent | src/compiler/helpers/util-functions.c:217-232 | answers yes exactly when the first range contains the second; the error counter is reset and stays 0 exactly when both types are integers |
| Util.CanRepresentPreorder | src/compiler/helpers/util-functions.c:217-232 | range containment is reflexive and transitive |
| Util.IntRepresentsNarrowUnsigned | src/compiler/helpers/util-functions.c:217-232 | `int` holds every unsigned char and unsigned short value but not every unsigned int or unsigned long value, without range errors |
| Conversions.PromoteType | src/compiler/type.c:329-372 | a type of rank at least 40 is kept; a narrower type becomes `int` of the same kind; an error is counted exactly for a narrow unsigned non-integer |
| Conversions.PromotionProperties | src/compiler/type.c:329-372 | promotion is idempotent, never narrows, and the promoted type holds every value of an integer operand |
| Conversions.BinaryConversion | src/compiler/type.c:436-521 | equal types yield the left type (a basic type when both operands are dereferences); unequal types yield a basic type, which with equal signedness has the higher-ranked basic type and that signedness |
| Conversions.MixedSignednessRule | src/compiler/type.c:475-521 | with mixed signedness the result does not depend on the order; a signed operand of higher rank wins when it holds the unsigned one and lends its basic type to an unsigned result otherwise; otherwise the unsigned operand's type wins |
| Conversions.UsualArithmeticConversions | src/compiler/type.c:436-521 | on integer operands the common type is order-independent, has the larger rank, and, when signed, holds every value of both operands |
| Ast.StripCasts | src/compiler/node.c:1504-1510 | the expression under its casts, which is never itself a cast |
| Ast.PointerAddressMeansStrippedAddress | src/compiler/node.c:1504-1519 | `node_is_pointer_address` holds exactly when the expression under its casts is a unary `&`; `node_is_dereference` only sees a `*` with no cast around it, and never together with an address |
| Ast.CompareNodes | src/compiler/node.c:44-55 | the answer is 0 or 1, and 0 exactly when the two locations are equal |
| ConstEval.BitwiseProperties | src/compiler/helpers/util-functions.c:62-70 | `|`, `^` and `&` on longs are symmetric, `&` and `|` are idempotent, `x ^ x` is 0, and on non-negative operands `&` is the bitwise and used by the power-of-two test |
| ConstEval.BitwiseZero | src/compiler/helpers/util-functions.c:68-69 | anything `&` 0 is 0 |
| ConstEval.BinaryValue | src/compiler/helpers/util-functions.c:40-97 | a binary operator is undefined exactly for a zero divisor of `/` or `%` and for a shift by a negative or too wide amount (or of a negative value to the left); every truth-valued operator yields 0 or 1 and the assignments keep the unevaluated value |
| ConstEval.Handler | src/compiler/helpers/util-functions.c:19-158 | the error count never goes down, a cast evaluates to the unevaluated value with no identifier, and the expression kinds the switch does not list abort |
| ConstEval.EvaluateExpression | src/compiler/helpers/util-functions.c:192-195 | the error count restarts at 0; a missing expression or a cast yields the unevaluated value |
| ConstEval.IdentifierFlag | src/compiler/helpers/util-functions.c:30-33 | an identifier is reported only when one occurs, and outside conditionals exactly when one occurs; outside conditionals the error count grows by exactly the number of unary `&` |
| ConstEval.OnlySelectedBranch | src/compiler/helpers/util-functions.c:140-147 | a conditional's value is that of the branch its condition selects, whatever the other branch holds, even one that would abort |
| ConstEval.ConditionOnIdentifier | src/compiler/helpers/util-functions.c:140-147 | `x ? 1 : 2` with an identifier x evaluates to the constant 1 with no identifier reported |
| Literals.Code | src/compiler/node.c:156 | a byte read through a signed `char` lies in [-128, 128) and agrees with the byte modulo 256 |
| Literals.EscapeValue | src/compiler/utils.h:7-11 | a letter after a backslash stands for a code below 40, or for nothing |
| Literals.EscapeTableInverse | src/compiler/utils.h:9-11 | letters and codes of the escape table determine each other: a letter maps to a code exactly when the code maps back to that letter |
| Literals.NumberLiteral | src/compiler/node.c:233-278 | two leading zeros give the leading-zeros node; otherwise overflow coincides with the UNDEF type and the value is that of the digits unless it overflowed to ULONG_MAX |
| Literals.NumberTypeIsFirstFitting | src/compiler/node.c:242-271 | the type is the first of int, long, unsigned int, unsigned long whose range holds the value, overflow happens exactly when none does, and neither long type is ever chosen |
| Literals.NumberFitsItsType | src/compiler/node.c:251-266 | a constant that does not overflow lies in the range of its type |
| Literals.NumberBoundaries | src/compiler/node.c:251-271 | 2147483647 is an int, 2147483648 an unsigned int, and 4294967296 overflows |
| Literals.LeadingZeroExamples | src/compiler/node.c:238-240 | "007" is a leading-zeros literal while "0" and "07" are ints |
| Literals.CharLiteral | src/compiler/node.c:189-220 | a character constant is a signed int that never overflows, whose value for a plain `'c'` is the code of c |
| Literals.TwoLetterCharacter | src/compiler/node.c:192-201 | `'ab'` is accepted and stands for the code of `\b`, 8 |
| Literals.DecodeFrom | src/compiler/node.c:114-158 | every content byte is either stored as one code or consumed by an escape pair, and every stored code fits a signed char |
| Literals.DecodeStep | src/compiler/node.c:115-157 | one step of the loop: an escape pair whose letter is in the table yields its code and skips two bytes; anything else yields the byte's code and skips one |
| Literals.StringLiteral | src/compiler/node.c:94-176 | more than STRING_MAX content bytes overflow; otherwise `length` counts exactly the stored codes, the last is the terminating 0, and no more codes are stored than content bytes plus one |
| Literals.PrintCode | src/compiler/node.c:1489-1500 | one code prints as a backslash and a letter or as one character |
| Literals.PrintCodes | src/compiler/node.c:1488-1501 | the codes print in order, each in one or two characters |
| Literals.PrintString | src/compiler/node.c:1486-1502 | every code but the terminating 0 is printed |
| Literals.PrintCons | src/compiler/node.c:1488-1501 | printing is done code by code, front to back |
| Literals.PrintEscapeStep | src/compiler/node.c:1491-1495 | an escape pair in the source text is printed back as the same pair |
| Literals.PrintByteStep | src/compiler/node.c:1498-1500 | a plain byte whose code is not in the escape table is printed back as itself |
| Literals.PrintDecodeFrom | src/compiler/node.c:114-158 | from any index of the loop on, decoding and printing reproduce the rest of the content, given no raw byte whose code is in the escape table |
| Literals.PrintInvertsDecode | src/compiler/node.c:1486-1502 | printing a decoded string gives back the content between the quotes, escapes and all, given no raw byte whose code the printer writes as an escape |
| Literals.RawApostropheComesBackEscaped | src/compiler/node.c:1491-1495 | a raw apostrophe decodes to 39 and prints back as `\'`, so that condition is needed |
| Literals.CharAgreesWithString | src/compiler/node.c:189-201 | a one-letter or backslash-letter body decodes to the same first code as a character constant and as a string literal |
| TypeTree.TypeString | src/compiler/type.c:1834-1870 | the spelling of a basic type is never empty |
| TypeTree.TypeStringSame | src/compiler/type.c:1834-1870 | two types are spelled alike exactly when their basic types agree and, unless both are void, so does their signedness |
| TypeTree.GetArraySize | src/compiler/helpers/type-tree.c:120-140 | the size following the last array node that is followed by a number, 0 when there is none, and a NULL dereference exactly when the chain ends in an array node |
| TypeTree.DoesArrayContainPointer | src/compiler/helpers/type-tree.c:142-160 | 1 exactly when some element of the chain is a pointer node, 0 otherwise |
| TypeTree.CompareChainsMeansAgree | src/compiler/helpers/type-tree.c:181-236 | on chains without parameter names the comparison is defined and says 0 exactly when the chains agree element by element |
| TypeTree.CompareChainsIgnoresNames | src/compiler/helpers/type-tree.c:181-236 | when parameter names only follow other elements, as the parser places them, `CompareChains` is defined and says 0 exactly when the chains agree element by element once the parameter names are dropped |
| TypeTree.ParameterNamesIgnored | src/compiler/helpers/type-tree.c:186-192 | the chains of `int f(int a)` and `int f(int b)` compare equal: a parameter name is stepped over |
| TypeTree.CompareTypeTreesReflexiveSymmetric | src/compiler/helpers/type-tree.c:163-245 | for chains whose parameter names follow other elements, `CompareTypeTrees` is defined, says 0 exactly when the names match and the chains agree without their parameter names, and is reflexive and symmetric |
| TypeTree.CreateTypeTree | src/compiler/helpers/type-tree.c:435-500 | the kind comes from the first chain element (basic for a bare name), the basic type and signedness from the declared type, the chain is kept as prefix with the return node added at its bottom by `InsertAtBottom`, and the last element is a pointer exactly for a pointer return or function pointer |
| Symbols.IsSyscall | src/compiler/symbol.c:42-44 | a name is a system call exactly when "syscall" occurs in it at some index |
| Symbols.Initial | src/compiler/symbol.c:13-19 | every counter starts at 0, there is no table yet and the scope stack is empty |
| Symbols.CreateTable | src/compiler/symbol.c:50-86 | the new table is appended empty and without parent, the level counter of its kind goes up by one, it is pushed on the scope stack, and the symbol id and string table are untouched |
| Symbols.InsertChild | src/compiler/symbol.c:147-166 | the child is appended to the parent's children and no other table changes |
| Symbols.OpenTable | src/compiler/symbol.c:757-775 | the new table has the given kind, no symbols or labels, the parent as parent, and is the parent's last child |
| Symbols.Get | src/compiler/symbol.c:88-96 | a symbol of that name from the list, and NULL exactly when no symbol of the list has the name |
| Symbols.Put | src/compiler/symbol.c:109-145 | the new symbol takes the next id, the counter goes up by one, its argument number is -1 and its flags are clear, its tag is "<level>_<KIND>", it goes in front of the table's list, and no other table changes |
| Symbols.PutThenGet | src/compiler/symbol.c:88-145 | after a put the name finds the new symbol, every other name finds what it found before, and the new id is larger than every id already in the table |
| Symbols.Chain | src/compiler/symbol.c:168-185 | the parent chain starts at the table itself and only names tables that exist |
| Symbols.SearchFailsOnlyWhenAbsent | src/compiler/symbol.c:168-185 | the search answers NULL exactly when no table on the parent chain holds the name |
| Symbols.SearchFindsNearest | src/compiler/symbol.c:168-185 | an answer is the symbol of the nearest table on the parent chain holding the name, no nearer table holding it |
| Symbols.SearchStringLiteral | src/compiler/symbol.c:187-204 | the label of the first entry holding the text, "" when none does |
| Symbols.FindString | src/compiler/symbol.c:218-225 | the first entry from the start index that holds the text, and none exactly when no entry does |
| Symbols.InternString | src/compiler/symbol.c:214-255 | a text already interned gets its entry back and nothing changes; a new text is appended under `_StringLabel_<n>`, n being the number of literals before it |
| Symbols.InternThenSearch | src/compiler/symbol.c:187-255 | after interning, the string table answers with the literal's label, and interning the same text again changes nothing |
| Symbols.ProcedureOf | src/compiler/symbol.c:270-276 | the nearest table of procedure scope on the parent chain; running off the top without one reads through NULL |
| Symbols.FindLabel | src/compiler/symbol.c:283-300 | the first label entry with that name from the start index, none exactly when no entry has it |
| Symbols.RecordStatementLabel | src/compiler/symbol.c:257-341 | recording a label mention keeps the tables valid and their number unchanged |
| Symbols.WithLabels | src/compiler/symbol.c:283-332 | only the procedure's label list and the label counter change |
| Symbols.RecordStatementLabelEffect | src/compiler/symbol.c:283-332 | a goto marks an existing label used; a label statement marks it defined and counts one error when it already was; a first mention is appended with the next id, defined or used by its kind; nothing else in the table changes |
| Symbols.LabelThenGoto | src/compiler/tests/symbol/expected/statement-labels.c:19-20 | `label:` then `goto label` in a new procedure leave one entry with id 1, defined and used, and no error |
| Ir.NewInstr | src/compiler/ir.c:403-418 | a new instruction has the requested kind, the current scope, is marked used, has no offset variable and no operand written |
| Ir.SetOperand | src/compiler/ir.c:420-454 | a setter writes exactly one slot and leaves every other slot and field as it was |
| Ir.FindPosition | src/compiler/ir.c:2115-2116 | the first element from the start index that carries the position, and none exactly when no later element carries it |
| Ir.FindDistinct | src/compiler/ir.c:2115-2116 | with distinct positions, the search for an element's position finds that element |
| Ir.LastWithTemporary | src/compiler/ir.c:2062-2072 | the last of the first n elements whose operand 0 reads as the temporary, none when no such element exists |
| Ir.ByTemporary | src/compiler/ir.c:2056-2081 | the last instruction of the list whose operand 0 reads as the temporary, and NULL exactly when there is none |
| Ir.LastWithPosition | src/compiler/ir.c:2089-2099 | the last of the first n elements carrying the position, none when no such element exists |
| Ir.NextInstruction | src/compiler/ir.c:2083-2108 | an instruction whose position is two more than the given one, and NULL exactly when no instruction carries that position |
| Ir.EvenlySpacedOffsets | src/compiler/ir.c:346-360 | in a list numbered two apart, the element j places later has a position 2·j higher |
| Ir.NextIsSuccessor | src/compiler/ir.c:2093 | on a list numbered two apart, "position + 2" finds the successor, and nothing after the last element |
| Ir.Successor | src/compiler/ir.c:2121-2133 | the successor of a removed element that is not the head takes over the removed position and, unless it is a constInt, syscall or call, the predecessor's operand 0 as its operand 1; nothing else of it changes |
| Ir.RemoveAt | src/compiler/ir.c:2115-2139 | removing the head drops it; removing any other element but the last drops it and rewrites its successor; removing a last element that is not the head reads through NULL |
| Ir.RemoveAtViews | src/compiler/ir.c:2117-2133 | a removal erases exactly one kind and one scope tag, the successor keeping its own |
| Ir.RemoveAtPositions | src/compiler/ir.c:2128-2132 | removal keeps positions distinct, the successor carrying the removed position, and every position but the successor's old one survives |
| Ir.Remove | src/compiler/ir.c:2110-2147 | nothing happens when no element carries the position; otherwise the first element carrying it is unlinked, leaving one element fewer |
| Ir.RemoveFindsElement | src/compiler/ir.c:2110-2147 | with distinct positions, removing by an element's position unlinks that very element and keeps positions distinct |
| Ir.RemovePreservesDistinct | src/compiler/ir.c:2110-2147 | removal by position keeps positions distinct and shortens the list exactly when some element carries the position |
| Ir.SlotWithTemporary | src/compiler/ir.c:376-383 | the first slot of the following instruction holding the temporary, none exactly when no slot does |
| Ir.FindInsertionPoint | src/compiler/ir.c:371-372 | the first element other than the last carrying the position, none when no such element exists |
| Ir.Redirect | src/compiler/ir.c:374-386 | without an original instruction the follower is kept; with one, the write is out of bounds exactly when no slot of the follower holds the original temporary; otherwise its kind and position stay |
| Ir.Insert | src/compiler/ir.c:362-398 | an empty list fails; an insertion point that is not found changes nothing; otherwise the instruction is spliced in after it with the next position, the counter goes up by one, and the follower's slot is redirected, out of bounds when no slot holds the original |
| Ir.InsertKinds | src/compiler/ir.c:389-393 | an insertion adds exactly the new kind right after the insertion point |
| Ir.InsertRedirect | src/compiler/ir.c:376-386 | the redirect changes exactly the follower's first slot holding the original temporary, to the new temporary, and nothing else of it |
| Ir.InsertKeepsPositionsDistinct | src/compiler/ir.c:389 | an insertion numbered from a counter above every position keeps positions distinct and below the advanced counter |
| Ir.SpliceKeepsPositionsDistinct | src/compiler/ir.c:325 | splicing an element in with `Splice` at the counter's position keeps positions distinct and below the advanced counter |
| Ir.FunctionNameIdempotent | src/compiler/ir.c:82-94 | `FunctionName` keeps "main" and names containing "_Global_" and prefixes all others, so naming a function twice is naming it once and the result is "main" or contains "_Global_" |
| Ir.LabelName | src/compiler/ir.c:70-80 | a generated label is "_GeneratedLabel_" followed by digits |
| Ir.LabelNamesDistinct | src/compiler/ir.c:70-80 | labels generated from different counts differ, and none is the "_true" companion of any label |
| Ir.InitialState | src/compiler/ir.c:15-22 | generation starts with an empty list, an empty constant map, the counters at 1 and scope "main" |
| Ir.TemporariesCountUp | src/compiler/ir.c:445-448 | between resets each temporary handed out is larger than the one before and below the counter; a reset the driver enabled (`ResetRegister`, ir.c:58-62) makes the next temporary 1 again, and otherwise changes nothing; the generator's invariant is kept |
| Ir.NewLabelFresh | src/compiler/ir.c:70-80 | a label `NewLabel` hands out differs from every label handed out before it and from the next one |
| Ir.Append | src/compiler/ir.c:346-360 | the instruction goes to the end of the list with the second of the two numbers it takes, the position counter advances by two, and the list stays well formed |
| Ir.AppendToMainList | src/compiler/ir.c:329-344 | the instruction goes to the end of the global list with the current number, which advances by one |
| Ir.AppendKeepsSpacing | src/compiler/ir.c:325 | a list built by appends alone stays numbered two apart |
| Ir.ConstValue | src/compiler/ir.c:40-42 | a temporary has a constant exactly when the map holds an entry for it |
| Ir.SetConst | src/compiler/ir.c:44-49 | the temporary then reads back the value as a C int, every other temporary reads as before, and a full map aborts |
| Ir.OperandConstReadsBack | src/compiler/ir.c:40-49 | after a constant is stored, an operand denoting that temporary reads back the value as a C int through `OperandConst`, and every other operand reads what it read before |
| Ir.AddConst | src/compiler/ir.c:51-56 | recording a constInt makes its temporary read back the value and aborts exactly when the map is full |
| IrValues.WriteThenRead | src/compiler/ir.c:522-560 | a result written into a node is what `node_get_ir_operands` reads next exactly when the node's written slot is its read slot; otherwise the read still finds the old operand |
| IrValues.WriteKeepsShape | src/compiler/node.c:547-582 | writing a result changes an operand, never which slots the node reaches |
| IrValues.Make | src/compiler/ir.c:403-418 | the built instruction has the given kind and scope, is marked used and has no offset variable |
| IrValues.Emit | src/compiler/ir.c:346-360 | the instruction appended holds the operands given and nothing else, is numbered with the second of the two numbers taken, and is the only change besides the position counter |
| IrValues.EmitToMainList | src/compiler/ir.c:329-344 | the instruction appended to the global list alone holds the operands given, is numbered once, and is the only change besides the counter |
| IrValues.RecordConst | src/compiler/ir.c:51-56 | the constant's temporary reads back its value as a C int, other temporaries are unchanged, and a full map aborts |
| IrValues.Retarget | src/compiler/ir.c:478 | the write renumbers operand 0 of exactly one element; it is outside the model exactly when that operand is neither a temporary nor unwritten |
| IrValues.WalkStep | src/compiler/ir.c:471-486 | one turn of the backward walk renumbers the element before the first label met and the element before the first goto met, never moves forward, and leaves the elements below it untouched |
| IrValues.FinalRegisters | src/compiler/ir.c:456-493 | the walk back to the conditional goto only renumbers operands 0, keeping the list well formed |
| IrValues.FinalRegistersKeepPrefix | src/compiler/ir.c:456-493 | started on a label with a goto between it and a floor, the walk writes nothing below that floor, so a ternary renumbers only its own instructions |
| IrOps.TemporaryView | src/compiler/ir.c:2066 | reading `data.temporary` gives a temporary's number, a 32-bit value for a number or name, and nothing defined for a flag or an unset slot |
| IrOps.IndexRoundTrip | src/compiler/ir.h:52-120 | reading an opcode's enum value back gives the opcode, so distinct opcodes have distinct values, all at most 64 |
| IrOps.RoundTripFrom0 | src/compiler/ir.h:53-65 | the enum values 0 to 12 read back as their opcodes |
| IrOps.RoundTripFrom13 | src/compiler/ir.h:66-78 | the enum values 13 to 25 read back as their opcodes |
| IrOps.RoundTripFrom26 | src/compiler/ir.h:79-91 | the enum values 26 to 38 read back as their opcodes |
| IrOps.RoundTripFrom39 | src/compiler/ir.h:92-104 | the enum values 39 to 51 read back as their opcodes |
| IrOps.RoundTripFrom52 | src/compiler/ir.h:105-119 | the enum values 52 to 64 read back as their opcodes |
| IrOps.IndexRange | src/compiler/ir.h:52-120 | the enum values are exactly 0 to 64 |
| IrOps.InstructionTypeAccepts | src/compiler/ir.c:96-278 | only the bitwise and equality kinds accept an operand type that is not an integer; every other generic kind fails its assert on one |
| IrOps.MovedKindsFollowWidth | src/compiler/ir.c:115-278 | loads, stores, returns and results move exactly the type's width, int and long alike, and only a narrow signed load sign-extends |
| IrOps.SignSensitiveKinds | src/compiler/ir.c:104-278 | multiply, divide, add, subtract, remainder, right shift and the orderings take their unsigned variant exactly for an unsigned type |
| IrOps.SignIgnoringKinds | src/compiler/ir.c:104-278 | left shift, the bitwise operators, equality tests, stores, returns and results do not depend on signedness |
| IrOps.WidthOnlyKinds | src/compiler/ir.c:104-278 | a store, return or result kind depends on nothing but the type's width |
| IrOps.CastKindRules | src/compiler/ir.c:1149-1218 | the cast table is defined exactly on integer types; equal widths give no operation; any other cast converts from the source width to the target width; narrowing ignores signedness and widening zero-extends exactly for an unsigned target |
| IrExpr.Generic | src/compiler/ir.c:922-1017 | assignment, `||` and `&&` have no generic instruction (they get their own generators); every other binary operator has one |
| IrExpr.LoadKind | src/compiler/ir.c:562-583 | a pointer is always loaded as a word; otherwise the load kind exists exactly when the type has a load instruction |
| IrExpr.Rval | src/compiler/ir.c:562-583 | an lvalue is loaded into a fresh temporary that becomes the node's result and an rvalue is left untouched; it fails exactly when the lvalue's type has no load |
| IrExpr.ConvertIdentifier | src/compiler/ir.c:584-604 | only identifiers that are lvalues and comma expressions are converted; anything else appends nothing |
| IrExpr.ConvertList | src/compiler/ir.c:584-604 | converting a comma expression part by part only appends to the program and keeps the node's result in step |
| IrExpr.LowerNumber | src/compiler/ir.c:692-706 | a constant goes into a fresh temporary and is recorded in the constant map, wrapped to 32 bits; it fails exactly on an empty program list or a full constant map |
| IrExpr.LowerIdentifier | src/compiler/ir.c:707-731 | an identifier yields its address in a fresh temporary, and when it stands alone as a statement also the load of that address |
| IrExpr.LowerString | src/compiler/ir.c:732-745 | a string literal never fails and yields the address of the label its text was interned under |
| IrExpr.ScaleBy | src/compiler/ir.c:605-628 | pointer scaling adds the size constant and its product with the other operand, which becomes that operand's value; it fails exactly when the constant map is full |
| IrExpr.ScaleOperand | src/compiler/ir.c:605-628 | the scaling factor is the size of what the pointer points to; it fails exactly when that size is unknown, the program is empty or the constant map is full |
| IrExpr.LowerExpr | src/compiler/ir.c:1383-1424 | generating any expression only appends well-formed code, keeps the scope, and leaves the node's result readable |
| IrExpr.LowerBinary | src/compiler/ir.c:922-1018 | every binary operator, through its own generator, appends some code and keeps the state invariant |
| IrExpr.LowerList | src/compiler/ir.c:1460-1475 | a comma expression's parts are generated in order, appending to the program |
| IrExpr.LoadOperands | src/compiler/ir.c:746-769 | both operands are loaded left first; one load per lvalue operand, and the loads fail exactly when an lvalue operand's type has no load |
| IrExpr.ScalePointer | src/compiler/ir.c:629-661 | for `+` and `-` a pointer on the left scales the right operand, otherwise a pointer on the right scales the left; any other operation changes nothing |
| IrExpr.ArithInstr | src/compiler/ir.c:746-769 | the operation is the type's instruction for the operator, into a fresh temporary that becomes the result; it fails exactly when the type has none |
| IrExpr.ArithTail | src/compiler/ir.c:746-769 | the scaling, when a pointer is involved, precedes the operation; failure exactly when scaling fails or the type has no instruction |
| IrExpr.ArithEnds | src/compiler/ir.c:746-769 | whatever code came before, an arithmetic tail ends the program with the operation into the result |
| IrExpr.ArithRest | src/compiler/ir.c:746-769 | after the operands, the program ends with the operation into a temporary holding the result |
| IrExpr.LowerArith | src/compiler/ir.c:746-769 | an arithmetic operation's code ends with its instruction into the result temporary, preceded by the scaling of the non-pointer operand when a pointer is added or subtracted |
| IrExpr.StoreKind | src/compiler/ir.c:770-806 | a pointer is always stored as a word; otherwise the store kind exists exactly when the type has a store instruction |
| IrExpr.AssignTarget | src/compiler/ir.c:770-806 | only a variable or a dereference can be assigned to; the store goes through the variable's address or the loaded pointer |
| IrExpr.AssignStore | src/compiler/ir.c:770-806 | an assignment ends with a store of the (loaded) right side through the target, and the assignment itself yields no value; it fails when an rvalue right side has no operand |
| IrExpr.LowerAssign | src/compiler/ir.c:770-806 | assigning to anything but a variable or a dereference fails; otherwise the code ends with a store of the left side's kind whose value operand is set |
| IrExpr.CompoundTail | src/compiler/ir.c:807-837 | a compound assignment computes into a fresh temporary and stores it through the left side's original operand, which is the result; failure exactly when the type lacks the operation or the store |
| IrExpr.LowerCompound | src/compiler/ir.c:807-837 | a compound assignment's code ends with the operation and the store of its result through the location that is the expression's value |
| IrExpr.JumpOperand | src/compiler/ir.c:838-921 | each operand of `||`/`&&` is followed by the conditional jump on its value to the shared label |
| IrExpr.JumpOperands | src/compiler/ir.c:838-921 | both operands of `||`/`&&` each end in a jump to the same label |
| IrExpr.ShortCircuitJoin | src/compiler/ir.c:838-921 | the join is two constants, the labels and jumps between them, and a phi into the third fresh temporary, which is the result |
| IrExpr.JoinPhi | src/compiler/ir.c:495-506 | the fall-through constant is 0 for `&&` and 1 for `||` and the jumped one its opposite; with registers reset both constants write the phi's own temporary, otherwise the phi reads them |
| IrExpr.LowerShortCircuit | src/compiler/ir.c:838-921 | a short-circuit operation's code is the two jumping operands followed by the join, whose phi temporary holds the result |
| IrExpr.LowerUnaryExpr | src/compiler/ir.c:1103-1140 | increments and decrements go to their own generator: a pointer operand fails, otherwise the code ends with the constant 1, the add or subtract and the store, and the value is the old or the new one; `-`, `!` and `~` end with their negation into a fresh temporary; the other operators pass their operand's value on |
| IrExpr.NegationInstr | src/compiler/ir.c:1019-1047 | a negation computes into a fresh temporary, which becomes the node's own result |
| IrExpr.LowerUnary | src/compiler/ir.c:1103-1140 | `-`, `!` and `~` end with their negation instruction into the result temporary; `*`, `&` and `+` leave the result in the operand |
| IrExpr.ConstantOne | src/compiler/ir.c:1048-1102 | the constant 1 of `++`/`--` goes into a fresh temporary and the constant map; failure exactly when the map is full |
| IrExpr.IncDecTail | src/compiler/ir.c:1048-1102 | after the load come the constant 1, the addition or subtraction and the store through the operand's slot; a postfix form yields the old value, a prefix form the new |
| IrExpr.LowerIncDec | src/compiler/ir.c:1048-1102 | incrementing or decrementing a pointer always fails; otherwise the code ends with the constant, the sum and the store, and the result is the old or the new value by the operator's position |
| IrExpr.CastInstr | src/compiler/ir.c:1141-1229 | a cast between equal widths appends nothing and reads the operand; any other cast converts into a fresh temporary; failure exactly when the cast table has no entry |
| IrExpr.LowerCast | src/compiler/ir.c:1141-1229 | a cast's code ends with its conversion into the result temporary, or reads its operand when no conversion is needed |
| IrExpr.PassArgument | src/compiler/ir.c:1231-1260 | each argument is loaded and passed by a parameter instruction numbered with the current count, which goes up by one |
| IrExpr.LowerArgs | src/compiler/ir.c:1231-1260 | the arguments are generated and passed in order: at least two instructions per argument |
| IrExpr.CallInstrs | src/compiler/ir.c:1261-1297 | a call of a void function yields no value; otherwise its result is fetched into a fresh temporary; failure exactly when the return type has no result instruction |
| IrExpr.CallEnds | src/compiler/ir.c:1261-1297 | whatever precedes it, a call's code ends with the call and, for a non-void function, the fetch of its result |
| IrExpr.LowerCall | src/compiler/ir.c:1261-1297 | a call's code holds at least two instructions per argument and ends with the call and, for a non-void function, the fetch of its result, which is the call's value; the call is a system call exactly when the name mentions "syscall" (`CallKind`), and names a system call as written and any other function by its "_Global_" name, followed by the plain name (`CallOperands`) |
| IrExpr.LowerThen | src/compiler/ir.c:1771-1822 | the `then` part of a conditional expression generates code only for numbers, identifiers, strings, comma expressions and nested conditionals |
| IrExpr.OpenBranch | src/compiler/ir.c:1298-1382 | the condition is followed, in the scope of the fresh label `l` plus "_true", by the jump-if-false to `l` |
| IrExpr.CloseThen | src/compiler/ir.c:1298-1382 | after the `then` part come the jump to a fresh join label and the label `l`, which opens the scope `l` |
| IrExpr.JoinBranches | src/compiler/ir.c:1298-1382 | the conditional ends with the join label and a phi of the two parts' values into a fresh temporary, back in the outer scope |
| IrExpr.BranchLayout | src/compiler/ir.c:1298-1382 | the condition's jump, the `then` part's end, the `else` part and the join, placed one after another, make a conditional's code |
| IrExpr.BuildConditional | src/compiler/ir.c:1298-1382 | the conditional's code, before renumbering, has the jump-if-false, the jump and label ending `then`, and the join label and phi, with two fresh labels in order |
| IrExpr.RetargetedCode | src/compiler/ir.c:456-494 | the final-register walk renumbers only the conditional's own instructions and leaves earlier ones alone |
| IrExpr.BranchesKept | src/compiler/ir.c:456-494 | renumbering the parts' last results to the phi's temporary keeps the jumps, labels and phi where they were |
| IrExpr.ConditionalKept | src/compiler/ir.c:456-494 | after the final-register walk a conditional's code is still a conditional's code with the same result |
| IrExpr.RenumberFromJoin | src/compiler/ir.c:456-494 | the walk from the join label renumbers first slots to the phi's temporary and leaves everything before the conditional unchanged |
| IrExpr.FinishConditional | src/compiler/ir.c:1298-1382 | the renumbered conditional still appends only, keeps the scope, and is laid out as a conditional whose result is a temporary |
| IrExpr.LowerConditional | src/compiler/ir.c:1298-1382 | a conditional expression's code is laid out as condition, jump-if-false, `then`, jump, label, `else`, join label and phi, with two fresh labels, and its value is the phi's temporary |
| IrStmt.UserLabel | src/compiler/ir.c:1476-1490 | a user label is always qualified with the user-label prefix |
| IrStmt.UserLabelsDistinct | src/compiler/ir.c:1476-1515 | different label names in one procedure never collide, so a `goto` reaches only the label of its own name |
| IrStmt.LowerExprStmt | src/compiler/ir.c:1460-1475 | an expression statement appends some code and leaves its expression's value |
| IrStmt.ConvertStmt | src/compiler/ir.c:584-604 | only an expression statement is converted; any other statement appends nothing |
| IrStmt.LowerBreak | src/compiler/ir.c:1676-1704 | a `break` is one jump to the exit label of the nearest loop, and fails exactly when there is no loop or the loop has no exit label before its body |
| IrStmt.LowerContinue | src/compiler/ir.c:1705-1734 | a `continue` is one jump to the nearest loop's label, and fails exactly when there is no loop |
| IrStmt.LowerGoto | src/compiler/ir.c:1476-1490 | a `goto` is one jump to the user label qualified by its procedure, and fails exactly outside a function |
| IrStmt.ReturnValue | src/compiler/ir.c:1735-1770 | a returned value is followed by the return instruction of the function type's width |
| IrStmt.LowerReturn | src/compiler/ir.c:1735-1770 | a `return` outside a function fails; otherwise it ends with the jump to the function's exit label, preceded by the typed return when it has a value, and temporaries restart |
| IrStmt.LowerStmt | src/compiler/ir.c:1771-1822 | every statement appends code and keeps the scope and counters; each form gets its own generator's shape (`Dispatched`): if, loop and function layouts, a single goto for `break`, `continue` and `goto`, failing exactly when there is no loop, loop exit or procedure, `return` ending with the jump to the exit, a user label first for a labelled statement, and nothing for an empty statement |
| IrStmt.LowerOptional | src/compiler/ir.c:1771-1773 | a missing statement appends nothing |
| IrStmt.LowerBlock | src/compiler/ir.c:1823-1840 | a statement list appends its statements' code in order and fails whenever one of them is a `break` without a target |
| IrStmt.IfHead | src/compiler/ir.c:1298-1320 | the condition is followed by the jump-if-false to a fresh label `l`, in the scope "l_true" |
| IrStmt.IfThen | src/compiler/ir.c:1323-1333 | the `then` statement ends with the jump to a fresh join label |
| IrStmt.IfElse | src/compiler/ir.c:1336-1359 | with an `else` part the label `l` opens it in the scope `l`; without one the label `l` stands alone; the scope comes back afterwards |
| IrStmt.IfTagged | src/compiler/ir.c:1298-1382 | the jump-if-false, the jump to the join and the join label are tagged "l_true", and `l` is tagged `l` exactly when there is an `else` |
| IrStmt.LowerIf | src/compiler/ir.c:1298-1382 | an if statement's code is head, `then`, `else` and join label, tagged as `IfTags` says, with no phi |
| IrStmt.LoopLabel | src/compiler/ir.c:1521-1527 | a loop opens with a fresh label that becomes the scope |
| IrStmt.LoopTest | src/compiler/ir.c:1529-1538 | a loop condition is followed by the jump-if-false to a fresh exit label |
| IrStmt.LoopEnd | src/compiler/ir.c:1547-1555 | a loop ends with the jump back to its label and the exit label |
| IrStmt.LoopTagged | src/compiler/ir.c:1516-1675 | a loop's label and jump back are tagged with the loop label, and so are its exit jump and exit label |
| IrStmt.WhileLowered | src/compiler/ir.c:1516-1559 | the pieces of a `while` loop together make a lowered statement with the loop's tags |
| IrStmt.LowerWhile | src/compiler/ir.c:1516-1559 | a `while` loop is its label, condition, jump out, body, jump back and exit label, all in the scope of its label |
| IrStmt.DoLabel | src/compiler/ir.c:1565-1570 | a `do` loop's label is appended in the enclosing scope and then becomes the scope |
| IrStmt.DoWhileTest | src/compiler/ir.c:1577-1588 | a `do` loop's condition comes after the body and is followed by the jump-if-false to a fresh exit label |
| IrStmt.DoWhileLowered | src/compiler/ir.c:1560-1603 | the pieces of a `do` loop together make a lowered statement with the loop's tags |
| IrStmt.LowerDoWhile | src/compiler/ir.c:1560-1603 | a `do` loop is its label, body, condition, jump out, jump back and exit label; a `break` directly in its body always fails, because the exit label is made after the body |
| IrStmt.ForPart | src/compiler/ir.c:1612-1615 | a missing initialiser or step appends nothing |
| IrStmt.ForTest | src/compiler/ir.c:1624-1634 | a `for` condition ends with the jump-if-false to the exit label |
| IrStmt.ForCondition | src/compiler/ir.c:1622-1634 | a `for` loop without a condition has no exit jump and appends nothing there |
| IrStmt.ForStart | src/compiler/ir.c:1604-1623 | a `for` loop opens with the initialiser and the label of a fresh loop label, which is the scope, and reserves an exit label |
| IrStmt.ForRest | src/compiler/ir.c:1636-1656 | after the body and step comes the jump back, and the exit label only when there is a condition |
| IrStmt.ForLowered | src/compiler/ir.c:1604-1659 | the pieces of a `for` loop together make a lowered statement, with exit tags when it has a condition |
| IrStmt.LowerFor | src/compiler/ir.c:1604-1659 | a `for` loop is initialiser, label, condition and jump out, body, step, jump back and exit label; without a condition a `break` directly in its body fails |
| IrStmt.LowerLabeled | src/compiler/ir.c:1491-1515 | a labelled statement starts with its qualified label, tagged with itself; outside a function it fails |
| IrStmt.FunctionEnd | src/compiler/ir.c:1433-1459 | a function ends with its exit label and the procedure's end |
| IrStmt.LowerFunction | src/compiler/ir.c:1433-1459 | a function is the procedure start under its global name, the body, the fresh exit label every `return` jumps to, and the procedure end |
| IrStmt.GenerateProgram | src/compiler/ir.c:1841-1849 | the whole program's code is the final list, generated in the scope "main"; a top-level `break` makes it fail |
| Opt1.ConstantAfterAddConst | src/compiler/optimization-1.c:94-98 | after `ir_add_const_to_map` records a value, the pass-1 constant of an operand denoting that temporary is the value as a C int, and every other operand keeps its constant |
| Opt1.UpdateConstValue | src/compiler/optimization-1.c:19-23 | only a constInt can be updated; its operand and its map entry take the new value and no other map entry changes |
| Opt1.MarkObsolete | src/compiler/ir.c:2149-2153 | the instruction defining the temporary must exist and be a constInt; it is marked unused and nothing else changes |
| Opt1.ChangeKind | src/compiler/optimization-1.c:49-54 | only the kind of the one instruction changes |
| Opt1.FoldValue | src/compiler/optimization-1.c:115-120 | folding computes on C `int`s: wrapping sums, differences and products, truncating division and remainder that satisfy the division identity, and comparisons that yield 1 exactly when they hold; division by zero or an overflowing quotient is undefined |
| Opt1.FoldIgnoresSignedness | src/compiler/optimization-1.c:232-275 | unsigned kinds fold exactly like signed ones, so an unsigned `-1 < 0` folds to 1 |
| Opt1.Fold | src/compiler/optimization-1.c:113-121 | folding keeps the list's length and removes the instruction's multiplication from the count |
| Opt1.FoldResult | src/compiler/optimization-1.c:113-121 | a fold turns the instruction into a constInt holding the wrapped value and records it for its destination |
| Opt1.FoldRetiresOperands | src/compiler/optimization-1.c:115-116 | after a fold both operand constants are marked unused, so the second pass removes them |
| Opt1.BecomeConstant | src/compiler/optimization-1.c:117-120 | the instruction becomes a constant; fails exactly when its destination is not a temporary or the map is full |
| Opt1.BecomeConstantResult | src/compiler/optimization-1.c:117-120 | the instruction then holds the wrapped constant in its operand and in the map, and no other instruction changed |
| Opt1.MarkKeepsMults | src/compiler/ir.c:2149-2153 | marking a constant unused keeps every kind and the length |
| Opt1.UpdateKeepsMults | src/compiler/optimization-1.c:19-23 | rewriting a constant keeps every kind and the length |
| Opt1.Unlink | src/compiler/ir.c:2110-2148 | removing the visited instruction shortens the list by one and keeps the sweep at the same index; it fails on the last element of a list longer than one |
| Opt1.UnlinkCount | src/compiler/ir.c:2110-2148 | removing an instruction removes exactly its multiplication, if it is one, from the count |
| Opt1.FoldBoth | src/compiler/optimization-1.c:112-123 | with both operands constant, the instruction becomes a constInt holding the operator's C value, recorded for its destination, and stays in the list |
| Opt1.AddSub | src/compiler/optimization-1.c:88-161 | an addition or subtraction is unlinked exactly when one operand alone is the constant 0, on either side (so `0 - x` too); with two constants it becomes the constant the C operator gives; otherwise nothing changes |
| Opt1.ShiftByConstant | src/compiler/optimization-1.c:162-231 | the power-of-two rewrite changes the kind of the instruction to the shift and removes one multiplication |
| Opt1.ShiftByConstantKinds | src/compiler/optimization-1.c:162-231 | the power-of-two rewrite changes the kind at that index and no other |
| Opt1.RewriteDefiner | src/compiler/optimization-1.c:62-65 | rewriting the constant behind an operand changes no instruction's kind |
| Opt1.RemainingShrinks | src/compiler/optimization-1.c:72-74 | each pass of the decomposition loop strictly shrinks what remains, so the loop ends |
| Opt1.ShiftTerms | src/compiler/optimization-1.c:72-85 | the loop emits no term exactly when nothing remains; the first term has the caller's sign and every later one is added; each term's power is between 1 and 1024 |
| Opt1.MultiplierFifty | src/compiler/optimization-1.c:67-71 | for 50 the loop's terms are 64 - 16 + 2, as the comment works it out |
| Opt1.MultiplierThirteen | src/compiler/optimization-1.c:72-85 | for 13 the loop's terms are 16 - 2 + 1, which multiply by 15 |
| Opt1.MultiplierMinusFive | src/compiler/optimization-1.c:56-85 | for -5 the loop's terms multiply by -1 |
| Opt1.SignedTerms | src/compiler/optimization-1.c:67-71 | the corrected decomposition: no term exactly when nothing is owed, the first term's sign is the sign of what is owed |
| Opt1.SignedTermsValue | src/compiler/optimization-1.c:67-71 | the corrected terms add up to exactly what was owed |
| Opt1.ExactDecomposition | src/compiler/optimization-1.c:56-85 | with the corrected terms the shifts multiply by exactly the constant, and the first term is the one the loop emits |
| Opt1.InsertAddsKind | src/compiler/ir.c:362-402 | an insertion adds exactly one instruction of the new kind |
| Opt1.InsertedIsFindable | src/compiler/ir.c:362-402 | an instruction just inserted is where the next insertion after its position goes |
| Opt1.InsertAt | src/compiler/ir.c:362-402 | inserting after an index adds one instruction of the new kind, takes the next position and keeps the multiplication count |
| Opt1.Emit | src/compiler/optimization-1.c:25-48 | an emitted instruction writes a fresh temporary and adds one instruction of its kind after the given index |
| Opt1.EmitShift | src/compiler/optimization-1.c:25-48 | a shift term adds a constInt, a left shift and an addition or subtraction after the old instruction, and fails when that instruction is gone |
| Opt1.EmitShiftedSource | src/compiler/optimization-1.c:25-40 | the first two instructions of a shift term are the constInt and the left shift by it |
| Opt1.ShiftChain | src/compiler/optimization-1.c:72-85 | the loop adds three instructions per term and no multiplication |
| Opt1.ShiftToPower | src/compiler/optimization-1.c:61-65 | the multiplication becomes a left shift and nothing else changes kind |
| Opt1.ConvertMultToShift | src/compiler/optimization-1.c:56-86 | a multiplication by a non-power of two becomes a shift followed by the loop's terms for the distance to the nearest power; the count of multiplications drops by one |
| Opt1.MultByConstant | src/compiler/optimization-1.c:162-231 | one constant operand: a power of two becomes one shift; any other value is decomposed; either way the multiplication disappears |
| Opt1.Mult | src/compiler/optimization-1.c:162-231 | two constants fold, one constant lowers to shifts, none leaves the multiplication as it is; it is never unlinked |
| Opt1.DivByConstant | src/compiler/optimization-1.c:276-318 | a lone constant 1 unlinks the division; an unsigned division by another power of two becomes an unsigned right shift; any other lone constant changes nothing |
| Opt1.Div | src/compiler/optimization-1.c:276-336 | a division is unlinked exactly when one operand alone is the constant 1; a lone unsigned power of two on either side makes it a right shift; two constants fold; otherwise nothing changes |
| Opt1.Rem | src/compiler/optimization-1.c:337-376 | a lone constant 1 on either side makes the remainder the constant 0; two constants fold; otherwise nothing changes, and it is never unlinked |
| Opt1.Compare | src/compiler/optimization-1.c:232-275 | a comparison folds exactly when both operands are constants, and is otherwise left alone and never unlinked |
| Opt1.Walk | src/compiler/optimization-1.c:393-426 | the backward walk stops at the nearest address-of writing the temporary, or finds none; the offset stays usable exactly when nothing in between mentions the temporary |
| Opt1.UseOffset | src/compiler/optimization-1.c:377-441 | the first instruction, or an address that is not a temporary, fails; otherwise only flags and offsets change |
| Opt1.LinkOffset | src/compiler/optimization-1.c:428-441 | the address-of is marked unused and becomes the offset of the load or store when usable; otherwise it stays used and there is no offset |
| Opt1.OffsetRule | src/compiler/optimization-1.c:377-441 | a load or store takes its nearest address-of as offset exactly when nothing in between mentions the address temporary, and no other instruction changes |
| Opt1.WalkFinds | src/compiler/optimization-1.c:393-426 | with an address-of before it, the walk stops at the nearest one |
| Opt1.OffsetWithoutAddressOf | src/compiler/optimization-1.c:377-441 | without an address-of before it the access always fails: an assertion when nothing mentioned the temporary, a null write otherwise |
| Opt1.Access | src/compiler/optimization-1.c:442-495 | a load links through its operand 1, a store through its operand 0 |
| Opt1.Perform | src/compiler/optimization-1.c:442-495 | each kind gets its own optimisation and other kinds are left alone; every visit keeps the state valid and never adds a multiplication |
| Opt1.SweepVisitsEachOnce | src/compiler/optimization-1.c:496-518 | every element of the final list from the start index was visited and kept exactly once |
| Opt1.Sweep | src/compiler/optimization-1.c:496-518 | the sweep is a sequence of visits, each at the index the previous one left, ending exactly at the end of the list; the multiplication count never grows; a list with nothing to visit is unchanged |
| Opt1.Optimize | src/compiler/optimization-1.c:496-518 | the first pass sweeps the whole list once from its start, never adds a multiplication, and leaves a list with nothing to visit unchanged |
| Opt2.Survivors | src/compiler/optimization-2.c:34-39 | the filter drops something exactly when an element of the scope is there, and never adds anything |
| Opt2.SurvivorsExclude | src/compiler/optimization-2.c:34-39 | no element of the filtered scope survives the filter |
| Opt2.RemoveScope | src/compiler/optimization-2.c:34-39 | the sweep over a scope keeps the list well formed with distinct positions and never makes it longer |
| Opt2.RemoveScopeKeepsPrefix | src/compiler/optimization-2.c:34-39 | the sweep from an index leaves the elements before it as they were |
| Opt2.RemoveScopeUntouched | src/compiler/optimization-2.c:34-39 | with no element of the scope ahead, the sweep changes nothing |
| Opt2.RemoveScopeKinds | src/compiler/optimization-2.c:34-39 | the sweep keeps, in order, the kinds and scopes of the elements of other scopes and drops those of the swept scope |
| Opt2.RemoveScopeFlag | src/compiler/optimization-2.c:33-38 | the deletion flag is raised exactly when an element of the scope was there |
| Opt2.RemoveScopeFails | src/compiler/optimization-2.c:34-39 | the sweep fails only when the last element of a longer list belongs to the scope, whose removal reads a missing successor |
| Opt2.RemoveScopeFilters | src/compiler/optimization-2.c:34-39 | after the sweep no element of the scope is left, the list shrank exactly when one was there, and the elements before the start are untouched |
| Opt2.TrackedFollows | src/compiler/optimization-2.c:34-40 | the element the sweep started from survives exactly when it was before the start or of another scope, and then its new index and inherited position are known |
| Opt2.TrackedUntouched | src/compiler/optimization-2.c:34-40 | with nothing of the scope ahead, the tracked element keeps its index and position |
| Opt2.DeadLabelUncalled | src/compiler/optimization-2.c:17-68 | an unknown condition changes nothing; otherwise the list stays well formed and shrinks, and the flag is raised only when something was deleted |
| Opt2.DeadLabelUncalledRemovesBlock | src/compiler/optimization-2.c:24-62 | after a conditional jump on a known constant nothing of the dead block is left, and the flag says exactly whether the block had anything; the dead block (`DeadScope`) is the target's own block after a jump-if-false on 1, and the target's "_true" block after any other known condition |
| Opt2.DeadLabelUncalledCount | src/compiler/optimization-2.c:24-62 | besides the dead block at most one more element goes, and exactly one when the jump itself is outside the block |
| Opt2.GotoRemovedByInheritedPosition | src/compiler/optimization-2.c:34-40 | when the dead block precedes the jump, the jump inherits the block's position and is removed by it, taking the label's name as its operand |
| Opt2.HandOffSweep | src/compiler/optimization-2.c:34-39 | on the example the sweep removes block `S` and the conditional jump now carries position 2 |
| Opt2.HandOffRemoval | src/compiler/optimization-2.c:40 | removing position 2 afterwards unlinks the conditional jump, and the last jump inherits its position |
| Opt2.DeadLabel | src/compiler/optimization-2.c:70-103 | a label some jump names changes nothing; a label nobody names takes its whole scope with it |
| Opt2.DeadGoto | src/compiler/optimization-2.c:105-122 | a goto whose next instruction is the label it jumps to is removed with that label; it aborts exactly when the goto has no next instruction |
| Opt2.DeadGotoRemovesBoth | src/compiler/optimization-2.c:105-122 | when it applies, exactly the goto and the label after it are removed |
| Opt2.UnusedConst | src/compiler/optimization-2.c:124-130 | a used constant stays; an unused one is removed and raises the flag |
| Opt2.Perform | src/compiler/optimization-2.c:132-153 | each kind gets its removal, other kinds are left alone; the flag is raised only when something was removed, and for a constant exactly when it was unused |
| Opt2.RoundFrom | src/compiler/optimization-2.c:155-173 | a round never grows the list; a round that raises no flag keeps the elements it walked past |
| Opt2.RoundStopsAtFirstFlag | src/compiler/optimization-2.c:155-173 | a round returns exactly what its first flag-raising action returns |
| Opt2.QuietStep | src/compiler/optimization-2.c:155-173 | a quiet action either leaves the list alone, so the round moves on, or removes its own element, so the round stays at the same index |
| Opt2.QuietRoundKeepsUsedConsts | src/compiler/optimization-2.c:155-173 | a round that raises no flag leaves no unused constant behind |
| Opt2.Optimize | src/compiler/optimization-2.c:175-182 | the second pass keeps the list well formed and never makes it longer |
| Opt2.OptimizeLeavesNoUnusedConst | src/compiler/optimization-2.c:175-182 | when the second pass ends, no constant marked unused is left |
| MipsAsm.RegisterName | src/compiler/mips.c:19-22 | slot `i` of the register list is an s-register exactly for the first eight slots, a t-register after |
| MipsAsm.RegisterLayout | src/compiler/mips.c:19-22 | the register list has an unused first slot and then s0..s7 and t0..t9 in order |
| MipsAsm.RegisterNamesDistinct | src/compiler/mips.c:19-22 | two slots never hold the same register name |
| MipsAsm.RegistersDistinct | src/compiler/mips.c:19-22 | no register occurs twice in the list, so distinct slots are distinct registers |
| MipsFrame.RoundUp8 | src/compiler/mips.c:77-79 | the double-word rounding gives the least multiple of 8 not below the size |
| MipsFrame.RoundVariableAddress | src/compiler/mips.c:81-94 | as written, an int goes to a multiple of 4 strictly below the offset and within 4 of it, a short to a multiple of 2 within 2, anything else one byte lower |
| MipsFrame.ShortThenIntOverlap | src/compiler/mips.c:81-94 | as written, a short placed from 104 goes to 102 and an int placed after it to 100, so their bytes overlap |
| MipsFrame.PlaceVariable | src/compiler/mips.c:81-98 | the corrected placement puts a variable at a multiple of its size with all its bytes below the current offset |
| MipsFrame.PlacementAgreesWhenAligned | src/compiler/mips.c:81-94 | when the offset is already a multiple of the size, the written and the corrected placement agree |
| MipsFrame.PlacementsDisjoint | src/compiler/mips.c:81-98 | with the corrected placement every variable is aligned to its size, lies below the frame top, and lies wholly below the one placed before it |
| MipsFrame.LargestBlock | src/compiler/mips.c:546-572 | the largest child block is at least every child's size and is the size of one of them; with no children it is the smallest `long` |
| MipsFrame.MaxBlockSize | src/compiler/mips.c:546-572 | the frame's variable area is a multiple of 8 that holds the procedure's own variables plus its largest child block, and is less than 8 above the largest such sum |
| MipsFrame.LayoutFrame | src/compiler/mips.c:895-936 | the frame is the register save area plus the rounded variable area, a multiple of 8; a padding word is added exactly when rounding grew the variable area; the old frame pointer sits above the a- and s-register slots |
| MipsFrame.FibFrame | src/compiler/tests/mips/expected/fib.c:5-6 | a procedure with one short has a 104-byte frame with a padding word and saves the old frame pointer at 52 |
| MipsFrame.Prologue | src/compiler/mips.c:929-959 | the prologue reserves the frame, saves the old frame pointer, points $fp at the frame, and saves a0..a3, s0..s7 and $ra upwards from the padding word |
| MipsFrame.Epilogue | src/compiler/mips.c:973-1003 | the epilogue reloads $ra and s7..s0 from exactly the slots the prologue saved them in, reloads $fp, pops the frame and returns |
| MipsFrame.SpillCount | src/compiler/mips.c:187-241 | with optimisation only the t-registers handed out so far are spilled, never more than ten |
| MipsFrame.SaveT | src/compiler/mips.c:187-213 | the spilled t-registers are stored upwards in consecutive words |
| MipsFrame.RestoreT | src/compiler/mips.c:214-241 | the t-registers are reloaded downwards, the last spilled first |
| MipsFrame.CallSequence | src/compiler/mips.c:1004-1019 | around the `jal`, each spilled t-register is reloaded from its own slot and the low offset ends where it started |
| MipsRegisters.StartProcedure | src/compiler/mips.c:69-71 | each procedure starts with an empty temporary-to-register map |
| MipsRegisters.NextRegister | src/compiler/mips.c:100-115 | once all 18 registers are handed out every request aborts; otherwise a mapped temporary keeps its register, a new one gets the next register of the list, and no other mapping changes |
| MipsRegisters.DistinctTempsDistinctRegisters | src/compiler/mips.c:100-115 | two different temporaries never share a register within a procedure |
| MipsRegisters.NextRegisterIsUnused | src/compiler/mips.c:100-115 | the register a new temporary gets is held by no other temporary |
| MipsRegisters.NextArgumentRegister | src/compiler/mips.c:117-130 | argument registers are "a" and the counter, which goes up by one; the check lets a fifth argument through as `$a4` and aborts after it |
| MipsRegisters.AddressOfVariable | src/compiler/mips.c:136-171 | a variable seen before keeps its offset; a new local goes where `mips_calculate_offset` moves the high offset with the as-written rounding; a new argument lives at four times its number past the padding word; no other variable's offset changes; the map aborts when full |
| MipsRegisters.PlacedAddressOfVariable | src/compiler/mips.c:136-171 | the corrected address map: as the code, except that a new local goes to the aligned slot wholly below the high offset |
| MipsRegisters.AddressesOverlapAsWritten | src/compiler/mips.c:81-98 | in the code generator, a `short` then an `int` local of a 104-byte frame get 102($fp) and 100($fp), and their bytes overlap |
| MipsRegisters.PlacedAddressesDisjoint | src/compiler/mips.c:136-171 | with the corrected placement the same two locals get 102($fp) and 96($fp), which share no byte |
| MipsRegisters.ArgumentsLiveInTheirSaveSlots | src/compiler/mips.c:154-159 | the first four arguments are found exactly where the prologue saved a0..a3 |
| MipsBranch.UnfusedBranchAsWritten | src/compiler/mips.c:1143-1157 | the plain branch tests the condition's register and jumps to the goto's label |
| MipsBranch.UnfusedIfFalseAgrees | src/compiler/mips.c:1144-1149 | `beqz` jumps exactly when the condition is zero, as goto-if-false means |
| MipsBranch.NegativeConditionFallsThrough | src/compiler/mips.c:1150-1155 | `bgtz` does not jump on a negative condition although goto-if-true should |
| MipsBranch.UnfusedBranch | src/compiler/mips.c:1143-1157 | the corrected plain branch keeps goto-if-false as written |
| MipsBranch.UnfusedBranchAgrees | src/compiler/mips.c:1143-1157 | the corrected plain branch jumps exactly when the IR goto does |
| MipsBranch.FusedBranchAsWritten | src/compiler/mips.c:242-329 | as written, fusion picks the opcode from the comparison alone; a zero constant on one side selects the compare-with-zero form on the other register; any kind outside the comparison block is undefined |
| MipsBranch.FusionRightForLessThan | src/compiler/mips.c:264-326 | for a signed less-than with goto-if-false and no zero constant the fused branch is right |
| MipsBranch.FusionIgnoresBranchSense | src/compiler/mips.c:320-326 | goto-if-false after an equality of two equal words: the IR falls through but the fused `beq` jumps |
| MipsBranch.FusionZeroFormNotNegated | src/compiler/mips.c:306-316 | goto-if-false after `a < 0` with `a == -1`: the IR falls through but the fused `bltz` jumps |
| MipsBranch.FusedBranch | src/compiler/mips.c:242-329 | the corrected fusion fails exactly on a kind that is no comparison and always ends with the goto's label |
| MipsBranch.FusedBranchAgrees | src/compiler/mips.c:242-329 | the corrected fused branch jumps exactly when the IR goto would, for every comparison, both gotos and all operand values |
| MipsBranch.SilencedComparisonIsFused | src/compiler/mips.c:1091-1101 | at optimisation level 2 a comparison prints nothing exactly when a conditional goto follows; that goto fuses it for the ten comparisons, while a silenced `and`/`xor`/`or` leaves the fusion outside its tables |
| MipsSelect.HandlerOf | src/compiler/mips.c:1160-1271 | arithmetic kinds, comparison kinds and unary kinds each go to their printer by contiguous blocks of the kind numbering |
| MipsSelect.OtherHandlers | src/compiler/mips.c:1160-1271 | casts are the block 39..47, the two conditional gotos go to the branch printer, and only phi and no-operation print nothing |
| MipsSelect.RegisterForm | src/compiler/mips.c:496-545 | every arithmetic or comparison kind prints its own mnemonic in register form |
| MipsSelect.UnaryForm | src/compiler/mips.c:785-814 | logical negation is `sleu` against $0, minus is `neg`, bitwise negation is `not` |
| MipsSelect.ImmediateValue | src/compiler/mips.c:334-339 | exactly the five immediate mnemonics have a value |
| MipsSelect.ImmediateFormAsWritten | src/compiler/mips.c:331-389 | as written, two constants are undefined, one constant gives the immediate form with the other operand's register, no constant keeps the register form |
| MipsSelect.ImmediateFormAsWrittenAgrees | src/compiler/mips.c:363-382 | with the constant on the right, or on either side of a commutative kind, the immediate form computes what the IR instruction does |
| MipsSelect.SltiSwapsOperands | src/compiler/mips.c:363-372 | `1 < x` becomes `slti` computing `x < 1`, which gives 0 for `x == 2` where the IR gives 1 |
| MipsSelect.ImmediateForm | src/compiler/mips.c:331-389 | the corrected selection keeps the register form for a constant on the left of a less-than and for two constants, and otherwise prints what the code prints |
| MipsSelect.ImmediateFormAgrees | src/compiler/mips.c:331-389 | whenever the corrected selection picks an immediate form, it computes what the IR instruction does |
| MipsSelect.SyscallCode | src/compiler/mips.c:173-186 | a system call's code is that of a service named in the function name; a name mentioning none aborts |
| MipsSelect.StaticWordType | src/compiler/mips.c:461-483 | a global of a basic type is declared with the directive whose items are exactly as wide as the type: chars bytes, shorts half words, ints and longs words; any other type aborts |
| MipsSelect.ParameterMeetsArgument | src/compiler/mips.c:1035-1061 | the k-th parameter of a call, for k below 4, is written into `$a<k>` (loaded through the value's register after a store, moved otherwise, by `ParameterForm`), a register no earlier parameter wrote, and the callee finds its k-th argument at the slot its prologue saves `$a<k>` in |
| MipsCast.CastCodeAsWritten | src/compiler/mips.c:721-782 | as written, a narrowing cast is a plain move and a widening cast one or two instructions |
| MipsCast.CastCodeAsWrittenSignedToWord | src/compiler/mips.c:746-778 | the two signed casts to a word are right as written |
| MipsCast.HalfWordMaskDropsHighByte | src/compiler/mips.c:731-737 | as written, the unsigned half word 0x1234 widens to 0x34 |
| MipsCast.ByteMaskKeepsNinthBit | src/compiler/mips.c:738-745 | as written, an unsigned byte held as 511 widens to 511 rather than 255 |
| MipsCast.SignedByteShiftedByEight | src/compiler/mips.c:757-767 | as written, the signed byte held as 255 widens to the half word 255 rather than -1 |
| MipsCast.CastCode | src/compiler/mips.c:706-784 | the corrected casts keep narrowing casts as moves and write only the destination |
| MipsCast.CastCodeAgrees | src/compiler/mips.c:706-784 | every corrected widening cast leaves the destination holding the widened value of the source |
| MipsCast.ShiftPairSignExtends | src/compiler/mips.c:746-778 | shifting left by 32 - n and arithmetically back sign-extends the low n bits |
| WordCount.LessTotal | src/word-count/wordcount-list.c:34-40 | `strcmp` order is total: two different words are ordered one way or the other |
| WordCount.LessTransitive | src/word-count/wordcount-list.c:34-40 | `strcmp` order is transitive, so the list can be kept sorted by it |
| WordCount.Setup | src/word-count/wordcount-list.c:11-17 | a fresh summary is only the head, with no words and no newline counted |
| WordCount.Insert | src/word-count/wordcount-list.c:42-93 | inserting a word never touches the newline count kept in the head |
| WordCount.InsertCounts | src/word-count/wordcount-list.c:42-93 | inserting counts the word once more and changes no other word's count |
| WordCount.InsertWords | src/word-count/wordcount-list.c:42-93 | the words of the list after an insert are those before plus the new one |
| WordCount.InsertKeepsSorted | src/word-count/wordcount-list.c:56-92 | inserting keeps the list sorted by `strcmp` with positive counts, and adds a node exactly when the word is new |
| WordCount.InsertAddsOne | src/word-count/wordcount-list.c:95-114 | every insert adds one to the total word count |
| WordCount.Readable | src/word-count/wordcount-algorithm.c:40-50 | the read loop sees the file up to the first byte that reads back as `EOF` |
| WordCount.CString | src/word-count/wordcount-algorithm.c:6-14 | the copied word is the buffer up to its first NUL |
| WordCount.PiecesJoin | src/word-count/wordcount-algorithm.c:56-73 | the pieces between separators, joined again with the separators, give back the text |
| WordCount.Words | src/word-count/wordcount-algorithm.c:56-82 | only non-empty pieces are counted as words |
| WordCount.FeedInsertsWords | src/word-count/wordcount-algorithm.c:50-82 | the read loop inserts the words of the text in order and counts its newlines |
| WordCount.LastDot | src/word-count/wordcount-algorithm.c:25 | the extension starts at the last '.' of the name |
| WordCount.TextExtensionMeansSuffix | src/word-count/wordcount-algorithm.c:25-30 | a name passes the extension test exactly when it ends in ".txt" |
| WordCount.RunWordCount | src/word-count/wordcount-algorithm.c:16-93 | a run ends the program exactly when the name lacks the ".txt" extension or the file cannot be opened |
| WordCount.CountIsCorrect | src/word-count/wordcount-algorithm.c:38-88 | a run reports one more line than newlines read, a total equal to the number of words, and for every word the number of times it occurs, in `strcmp` order |
| WordCount.ReportIsCorrect | src/word-count/wordcount-algorithm.c:16-93 | a run on a ".txt" file reports one more line than newlines read (`LineCount`, with the head counting newlines by `InsertNewline`), the number of words, and, by `Listing`, one "word: count" line per distinct word of the text, in `strcmp` order, with the number of times it occurs |

## Left out

- Text output: every `fprintf` of the code generator, `ir_print_*`, `printList`'s layout, and the assembler's spacing. Emitted code is a list of abstract `Asm` records, and listings are sequences of strings.
- The driver `compiler.c` and `wordcount-main.c`, with their command-line parsing, stage selection, and file opening and closing. Optimisation levels and file contents become parameters.
- The scanner, the parser, and the passes that build the tree and attach symbols and casts. The model starts from a typed tree (`Ast`); the rules those passes apply are in `Types`, `Conversions` and `Symbols`.
- Memory management: `malloc` is taken to succeed, and the `x = NULL; free(x)` clean-ups do nothing.
- Load and store offset forms of the code generator (src/compiler/mips.c:391-456) are not part of this model. Only the IR side of offset linking is modelled, in `Opt1.UseOffset`.
- The order in which C evaluates call arguments is not modelled: arguments are lowered left to right.
- The SPIM range of 16-bit immediates: the generator prints the constant it has, and so does the model.
- `ConstEval.BinaryValue`: does not model the 64-bit overflow of `evaluate_expression`, because the values are unbounded integers. Division by zero is `Undefined`.
- `Opt2.DeadLabelUncalled`: the `label_scope` buffers are sized from the wrong union member. They are taken to be large enough for the label name.
- `IrStmt.UserLabel`: the `_UserLabel_` name buffer of 40 characters is taken to be large enough. The overflow on a long label is not modelled.
- `Literals.EscapeValue`: the escape tables have 10 entries but are read up to index 10. The eleventh entry is taken to match no character.
- `WordCount.Readable`: bytes of the word buffer that were never written are taken to be zero, and the `int` counts are unbounded.
- `MipsSelect.ImmediateFormAsWritten`: with two constant operands, the C code reads the temporaries' union as numbers (src/compiler/mips.c:354-361). That case is `Undefined` here.
- `IrExpr.LowerExpr`: states only the invariants every lowering keeps. The shape of each form's code is stated by the member for that form (`LowerArith`, `LowerAssign`, `LowerShortCircuit`, ...).
- `IrExpr.LowerBinary`: states only the invariants every lowering keeps. The code of each binary operator is stated by the generator it dispatches to: `LowerAssign`, `LowerShortCircuit`, `LowerCompound` or `LowerArith`.
- `IrExpr.LowerList`: states only the invariants every lowering keeps and that some code is appended. It does not state that the parts' code appears in order; the code of each part is stated by the member for its form.
- `Opt1.FoldValue`: signed overflow of a folded `+`, `-` or `*` (src/compiler/optimization-1.c:119,157) is undefined behaviour in C. The model wraps it to 32 bits, as the targeted machine does.
- `MipsFrame.LayoutFrame`: the (variable, size) buffers of `mips_print_function` are not modelled. The name buffer is allocated with `sizeof(char)` per entry instead of `sizeof(char *)` (src/compiler/mips.c:901-902), so it is too small for 30 pointers. The grow guard `variables_count > initial_size` lets the index reach `initial_size` before growing, one past the end, and the grown buffers are fresh allocations that drop the earlier entries. The model takes the buffers to be large enough, and nothing reads them afterwards.
- `Util.IsPowerOfTwo`: for `INT_MIN`, `constant - 1` overflows, which is undefined behaviour in C (src/compiler/helpers/util-functions.c:248). The model wraps it to 32 bits, and so `INT_MIN` counts as a power of two.
- `Opt1.Perform`: for loads and stores it states only that the visit is the `Access` the sweep would make. What `UseOffset` links is stated in `Opt1.OffsetRule` and `Opt1.WalkFinds`.

## Findings

| source | as written | input that shows it | evidently intended | confidence | as-written member | corrected member |
|---|---|---|---|---|---|---|
| src/compiler/optimization-1.c:72-85 | after the first term, every later term of the shift decomposition is added, whatever the sign of the remaining distance | `x * 13`: nearest power 16, terms 16 - 2 + 1, so `x * 15` (and `x * -5` gives `x * -1`) | each term carries the sign of the distance still left, so the shifts add up to the constant | not executed | Opt1.MultiplierThirteen | Opt1.ExactDecomposition |
| src/compiler/mips.c:81-98 | when `fp_offset_high` is not a multiple of the size, the new variable goes to the multiple just below it, without leaving room for its own bytes | from the top of a 104-byte frame a `short` goes to 102, then an `int` goes to 100 and covers bytes 102..103 of the `short` | each new variable lies wholly below every earlier one | not executed | MipsRegisters.AddressesOverlapAsWritten | MipsRegisters.PlacedAddressesDisjoint |
| src/compiler/mips.c:264-326 | the fused branch opcode depends only on the comparison, not on whether the goto is if-true or if-false | `if (a == b)` with both 5: goto-if-false should fall through, but `beq` jumps past the body | negate the relation for goto-if-false | not executed | MipsBranch.FusionIgnoresBranchSense | MipsBranch.FusedBranchAgrees |
| src/compiler/mips.c:306-316 | the compare-with-zero forms are not negated either | `if (a < 0)` with `a == -1`: `bltz` jumps past the body | negate the relation for goto-if-false | not executed | MipsBranch.FusionZeroFormNotNegated | MipsBranch.FusedBranchAgrees |
| src/compiler/mips.c:1150-1155 | goto-if-true is printed as `bgtz` | a condition of -1 is true in C, but `bgtz` does not jump | `bnez` | not executed | MipsBranch.NegativeConditionFallsThrough | MipsBranch.UnfusedBranchAgrees |
| src/compiler/mips.c:363-372 | `slti` is used for a constant on either side of `<`, with the register first | `1 < x` with `x == 2` becomes `slti` computing `2 < 1`, which gives 0 instead of 1 | use the mirrored relation when the constant is on the left | not executed | MipsSelect.SltiSwapsOperands | MipsSelect.ImmediateFormAgrees |
| src/compiler/mips.c:731-737 | an unsigned half-word is widened to a word with the byte mask `0xff` | 0x1234 becomes 0x34 | mask with `0xffff` | not executed | MipsCast.HalfWordMaskDropsHighByte | MipsCast.CastCodeAgrees |
| src/compiler/mips.c:738-745 | an unsigned byte is widened with the half-word mask `0xffff` | a byte held as 511 stays 511 instead of 255 | mask with `0xff` | not executed | MipsCast.ByteMaskKeepsNinthBit | MipsCast.CastCodeAgrees |
| src/compiler/mips.c:757-767 | a signed byte is widened to a half-word by shifting left and back by 8 bits, which extends bit 23 | the byte 0xff held as 255 stays 255 instead of -1 | shift by 24 bits, as the byte-to-word cast does | not executed | MipsCast.SignedByteShiftedByEight | MipsCast.CastCodeAgrees |

=== FILE: ast.dfy ===
/** The syntax tree of node.h, reduced to what the constant evaluator and the
    IR generator look at, and the small node predicates of node.c.

    The C tree is a graph of `struct node` with parent pointers and result
    slots that later stages fill in. Here it is an immutable value: every
    expression carries the type the type checker gave it, and an identifier
    carries the facts its symbol provides.
 */
module Ast {
  import opened Wrappers
  import opened Types
  import opened Operators

  /** An expression node. `List` is `NODE_EXPRESSION_LIST_STATEMENT` (a comma
      expression: `head`, then `next` when there is one); an
      `NODE_EXPRESSION_STATEMENT` wrapper is transparent and has no node here.
      An identifier carries what its symbol provides: whether it lives at file
      scope, its id, the size of its declared type and its argument number,
      and `lvalue` is the value category the type checker recorded (an array
      name is converted to an rvalue pointer). */
  datatype Expr =
    | Number(value: int, ty: Type)
    | Identifier(name: string, ty: Type, global: bool, id: int, size: int, argNumber: int, lvalue: bool)
    | StringLit(text: string)
    | Binary(op: BinaryOp, left: Expr, right: Expr, ty: Type)
    | Unary(uop: UnaryOp, operand: Expr, ty: Type)
    | Cast(target: Type, operand: Expr)
    | Conditional(cond: Expr, thenE: Expr, elseE: Expr)
    | Call(name: string, args: seq<Expr>, ty: Type)
    | List(head: Expr, next: Option<Expr>)

  /** A statement node. A compound statement and a statement list are both a
      `Block`; a missing statement (`NULL`) is `None` where the C code allows it. */
  datatype Stmt =
    | ExprStmt(e: Expr)
    | If(cond: Expr, thenS: Stmt, elseS: Option<Stmt>)
    | While(cond: Expr, body: Option<Stmt>)
    | DoWhile(body: Option<Stmt>, cond: Expr)
    | For(init: Option<Stmt>, test: Option<Expr>, step: Option<Stmt>, body: Option<Stmt>)
    | Break
    | Continue
    | Return(value: Option<Expr>)
    | Goto(target: string)
    | Labeled(name: string, body: Option<Stmt>)
    | Block(stmts: seq<Stmt>)
    | FunctionDef(name: string, returnType: Type, stmts: seq<Stmt>)
    | NullStmt

  /** A string literal is converted to a pointer to char by the type checker. */
  const STRING_TYPE: Type := Type(PointerKind, false, Char)

  /** `get_type_from_expression`: a conditional has the type of its `then`
      branch, a comma expression the type of its last part. */
  function TypeOf(e: Expr): Type {
    match e
    case Number(_, t) => t
    case Identifier(_, t, _, _, _, _, _) => t
    case StringLit(_) => STRING_TYPE
    case Binary(_, _, _, t) => t
    case Unary(_, _, t) => t
    case Cast(t, _) => t
    case Conditional(_, thenE, _) => TypeOf(thenE)
    case Call(_, _, t) => t
    case List(head, next) => if next.Some? then TypeOf(next.value) else TypeOf(head)
  }

  /** `node_is_pointer_address`: a unary `&`, possibly under casts. */
  predicate IsPointerAddress(e: Expr) {
    (e.Unary? && e.uop == Address) || (e.Cast? && IsPointerAddress(e.operand))
  }

  /** `node_is_dereference`: only a unary `*` at the top, not one under a cast. */
  predicate IsDereference(e: Expr) {
    e.Unary? && e.uop == Pointer
  }

  /** The expression with the casts around it peeled off. */
  function StripCasts(e: Expr): (r: Expr)
    ensures !r.Cast?
  {
    if e.Cast? then StripCasts(e.operand) else e
  }

  /** `&x` under any number of casts is an address and never a dereference; a
      dereference is only recognised without casts around it. */
  lemma {:induction false} PointerAddressMeansStrippedAddress(e: Expr)
    ensures IsPointerAddress(e) <==> StripCasts(e).Unary? && StripCasts(e).uop == Address
    ensures IsDereference(e) ==> !IsPointerAddress(e) && StripCasts(e) == e
  {
    if e.Cast? {
      PointerAddressMeansStrippedAddress(e.operand);
    }
  }

  /** The span of source text a node was parsed from. */
  datatype Location = Location(firstLine: int, firstColumn: int, lastLine: int, lastColumn: int)

  /** `compare_nodes`: 0 when two nodes span the same text, 1 otherwise; the
      type checker uses it to tell which child of its parent a node is. Since
      the four coordinates are all a location has, 0 means equal locations. */
  function CompareNodes(a: Location, b: Location): (r: int)
    ensures r == 0 || r == 1
    ensures r == 0 <==> a == b
  {
    if && a.firstColumn == b.firstColumn && a.firstLine == b.firstLine
       && a.lastColumn == b.lastColumn && a.lastLine == b.lastLine
    then 0 else 1
  }

  /** The value category recorded by the type checker: an identifier as
      recorded and a dereference are lvalues, a comma expression has the
      category of its last part, and everything else is an rvalue. */
  predicate IsLvalue(e: Expr) {
    match e
    case Identifier(_, _, _, _, _, _, lvalue) => lvalue
    case Unary(uop, _, _) => uop == Pointer
    case List(head, next) => if next.Some? then IsLvalue(next.value) else IsLvalue(head)
    case _ => false
  }
}

=== FILE: const_eval.dfy ===
/** `evaluate_expression` of helpers/util-functions.c: the constant evaluator
    the type checker runs on array sizes and similar expressions.

    The C code computes in `signed long`; the model computes on unbounded
    integers, so the 64-bit wrap-around of the host is not represented. What
    C leaves undefined (division by zero, a shift by a negative or too large
    count, a left shift of a negative value) is reported as `Undefined`.
 */
module ConstEval {
  import opened Wrappers
  import opened Integers
  import opened Operators
  import opened Ast
  import Util

  /** `struct expression_result`. */
  datatype ExprResult = ExprResult(containsIdentifier: bool, value: int)

  /** `_SIGNED_LONG_MIN`: the value of everything the evaluator cannot compute. */
  const UNEVALUATED: int := -2147483648

  /** The width of the host's `signed long`, which bounds a defined shift count. */
  const HOST_LONG_BITS: nat := 64

  // ---------------------------------------------------------------------------
  // Two's complement bitwise operators on unbounded integers
  // ---------------------------------------------------------------------------

  datatype BitOp = AndOp | OrOp | XorOp

  function Bit(op: BitOp, x: bool, y: bool): bool {
    match op
    case AndOp => x && y
    case OrOp => x || y
    case XorOp => x != y
  }

  /** The sign bits, 0 or -1, that an integer has once its low bits are shifted out. */
  predicate IsSignOnly(a: int) {
    a == 0 || a == -1
  }

  lemma HalfShrinks(a: int)
    ensures Abs(a / 2) <= Abs(a)
    ensures !IsSignOnly(a) ==> Abs(a / 2) < Abs(a)
  {
  }

  /** `a & b`, `a | b` and `a ^ b` on two's complement integers of any width:
      the operator applied bit by bit, the sign bits included. */
  function Bitwise(op: BitOp, a: int, b: int): int
    decreases Abs(a) + Abs(b)
  {
    if IsSignOnly(a) && IsSignOnly(b) then
      if Bit(op, a == -1, b == -1) then -1 else 0
    else
      HalfShrinks(a);
      HalfShrinks(b);
      2 * Bitwise(op, a / 2, b / 2) + (if Bit(op, a % 2 == 1, b % 2 == 1) then 1 else 0)
  }

  /** On non-negative operands `&` is the bitwise and of the type rules' helpers,
      and every operator is symmetric. */
  lemma {:induction false} BitwiseProperties(op: BitOp, a: int, b: int)
    ensures Bitwise(op, a, b) == Bitwise(op, b, a)
    ensures a >= 0 && b >= 0 && op == AndOp ==> Bitwise(op, a, b) == Util.BitAnd(a, b)
    ensures op == AndOp || op == OrOp ==> Bitwise(op, a, a) == a
    ensures op == XorOp ==> Bitwise(op, a, a) == 0
    decreases Abs(a) + Abs(b)
  {
    if !(IsSignOnly(a) && IsSignOnly(b)) {
      HalfShrinks(a);
      HalfShrinks(b);
      BitwiseProperties(op, a / 2, b / 2);
      if a >= 0 && b >= 0 && op == AndOp && (a == 0 || b == 0) {
        BitwiseZero(a, b);
      }
    }
  }

  /** Anything and 0 is 0. */
  lemma {:induction false} BitwiseZero(a: int, b: int)
    requires a >= 0 && b >= 0 && (a == 0 || b == 0)
    ensures Bitwise(AndOp, a, b) == 0
    decreases a + b
  {
    if !(IsSignOnly(a) && IsSignOnly(b)) {
      BitwiseZero(a / 2, b / 2);
    }
  }

  // ---------------------------------------------------------------------------
  // The operators
  // ---------------------------------------------------------------------------

  /** 1 for true and 0 for false, as C's relational and logical operators give. */
  function Truth(b: bool): int {
    if b then 1 else 0
  }

  /** A shift count C defines on a `signed long`. */
  predicate ShiftDefined(count: int) {
    0 <= count < HOST_LONG_BITS
  }

  /** The value of one binary operator applied to two evaluated operands. The
      assignments fall to the default case and keep the unevaluated value. */
  function BinaryValue(op: BinaryOp, l: int, r: int): (v: Result<int>)
    ensures v.Err? <==> (op in {Division, Mod} && r == 0)
                        || (op == LeftShift && (!ShiftDefined(r) || l < 0))
                        || (op == RightShift && !ShiftDefined(r))
    ensures v.Ok? && (IsEqualityOperation(op) || IsCompoundAssignment(op) || op == Assign) ==>
              v.value in {0, 1, UNEVALUATED}
  {
    match op
    case Multiplication => Ok(l * r)
    case Division => if r == 0 then Err(Undefined("evaluate_expression: division by zero")) else Ok(CDiv(l, r))
    case Addition => Ok(l + r)
    case Subtraction => Ok(l - r)
    case Mod => if r == 0 then Err(Undefined("evaluate_expression: remainder by zero")) else Ok(CRem(l, r))
    case LogicalOr => Ok(Truth(l != 0 || r != 0))
    case LogicalAnd => Ok(Truth(l != 0 && r != 0))
    case BitwiseOr => Ok(Bitwise(OrOp, l, r))
    case BitwiseXor => Ok(Bitwise(XorOp, l, r))
    case BitwiseAnd => Ok(Bitwise(AndOp, l, r))
    case Equality => Ok(Truth(l == r))
    case Inequality => Ok(Truth(l != r))
    case LessThan => Ok(Truth(l < r))
    case LessThanEq => Ok(Truth(l <= r))
    case GreaterThan => Ok(Truth(l > r))
    case GreaterThanEq => Ok(Truth(l >= r))
    case LeftShift =>
      if !ShiftDefined(r) || l < 0 then Err(Undefined("evaluate_expression: undefined left shift"))
      else Ok(l * Pow2(r))
    case RightShift =>
      if !ShiftDefined(r) then Err(Undefined("evaluate_expression: undefined right shift"))
      else Ok(l / Pow2(r))
    case _ => Ok(UNEVALUATED)
  }

  /** The value of a unary operator other than `&` and `*`. The increments and
      decrements act on a copy, so only the value they yield matters. */
  function UnaryValue(op: UnaryOp, x: int): int
    requires op != Address && op != Pointer
  {
    match op
    case Hyphen => -x
    case Plus => x
    case LogicalNegation => Truth(x == 0)
    case BitwiseNegation => -x - 1
    case PreIncrement => x + 1
    case PreDecrement => x - 1
    case PostIncrement => x
    case PostDecrement => x
  }

  // ---------------------------------------------------------------------------
  // The evaluator
  // ---------------------------------------------------------------------------

  /** What evaluating an expression leaves: its result and the error count. */
  datatype Evaluated = Evaluated(result: ExprResult, errors: nat)

  /** `evaluate_expression_handler`, with `evaluate_expr_error_count` threaded
      through as `errors`. */
  function Handler(e: Expr, errors: nat): (r: Result<Evaluated>)
    ensures r.Ok? ==> r.value.errors >= errors
    ensures e.Cast? ==> r == Ok(Evaluated(ExprResult(false, UNEVALUATED), errors))
    ensures e.StringLit? || e.Call? ==> r.Err? && r.failure.Aborts?
  {
    match e
    case Identifier(_, _, _, _, _, _, _) => Ok(Evaluated(ExprResult(true, UNEVALUATED), errors))
    case Number(v, _) => Ok(Evaluated(ExprResult(false, v), errors))
    case Binary(op, left, right, _) =>
      var a :- Handler(left, errors);
      var b :- Handler(right, a.errors);
      var v :- BinaryValue(op, a.result.value, b.result.value);
      Ok(Evaluated(ExprResult(a.result.containsIdentifier || b.result.containsIdentifier, v), b.errors))
    case Cast(_, _) => Ok(Evaluated(ExprResult(false, UNEVALUATED), errors))
    case Unary(op, operand, _) =>
      var a :- Handler(operand, errors);
      if op == Pointer then Err(Aborts("evaluate_expression: unexpected unary operator"))
      else if op == Address then Ok(Evaluated(ExprResult(a.result.containsIdentifier, UNEVALUATED), a.errors + 1))
      else Ok(Evaluated(ExprResult(a.result.containsIdentifier, UnaryValue(op, a.result.value)), a.errors))
    case Conditional(c, thenE, elseE) =>
      var a :- Handler(c, errors);
      if a.result.value != 0 then Handler(thenE, a.errors) else Handler(elseE, a.errors)
    case List(head, _) => Handler(head, errors)
    case StringLit(_) => Err(Aborts("evaluate_expression: unknown expression kind"))
    case Call(_, _, _) => Err(Aborts("evaluate_expression: unknown expression kind"))
  }

  /** `evaluate_expression`: the error counter starts again at 0, and a missing
      expression evaluates to the unevaluated value. */
  function EvaluateExpression(e: Option<Expr>): (r: Result<Evaluated>)
    ensures e.None? ==> r == Ok(Evaluated(ExprResult(false, UNEVALUATED), 0))
    ensures e.Some? && e.value.Cast? ==> r == Ok(Evaluated(ExprResult(false, UNEVALUATED), 0))
  {
    match e
    case None => Ok(Evaluated(ExprResult(false, UNEVALUATED), 0))
    case Some(x) => Handler(x, 0)
  }

  // ---------------------------------------------------------------------------
  // What the result means
  // ---------------------------------------------------------------------------

  /** Some identifier occurs anywhere in the expression. */
  predicate MentionsIdentifier(e: Expr) {
    match e
    case Identifier(_, _, _, _, _, _, _) => true
    case Number(_, _) => false
    case StringLit(_) => false
    case Binary(_, l, r, _) => MentionsIdentifier(l) || MentionsIdentifier(r)
    case Unary(_, x, _) => MentionsIdentifier(x)
    case Cast(_, x) => MentionsIdentifier(x)
    case Conditional(c, t, f) => MentionsIdentifier(c) || MentionsIdentifier(t) || MentionsIdentifier(f)
    case Call(_, args, _) => exists a :: a in args && MentionsIdentifier(a)
    case List(h, n) => MentionsIdentifier(h) || (n.Some? && MentionsIdentifier(n.value))
  }

  /** An expression built from numbers, identifiers and unary and binary
      operators only: every part of it is evaluated. */
  predicate Plain(e: Expr) {
    match e
    case Identifier(_, _, _, _, _, _, _) => true
    case Number(_, _) => true
    case Binary(_, l, r, _) => Plain(l) && Plain(r)
    case Unary(_, x, _) => Plain(x)
    case _ => false
  }

  /** How many unary `&` occur in the expression. */
  function AddressCount(e: Expr): nat {
    match e
    case Binary(_, l, r, _) => AddressCount(l) + AddressCount(r)
    case Unary(op, x, _) => AddressCount(x) + (if op == Address then 1 else 0)
    case _ => 0
  }

  /** The identifier flag never reports an identifier that is not there; on a
      plain expression it reports exactly whether one is there, and the error
      count grows by exactly the number of `&` operators. */
  lemma {:induction false} IdentifierFlag(e: Expr, errors: nat)
    requires Handler(e, errors).Ok?
    ensures Handler(e, errors).value.result.containsIdentifier ==> MentionsIdentifier(e)
    ensures Plain(e) ==> (Handler(e, errors).value.result.containsIdentifier <==> MentionsIdentifier(e))
    ensures Plain(e) ==> Handler(e, errors).value.errors == errors + AddressCount(e)
  {
    match e
    case Binary(_, l, r, _) =>
      IdentifierFlag(l, errors);
      IdentifierFlag(r, Handler(l, errors).value.errors);
    case Unary(_, x, _) =>
      IdentifierFlag(x, errors);
    case Conditional(c, t, f) =>
      var a := Handler(c, errors).value;
      if a.result.value != 0 { IdentifierFlag(t, a.errors); } else { IdentifierFlag(f, a.errors); }
    case List(h, _) =>
      IdentifierFlag(h, errors);
    case _ =>
  }

  /** A conditional evaluates only the branch its condition selects: the other
      branch may be anything, even something the evaluator rejects. */
  lemma OnlySelectedBranch(c: Expr, t: Expr, f: Expr, t': Expr, f': Expr, errors: nat)
    requires Handler(c, errors).Ok?
    ensures Handler(c, errors).value.result.value != 0 ==>
              Handler(Conditional(c, t, f), errors) == Handler(Conditional(c, t, f'), errors) == Handler(t, Handler(c, errors).value.errors)
    ensures Handler(c, errors).value.result.value == 0 ==>
              Handler(Conditional(c, t, f), errors) == Handler(Conditional(c, t', f), errors) == Handler(f, Handler(c, errors).value.errors)
  {
  }

  /** The condition's identifier flag is dropped: `x ? 1 : 2` is the constant 1,
      because the unevaluated identifier reads as non-zero. */
  lemma ConditionOnIdentifier(x: Expr, t: Expr, f: Expr)
    requires x.Identifier? && t == Number(1, x.ty) && f == Number(2, x.ty)
    ensures EvaluateExpression(Some(Conditional(x, t, f))) == Ok(Evaluated(ExprResult(false, 1), 0))
  {
    assert Handler(x, 0) == Ok(Evaluated(ExprResult(true, UNEVALUATED), 0));
    assert Handler(t, 0) == Ok(Evaluated(ExprResult(false, 1), 0));
    assert Handler(Conditional(x, t, f), 0) == Handler(t, 0);
  }
}

=== FILE: conversions.dfy ===
/** The conversion rules of type.c: the integer promotions applied to one
    operand (ISO C99 section 6.3.1.1) and the usual arithmetic conversions on two
    basic operands (ISO C99 section 6.3.1.8), as this compiler implements them. */
module Conversions {
  import opened Types
  import opened Util

  /** The promoted type, and whether the promotion reported an incompatible
      conversion (it does when the range check it runs counted an error). */
  datatype Promotion = Promotion(result: Type, conversionError: bool)

  /** `perform_unary_conversions` without building cast nodes: a type of rank at
      least `int` is kept; a narrower signed type becomes `int`; a narrower
      unsigned type becomes `int` when `int` can represent it and `unsigned int`
      otherwise. The result keeps the operand's kind. */
  function PromoteType(t: Type): (r: Promotion)
    ensures Rank(t) >= 40 ==> r == Promotion(t, false)
    ensures Rank(t) < 40 ==> r.result == Type(t.kind, false, Int)
    ensures r.conversionError <==> Rank(t) < 40 && t.isUnsigned && !IsInteger(t.basic)
  {
    if Rank(t) >= 40 then Promotion(t, false)
    else if t.isUnsigned then
      var check := CanRepresent(Int, false, t.basic, t.isUnsigned);
      if check.canRepresent then Promotion(Type(t.kind, false, Int), check.rangeErrors > 0)
      else Promotion(Type(t.kind, true, Int), false)
    else Promotion(Type(t.kind, false, Int), false)
  }

  /** Promotion is idempotent, keeps every value of an integer operand, and
      never narrows it. */
  lemma PromotionProperties(t: Type)
    ensures PromoteType(PromoteType(t).result).result == PromoteType(t).result
    ensures IsInteger(t.basic) ==>
              CanRepresent(PromoteType(t).result.basic, PromoteType(t).result.isUnsigned, t.basic, t.isUnsigned).canRepresent
    ensures BasicSize(PromoteType(t).result) >= BasicSize(t)
  {
  }

  /** The basic-type path of `perform_binary_conversions`: the common type of
      two operands that passed the compatibility check. `bothDereferenced` says
      whether both operands are unary `*` expressions. */
  function BinaryConversion(left: Type, right: Type, bothDereferenced: bool): (r: Type)
    ensures TypeIsEqual(left, right) && !bothDereferenced ==> r == left
    ensures TypeIsEqual(left, right) && bothDereferenced ==> r == Basic(left.isUnsigned, left.basic)
    ensures !TypeIsEqual(left, right) ==> r.kind == BasicKind
    ensures !TypeIsEqual(left, right) && left.isUnsigned == right.isUnsigned ==>
              r.isUnsigned == left.isUnsigned
              && r.basic == (if Rank(left) > Rank(right) then left.basic else right.basic)
  {
    if TypeIsEqual(left, right) then
      if bothDereferenced then Basic(left.isUnsigned, left.basic) else left
    else if left.isUnsigned && right.isUnsigned then
      if Rank(left) > Rank(right) then Basic(true, left.basic) else Basic(true, right.basic)
    else if !left.isUnsigned && !right.isUnsigned then
      if Rank(left) > Rank(right) then Basic(false, left.basic) else Basic(false, right.basic)
    else if left.isUnsigned && !right.isUnsigned then
      if Rank(right) > Rank(left) then
        if CanRepresent(right.basic, right.isUnsigned, left.basic, left.isUnsigned).canRepresent
        then Basic(false, right.basic)
        else Basic(true, right.basic)
      else Basic(true, left.basic)
    else
      if Rank(left) > Rank(right) then
        if CanRepresent(left.basic, left.isUnsigned, right.basic, right.isUnsigned).canRepresent
        then Basic(false, left.basic)
        else Basic(true, left.basic)
      else Basic(true, right.basic)
  }

  /** The mixed-signedness rule: a signed operand of strictly higher rank wins
      when it can represent the unsigned one and lends its type to an unsigned
      result otherwise; in every other case the unsigned operand's type wins. */
  lemma MixedSignednessRule(s: Type, u: Type)
    requires !s.isUnsigned && u.isUnsigned
    ensures var r := BinaryConversion(s, u, false);
            && BinaryConversion(u, s, false) == r
            && (Rank(s) > Rank(u) && CanRepresent(s.basic, false, u.basic, true).canRepresent ==> r == Basic(false, s.basic))
            && (Rank(s) > Rank(u) && !CanRepresent(s.basic, false, u.basic, true).canRepresent ==> r == Basic(true, s.basic))
            && (Rank(s) <= Rank(u) ==> r == Basic(true, u.basic))
  {
  }

  /** On basic integer operands the common type does not depend on the operand
      order, has the larger of the two ranks, and, when it is signed, holds every
      value of both operands. */
  lemma UsualArithmeticConversions(a: Type, b: Type)
    requires a.kind == BasicKind && b.kind == BasicKind
    requires IsInteger(a.basic) && IsInteger(b.basic)
    ensures BinaryConversion(a, b, false) == BinaryConversion(b, a, false)
    ensures Rank(BinaryConversion(a, b, false)) == if Rank(a) >= Rank(b) then Rank(a) else Rank(b)
    ensures var r := BinaryConversion(a, b, false);
            !r.isUnsigned ==> CanRepresent(r.basic, false, a.basic, a.isUnsigned).canRepresent
                              && CanRepresent(r.basic, false, b.basic, b.isUnsigned).canRepresent
  {
  }
}

=== FILE: hash_map.dfy ===
/** The fixed-capacity association array of helpers/hash-map.c.

    Despite its name it does not hash: `data` is an array of MAX_SIZE slots, the
    first `size` of which are in use, searched front to back. The compiler keeps
    three of them: temporary -> constant text, temporary -> register name, and
    variable id -> frame address.
 */
module HashMap {
  import opened Wrappers

  const MAX_SIZE: nat := 100
  /** `char value[50]`: a value must fit with its terminating NUL. */
  const VALUE_CAPACITY: nat := 50

  datatype Entry = Entry(key: int, value: string)

  datatype Map = Map(size: nat, data: seq<Entry>)

  const EMPTY_ENTRY: Entry := Entry(-1, "")

  /** The shape every map reachable from `Initialise` keeps. */
  predicate Valid(m: Map) {
    && |m.data| == MAX_SIZE
    && m.size <= MAX_SIZE
    && (forall i :: m.size <= i < MAX_SIZE ==> m.data[i] == EMPTY_ENTRY)
    && (forall i :: 0 <= i < m.size ==> |m.data[i].value| < VALUE_CAPACITY)
  }

  /** No key occurs twice among the slots in use. */
  predicate DistinctKeys(m: Map)
    requires m.size <= |m.data|
  {
    forall i, j :: 0 <= i < j < m.size ==> m.data[i].key != m.data[j].key
  }

  /** The map `initialise_hash_map` builds. */
  function Empty(): (m: Map)
    ensures Valid(m) && DistinctKeys(m) && m.size == 0
  {
    Map(0, seq(MAX_SIZE, _ => EMPTY_ENTRY))
  }

  /** `initialise_hash_map`: size 0 and every slot holds key -1 and "". */
  method Initialise() returns (m: Map)
    ensures m == Empty()
    ensures Valid(m) && DistinctKeys(m)
    ensures m.size == 0
    ensures forall i :: 0 <= i < MAX_SIZE ==> m.data[i].key == -1
  {
    var data: seq<Entry> := [];
    var i := 0;
    while i < MAX_SIZE
      invariant i <= MAX_SIZE
      invariant |data| == i
      invariant forall j :: 0 <= j < i ==> data[j] == EMPTY_ENTRY
    {
      data := data + [EMPTY_ENTRY];
      i := i + 1;
    }
    m := Map(0, data);
  }

  /** The first slot in use at or after `from` whose key is `key`. */
  function FindFrom(m: Map, key: int, from: nat): (r: Option<nat>)
    requires m.size <= |m.data|
    requires from <= m.size
    ensures r.Some? ==> from <= r.value < m.size && m.data[r.value].key == key
    ensures r.Some? ==> forall j :: from <= j < r.value ==> m.data[j].key != key
    ensures r.None? <==> forall j :: from <= j < m.size ==> m.data[j].key != key
    decreases m.size - from
  {
    if from == m.size then None
    else if m.data[from].key == key then Some(from)
    else FindFrom(m, key, from + 1)
  }

  /** `get_value`: the value of the first slot holding `key`, or NULL. */
  function Get(m: Map, key: int): (r: Option<string>)
    requires m.size <= |m.data|
    ensures r.None? <==> forall j :: 0 <= j < m.size ==> m.data[j].key != key
    ensures r.Some? ==> exists j :: 0 <= j < m.size && m.data[j] == Entry(key, r.value)
  {
    match FindFrom(m, key, 0)
    case None => None
    case Some(i) => Some(m.data[i].value)
  }

  /** `add_key_value`: overwrite the value of an existing key, or append a new
      pair at index `size`. A full map aborts, even when the key is present. */
  function Add(m: Map, key: int, value: string): (r: Result<Map>)
    requires Valid(m)
    requires |value| < VALUE_CAPACITY
    ensures r.Err? <==> m.size == MAX_SIZE
    ensures r.Ok? ==> Valid(r.value)
    ensures r.Ok? ==> Get(r.value, key) == Some(value)
    ensures r.Ok? ==> forall k :: k != key ==> Get(r.value, k) == Get(m, k)
    ensures r.Ok? ==> r.value.size == if Get(m, key).Some? then m.size else m.size + 1
  {
    if m.size < MAX_SIZE then
      match FindFrom(m, key, 0)
      case Some(i) =>
        var m' := m.(data := m.data[i := Entry(key, value)]);
        OverwritePreservesOthers(m, key, i, Entry(key, value));
        Ok(m')
      case None =>
        var m' := Map(m.size + 1, m.data[m.size := Entry(key, value)]);
        AppendPreservesOthers(m, key, Entry(key, value));
        Ok(m')
    else
      Err(Aborts("Maximum size reached. Cannot add more key/value pairs."))
  }

  lemma OverwritePreservesOthers(m: Map, key: int, i: nat, e: Entry)
    requires m.size <= |m.data|
    requires FindFrom(m, key, 0) == Some(i)
    requires e.key == key
    ensures FindFrom(m.(data := m.data[i := e]), key, 0) == Some(i)
    ensures forall k :: k != key ==> FindFrom(m.(data := m.data[i := e]), k, 0) == FindFrom(m, k, 0)
  {
    var m' := m.(data := m.data[i := e]);
    forall k | k != key
      ensures FindFrom(m', k, 0) == FindFrom(m, k, 0)
    {
      SameKeysSameFind(m, m', k, 0);
    }
    SameKeysSameFind(m, m', key, 0);
  }

  lemma AppendPreservesOthers(m: Map, key: int, e: Entry)
    requires m.size < |m.data|
    requires FindFrom(m, key, 0).None?
    requires e.key == key
    ensures FindFrom(Map(m.size + 1, m.data[m.size := e]), key, 0) == Some(m.size)
    ensures forall k :: k != key ==> FindFrom(Map(m.size + 1, m.data[m.size := e]), k, 0) == FindFrom(m, k, 0)
  {
    var m' := Map(m.size + 1, m.data[m.size := e]);
    forall k
      ensures FindFrom(m', k, 0) == if k == key && FindFrom(m, k, 0).None? then Some(m.size) else FindFrom(m, k, 0)
    {
      AppendFind(m, e, k, 0);
    }
  }

  /** Searching a map with one more slot in use only differs when the old search failed. */
  lemma {:induction false} AppendFind(m: Map, e: Entry, k: int, from: nat)
    requires m.size < |m.data|
    requires from <= m.size
    ensures FindFrom(Map(m.size + 1, m.data[m.size := e]), k, from)
         == if FindFrom(m, k, from).None? && e.key == k then Some(m.size) else FindFrom(m, k, from)
    decreases m.size - from
  {
    if from < m.size && m.data[from].key != k {
      AppendFind(m, e, k, from + 1);
    }
  }

  /** Two maps whose slots in use carry the same keys find every key at the same slot. */
  lemma {:induction false} SameKeysSameFind(m: Map, m': Map, key: int, from: nat)
    requires m.size == m'.size && m.size <= |m.data| && m'.size <= |m'.data|
    requires from <= m.size
    requires forall j :: 0 <= j < m.size ==> m.data[j].key == m'.data[j].key
    ensures FindFrom(m, key, from) == FindFrom(m', key, from)
    decreases m.size - from
  {
    if from < m.size && m.data[from].key != key {
      SameKeysSameFind(m, m', key, from + 1);
    }
  }

  /** A map that only ever grows through `Add` never holds a key twice. */
  lemma AddKeepsKeysDistinct(m: Map, key: int, value: string)
    requires Valid(m) && DistinctKeys(m)
    requires |value| < VALUE_CAPACITY
    ensures Add(m, key, value).Ok? ==> DistinctKeys(Add(m, key, value).value)
  {
  }

  /** A fresh map knows no key. */
  lemma InitialIsEmpty(m: Map, key: int)
    requires Valid(m) && m.size == 0
    ensures Get(m, key).None?
  {
  }
}

=== FILE: integers.dfy ===
/** Machine integers as the compiler's C code sees them.

    Dafny integers are unbounded, so the 32-bit wrap-around of `int` and
    `unsigned int`, C's truncating division, and the `"%d"` / `atoi` text form
    the constant map stores are written out here once and used everywhere.
 */
module Integers {

  const TWO_TO_32: int := 0x1_0000_0000
  const INT32_MIN: int := -0x8000_0000
  const INT32_MAX: int := 0x7fff_ffff
  const UINT32_MAX: int := 0xffff_ffff

  predicate IsInt32(x: int) {
    INT32_MIN <= x <= INT32_MAX
  }

  predicate IsUInt32(x: int) {
    0 <= x <= UINT32_MAX
  }

  /** The value a C `int` holds after an assignment of `x`: two's complement wrap-around. */
  function Wrap32(x: int): (r: int)
    ensures IsInt32(r)
    ensures (r - x) % TWO_TO_32 == 0
    ensures IsInt32(x) ==> r == x
  {
    var u := x % TWO_TO_32;
    if u <= INT32_MAX then u else u - TWO_TO_32
  }

  /** The value a C `unsigned int` holds after an assignment of `x`. */
  function ToUInt32(x: int): (r: int)
    ensures IsUInt32(r)
    ensures (r - x) % TWO_TO_32 == 0
    ensures IsUInt32(x) ==> r == x
  {
    x % TWO_TO_32
  }

  /** Reinterpreting the unsigned bits as signed and back loses nothing. */
  lemma WrapOfUnsigned(x: int)
    ensures Wrap32(ToUInt32(x)) == Wrap32(x)
    ensures ToUInt32(Wrap32(x)) == ToUInt32(x)
  {
  }

  function Abs(x: int): (r: nat)
    ensures r == x || r == -x
  {
    if x < 0 then -x else x
  }

  /** C's `/`: the quotient is truncated toward zero (Dafny's `/` is Euclidean). */
  function CDiv(a: int, b: int): (q: int)
    requires b != 0
    ensures Abs(a - q * b) < Abs(b)
    ensures a - q * b == 0 || (a - q * b < 0 <==> a < 0)
  {
    var q := if (a < 0) == (b < 0) then Abs(a) / Abs(b) else -(Abs(a) / Abs(b));
    TruncatedRemainder(a, b, q);
    q
  }

  lemma TruncatedRemainder(a: int, b: int, q: int)
    requires b != 0
    requires q == if (a < 0) == (b < 0) then Abs(a) / Abs(b) else -(Abs(a) / Abs(b))
    ensures a - q * b == if a < 0 then -(Abs(a) % Abs(b)) else Abs(a) % Abs(b)
  {
    var q0, bb := Abs(a) / Abs(b), Abs(b);
    assert Abs(a) == q0 * bb + Abs(a) % bb;
    if b < 0 {
      assert q * b == (if a < 0 then q0 else -q0) * -bb;
      assert q * b == (if a < 0 then -(q0 * bb) else q0 * bb);
    } else {
      assert q * b == (if a < 0 then -q0 else q0) * bb;
      assert q * b == (if a < 0 then -(q0 * bb) else q0 * bb);
    }
  }

  /** C's `%`: the remainder has the sign of the dividend. */
  function CRem(a: int, b: int): (r: int)
    requires b != 0
    ensures Abs(r) < Abs(b)
    ensures r == 0 || (r < 0 <==> a < 0)
    ensures a == CDiv(a, b) * b + r
  {
    a - CDiv(a, b) * b
  }

  function Pow2(k: nat): (r: nat)
    ensures r >= 1
  {
    if k == 0 then 1 else 2 * Pow2(k - 1)
  }

  lemma {:induction false} Pow2Add(a: nat, b: nat)
    ensures Pow2(a + b) == Pow2(a) * Pow2(b)
    decreases a
  {
    if a > 0 {
      Pow2Add(a - 1, b);
    }
  }

  /** The powers of two that bound the machine types. */
  lemma Pow2Values()
    ensures Pow2(7) == 128 && Pow2(8) == 256
    ensures Pow2(15) == 32768 && Pow2(16) == 65536
    ensures Pow2(31) == 0x8000_0000 && Pow2(32) == TWO_TO_32
  {
    assert Pow2(8) == 256;
    Pow2Add(8, 8);
    Pow2Add(16, 16);
  }

  ghost predicate IsPow2(x: int) {
    exists k: nat :: Pow2(k) == x
  }

  lemma Pow2Monotone(i: nat, j: nat)
    requires i < j
    ensures Pow2(i) < Pow2(j)
  {
  }

  // ---------------------------------------------------------------------------
  // Decimal text: sprintf("%d", v) and atoi(s)
  // ---------------------------------------------------------------------------

  predicate IsDigit(c: char) {
    '0' <= c <= '9'
  }

  function DigitChar(d: nat): (c: char)
    requires d < 10
    ensures IsDigit(c)
  {
    (d + '0' as int) as char
  }

  function DigitValue(c: char): (d: nat)
    requires IsDigit(c)
    ensures d < 10
  {
    c as int - '0' as int
  }

  /** The decimal digits of `n`, most significant first, without leading zeros. */
  function NatToDecimal(n: nat): (s: string)
    ensures |s| >= 1
    ensures forall i :: 0 <= i < |s| ==> IsDigit(s[i])
    ensures n > 0 ==> s[0] != '0'
  {
    if n < 10 then [DigitChar(n)] else NatToDecimal(n / 10) + [DigitChar(n % 10)]
  }

  /** `sprintf("%d", v)`. */
  function IntToDecimal(v: int): (s: string)
    ensures |s| >= 1
    ensures v < 0 <==> s[0] == '-'
  {
    if v < 0 then "-" + NatToDecimal(-v) else NatToDecimal(v)
  }

  /** The value of a digit string. */
  function DigitsValue(s: string): (n: nat)
    requires forall i :: 0 <= i < |s| ==> IsDigit(s[i])
  {
    if |s| == 0 then 0 else 10 * DigitsValue(s[..|s| - 1]) + DigitValue(s[|s| - 1])
  }

  /** The longest prefix of `s` made of digits: the part `atoi` reads. */
  function TakeDigits(s: string): (d: string)
    ensures d <= s
    ensures forall i :: 0 <= i < |d| ==> IsDigit(d[i])
    ensures |d| < |s| ==> !IsDigit(s[|d|])
  {
    if |s| > 0 && IsDigit(s[0]) then [s[0]] + TakeDigits(s[1..]) else []
  }

  /** `atoi(s)` on the text forms this compiler produces: an optional '-' and digits. */
  function Atoi(s: string): int {
    if |s| > 0 && s[0] == '-' then -(DigitsValue(TakeDigits(s[1..])) as int)
    else DigitsValue(TakeDigits(s))
  }

  lemma TakeDigitsOfDigits(s: string)
    requires forall i :: 0 <= i < |s| ==> IsDigit(s[i])
    ensures TakeDigits(s) == s
  {
  }

  lemma {:induction false} DigitsValueOfDecimal(n: nat)
    ensures DigitsValue(NatToDecimal(n)) == n
  {
    if n >= 10 {
      DigitsValueOfDecimal(n / 10);
      var s := NatToDecimal(n);
      assert s[..|s| - 1] == NatToDecimal(n / 10);
    }
  }

  /** `atoi` reads back exactly what `sprintf("%d")` wrote. */
  lemma AtoiOfDecimal(v: int)
    ensures Atoi(IntToDecimal(v)) == v
  {
    var m := if v < 0 then -v else v;
    var digits := NatToDecimal(m);
    TakeDigitsOfDigits(digits);
    DigitsValueOfDecimal(m);
    if v < 0 {
      assert IntToDecimal(v)[1..] == digits;
    } else {
      assert IntToDecimal(v) == digits;
      assert digits[0] != '-';
    }
  }

  /** Different integers print differently. */
  lemma DecimalInjective(a: int, b: int)
    requires IntToDecimal(a) == IntToDecimal(b)
    ensures a == b
  {
    AtoiOfDecimal(a);
    AtoiOfDecimal(b);
  }

  lemma {:induction false} NatToDecimalLength(n: nat, k: nat)
    requires n < Power10(k)
    requires k >= 1
    ensures |NatToDecimal(n)| <= k
  {
    if n >= 10 {
      Power10Step(k);
      NatToDecimalLength(n / 10, k - 1);
    }
  }

  function Power10(k: nat): (r: nat)
    ensures r >= 1
  {
    if k == 0 then 1 else 10 * Power10(k - 1)
  }

  lemma Power10Step(k: nat)
    requires k >= 1
    ensures Power10(k) == 10 * Power10(k - 1)
  {
  }

  /** Every 32-bit value prints in at most 11 characters ("-2147483648"). */
  lemma DecimalOfInt32IsShort(v: int)
    requires IsInt32(v)
    ensures |IntToDecimal(v)| <= 11
  {
    assert Power10(10) == 10000000000;
    if v < 0 {
      NatToDecimalLength(-v, 10);
    } else {
      NatToDecimalLength(v, 10);
    }
  }
}

=== FILE: ir.dfy ===
/** The instruction list of ir.c and the global state the generator and the
    optimisers share.

    The C list is a doubly linked list of `struct ir_instruction`; here it is a
    sequence, head first. Each instruction keeps the `position` number the C
    code stamps on it, because the list operations look instructions up by that
    number rather than by their place in the list.
 */
module Ir {
  import opened Wrappers
  import opened Integers
  import opened IrOps
  import opened Strings
  import HashMap

  /** `operands[7]`. */
  const OPERAND_SLOTS: nat := 7

  /** `struct ir_instruction`. `offset` is the address-of instruction a load or
      store uses as its base, as it was when the link was made. */
  datatype Instr = Instr(kind: Opcode, ops: seq<Operand>, scope: string, pos: int, isUsed: bool, offset: Option<Instr>)

  predicate WellFormed(i: Instr) {
    |i.ops| == OPERAND_SLOTS
  }

  type Program = seq<Instr>

  predicate AllWellFormed(p: Program) {
    forall i :: 0 <= i < |p| ==> WellFormed(p[i])
  }

  /** No two instructions of the list carry the same position. */
  predicate DistinctPositions(p: Program) {
    forall i, j :: 0 <= i < j < |p| ==> p[i].pos != p[j].pos
  }

  /** `ir_instruction`: a new instruction tagged with the current scope, marked
      used, with no offset variable and no operand written yet. */
  function NewInstr(kind: Opcode, scope: string): (i: Instr)
    ensures WellFormed(i) && i.kind == kind && i.scope == scope
    ensures i.isUsed && i.offset.None?
    ensures forall k :: 0 <= k < OPERAND_SLOTS ==> i.ops[k] == Unset
  {
    Instr(kind, seq(OPERAND_SLOTS, _ => Unset), scope, 0, true, None)
  }

  /** The `ir_operand_*` setters: write one slot and leave the others alone. */
  function SetOperand(i: Instr, slot: nat, op: Operand): (r: Instr)
    requires WellFormed(i) && slot < OPERAND_SLOTS
    ensures WellFormed(r) && r.ops[slot] == op
    ensures forall k :: 0 <= k < OPERAND_SLOTS && k != slot ==> r.ops[k] == i.ops[k]
    ensures r.kind == i.kind && r.scope == i.scope && r.pos == i.pos
    ensures r.isUsed == i.isUsed && r.offset == i.offset
  {
    i.(ops := i.ops[slot := op])
  }

  // ---------------------------------------------------------------------------
  // Views of a list
  // ---------------------------------------------------------------------------

  function Kinds(p: Program): (ks: seq<Opcode>)
    ensures |ks| == |p| && forall i :: 0 <= i < |p| ==> ks[i] == p[i].kind
  {
    seq(|p|, i requires 0 <= i < |p| => p[i].kind)
  }

  function Scopes(p: Program): (ss: seq<string>)
    ensures |ss| == |p| && forall i :: 0 <= i < |p| ==> ss[i] == p[i].scope
  {
    seq(|p|, i requires 0 <= i < |p| => p[i].scope)
  }

  /** `s` without its element at `i`. */
  function Erase<T>(s: seq<T>, i: nat): (r: seq<T>)
    requires i < |s|
    ensures |r| == |s| - 1
    ensures forall j :: 0 <= j < i ==> r[j] == s[j]
    ensures forall j :: i <= j < |r| ==> r[j] == s[j + 1]
  {
    s[..i] + s[i + 1..]
  }

  // ---------------------------------------------------------------------------
  // Lookups
  // ---------------------------------------------------------------------------

  /** The first element at or after `from` whose position is `pos`. */
  function FindPosition(p: Program, pos: int, from: nat): (r: Option<nat>)
    requires from <= |p|
    ensures r.Some? ==> from <= r.value < |p| && p[r.value].pos == pos
    ensures r.Some? ==> forall j :: from <= j < r.value ==> p[j].pos != pos
    ensures r.None? ==> forall j :: from <= j < |p| ==> p[j].pos != pos
    decreases |p| - from
  {
    if from == |p| then None
    else if p[from].pos == pos then Some(from)
    else FindPosition(p, pos, from + 1)
  }

  /** Under distinct positions the element carrying a position is the one found. */
  lemma FindDistinct(p: Program, i: nat)
    requires DistinctPositions(p) && i < |p|
    ensures FindPosition(p, p[i].pos, 0) == Some(i)
  {
  }

  /** The last of the first `n` elements satisfying `matches` for temporary `t`. */
  function LastWithTemporary(p: Program, t: int, n: nat): (r: Option<nat>)
    requires AllWellFormed(p) && n <= |p|
    ensures r.Some? ==> r.value < n && TemporaryView(p[r.value].ops[0]) == Some(t)
    ensures r.Some? ==> forall j :: r.value < j < n ==> TemporaryView(p[j].ops[0]) != Some(t)
    ensures r.None? ==> forall j :: 0 <= j < n ==> TemporaryView(p[j].ops[0]) != Some(t)
  {
    if n == 0 then None
    else if TemporaryView(p[n - 1].ops[0]) == Some(t) then Some(n - 1)
    else LastWithTemporary(p, t, n - 1)
  }

  /** `ir_get_instruction_by_temporary`: the last instruction of the list whose
      operand 0, read as a temporary, is `t`. The read ignores the operand's kind,
      so a number or a name whose low bytes equal `t` also matches. */
  function ByTemporary(p: Program, t: int): (r: Option<nat>)
    requires AllWellFormed(p)
    ensures r.Some? ==> r.value < |p| && TemporaryView(p[r.value].ops[0]) == Some(t)
    ensures r.Some? ==> forall j :: r.value < j < |p| ==> TemporaryView(p[j].ops[0]) != Some(t)
    ensures r.None? <==> forall j :: 0 <= j < |p| ==> TemporaryView(p[j].ops[0]) != Some(t)
  {
    LastWithTemporary(p, t, |p|)
  }

  /** The last of the first `n` elements whose position is `pos`. */
  function LastWithPosition(p: Program, pos: int, n: nat): (r: Option<nat>)
    requires n <= |p|
    ensures r.Some? ==> r.value < n && p[r.value].pos == pos
    ensures r.Some? ==> forall j :: r.value < j < n ==> p[j].pos != pos
    ensures r.None? ==> forall j :: 0 <= j < n ==> p[j].pos != pos
  {
    if n == 0 then None
    else if p[n - 1].pos == pos then Some(n - 1)
    else LastWithPosition(p, pos, n - 1)
  }

  /** `ir_get_next_instruction`: the instruction whose position is two more
      than that of the given one, or none. */
  function NextInstruction(p: Program, pos: int): (r: Option<nat>)
    ensures r.Some? ==> r.value < |p| && p[r.value].pos == pos + 2
    ensures r.None? <==> forall j :: 0 <= j < |p| ==> p[j].pos != pos + 2
  {
    LastWithPosition(p, pos + 2, |p|)
  }

  /** Positions that climb by exactly two from each element to the next, as
      `ir_append` leaves them. */
  predicate EvenlySpaced(p: Program) {
    forall i :: 0 <= i < |p| - 1 ==> p[i + 1].pos == p[i].pos + 2
  }

  lemma {:induction false} EvenlySpacedOffsets(p: Program, i: nat, j: nat)
    requires EvenlySpaced(p) && i <= j < |p|
    ensures p[j].pos == p[i].pos + 2 * (j - i)
    decreases j - i
  {
    if i < j {
      EvenlySpacedOffsets(p, i, j - 1);
    }
  }

  /** On an evenly spaced list "position + 2" is the successor, and there is
      no next instruction after the last one. */
  lemma NextIsSuccessor(p: Program, i: nat)
    requires EvenlySpaced(p) && i < |p|
    ensures NextInstruction(p, p[i].pos) == if i + 1 < |p| then Some(i + 1) else None
  {
    forall j | 0 <= j < |p| && j != i + 1
      ensures p[j].pos != p[i].pos + 2
    {
      if j <= i {
        EvenlySpacedOffsets(p, j, i);
      } else {
        EvenlySpacedOffsets(p, i, j);
      }
    }
    var r := NextInstruction(p, p[i].pos);
    if i + 1 < |p| {
      assert p[i + 1].pos == p[i].pos + 2;
      assert r.Some?;
    }
  }

  // ---------------------------------------------------------------------------
  // Removal and insertion
  // ---------------------------------------------------------------------------

  /** The kinds whose operand 1 removal leaves alone. */
  predicate KeepsOperandOnRemoval(k: Opcode) {
    k in {ConstInt, SysCall, Call}
  }

  /** What removal does to the successor of a removed element `i` that is not
      the head: it inherits the removed position and, unless it is a constant
      or a call, takes the predecessor's operand 0 as its operand 1. */
  function Successor(p: Program, i: nat): (s: Instr)
    requires AllWellFormed(p) && 0 < i < |p| - 1
    ensures WellFormed(s) && s.pos == p[i].pos
    ensures s.kind == p[i + 1].kind && s.scope == p[i + 1].scope && s.isUsed == p[i + 1].isUsed
    ensures s.ops[1] == if KeepsOperandOnRemoval(p[i + 1].kind) then p[i + 1].ops[1] else p[i - 1].ops[0]
    ensures forall k :: 0 <= k < OPERAND_SLOTS && k != 1 ==> s.ops[k] == p[i + 1].ops[k]
  {
    var next := p[i + 1];
    if KeepsOperandOnRemoval(next.kind) then next.(pos := p[i].pos)
    else SetOperand(next, 1, p[i - 1].ops[0]).(pos := p[i].pos)
  }

  /** The unlinking step of `ir_remove_instruction_from_list` for the element at
      index `i`. The head is simply dropped; an element without a successor
      cannot be removed, because the code reads the successor's kind. */
  function RemoveAt(p: Program, i: nat): (r: Result<Program>)
    requires AllWellFormed(p) && i < |p|
    ensures r.Err? <==> 0 < i == |p| - 1
    ensures r.Err? ==> r.failure.Undefined?
    ensures r.Ok? ==> |r.value| == |p| - 1 && AllWellFormed(r.value)
    ensures r.Ok? ==> forall k :: 0 <= k < i ==> r.value[k] == p[k]
    ensures r.Ok? ==> forall k :: i < k < |r.value| ==> r.value[k] == p[k + 1]
    ensures r.Ok? && i == 0 && |r.value| > 0 ==> r.value[0] == p[1]
    ensures r.Ok? && i > 0 ==> r.value[i] == Successor(p, i)
  {
    if i == 0 then Ok(p[1..])
    else if i == |p| - 1 then Err(Undefined("ir_remove_instruction_from_list: the last instruction has no successor to read"))
    else Ok(p[..i] + [Successor(p, i)] + p[i + 2..])
  }

  /** Removal erases one kind and one scope tag from the list's views: the
      successor keeps its own kind and tag. */
  lemma RemoveAtViews(p: Program, i: nat)
    requires AllWellFormed(p) && i < |p| && RemoveAt(p, i).Ok?
    ensures Kinds(RemoveAt(p, i).value) == Erase(Kinds(p), i)
    ensures Scopes(RemoveAt(p, i).value) == Erase(Scopes(p), i)
  {
  }

  /** Removal unlinks exactly one element and changes no other position than
      that of the successor, which takes over the removed one. So positions stay
      distinct, and every position but the successor's old one survives. */
  lemma RemoveAtPositions(p: Program, i: nat)
    requires AllWellFormed(p) && i < |p| && DistinctPositions(p)
    requires RemoveAt(p, i).Ok?
    ensures DistinctPositions(RemoveAt(p, i).value)
    ensures i > 0 ==> RemoveAt(p, i).value[i].pos == p[i].pos
    ensures i > 0 ==> forall j :: 0 <= j < |p| && j != i + 1 ==>
              exists k :: 0 <= k < |p| - 1 && RemoveAt(p, i).value[k].pos == p[j].pos
  {
    var r := RemoveAt(p, i).value;
    assert forall k :: 0 <= k < |r| ==> r[k].pos == p[if k < i || (k == i && i > 0) then k else k + 1].pos;
    if i > 0 {
      forall j | 0 <= j < |p| && j != i + 1
        ensures exists k :: 0 <= k < |p| - 1 && r[k].pos == p[j].pos
      {
        if j <= i {
          assert r[j].pos == p[j].pos;
        } else {
          assert r[j - 1].pos == p[j].pos;
        }
      }
    }
  }

  /** `ir_remove_instruction_from_list`: remove the first element carrying
      position `pos`; nothing happens when no element carries it. */
  function Remove(p: Program, pos: int): (r: Result<Program>)
    requires AllWellFormed(p)
    ensures FindPosition(p, pos, 0).None? ==> r == Ok(p)
    ensures FindPosition(p, pos, 0).Some? ==> r == RemoveAt(p, FindPosition(p, pos, 0).value)
    ensures r.Ok? ==> AllWellFormed(r.value)
    ensures r.Ok? && |r.value| < |p| ==> |r.value| == |p| - 1
  {
    match FindPosition(p, pos, 0)
    case None => Ok(p)
    case Some(i) => RemoveAt(p, i)
  }

  /** Under distinct positions, removing by an element's position unlinks that
      element, and positions stay distinct. */
  lemma RemoveFindsElement(p: Program, j: nat)
    requires AllWellFormed(p) && DistinctPositions(p) && j < |p|
    ensures Remove(p, p[j].pos) == RemoveAt(p, j)
    ensures Remove(p, p[j].pos).Ok? ==> DistinctPositions(Remove(p, p[j].pos).value)
  {
    FindDistinct(p, j);
    if RemoveAt(p, j).Ok? {
      RemoveAtPositions(p, j);
    }
  }

  /** Removal by position keeps positions distinct, and removes one element
      exactly when some element carries the position. */
  lemma RemovePreservesDistinct(p: Program, pos: int)
    requires AllWellFormed(p) && DistinctPositions(p)
    ensures Remove(p, pos).Ok? ==> DistinctPositions(Remove(p, pos).value)
    ensures Remove(p, pos).Ok? ==>
              |Remove(p, pos).value| == if FindPosition(p, pos, 0).Some? then |p| - 1 else |p|
  {
    if FindPosition(p, pos, 0).Some? {
      RemoveFindsElement(p, FindPosition(p, pos, 0).value);
    }
  }

  /** The first slot of `i` holding temporary `t`. */
  function SlotWithTemporary(i: Instr, t: int, from: nat): (r: Option<nat>)
    requires WellFormed(i) && from <= OPERAND_SLOTS
    ensures r.Some? ==> from <= r.value < OPERAND_SLOTS && i.ops[r.value] == Temp(t)
    ensures r.Some? ==> forall k :: from <= k < r.value ==> i.ops[k] != Temp(t)
    ensures r.None? ==> forall k :: from <= k < OPERAND_SLOTS ==> i.ops[k] != Temp(t)
    decreases OPERAND_SLOTS - from
  {
    if from == OPERAND_SLOTS then None
    else if i.ops[from] == Temp(t) then Some(from)
    else SlotWithTemporary(i, t, from + 1)
  }

  /** The first element before the last whose position is `pos`. */
  function FindInsertionPoint(p: Program, pos: int, from: nat): (r: Option<nat>)
    requires from <= |p|
    ensures r.Some? ==> from <= r.value < |p| - 1 && p[r.value].pos == pos
    ensures r.None? ==> forall j :: from <= j < |p| - 1 ==> p[j].pos != pos
    decreases |p| - from
  {
    if from + 1 >= |p| then None
    else if p[from].pos == pos then Some(from)
    else FindInsertionPoint(p, pos, from + 1)
  }

  /** `p` with `a` and `b` in place of its element after index `i`. */
  function Splice(p: Program, i: nat, a: Instr, b: Instr): (q: Program)
    requires i + 1 < |p|
    ensures |q| == |p| + 1
    ensures q[..i + 1] == p[..i + 1] && q[i + 1] == a && q[i + 2] == b && q[i + 3..] == p[i + 2..]
    ensures forall j :: 0 <= j <= i ==> q[j] == p[j]
    ensures forall j :: i + 3 <= j < |q| ==> q[j] == p[j - 1]
  {
    p[..i + 1] + [a, b] + p[i + 2..]
  }

  /** The element following the insertion point after the redirect, if any. */
  function Redirect(next: Instr, original: Option<int>, t: int): (r: Result<Instr>)
    requires WellFormed(next)
    ensures original.None? ==> r == Ok(next)
    ensures original.Some? ==> (r.Err? <==> SlotWithTemporary(next, original.value, 0).None?)
    ensures r.Ok? ==> WellFormed(r.value) && r.value.pos == next.pos && r.value.kind == next.kind
  {
    match original
    case None => Ok(next)
    case Some(o) =>
      match SlotWithTemporary(next, o, 0)
      case None => Err(Undefined("ir_insert: no slot holds the temporary, operands[-1] is written"))
      case Some(k) => Ok(SetOperand(next, k, Temp(t)))
  }

  /** `ir_insert(previous, new, original)`: put `ni` after the element carrying
      position `after`, giving it position `counter`. When `original` names a
      temporary, the first slot of the following element that holds it is
      redirected to `ni`'s temporary; if no slot holds it the code writes
      before the array. The search never looks at the last element, so an
      insertion after it, or after a position not in the list, does nothing. */
  function Insert(p: Program, after: int, ni: Instr, original: Option<int>, counter: int): (r: Result<(Program, int)>)
    requires AllWellFormed(p) && WellFormed(ni) && ni.ops[0].Temp?
    ensures |p| == 0 ==> r.Err?
    ensures |p| > 0 && FindInsertionPoint(p, after, 0).None? ==> r == Ok((p, counter))
    ensures r.Ok? ==> AllWellFormed(r.value.0)
    ensures r.Ok? && FindInsertionPoint(p, after, 0).Some? ==>
              var i := FindInsertionPoint(p, after, 0).value;
              && r.value.1 == counter + 1
              && Redirect(p[i + 1], original, ni.ops[0].t).Ok?
              && r.value.0 == Splice(p, i, ni.(pos := counter), Redirect(p[i + 1], original, ni.ops[0].t).value)
    ensures r.Err? <==> |p| == 0 || (FindInsertionPoint(p, after, 0).Some?
                                     && Redirect(p[FindInsertionPoint(p, after, 0).value + 1], original, ni.ops[0].t).Err?)
  {
    if |p| == 0 then Err(Undefined("ir_insert on an empty list reads a NULL head"))
    else
      match FindInsertionPoint(p, after, 0)
      case None => Ok((p, counter))
      case Some(i) =>
        var next :- Redirect(p[i + 1], original, ni.ops[0].t);
        Ok((Splice(p, i, ni.(pos := counter), next), counter + 1))
  }

  /** An insertion adds exactly the new kind after the insertion point. */
  lemma InsertKinds(p: Program, after: int, ni: Instr, original: Option<int>, counter: int, i: nat)
    requires AllWellFormed(p) && WellFormed(ni) && ni.ops[0].Temp?
    requires Insert(p, after, ni, original, counter).Ok?
    requires FindInsertionPoint(p, after, 0) == Some(i)
    ensures Kinds(Insert(p, after, ni, original, counter).value.0) == Kinds(p)[..i + 1] + [ni.kind] + Kinds(p)[i + 1..]
  {
    var q := Insert(p, after, ni, original, counter).value.0;
    var next := Redirect(p[i + 1], original, ni.ops[0].t).value;
    assert q == Splice(p, i, ni.(pos := counter), next);
    var head := Kinds(p)[..i + 1] + [ni.kind];
    var want := head + Kinds(p)[i + 1..];
    assert |head| == i + 2;
    forall j | 0 <= j < |q|
      ensures Kinds(q)[j] == want[j]
    {
      if j <= i {
        assert want[j] == head[j] == Kinds(p)[j];
        assert q[j] == p[j];
      } else if j == i + 1 {
        assert want[j] == head[j] == ni.kind;
      } else {
        assert want[j] == Kinds(p)[i + 1..][j - (i + 2)] == p[j - 1].kind;
        if j >= i + 3 {
          assert q[j] == p[j - 1];
        }
      }
    }
  }

  /** With a redirect, an insertion changes exactly one slot of the following
      element, the first one holding the original temporary, to the new one. */
  lemma InsertRedirect(p: Program, after: int, ni: Instr, t: int, counter: int, i: nat, k: nat, before: Instr, after': Instr)
    requires AllWellFormed(p) && WellFormed(ni) && ni.ops[0].Temp?
    requires Insert(p, after, ni, Some(t), counter).Ok?
    requires FindInsertionPoint(p, after, 0) == Some(i)
    requires before == p[i + 1] && after' == Insert(p, after, ni, Some(t), counter).value.0[i + 2]
    requires SlotWithTemporary(before, t, 0) == Some(k)
    ensures after'.ops[k] == Temp(ni.ops[0].t)
    ensures forall s :: 0 <= s < OPERAND_SLOTS && s != k ==> after'.ops[s] == before.ops[s]
    ensures forall s :: 0 <= s < k ==> before.ops[s] != Temp(t)
    ensures after'.kind == before.kind && after'.pos == before.pos
  {
    var moved := SetOperand(before, k, Temp(ni.ops[0].t));
    assert Redirect(before, Some(t), ni.ops[0].t) == Ok(moved);
    assert Insert(p, after, ni, Some(t), counter).value.0 == Splice(p, i, ni.(pos := counter), moved);
    assert after' == moved;
  }

  /** An insertion with a fresh position keeps positions distinct. */
  lemma InsertKeepsPositionsDistinct(p: Program, after: int, ni: Instr, original: Option<int>, counter: int)
    requires AllWellFormed(p) && WellFormed(ni) && ni.ops[0].Temp?
    requires DistinctPositions(p) && forall j :: 0 <= j < |p| ==> p[j].pos < counter
    requires Insert(p, after, ni, original, counter).Ok?
    ensures var (q, c) := Insert(p, after, ni, original, counter).value;
            DistinctPositions(q) && forall j :: 0 <= j < |q| ==> q[j].pos < c
  {
    if FindInsertionPoint(p, after, 0).Some? {
      var i := FindInsertionPoint(p, after, 0).value;
      var next := Redirect(p[i + 1], original, ni.ops[0].t).value;
      SpliceKeepsPositionsDistinct(p, i, ni.(pos := counter), next, counter);
    }
  }

  /** Splicing in an instruction numbered with the counter, and a copy of
      the element it displaces, keeps positions distinct and below the
      advanced counter. */
  lemma SpliceKeepsPositionsDistinct(p: Program, i: nat, x: Instr, next: Instr, counter: int)
    requires i + 1 < |p| && DistinctPositions(p) && forall j :: 0 <= j < |p| ==> p[j].pos < counter
    requires x.pos == counter && next.pos == p[i + 1].pos
    ensures var q := Splice(p, i, x, next);
            DistinctPositions(q) && forall j :: 0 <= j < |q| ==> q[j].pos < counter + 1
  {
    var q := Splice(p, i, x, next);
    forall a, b | 0 <= a < b < |q|
      ensures q[a].pos != q[b].pos
    {
      var a' := if a <= i then a else a - 1;
      var b' := if b <= i then b else b - 1;
      if a != i + 1 && b != i + 1 {
        assert q[a].pos == p[a'].pos && q[b].pos == p[b'].pos;
      }
    }
    forall j | 0 <= j < |q|
      ensures q[j].pos < counter + 1
    {
      if j != i + 1 {
        assert q[j].pos == p[if j <= i then j else j - 1].pos;
      }
    }
  }

  // ---------------------------------------------------------------------------
  // Names
  // ---------------------------------------------------------------------------

  const GLOBAL_PREFIX: string := "_Global_"

  /** `ir_create_function_name`: "main" and names already carrying the global
      prefix are kept; every other name gets the prefix. */
  function FunctionName(name: string): (r: string)
    ensures name == "main" || Contains(name, GLOBAL_PREFIX) ==> r == name
    ensures name != "main" && !Contains(name, GLOBAL_PREFIX) ==> r == GLOBAL_PREFIX + name
  {
    if name == "main" then name
    else if Contains(name, GLOBAL_PREFIX) then name
    else GLOBAL_PREFIX + name
  }

  /** Naming a function twice is naming it once, and the result is "main" or
      carries the prefix. */
  lemma FunctionNameIdempotent(name: string)
    ensures FunctionName(FunctionName(name)) == FunctionName(name)
    ensures FunctionName(name) == "main" || Contains(FunctionName(name), GLOBAL_PREFIX)
  {
    if name != "main" && !Contains(name, GLOBAL_PREFIX) {
      ContainsPrefix(GLOBAL_PREFIX, name);
    }
  }

  const LABEL_PREFIX: string := "_GeneratedLabel_"
  const TRUE_SUFFIX: string := "_true"

  /** The `n`th generated label: the prefix and `n` in decimal. */
  function LabelName(n: nat): (s: string)
    ensures |s| > |LABEL_PREFIX| && s[..|LABEL_PREFIX|] == LABEL_PREFIX
    ensures IsDigit(s[|s| - 1])
  {
    LABEL_PREFIX + NatToDecimal(n)
  }

  /** Generated labels are pairwise distinct, and none of them is the "_true"
      companion of another label. */
  lemma LabelNamesDistinct(a: nat, b: nat, other: string)
    ensures a != b ==> LabelName(a) != LabelName(b)
    ensures LabelName(a) != other + TRUE_SUFFIX
  {
    if LabelName(a) == LabelName(b) {
      assert NatToDecimal(a) == LabelName(a)[|LABEL_PREFIX|..];
      assert NatToDecimal(b) == LabelName(b)[|LABEL_PREFIX|..];
      DecimalInjective(a, b);
    }
    var t := other + TRUE_SUFFIX;
    assert t[|t| - 1] == 'e';
  }

  // ---------------------------------------------------------------------------
  // Generator state
  // ---------------------------------------------------------------------------

  /** The globals of ir.c: the list, `next_temporary`, `label_count`,
      `instruction_position`, `current_scope` and the constant map, together
      with the driver's `reset_registers` and the `parameter_count` the calls
      number their arguments with. */
  datatype IrState = IrState(
    prog: Program,
    nextTemp: int,
    labelCount: nat,
    position: int,
    scope: string,
    consts: HashMap.Map,
    resetRegisters: bool,
    paramCount: nat)

  /** Every instruction has its seven slots, positions are distinct and below
      the counter, and the constant map is well formed. */
  predicate StateValid(st: IrState) {
    && AllWellFormed(st.prog)
    && DistinctPositions(st.prog)
    && (forall j :: 0 <= j < |st.prog| ==> st.prog[j].pos < st.position)
    && HashMap.Valid(st.consts)
    && st.nextTemp >= 1
  }

  /** What the generator itself keeps: every instruction has its seven slots,
      the constant map is well formed and temporaries are numbered from 1.
      That positions are distinct is left to `StateValid`. */
  predicate GenValid(st: IrState) {
    && AllWellFormed(st.prog)
    && HashMap.Valid(st.consts)
    && st.nextTemp >= 1
  }

  /** The state before generation starts: counters at 1, scope "main", no
      argument numbered yet. */
  function InitialState(resetRegisters: bool): (st: IrState)
    ensures StateValid(st) && GenValid(st) && st.prog == [] && st.consts.size == 0
  {
    IrState([], 1, 1, 1, "main", HashMap.Empty(), resetRegisters, 0)
  }

  /** `ir_operand_temporary`: hand out the current temporary and count up. */
  function NewTemp(st: IrState): (r: (IrState, int))
    ensures r.1 == st.nextTemp && r.0 == st.(nextTemp := st.nextTemp + 1)
  {
    (st.(nextTemp := st.nextTemp + 1), st.nextTemp)
  }

  /** `ir_reset_register`: temporaries restart at 1, but only when the driver
      asked for it. */
  function ResetRegister(st: IrState): (r: IrState)
    ensures st.resetRegisters ==> r == st.(nextTemp := 1)
    ensures !st.resetRegisters ==> r == st
  {
    if st.resetRegisters then st.(nextTemp := 1) else st
  }

  /** `ir_create_label_name`. */
  function NewLabel(st: IrState): (r: (IrState, string))
    ensures r.1 == LabelName(st.labelCount) && r.0 == st.(labelCount := st.labelCount + 1)
  {
    (st.(labelCount := st.labelCount + 1), LabelName(st.labelCount))
  }

  /** Temporaries count up between resets: a second request gets a larger
      temporary than the first, and both lie below the counter. A reset the
      driver enabled starts again from 1, so one statement's temporaries are
      reused by the next; without it a reset changes nothing. */
  lemma TemporariesCountUp(st: IrState)
    ensures NewTemp(st).1 < NewTemp(NewTemp(st).0).1 < NewTemp(NewTemp(st).0).0.nextTemp
    ensures NewTemp(NewTemp(st).0).0 == st.(nextTemp := st.nextTemp + 2)
    ensures st.resetRegisters ==> NewTemp(ResetRegister(st)).1 == 1
    ensures !st.resetRegisters ==> NewTemp(ResetRegister(st)) == NewTemp(st)
    ensures GenValid(st) ==> GenValid(NewTemp(st).0) && GenValid(ResetRegister(st))
  {
  }

  /** A generated label is new: it differs from every label handed out
      before it and from the one handed out after it. */
  lemma NewLabelFresh(st: IrState)
    ensures forall k: nat :: k < st.labelCount ==> LabelName(k) != NewLabel(st).1
    ensures NewLabel(NewLabel(st).0).1 != NewLabel(st).1
  {
    forall k: nat | k < st.labelCount
      ensures LabelName(k) != NewLabel(st).1
    {
      LabelNamesDistinct(k, st.labelCount, "");
    }
    LabelNamesDistinct(st.labelCount, st.labelCount + 1, "");
  }

  /** `ir_append`: the instruction goes to the end of the list. It is numbered
      once for the global list and once more for its node's list, so it keeps
      the second number and the counter advances by two. */
  function Append(st: IrState, i: Instr): (r: IrState)
    requires WellFormed(i)
    ensures StateValid(st) ==> StateValid(r)
    ensures GenValid(st) ==> GenValid(r)
    ensures r.prog == st.prog + [i.(pos := st.position + 1)] && r.position == st.position + 2
    ensures r == st.(prog := r.prog, position := r.position)
  {
    st.(prog := st.prog + [i.(pos := st.position + 1)], position := st.position + 2)
  }

  /** `ir_append_to_main_list` alone: numbered once. */
  function AppendToMainList(st: IrState, i: Instr): (r: IrState)
    requires WellFormed(i)
    ensures StateValid(st) ==> StateValid(r)
    ensures GenValid(st) ==> GenValid(r)
    ensures r.prog == st.prog + [i.(pos := st.position)] && r.position == st.position + 1
    ensures r == st.(prog := r.prog, position := r.position)
  {
    st.(prog := st.prog + [i.(pos := st.position)], position := st.position + 1)
  }

  /** The last instruction sits just below the counter: what `Append` leaves. */
  predicate Tight(st: IrState) {
    |st.prog| > 0 ==> st.prog[|st.prog| - 1].pos == st.position - 1
  }

  /** A list built by `Append` alone stays evenly spaced, so for it "position
      + 2" is the successor. */
  lemma AppendKeepsSpacing(st: IrState, i: Instr)
    requires StateValid(st) && WellFormed(i) && Tight(st) && EvenlySpaced(st.prog)
    ensures Tight(Append(st, i)) && EvenlySpaced(Append(st, i).prog)
  {
  }

  /** The value of a constant temporary: the text stored for it, read by `atoi`. */
  function ConstValue(m: HashMap.Map, t: int): (r: Option<int>)
    requires m.size <= |m.data|
    ensures r.Some? <==> HashMap.Get(m, t).Some?
  {
    match HashMap.Get(m, t)
    case None => None
    case Some(text) => Some(Atoi(text))
  }

  /** `ir_get_const_map_entry(op.data.temporary)` read as a number: the constant
      recorded for whatever temporary the operand's bytes denote. */
  function OperandConst(m: HashMap.Map, op: Operand): (r: Option<int>)
    requires m.size <= |m.data|
    ensures TemporaryView(op).None? ==> r.None?
    ensures TemporaryView(op).Some? ==> r == ConstValue(m, TemporaryView(op).value)
  {
    match TemporaryView(op)
    case None => None
    case Some(t) => ConstValue(m, t)
  }

  /** `ir_update_constants_map`: store `value`, as a C int, in decimal text. */
  function SetConst(m: HashMap.Map, t: int, value: int): (r: Result<HashMap.Map>)
    requires HashMap.Valid(m)
    ensures r.Err? <==> m.size == HashMap.MAX_SIZE
    ensures r.Ok? ==> HashMap.Valid(r.value)
    ensures r.Ok? ==> ConstValue(r.value, t) == Some(Wrap32(value))
    ensures r.Ok? ==> forall k :: k != t ==> ConstValue(r.value, k) == ConstValue(m, k)
  {
    var text := IntToDecimal(Wrap32(value));
    DecimalOfInt32IsShort(Wrap32(value));
    AtoiOfDecimal(Wrap32(value));
    HashMap.Add(m, t, text)
  }

  /** Reading an operand after a store: an operand that denotes the stored
      temporary reads back the value as a C int, any other reads as before. */
  lemma OperandConstReadsBack(m: HashMap.Map, t: int, value: int, op: Operand)
    requires HashMap.Valid(m) && m.size < HashMap.MAX_SIZE
    ensures SetConst(m, t, value).Ok?
    ensures TemporaryView(op) == Some(t) ==> OperandConst(SetConst(m, t, value).value, op) == Some(Wrap32(value))
    ensures TemporaryView(op) != Some(t) ==> OperandConst(SetConst(m, t, value).value, op) == OperandConst(m, op)
  {
  }

  /** `ir_add_const_to_map`: record the constant a constInt instruction defines. */
  function AddConst(st: IrState, t: int, value: int): (r: Result<IrState>)
    requires HashMap.Valid(st.consts)
    ensures r.Ok? ==> HashMap.Valid(r.value.consts) && r.value == st.(consts := r.value.consts)
    ensures r.Ok? ==> ConstValue(r.value.consts, t) == Some(Wrap32(value))
    ensures r.Err? <==> st.consts.size == HashMap.MAX_SIZE
  {
    var m :- SetConst(st.consts, t, value);
    Ok(st.(consts := m))
  }
}

=== FILE: ir_expr.dfy ===
/** The expression half of the IR generator of ir.c: every expression node is
    lowered to three-address instructions appended to the global list, and the
    node remembers, as a `Value`, the slots holding its result.

    Each generator is a method from the state before it to the state after it
    (or to the way the C code stops). Its contract says that the list only
    grows, in the scope it was called in, and that the value left has the
    shape of the expression; the generators the design is explained by also
    state the instructions they append.
 */
module IrExpr {
  import opened Wrappers
  import opened Integers
  import opened Types
  import opened Operators
  import opened IrOps
  import opened Ir
  import opened Ast
  import opened IrValues
  import HashMap
  import Symbols

  /** A lowered expression: the state after it, the slots it left, and the
      instructions it appended, in order (its children's and its own). */
  datatype Gen = Gen(st: IrState, v: Value, code: seq<Instr>)

  /** What every expression generator promises: the list is the old one
      followed by the expression's code, and the value has the expression's
      shape. */
  predicate Lowered(st: IrState, e: Expr, r: Result<Gen>) {
    r.Ok? ==>
      && GenValid(r.value.st) && Grows(st, r.value.st) && r.value.st.scope == st.scope
      && r.value.st.prog == st.prog + r.value.code
      && AllWellFormed(r.value.code)
      && Mirrors(e, r.value.v)
  }

  /** Two steps in a row: the list after both is the list before them
      followed by the two codes. */
  lemma Chain(p: seq<Instr>, a: seq<Instr>, q: seq<Instr>, b: seq<Instr>, r: seq<Instr>)
    requires q == p + a && r == q + b
    requires AllWellFormed(a) && AllWellFormed(b)
    ensures r == p + (a + b) && AllWellFormed(a + b)
  {
  }

  /** Three steps in a row. */
  lemma Chain3(p: seq<Instr>, a: seq<Instr>, q: seq<Instr>, b: seq<Instr>, s: seq<Instr>, c: seq<Instr>, r: seq<Instr>)
    requires q == p + a && s == q + b && r == s + c
    requires AllWellFormed(a) && AllWellFormed(b) && AllWellFormed(c)
    ensures r == p + ((a + b) + c) && AllWellFormed((a + b) + c)
  {
    Chain(p, a, q, b, s);
    Chain(p, a + b, s, c, r);
  }

  // ---------------------------------------------------------------------------
  // Operators
  // ---------------------------------------------------------------------------

  /** The generic instruction a binary operator is generated with, by
      `ir_generate_for_binary_operation`; a compound assignment uses the
      generic of its operator. Assignment and the short-circuit operators
      have their own generators. */
  function Generic(op: BinaryOp): (r: Option<GenericKind>)
    ensures r.None? <==> op in {Assign, LogicalOr, LogicalAnd}
  {
    match op
    case Multiplication => Some(GMult)
    case Division => Some(GDiv)
    case Addition => Some(GAdd)
    case Subtraction => Some(GSub)
    case Mod => Some(GRem)
    case BitwiseOr => Some(GBitOr)
    case BitwiseXor => Some(GBitXor)
    case BitwiseAnd => Some(GBitAnd)
    case Equality => Some(GEq)
    case Inequality => Some(GNe)
    case LessThan => Some(GLt)
    case LessThanEq => Some(GLe)
    case GreaterThan => Some(GGt)
    case GreaterThanEq => Some(GGe)
    case LeftShift => Some(GLeftShift)
    case RightShift => Some(GRightShift)
    case PlusEqual => Some(GAdd)
    case MinusEqual => Some(GSub)
    case MultiplyEqual => Some(GMult)
    case DivideEqual => Some(GDiv)
    case ModuloEqual => Some(GRem)
    case LeftShiftEqual => Some(GLeftShift)
    case RightShiftEqual => Some(GRightShift)
    case BitwiseAndEqual => Some(GBitAnd)
    case BitwiseXorEqual => Some(GBitXor)
    case BitwiseOrEqual => Some(GBitOr)
    case _ => None
  }

  /** The opcode of a negation, by `ir_generate_for_unary_operation`. */
  function NegationKind(op: UnaryOp): (k: Opcode)
    requires op in {Hyphen, LogicalNegation, BitwiseNegation}
  {
    match op
    case Hyphen => UnaryMinus
    case LogicalNegation => UnaryLogicalNegation
    case _ => UnaryBitwiseNegation
  }

  // ---------------------------------------------------------------------------
  // Loads
  // ---------------------------------------------------------------------------

  /** The load kind `ir_convert_lval_to_rval` picks: by the type, except that
      a pointer is always loaded as a word. */
  function LoadKind(t: Type): (r: Result<Opcode>)
    ensures r.Ok? && t.kind == PointerKind ==> r.value == LoadWord
    ensures r.Ok? <==> InstructionType(t, GLoad).Ok?
  {
    var k :- InstructionType(t, GLoad);
    Ok(if t.kind == PointerKind then LoadWord else k)
  }

  /** `ir_convert_lval_to_rval`: an lvalue is loaded into a fresh temporary,
      which becomes the node's result; an rvalue is left as it is. */
  method Rval(st: IrState, e: Expr, v: Value) returns (r: Result<Gen>)
    requires GenValid(st) && Mirrors(e, v)
    ensures Lowered(st, e, r)
    ensures !IsLvalue(e) ==> r == Ok(Gen(st, v, []))
    ensures r.Err? <==> IsLvalue(e) && LoadKind(TypeOf(e)).Err?
    ensures IsLvalue(e) && r.Ok? ==>
              && Layout(r.value.code, [Want(LoadKind(TypeOf(e)).value, st.scope, [Temp(st.nextTemp), Read(v)])])
              && r.value.v == Write(v, Temp(st.nextTemp))
              && r.value.st.nextTemp == st.nextTemp + 1
    ensures r.Ok? ==> r.value.st.paramCount == st.paramCount
  {
    if !IsLvalue(e) {
      return Ok(Gen(st, v, []));
    }
    var kindR := LoadKind(TypeOf(e));
    if kindR.Err? { return Err(kindR.failure); }
    var kind := kindR.value;
    var (s1, t) := NewTemp(st);
    var s2, x := Emit(s1, kind, [Temp(t), Read(v)]);
    LayoutOne(x, Want(kind, st.scope, [Temp(t), Read(v)]));
    WriteKeepsShape(v, Temp(t));
    return Ok(Gen(s2, Write(v, Temp(t)), [x]));
  }

  /** `ir_convert_identifier_to_rval`: load an identifier, or the parts of a
      comma expression. */
  method ConvertIdentifier(st: IrState, e: Expr, v: Value) returns (r: Result<Gen>)
    requires GenValid(st) && Mirrors(e, v)
    ensures Lowered(st, e, r)
    ensures !e.Identifier? && !e.List? ==> r == Ok(Gen(st, v, []))
    ensures e.Identifier? && !e.lvalue ==> r == Ok(Gen(st, v, []))
    decreases e, 1
  {
    match e {
      case Identifier(_, _, _, _, _, _, _) =>
        r := Rval(st, e, v);
      case List(_, _) =>
        r := ConvertList(st, e, v);
      case _ =>
        return Ok(Gen(st, v, []));
    }
  }

  /** The parts of a comma expression: a nested list is converted part by
      part, a plain head is loaded, then the second part is loaded. */
  method ConvertList(st: IrState, e: Expr, v: Value) returns (r: Result<Gen>)
    requires GenValid(st) && e.List? && Mirrors(e, v)
    ensures Lowered(st, e, r)
    decreases e, 0
  {
    var g;
    if e.head.List? {
      var gR := ConvertIdentifier(st, e.head, v.head);
      if gR.Err? { return Err(gR.failure); }
      g := Gen(gR.value.st, ListV(gR.value.v, v.next), gR.value.code);
    } else {
      var gR := LoadPart(st, e, v, false);
      if gR.Err? { return Err(gR.failure); }
      g := gR.value;
    }
    if e.next.None? {
      return Ok(g);
    }
    var hR := LoadPart(g.st, e, g.v, true);
    if hR.Err? { return Err(hR.failure); }
    var h := hR.value;
    Chain(st.prog, g.code, g.st.prog, h.code, h.st.prog);
    return Ok(Gen(h.st, h.v, g.code + h.code));
  }

  /** The load of one part of a comma expression (its head, or its second
      part when `second`): the loaded temporary becomes the part's result and
      is also written to the whole expression's result, which is the second
      part's when there is one. */
  method LoadPart(st: IrState, e: Expr, v: Value, second: bool) returns (r: Result<Gen>)
    requires GenValid(st) && e.List? && Mirrors(e, v)
    requires second ==> e.next.Some?
    ensures Lowered(st, e, r)
  {
    var part := if second then e.next.value else e.head;
    var pv := if second then v.next.value else v.head;
    var t := st.nextTemp;
    var gR := Rval(st, part, pv);
    if gR.Err? { return Err(gR.failure); }
    var g := gR.value;
    var lv := if second then ListV(v.head, Some(g.v)) else ListV(g.v, v.next);
    if IsLvalue(part) {
      WriteKeepsShape(lv, Temp(t));
      lv := Write(lv, Temp(t));
    }
    return Ok(Gen(g.st, lv, g.code));
  }

  // ---------------------------------------------------------------------------
  // Leaves
  // ---------------------------------------------------------------------------

  /** `ir_generate_for_number`: a constant into a fresh temporary, recorded in
      the constant map before it is appended (which asserts that the list is
      not empty). */
  method LowerNumber(st: IrState, e: Expr) returns (r: Result<Gen>)
    requires GenValid(st) && e.Number?
    ensures Lowered(st, e, r)
    ensures r.Err? <==> |st.prog| == 0 || st.consts.size == HashMap.MAX_SIZE
    ensures r.Ok? ==> Layout(r.value.code, [Want(ConstInt, st.scope, [Temp(st.nextTemp), Num(e.value)])])
    ensures r.Ok? ==> r.value.v == Own(Temp(st.nextTemp))
    ensures r.Ok? ==> ConstValue(r.value.st.consts, st.nextTemp) == Some(Wrap32(e.value))
  {
    if |st.prog| == 0 {
      return Err(Aborts("ir_add_const_to_map: the list is empty"));
    }
    var (s1, t) := NewTemp(st);
    var s2R := RecordConst(s1, t, e.value);
    if s2R.Err? { return Err(s2R.failure); }
    var s2 := s2R.value;
    var s3, x := Emit(s2, ConstInt, [Temp(t), Num(e.value)]);
    LayoutOne(x, Want(ConstInt, st.scope, [Temp(t), Num(e.value)]));
    return Ok(Gen(s3, Own(Temp(t)), [x]));
  }

  /** The operands of the `addressOf` of `ir_generate_for_identifier`: the
      temporary, the name (global names carry the global prefix), not a
      string, the symbol's id, its size, its argument number, and whether it
      is global. */
  function AddressOperands(e: Expr, t: int): (ops: seq<Operand>)
    requires e.Identifier?
    ensures |ops| == OPERAND_SLOTS && ops[0] == Temp(t)
  {
    [Temp(t), Str(if e.global then FunctionName(e.name) else e.name), Flag(false),
     Num(e.id), Num(e.size), Num(e.argNumber), Num(if e.global then 1 else 0)]
  }

  /** `ir_generate_for_identifier`, and the load `ir_generate_for_expression`
      adds when the identifier stands alone as a statement (`bare`). */
  method LowerIdentifier(st: IrState, e: Expr, bare: bool) returns (r: Result<Gen>)
    requires GenValid(st) && e.Identifier?
    ensures Lowered(st, e, r)
    ensures r.Err? <==> bare && e.lvalue && LoadKind(e.ty).Err?
    ensures r.Ok? && !(bare && e.lvalue) ==>
              && Layout(r.value.code, [Want(AddressOf, st.scope, AddressOperands(e, st.nextTemp))])
              && r.value.v == Own(Temp(st.nextTemp))
    ensures r.Ok? && bare && e.lvalue ==>
              && Layout(r.value.code, [Want(AddressOf, st.scope, AddressOperands(e, st.nextTemp)),
                                       Want(LoadKind(e.ty).value, st.scope, [Temp(st.nextTemp + 1), Temp(st.nextTemp)])])
              && r.value.v == Own(Temp(st.nextTemp + 1))
  {
    var (s1, t) := NewTemp(st);
    var s2, x := Emit(s1, AddressOf, AddressOperands(e, t));
    var w := Want(AddressOf, st.scope, AddressOperands(e, t));
    LayoutOne(x, w);
    if !bare {
      return Ok(Gen(s2, Own(Temp(t)), [x]));
    }
    var gR := Rval(s2, e, Own(Temp(t)));
    if gR.Err? { return Err(gR.failure); }
    var g := gR.value;
    if e.lvalue {
      var w2 := Want(LoadKind(e.ty).value, st.scope, [Temp(t + 1), Temp(t)]);
      assert Read(Own(Temp(t))) == Temp(t) && TypeOf(e) == e.ty;
      LayoutAppend([x], [w], g.code, [w2]);
      assert [w] + [w2] == [w, w2];
    }
    Chain(st.prog, [x], s2.prog, g.code, g.st.prog);
    return Ok(Gen(g.st, g.v, [x] + g.code));
  }

  /** `ir_generate_for_string`: the address of the literal's label. The label
      is written into the third slot over the "is a string" flag. */
  method LowerString(st: IrState, e: Expr, strings: seq<Symbols.StringSymbol>) returns (r: Result<Gen>)
    requires GenValid(st) && e.StringLit?
    ensures Lowered(st, e, r) && r.Ok?
    ensures r.Ok? ==>
              var name := Symbols.SearchStringLiteral(strings, e.text);
              && Layout(r.value.code, [Want(AddressOf, st.scope, [Temp(st.nextTemp), Str(name), Str(name)])])
              && r.value.v == Own(Temp(st.nextTemp))
  {
    var name := Symbols.SearchStringLiteral(strings, e.text);
    var (s1, t) := NewTemp(st);
    var s2, x := Emit(s1, AddressOf, [Temp(t), Str(name), Str(name)]);
    LayoutOne(x, Want(AddressOf, st.scope, [Temp(t), Str(name), Str(name)]));
    return Ok(Gen(s2, Own(Temp(t)), [x]));
  }

  // ---------------------------------------------------------------------------
  // Pointer arithmetic
  // ---------------------------------------------------------------------------

  /** The operand `ir_check_if_addition_to_pointer` treats as the pointer: of
      pointer type, and neither `&x` (under casts) nor `*p`. */
  predicate Scaled(e: Expr) {
    TypeOf(e).kind == PointerKind && !IsPointerAddress(e) && !IsDereference(e)
  }

  /** The constant of `ir_create_instructions_for_pointer_addition`: the size
      into a fresh temporary, recorded in the constant map and added to the
      global list only, so that it is numbered once. */
  method ScaleConstant(st: IrState, size: int) returns (r: Result<(IrState, Instr)>)
    requires GenValid(st) && |st.prog| > 0
    ensures r.Err? <==> st.consts.size == HashMap.MAX_SIZE
    ensures r.Ok? ==>
              var (b, x) := r.value;
              && GenValid(b) && Grows(st, b) && b.scope == st.scope
              && b.prog == st.prog + [x] && b.nextTemp == st.nextTemp + 1 && b.position == st.position + 1
              && Fits(x, Want(ConstInt, st.scope, [Temp(st.nextTemp), Num(size)]))
              && ConstValue(b.consts, st.nextTemp) == Some(Wrap32(size))
  {
    var (s1, c) := NewTemp(st);
    var s2R := RecordConst(s1, c, size);
    if s2R.Err? { return Err(s2R.failure); }
    var s3, x := EmitToMainList(s2R.value, ConstInt, [Temp(c), Num(size)]);
    return Ok((s3, x));
  }

  /** The two instructions of a pointer scaling: the size `size` into the
      temporary `c`, then the product of it and `other` into the next one. */
  function ScaleWant(scope: string, c: int, size: int, other: Operand): seq<Want> {
    [Want(ConstInt, scope, [Temp(c), Num(size)]), Want(MultSigned, scope, [Temp(c + 1), Temp(c), other])]
  }

  /** The multiplication of `ir_create_instructions_for_pointer_addition`,
      once the size is known: the constant, then the product of it and the
      other operand into a fresh temporary, which becomes that operand's
      result. */
  method ScaleBy(st: IrState, size: int, other: Expr, ov: Value) returns (r: Result<Gen>)
    requires GenValid(st) && Mirrors(other, ov) && |st.prog| > 0
    ensures Lowered(st, other, r)
    ensures r.Err? <==> st.consts.size == HashMap.MAX_SIZE
    ensures r.Ok? ==>
              var c := st.nextTemp;
              && Layout(r.value.code, ScaleWant(st.scope, c, size, Read(ov)))
              && r.value.st.position == st.position + 3 && r.value.st.nextTemp == c + 2
              && r.value.v == Write(ov, Temp(c + 1))
              && ConstValue(r.value.st.consts, c) == Some(Wrap32(size))
  {
    var kR := ScaleConstant(st, size);
    if kR.Err? { return Err(kR.failure); }
    var (s3, x) := kR.value;
    var (s4, t) := NewTemp(s3);
    var s5, y := Emit(s4, MultSigned, [Temp(t), Temp(st.nextTemp), Read(ov)]);
    LayoutTwo(x, y, ScaleWant(st.scope, st.nextTemp, size, Read(ov)));
    WriteKeepsShape(ov, Temp(t));
    return Ok(Gen(s5, Write(ov, Temp(t)), [x, y]));
  }

  /** `ir_create_instructions_for_pointer_addition`: the size of what the
      pointer points to goes into a constant, and the other operand is
      multiplied by it. The product becomes the other operand's result, which
      a later read sees only when that operand reads the slot it writes. */
  method ScaleOperand(st: IrState, pointer: Expr, other: Expr, ov: Value) returns (r: Result<Gen>)
    requires GenValid(st) && Mirrors(other, ov)
    ensures Lowered(st, other, r)
    ensures r.Err? <==> PointeeSize(TypeOf(pointer)).Err? || |st.prog| == 0 || st.consts.size == HashMap.MAX_SIZE
    ensures r.Ok? ==>
              var c := st.nextTemp;
              && Layout(r.value.code, ScaleWant(st.scope, c, PointeeSize(TypeOf(pointer)).value, Read(ov)))
              && r.value.st.position == st.position + 3 && r.value.st.nextTemp == c + 2
              && r.value.v == Write(ov, Temp(c + 1))
  {
    var sizeR := PointeeSize(TypeOf(pointer));
    if sizeR.Err? { return Err(sizeR.failure); }
    if |st.prog| == 0 {
      return Err(Aborts("ir_add_const_to_map: the list is empty"));
    }
    r := ScaleBy(st, sizeR.value, other, ov);
  }

  // ---------------------------------------------------------------------------
  // Dispatch
  // ---------------------------------------------------------------------------

  /** `ir_generate_for_expression`. `bare` says that every ancestor is a
      comma expression, a statement list, a compound statement or a function
      definition, as `node_is_expression_just_identifier` asks. Every
      expression appends at least one instruction. */
  method LowerExpr(st: IrState, e: Expr, strings: seq<Symbols.StringSymbol>, bare: bool) returns (r: Result<Gen>)
    requires GenValid(st)
    ensures Lowered(st, e, r)
    ensures r.Ok? ==> |r.value.code| > 0
    decreases e, 4
  {
    match e {
      case Number(_, _) => r := LowerNumber(st, e);
      case Identifier(_, _, _, _, _, _, _) => r := LowerIdentifier(st, e, bare);
      case StringLit(_) => r := LowerString(st, e, strings);
      case Binary(_, _, _, _) => r := LowerBinary(st, e, strings);
      case Unary(_, _, _) => r := LowerUnaryExpr(st, e, strings);
      case Cast(_, _) => r := LowerCast(st, e, strings);
      case Call(_, _, _) => r := LowerCall(st, e, strings);
      case Conditional(_, _, _) => r := LowerConditional(st, e, strings);
      case List(_, _) => r := LowerList(st, e, strings, bare);
    }
  }

  /** `ir_generate_for_binary_operation`: assignment, the short-circuit
      operators, the compound assignments, and the arithmetic and comparison
      operators each have their generator. */
  method LowerBinary(st: IrState, e: Expr, strings: seq<Symbols.StringSymbol>) returns (r: Result<Gen>)
    requires GenValid(st) && e.Binary?
    ensures Lowered(st, e, r)
    ensures r.Ok? ==> |r.value.code| > 0
    decreases e, 3
  {
    if e.op == Assign {
      r := LowerAssign(st, e, strings);
    } else if e.op == LogicalOr || e.op == LogicalAnd {
      r := LowerShortCircuit(st, e, strings);
    } else if IsCompoundAssignment(e.op) {
      r := LowerCompound(st, e, strings, Generic(e.op).value);
    } else {
      r := LowerArith(st, e, strings, Generic(e.op).value);
    }
  }

  /** `ir_generate_for_expression_statement` on a comma expression: the parts
      in order. */
  method LowerList(st: IrState, e: Expr, strings: seq<Symbols.StringSymbol>, bare: bool) returns (r: Result<Gen>)
    requires GenValid(st) && e.List?
    ensures Lowered(st, e, r)
    ensures r.Ok? ==> |r.value.code| > 0
    decreases e, 3
  {
    var ghR := LowerExpr(st, e.head, strings, bare);
    if ghR.Err? { return Err(ghR.failure); }
    var gh := ghR.value;
    if e.next.None? {
      return Ok(Gen(gh.st, ListV(gh.v, None), gh.code));
    }
    var gnR := LowerExpr(gh.st, e.next.value, strings, bare);
    if gnR.Err? { return Err(gnR.failure); }
    var gn := gnR.value;
    Chain(st.prog, gh.code, gh.st.prog, gn.code, gn.st.prog);
    return Ok(Gen(gn.st, ListV(gh.v, Some(gn.v)), gh.code + gn.code));
  }

  // ---------------------------------------------------------------------------
  // Binary operations
  // ---------------------------------------------------------------------------

  /** The two operands of a binary operation: the state after them, their
      values and the code appended for them. */
  datatype Pair = Pair(st: IrState, left: Value, right: Value, code: seq<Instr>)

  /** What a step over both operands promises, as `Lowered` does for one. */
  predicate LoweredPair(st: IrState, left: Expr, right: Expr, r: Result<Pair>) {
    r.Ok? ==>
      && GenValid(r.value.st) && Grows(st, r.value.st) && r.value.st.scope == st.scope
      && r.value.st.prog == st.prog + r.value.code
      && AllWellFormed(r.value.code)
      && Mirrors(left, r.value.left) && Mirrors(right, r.value.right)
  }

  /** Both operands generated, the left one first. */
  method LowerOperands(st: IrState, e: Expr, strings: seq<Symbols.StringSymbol>) returns (r: Result<Pair>)
    requires GenValid(st) && e.Binary?
    ensures LoweredPair(st, e.left, e.right, r)
    ensures r.Ok? ==> |r.value.code| > 0
    decreases e, 0
  {
    var glR := LowerExpr(st, e.left, strings, false);
    if glR.Err? { return Err(glR.failure); }
    var gl := glR.value;
    var grR := LowerExpr(gl.st, e.right, strings, false);
    if grR.Err? { return Err(grR.failure); }
    var gr := grR.value;
    Chain(st.prog, gl.code, gl.st.prog, gr.code, gr.st.prog);
    return Ok(Pair(gr.st, gl.v, gr.v, gl.code + gr.code));
  }

  /** Both operands passed through `ir_convert_lval_to_rval`, the left one
      first. */
  method LoadOperands(st: IrState, left: Expr, right: Expr, lv: Value, rv: Value) returns (r: Result<Pair>)
    requires GenValid(st) && Mirrors(left, lv) && Mirrors(right, rv)
    ensures LoweredPair(st, left, right, r)
    ensures r.Err? <==> (IsLvalue(left) && LoadKind(TypeOf(left)).Err?)
                        || (IsLvalue(right) && LoadKind(TypeOf(right)).Err?)
    ensures r.Ok? ==> |r.value.code| == (if IsLvalue(left) then 1 else 0) + (if IsLvalue(right) then 1 else 0)
  {
    var clR := Rval(st, left, lv);
    if clR.Err? {
      return Err(clR.failure);
    }
    var cl := clR.value;
    var crR := Rval(cl.st, right, rv);
    if crR.Err? { return Err(crR.failure); }
    var cr := crR.value;
    Chain(st.prog, cl.code, cl.st.prog, cr.code, cr.st.prog);
    return Ok(Pair(cr.st, cl.v, cr.v, cl.code + cr.code));
  }

  /** `+` or `-` with an operand `ir_check_if_addition_to_pointer` scales. */
  predicate ScalesPointer(e: Expr)
    requires e.Binary?
  {
    e.op in {Addition, Subtraction} && (Scaled(e.left) || Scaled(e.right))
  }

  /** The operand taken as the pointer: the left one when it qualifies. */
  function PointerSide(e: Expr): (p: Expr)
    requires e.Binary?
    ensures p == e.left || p == e.right
  {
    if Scaled(e.left) then e.left else e.right
  }

  /** Why the scaling of a pointer operand stops: the size of what the
      pointer points to is unknown, the list is empty (`ir_add_const_to_map`
      asserts it is not), or the constant map is full. */
  predicate ScaleFails(st: IrState, e: Expr)
    requires e.Binary?
  {
    ScalesPointer(e) && (PointeeSize(TypeOf(PointerSide(e))).Err? || |st.prog| == 0 || st.consts.size == HashMap.MAX_SIZE)
  }

  /** `ir_check_if_addition_to_pointer`: for `+` and `-`, a left operand that
      is a pointer scales the right one; failing that, a right pointer scales
      the left one. */
  method ScalePointer(st: IrState, e: Expr, lv: Value, rv: Value) returns (r: Result<Pair>)
    requires GenValid(st) && e.Binary? && Mirrors(e.left, lv) && Mirrors(e.right, rv)
    ensures LoweredPair(st, e.left, e.right, r)
    ensures r.Err? <==> ScaleFails(st, e)
    ensures r.Ok? && !ScalesPointer(e) ==> r.value == Pair(st, lv, rv, [])
    ensures r.Ok? && ScalesPointer(e) && Scaled(e.left) ==>
              && Layout(r.value.code, ScaleWant(st.scope, st.nextTemp, PointeeSize(TypeOf(e.left)).value, Read(rv)))
              && r.value.left == lv && r.value.right == Write(rv, Temp(st.nextTemp + 1))
              && r.value.st.nextTemp == st.nextTemp + 2
    ensures r.Ok? && ScalesPointer(e) && !Scaled(e.left) ==>
              && Layout(r.value.code, ScaleWant(st.scope, st.nextTemp, PointeeSize(TypeOf(e.right)).value, Read(lv)))
              && r.value.left == Write(lv, Temp(st.nextTemp + 1)) && r.value.right == rv
              && r.value.st.nextTemp == st.nextTemp + 2
  {
    if e.op !in {Addition, Subtraction} {
      return Ok(Pair(st, lv, rv, []));
    }
    if Scaled(e.left) {
      var gR := ScaleOperand(st, e.left, e.right, rv);
      if gR.Err? { return Err(gR.failure); }
      return Ok(Pair(gR.value.st, lv, gR.value.v, gR.value.code));
    } else if Scaled(e.right) {
      var gR := ScaleOperand(st, e.right, e.left, lv);
      if gR.Err? { return Err(gR.failure); }
      return Ok(Pair(gR.value.st, gR.value.v, rv, gR.value.code));
    }
    return Ok(Pair(st, lv, rv, []));
  }

  /** The instruction of `ir_generate_for_arithmetic_binary_operation`: the
      operation's kind for its type, into a fresh temporary, on the two
      operands as they read now. */
  method ArithInstr(st: IrState, e: Expr, g: GenericKind, lv: Value, rv: Value) returns (r: Result<Gen>)
    requires GenValid(st) && e.Binary?
    ensures Lowered(st, e, r)
    ensures r.Err? <==> InstructionType(e.ty, g).Err?
    ensures r.Ok? ==>
              && Layout(r.value.code, [Want(InstructionType(e.ty, g).value, st.scope, [Temp(st.nextTemp), Read(lv), Read(rv)])])
              && r.value.v == Own(Temp(st.nextTemp))
              && r.value.st.nextTemp == st.nextTemp + 1
  {
    var kindR := InstructionType(e.ty, g);
    if kindR.Err? { return Err(kindR.failure); }
    var (s1, t) := NewTemp(st);
    var s2, x := Emit(s1, kindR.value, [Temp(t), Read(lv), Read(rv)]);
    LayoutOne(x, Want(kindR.value, st.scope, [Temp(t), Read(lv), Read(rv)]));
    return Ok(Gen(s2, Own(Temp(t)), [x]));
  }

  /** The code of an arithmetic operation's tail, temporaries counted from
      `c`: the operation alone, or the scaling of the pointer operand by its
      pointee's size followed by the operation on the scaled value. */
  ghost predicate ArithShape(code: seq<Instr>, scope: string, c: int, e: Expr, g: GenericKind, lv: Value, rv: Value, v: Value)
    requires e.Binary? && InstructionType(e.ty, g).Ok?
  {
    && (!ScalesPointer(e) ==>
          && Layout(code, [Want(InstructionType(e.ty, g).value, scope, [Temp(c), Read(lv), Read(rv)])])
          && v == Own(Temp(c)))
    && (ScalesPointer(e) && Scaled(e.left) ==>
          var op := Want(InstructionType(e.ty, g).value, scope, [Temp(c + 2), Read(lv), Read(Write(rv, Temp(c + 1)))]);
          && PointeeSize(TypeOf(e.left)).Ok?
          && Layout(code, ScaleWant(scope, c, PointeeSize(TypeOf(e.left)).value, Read(rv)) + [op])
          && v == Own(Temp(c + 2)))
    && (ScalesPointer(e) && !Scaled(e.left) ==>
          var op := Want(InstructionType(e.ty, g).value, scope, [Temp(c + 2), Read(Write(lv, Temp(c + 1))), Read(rv)]);
          && PointeeSize(TypeOf(e.right)).Ok?
          && Layout(code, ScaleWant(scope, c, PointeeSize(TypeOf(e.right)).value, Read(lv)) + [op])
          && v == Own(Temp(c + 2)))
  }

  /** The scaling code, when there is any, followed by the operation's lays
      out an arithmetic operation's tail. */
  lemma TailLayout(scope: string, c: int, e: Expr, g: GenericKind, lv: Value, rv: Value,
                   pc: seq<Instr>, n: int, left: Value, right: Value, fc: seq<Instr>, fv: Value)
    requires e.Binary? && InstructionType(e.ty, g).Ok?
    requires Layout(fc, [Want(InstructionType(e.ty, g).value, scope, [Temp(n), Read(left), Read(right)])])
    requires fv == Own(Temp(n))
    requires !ScalesPointer(e) ==> pc == [] && left == lv && right == rv && n == c
    requires ScalesPointer(e) && Scaled(e.left) ==>
               && PointeeSize(TypeOf(e.left)).Ok?
               && Layout(pc, ScaleWant(scope, c, PointeeSize(TypeOf(e.left)).value, Read(rv)))
               && left == lv && right == Write(rv, Temp(c + 1)) && n == c + 2
    requires ScalesPointer(e) && !Scaled(e.left) ==>
               && PointeeSize(TypeOf(e.right)).Ok?
               && Layout(pc, ScaleWant(scope, c, PointeeSize(TypeOf(e.right)).value, Read(lv)))
               && left == Write(lv, Temp(c + 1)) && right == rv && n == c + 2
    ensures ArithShape(pc + fc, scope, c, e, g, lv, rv, fv)
  {
    var w := [Want(InstructionType(e.ty, g).value, scope, [Temp(n), Read(left), Read(right)])];
    if !ScalesPointer(e) {
      assert pc + fc == fc;
    } else {
      var size := PointeeSize(TypeOf(PointerSide(e))).value;
      var other := if Scaled(e.left) then Read(rv) else Read(lv);
      LayoutAppend(pc, ScaleWant(scope, c, size, other), fc, w);
    }
  }

  /** What follows the loads of an arithmetic operation: the scaling of a
      pointer operand, then the operation, whose temporary is the result. The
      operation reads the scaled operand through its value, which sees the
      product only when it reads the slot the product is written to. */
  method ArithTail(st: IrState, e: Expr, g: GenericKind, lv: Value, rv: Value) returns (r: Result<Gen>)
    requires GenValid(st) && e.Binary? && Mirrors(e.left, lv) && Mirrors(e.right, rv)
    ensures Lowered(st, e, r)
    ensures r.Err? <==> ScaleFails(st, e) || InstructionType(e.ty, g).Err?
    ensures r.Ok? ==> InstructionType(e.ty, g).Ok? && ArithShape(r.value.code, st.scope, st.nextTemp, e, g, lv, rv, r.value.v)
  {
    var sR := ScalePointer(st, e, lv, rv);
    if sR.Err? { return Err(sR.failure); }
    var sc := sR.value;
    var fR := ArithInstr(sc.st, e, g, sc.left, sc.right);
    if fR.Err? { return Err(fR.failure); }
    var f := fR.value;
    TailLayout(st.scope, st.nextTemp, e, g, lv, rv, sc.code, sc.st.nextTemp, sc.left, sc.right, f.code, f.v);
    Chain(st.prog, sc.code, sc.st.prog, f.code, f.st.prog);
    return Ok(Gen(f.st, f.v, sc.code + f.code));
  }

  /** Whatever precedes it, the code of an arithmetic operation's tail ends
      with the operation into the result, preceded by the scaling of the
      other operand when a pointer is added to or subtracted from. */
  lemma ArithEnds(pre: seq<Instr>, code: seq<Instr>, scope: string, c: int, e: Expr, g: GenericKind, lv: Value, rv: Value, v: Value)
    requires e.Binary? && InstructionType(e.ty, g).Ok?
    requires ArithShape(code, scope, c, e, g, lv, rv, v)
    ensures Read(v).Temp?
    ensures ArithEndsWith(pre + code, scope, e, g, v)
  {
    var kind := InstructionType(e.ty, g).value;
    if !ScalesPointer(e) {
      var w := [Want(kind, scope, [Temp(c), Read(lv), Read(rv)])];
      EndsWithAfter(pre, code, w);
    } else if Scaled(e.left) {
      var w := ScaleWant(scope, c, PointeeSize(TypeOf(e.left)).value, Read(rv))
               + [Want(kind, scope, [Temp(c + 2), Read(lv), Read(Write(rv, Temp(c + 1)))])];
      EndsWithAfter(pre, code, w);
    } else {
      var w := ScaleWant(scope, c, PointeeSize(TypeOf(e.right)).value, Read(lv))
               + [Want(kind, scope, [Temp(c + 2), Read(Write(lv, Temp(c + 1))), Read(rv)])];
      EndsWithAfter(pre, code, w);
    }
  }

  /** The arithmetic result's tail: the operation into the result temporary,
      preceded by the scaling of the pointer operand when there is one. */
  ghost predicate ArithEndsWith(code: seq<Instr>, scope: string, e: Expr, g: GenericKind, v: Value)
    requires e.Binary? && InstructionType(e.ty, g).Ok?
  {
    && (!ScalesPointer(e) ==>
          exists a, b :: EndsWith(code, [Want(InstructionType(e.ty, g).value, scope, [Read(v), a, b])]))
    && (ScalesPointer(e) ==>
          && PointeeSize(TypeOf(PointerSide(e))).Ok?
          && exists c, x, a, b ::
               EndsWith(code, ScaleWant(scope, c, PointeeSize(TypeOf(PointerSide(e))).value, x)
                              + [Want(InstructionType(e.ty, g).value, scope, [Read(v), a, b])]))
  }

  /** Code placed in front keeps the arithmetic tail. */
  lemma ArithEndsAfter(pre: seq<Instr>, code: seq<Instr>, scope: string, e: Expr, g: GenericKind, v: Value)
    requires e.Binary? && InstructionType(e.ty, g).Ok?
    requires ArithEndsWith(code, scope, e, g, v)
    ensures ArithEndsWith(pre + code, scope, e, g, v)
  {
    var kind := InstructionType(e.ty, g).value;
    if !ScalesPointer(e) {
      var a, b :| EndsWith(code, [Want(kind, scope, [Read(v), a, b])]);
      EndsWithAfter(pre, code, [Want(kind, scope, [Read(v), a, b])]);
    } else {
      var size := PointeeSize(TypeOf(PointerSide(e))).value;
      var c, x, a, b :| EndsWith(code, ScaleWant(scope, c, size, x) + [Want(kind, scope, [Read(v), a, b])]);
      EndsWithAfter(pre, code, ScaleWant(scope, c, size, x) + [Want(kind, scope, [Read(v), a, b])]);
    }
  }

  /** The operands, once generated, loaded and combined into a fresh
      temporary. */
  method ArithRest(st: IrState, e: Expr, g: GenericKind, lv: Value, rv: Value) returns (r: Result<Gen>)
    requires GenValid(st) && e.Binary? && Mirrors(e.left, lv) && Mirrors(e.right, rv)
    ensures Lowered(st, e, r)
    ensures r.Ok? ==> InstructionType(e.ty, g).Ok? && Read(r.value.v).Temp?
    ensures r.Ok? ==> ArithEndsWith(r.value.code, st.scope, e, g, r.value.v)
  {
    var lR := LoadOperands(st, e.left, e.right, lv, rv);
    if lR.Err? { return Err(lR.failure); }
    var l := lR.value;
    var tR := ArithTail(l.st, e, g, l.left, l.right);
    if tR.Err? { return Err(tR.failure); }
    var t := tR.value;
    Chain(st.prog, l.code, l.st.prog, t.code, t.st.prog);
    ArithEnds(l.code, t.code, st.scope, l.st.nextTemp, e, g, l.left, l.right, t.v);
    return Ok(Gen(t.st, t.v, l.code + t.code));
  }

  /** `ir_generate_for_arithmetic_binary_operation`: both operands, loaded,
      the pointer operand of `+`/`-` scaled, then the operation into a fresh
      temporary, which is the result. */
  method LowerArith(st: IrState, e: Expr, strings: seq<Symbols.StringSymbol>, g: GenericKind) returns (r: Result<Gen>)
    requires GenValid(st) && e.Binary?
    ensures Lowered(st, e, r)
    ensures r.Ok? ==> InstructionType(e.ty, g).Ok? && Read(r.value.v).Temp?
    ensures r.Ok? && !ScalesPointer(e) ==>
              exists a, b :: EndsWith(r.value.code, [Want(InstructionType(e.ty, g).value, st.scope, [Read(r.value.v), a, b])])
    ensures r.Ok? && ScalesPointer(e) ==>
              && PointeeSize(TypeOf(PointerSide(e))).Ok?
              && exists c, x, a, b ::
                   EndsWith(r.value.code, ScaleWant(st.scope, c, PointeeSize(TypeOf(PointerSide(e))).value, x)
                                          + [Want(InstructionType(e.ty, g).value, st.scope, [Read(r.value.v), a, b])])
    decreases e, 2
  {
    var pR := LowerOperands(st, e, strings);
    if pR.Err? { return Err(pR.failure); }
    var p := pR.value;
    var aR := ArithRest(p.st, e, g, p.left, p.right);
    if aR.Err? { return Err(aR.failure); }
    var a := aR.value;
    Chain(st.prog, p.code, p.st.prog, a.code, a.st.prog);
    ArithEndsAfter(p.code, a.code, st.scope, e, g, a.v);
    return Ok(Gen(a.st, a.v, p.code + a.code));
  }

  /** The store kind `ir_generate_for_simple_assignment` picks for the left
      side: by its type, except that a pointer is always stored as a word. */
  function StoreKind(t: Type): (r: Result<Opcode>)
    ensures r.Ok? && t.kind == PointerKind ==> r.value == StoreWord
    ensures r.Ok? <==> InstructionType(t, GStore).Ok?
  {
    var k :- InstructionType(t, GStore);
    Ok(if t.kind == PointerKind then StoreWord else k)
  }

  /** Where `ir_generate_for_simple_assignment` stores: a variable's address
      (a fresh temporary if the variable has no operand), or the pointer a
      dereference loaded. Any other left side fails an assert. */
  method AssignTarget(st: IrState, left: Expr, lv: Value) returns (r: Result<(IrState, Operand)>)
    requires GenValid(st) && Mirrors(left, lv)
    ensures r.Err? <==> !left.Identifier? && !IsDereference(left)
    ensures r.Ok? ==> GenValid(r.value.0) && Grows(st, r.value.0) && r.value.0.prog == st.prog
                      && r.value.0.scope == st.scope
    ensures r.Ok? && left.Identifier? && Read(lv) != Unset ==> r.value == (st, Read(lv))
    ensures r.Ok? && IsDereference(left) ==> r.value == (st, Read(lv))
  {
    if left.Identifier? {
      if Read(lv) == Unset {
        var (s1, t) := NewTemp(st);
        return Ok((s1, Temp(t)));
      }
      return Ok((st, Read(lv)));
    } else if IsDereference(left) {
      return Ok((st, Read(lv)));
    }
    return Err(Aborts("assignment to an expression that is neither a variable nor a dereference"));
  }

  /** The end of `ir_generate_for_simple_assignment`: the right side loaded,
      then the store of its operand, which must exist, through `dest`. */
  method AssignStore(st: IrState, e: Expr, kind: Opcode, dest: Operand, rv: Value) returns (r: Result<Gen>)
    requires GenValid(st) && e.Binary? && Mirrors(e.right, rv)
    ensures Lowered(st, e, r)
    ensures !IsLvalue(e.right) ==> (r.Err? <==> Read(rv) == Unset)
    ensures r.Ok? ==> |r.value.code| == (if IsLvalue(e.right) then 2 else 1) && r.value.v == Own(Unset)
    ensures r.Ok? && !IsLvalue(e.right) ==> Layout(r.value.code, [Want(kind, st.scope, [dest, Read(rv)])])
    ensures r.Ok? ==> EndsWith(r.value.code, [Want(kind, st.scope, [dest])])
    ensures r.Ok? ==> r.value.code[|r.value.code| - 1].ops[1] != Unset
  {
    var crR := Rval(st, e.right, rv);
    if crR.Err? { return Err(crR.failure); }
    var cr := crR.value;
    if Read(cr.v) == Unset {
      return Err(Aborts("the right side of an assignment has no operand"));
    }
    var s, x := Emit(cr.st, kind, [dest, Read(cr.v)]);
    var w := Want(kind, st.scope, [dest, Read(cr.v)]);
    LayoutOne(x, w);
    EndsWithAfter(cr.code, [x], [w]);
    EndsLooser(cr.code + [x], w, Want(kind, st.scope, [dest]));
    Chain(st.prog, cr.code, cr.st.prog, [x], s.prog);
    return Ok(Gen(s, Own(Unset), cr.code + [x]));
  }

  /** `ir_generate_for_simple_assignment`: both sides generated, then a store
      of the loaded right side into the variable's address, or into the
      pointer a dereference loaded. The assignment itself has no result. */
  method LowerAssign(st: IrState, e: Expr, strings: seq<Symbols.StringSymbol>) returns (r: Result<Gen>)
    requires GenValid(st) && e.Binary?
    ensures Lowered(st, e, r)
    ensures !e.left.Identifier? && !IsDereference(e.left) ==> r.Err?
    ensures r.Ok? ==>
              var c := r.value.code;
              && |c| > 1 && StoreKind(TypeOf(e.left)).Ok?
              && EndsWith(c, [Want(StoreKind(TypeOf(e.left)).value, st.scope, [])])
              && c[|c| - 1].ops[1] != Unset
              && r.value.v == Own(Unset)
    decreases e, 2
  {
    var pR := LowerOperands(st, e, strings);
    if pR.Err? { return Err(pR.failure); }
    var p := pR.value;
    var kindR := StoreKind(TypeOf(e.left));
    if kindR.Err? { return Err(kindR.failure); }
    var dR := AssignTarget(p.st, e.left, p.left);
    if dR.Err? { return Err(dR.failure); }
    var (s, dest) := dR.value;
    var gR := AssignStore(s, e, kindR.value, dest, p.right);
    if gR.Err? { return Err(gR.failure); }
    var g := gR.value;
    EndsWithAfter(p.code, g.code, [Want(kindR.value, st.scope, [dest])]);
    EndsLooser(p.code + g.code, Want(kindR.value, st.scope, [dest]), Want(kindR.value, st.scope, []));
    Chain(st.prog, p.code, p.st.prog, g.code, g.st.prog);
    return Ok(Gen(g.st, g.v, p.code + g.code));
  }

  /** The two instructions of a compound assignment: the operation `kind` on
      `a` and `b` into the temporary `t`, then its store of kind `store`
      through `target`. */
  function CompoundWant(scope: string, kind: Opcode, store: Opcode, t: int, target: Operand, a: Operand, b: Operand): seq<Want> {
    [Want(kind, scope, [Temp(t), a, b]), Want(store, scope, [target, Temp(t)])]
  }

  /** The end of `ir_generate_for_compound_binary_operation`: the operation
      into a fresh temporary, then its store into `target`, the operand the
      left side had before it was loaded; the result is that operand. */
  method CompoundTail(st: IrState, e: Expr, g: GenericKind, target: Operand, lv: Value, rv: Value) returns (r: Result<Gen>)
    requires GenValid(st) && e.Binary?
    ensures Lowered(st, e, r)
    ensures r.Err? <==> InstructionType(e.ty, g).Err? || InstructionType(e.ty, GStore).Err?
    ensures r.Ok? ==>
              && Layout(r.value.code, CompoundWant(st.scope, InstructionType(e.ty, g).value, InstructionType(e.ty, GStore).value,
                                                   st.nextTemp, target, Read(lv), Read(rv)))
              && r.value.v == Own(target)
  {
    var kindR := InstructionType(e.ty, g);
    if kindR.Err? { return Err(kindR.failure); }
    var (s1, t) := NewTemp(st);
    var s2, x := Emit(s1, kindR.value, [Temp(t), Read(lv), Read(rv)]);
    var kind2R := InstructionType(e.ty, GStore);
    if kind2R.Err? { return Err(kind2R.failure); }
    var s3, y := Emit(s2, kind2R.value, [target, Temp(t)]);
    LayoutTwo(x, y, CompoundWant(st.scope, kindR.value, kind2R.value, t, target, Read(lv), Read(rv)));
    return Ok(Gen(s3, Own(target), [x, y]));
  }

  /** `ir_generate_for_compound_binary_operation`: both operands, loaded, the
      operation on them, and the store of its result through the operand the
      left side had before the load, which is the result. The operator is
      never `+` or `-`, so no pointer is scaled. */
  method LowerCompound(st: IrState, e: Expr, strings: seq<Symbols.StringSymbol>, g: GenericKind) returns (r: Result<Gen>)
    requires GenValid(st) && e.Binary?
    ensures Lowered(st, e, r)
    ensures r.Ok? ==> InstructionType(e.ty, g).Ok? && InstructionType(e.ty, GStore).Ok?
    ensures r.Ok? ==>
              exists t, a, b :: EndsWith(r.value.code, CompoundWant(st.scope, InstructionType(e.ty, g).value,
                                                                    InstructionType(e.ty, GStore).value, t, Read(r.value.v), a, b))
    decreases e, 2
  {
    var pR := LowerOperands(st, e, strings);
    if pR.Err? { return Err(pR.failure); }
    var p := pR.value;
    var target := Read(p.left);
    var lR := LoadOperands(p.st, e.left, e.right, p.left, p.right);
    if lR.Err? { return Err(lR.failure); }
    var l := lR.value;
    var tR := CompoundTail(l.st, e, g, target, l.left, l.right);
    if tR.Err? { return Err(tR.failure); }
    var t := tR.value;
    var w := CompoundWant(st.scope, InstructionType(e.ty, g).value, InstructionType(e.ty, GStore).value,
                          l.st.nextTemp, target, Read(l.left), Read(l.right));
    Chain(st.prog, p.code, p.st.prog, l.code, l.st.prog);
    Chain(st.prog, p.code + l.code, l.st.prog, t.code, t.st.prog);
    EndsWithAfter(p.code + l.code, t.code, w);
    assert Read(t.v) == target;
    return Ok(Gen(t.st, t.v, (p.code + l.code) + t.code));
  }

  // ---------------------------------------------------------------------------
  // Short-circuit operators
  // ---------------------------------------------------------------------------

  /** One operand of a short-circuit operation: generated, converted, and
      followed by the conditional jump `kind` on its operand to `target`. */
  method JumpOperand(st: IrState, x: Expr, strings: seq<Symbols.StringSymbol>, kind: Opcode, target: string)
    returns (r: Result<Gen>)
    requires GenValid(st)
    ensures Lowered(st, x, r)
    ensures r.Ok? ==> |r.value.code| > 1 && EndsWith(r.value.code, [Want(kind, st.scope, [Read(r.value.v), Str(target)])])
    decreases x, 5
  {
    var gR := LowerExpr(st, x, strings, false);
    if gR.Err? { return Err(gR.failure); }
    var g := gR.value;
    var cR := ConvertIdentifier(g.st, x, g.v);
    if cR.Err? { return Err(cR.failure); }
    var c := cR.value;
    var s, y := Emit(c.st, kind, [Read(c.v), Str(target)]);
    var w := Want(kind, st.scope, [Read(c.v), Str(target)]);
    LayoutOne(y, w);
    Chain(st.prog, g.code, g.st.prog, c.code, c.st.prog);
    Chain(st.prog, g.code + c.code, c.st.prog, [y], s.prog);
    EndsWithAfter(g.code + c.code, [y], [w]);
    return Ok(Gen(s, c.v, (g.code + c.code) + [y]));
  }

  /** The jump both operands of a short-circuit operation end with:
      `gotoIfTrue` for `||`, `gotoIfFalse` for `&&`. */
  function ShortCircuitJump(isOr: bool): Opcode {
    if isOr then GotoIfTrue else GotoIfFalse
  }

  /** The value of a short-circuit operation when neither operand jumped:
      0 for `||`, 1 for `&&`. */
  function Unjumped(isOr: bool): int {
    if isOr then 0 else 1
  }

  /** The jump `kind` to `inL` in `scope`, on any operand. */
  function JumpWant(scope: string, kind: Opcode, inL: string): Want {
    Want(kind, scope, [Unset, Str(inL)])
  }

  /** The code of both operands: it ends with a jump `kind` to `inL`, and an
      earlier jump of the same kind to `inL` ends the first operand. */
  predicate TwoJumps(code: seq<Instr>, scope: string, kind: Opcode, inL: string) {
    && |code| > 1 && EndsWith(code, [JumpWant(scope, kind, inL)])
    && exists i :: 0 <= i < |code| - 1 && Fits(code[i], JumpWant(scope, kind, inL))
  }

  /** Both operands of a short-circuit operation, each generated, converted
      and followed by the jump `kind` to `inL`. */
  method JumpOperands(st: IrState, e: Expr, strings: seq<Symbols.StringSymbol>, kind: Opcode, inL: string)
    returns (r: Result<Gen>)
    requires GenValid(st) && e.Binary?
    ensures r.Ok? ==> GenValid(r.value.st) && Grows(st, r.value.st) && r.value.st.scope == st.scope
    ensures r.Ok? ==> r.value.st.prog == st.prog + r.value.code && AllWellFormed(r.value.code)
    ensures r.Ok? ==> TwoJumps(r.value.code, st.scope, kind, inL)
    decreases e, 1
  {
    var lR := JumpOperand(st, e.left, strings, kind, inL);
    if lR.Err? { return Err(lR.failure); }
    var l := lR.value;
    var rR := JumpOperand(l.st, e.right, strings, kind, inL);
    if rR.Err? { return Err(rR.failure); }
    var rt := rR.value;
    Chain(st.prog, l.code, l.st.prog, rt.code, rt.st.prog);
    var code := l.code + rt.code;
    var j := JumpWant(st.scope, kind, inL);
    var i := |l.code| - 1;
    EndsLooser(l.code, Want(kind, st.scope, [Read(l.v), Str(inL)]), j);
    assert Fits(l.code[i + 0], [j][0]);
    assert code[i] == l.code[i];
    EndsWithAfter(l.code, rt.code, [Want(kind, st.scope, [Read(rt.v), Str(inL)])]);
    EndsLooser(code, Want(kind, st.scope, [Read(rt.v), Str(inL)]), j);
    return Ok(Gen(rt.st, Own(Unset), code));
  }

  /** The first half of the join of `ir_generate_for_short_circuit_operations`:
      the constant `unjumped` (the value when no jump was taken) into `f1`,
      a jump to `outL`, and the label `inL` the operands jump to. */
  function StartWant(scope: string, f1: int, unjumped: int, inL: string, outL: string): seq<Want> {
    [Want(ConstInt, scope, [Temp(f1), Num(unjumped)]), Want(Opcode.Goto, scope, [Str(outL)]), Want(Label, scope, [Str(inL)])]
  }

  /** The second half of the join: the constant `jumped` into `f4`, the
      label `outL`, and the phi of the temporaries `t` and `t + 1` into
      `t + 2`. */
  function EndWant(scope: string, f4: int, jumped: int, outL: string, t: int): seq<Want> {
    [Want(ConstInt, scope, [Temp(f4), Num(jumped)]), Want(Label, scope, [Str(outL)]),
     Want(Phi, scope, [Temp(t + 2), Temp(t), Temp(t + 1)])]
  }

  /** The temporary the first constant of the join writes: the one it takes,
      `t`, or the phi's, `t + 2`, when registers are reset. */
  function FirstConstant(reset: bool, t: int): int {
    if reset then t + 2 else t
  }

  /** The temporary the second constant writes: `t + 1`, or the phi's. */
  function SecondConstant(reset: bool, t: int): int {
    if reset then t + 2 else t + 1
  }

  /** The six instructions of the join, the first constant having taken the
      temporary `t`. */
  function JoinWant(scope: string, isOr: bool, reset: bool, t: int, inL: string, outL: string): seq<Want> {
    StartWant(scope, FirstConstant(reset, t), Unjumped(isOr), inL, outL)
    + EndWant(scope, SecondConstant(reset, t), 1 - Unjumped(isOr), outL, t)
  }

  /** The first half of the join: the constant is appended, then recorded in
      the constant map under the temporary it took. */
  method JoinStart(st: IrState, unjumped: int, f1: int, inL: string, outL: string) returns (r: Result<Gen>)
    requires GenValid(st)
    ensures r.Err? <==> st.consts.size == HashMap.MAX_SIZE
    ensures r.Ok? ==>
              var b := r.value.st;
              && GenValid(b) && Grows(st, b) && b.scope == st.scope && b.nextTemp == st.nextTemp + 1
              && b.prog == st.prog + r.value.code
              && Layout(r.value.code, StartWant(st.scope, f1, unjumped, inL, outL))
              && ConstValue(b.consts, st.nextTemp) == Some(Wrap32(unjumped))
  {
    var (s1, t) := NewTemp(st);
    var s2, x := Emit(s1, ConstInt, [Temp(f1), Num(unjumped)]);
    var s3R := RecordConst(s2, t, unjumped);
    if s3R.Err? { return Err(s3R.failure); }
    var s4, y := Emit(s3R.value, Opcode.Goto, [Str(outL)]);
    var s5, z := Emit(s4, Label, [Str(inL)]);
    LayoutThree(x, y, z, StartWant(st.scope, f1, unjumped, inL, outL));
    AppendedThree(st.prog, x, y, z, s5.prog);
    return Ok(Gen(s5, Own(Unset), [x, y, z]));
  }

  /** The second half of the join, after the first constant took the
      temporary `t`: the constant takes the next temporary and is recorded
      under it, and the phi takes the one after. */
  method JoinEnd(st: IrState, jumped: int, f4: int, outL: string, t: int) returns (r: Result<Gen>)
    requires GenValid(st) && st.nextTemp == t + 1
    ensures r.Err? <==> st.consts.size == HashMap.MAX_SIZE
    ensures r.Ok? ==>
              var b := r.value.st;
              && GenValid(b) && Grows(st, b) && b.scope == st.scope && b.nextTemp == t + 3
              && b.prog == st.prog + r.value.code
              && Layout(r.value.code, EndWant(st.scope, f4, jumped, outL, t))
              && ConstValue(b.consts, t + 1) == Some(Wrap32(jumped))
              && r.value.v == Own(Temp(t + 2))
  {
    var (s1, c) := NewTemp(st);
    var s2, x := Emit(s1, ConstInt, [Temp(f4), Num(jumped)]);
    var s3R := RecordConst(s2, c, jumped);
    if s3R.Err? { return Err(s3R.failure); }
    var s4, y := Emit(s3R.value, Label, [Str(outL)]);
    var (s5, tp) := NewTemp(s4);
    var s6, z := Emit(s5, Phi, [Temp(t + 2), Temp(t), Temp(t + 1)]);
    LayoutThree(x, y, z, EndWant(st.scope, f4, jumped, outL, t));
    AppendedThree(st.prog, x, y, z, s6.prog);
    return Ok(Gen(s6, Own(Temp(t + 2)), [x, y, z]));
  }

  /** The join of `ir_generate_for_short_circuit_operations`. The two
      constants take the next two temporaries and the phi the third; when
      registers are reset, `ir_assign_final_register_short_circuit`
      renumbers both constants to the phi's temporary, so they are built with
      the numbers they end up with. The phi's temporary is the result. */
  method ShortCircuitJoin(st: IrState, isOr: bool, inL: string, outL: string) returns (r: Result<Gen>)
    requires GenValid(st)
    ensures r.Ok? ==> GenValid(r.value.st) && Grows(st, r.value.st) && r.value.st.scope == st.scope
    ensures r.Ok? ==> r.value.st.prog == st.prog + r.value.code
    ensures r.Ok? ==> Layout(r.value.code, JoinWant(st.scope, isOr, st.resetRegisters, st.nextTemp, inL, outL))
    ensures r.Ok? ==> r.value.v == Own(Temp(st.nextTemp + 2))
  {
    var t := st.nextTemp;
    var f1 := FirstConstant(st.resetRegisters, t);
    var f4 := SecondConstant(st.resetRegisters, t);
    var aR := JoinStart(st, Unjumped(isOr), f1, inL, outL);
    if aR.Err? { return Err(aR.failure); }
    var a := aR.value;
    var bR := JoinEnd(a.st, 1 - Unjumped(isOr), f4, outL, t);
    if bR.Err? { return Err(bR.failure); }
    var b := bR.value;
    LayoutAppend(a.code, StartWant(st.scope, f1, Unjumped(isOr), inL, outL), b.code, EndWant(st.scope, f4, 1 - Unjumped(isOr), outL, t));
    LayoutWellFormed(a.code, StartWant(st.scope, f1, Unjumped(isOr), inL, outL));
    LayoutWellFormed(b.code, EndWant(st.scope, f4, 1 - Unjumped(isOr), outL, t));
    Chain(st.prog, a.code, a.st.prog, b.code, b.st.prog);
    return Ok(Gen(b.st, b.v, a.code + b.code));
  }

  /** What the join means for the phi: when registers are reset both
      constants write the phi's own temporary, so that whichever path ran
      leaves its value there; otherwise the phi reads the temporaries the two
      constants write. The first constant holds the value when no operand
      jumped, the second the other truth value. */
  lemma {:induction false} JoinPhi(code: seq<Instr>, scope: string, isOr: bool, reset: bool, t: int, inL: string, outL: string)
    requires Layout(code, JoinWant(scope, isOr, reset, t, inL, outL))
    ensures |code| == 6 && AllWellFormed(code)
    ensures code[0].ops[1] == Num(Unjumped(isOr)) && code[3].ops[1] == Num(1 - Unjumped(isOr))
    ensures code[1].ops[0] == Str(outL) && code[2].ops[0] == Str(inL) && code[4].ops[0] == Str(outL)
    ensures reset ==> code[0].ops[0] == code[5].ops[0] && code[3].ops[0] == code[5].ops[0]
    ensures !reset ==> code[5].ops[1] == code[0].ops[0] && code[5].ops[2] == code[3].ops[0]
  {
    var w := JoinWant(scope, isOr, reset, t, inL, outL);
    LayoutWellFormed(code, w);
    assert Fits(code[0 + 0], w[0]) && Fits(code[0 + 1], w[1]) && Fits(code[0 + 2], w[2]);
    assert Fits(code[0 + 3], w[3]) && Fits(code[0 + 4], w[4]) && Fits(code[0 + 5], w[5]);
    assert w[0].ops[0] == Temp(FirstConstant(reset, t)) && w[0].ops[1] == Num(Unjumped(isOr));
    assert w[3].ops[0] == Temp(SecondConstant(reset, t)) && w[3].ops[1] == Num(1 - Unjumped(isOr));
    assert w[5].ops[0] == Temp(t + 2) && w[5].ops[1] == Temp(t) && w[5].ops[2] == Temp(t + 1);
  }

  /** The code of a short-circuit operation whose labels are the `a`th and
      the next, and whose phi writes temporary `p` (the join's constants
      took the two before it): both operands, each ending with its jump to
      the first label, then the join. */
  predicate ShortCircuitCode(code: seq<Instr>, scope: string, isOr: bool, reset: bool, p: int, a: nat) {
    var inL := LabelName(a);
    && |code| > 7
    && EndsWith(code, [JumpWant(scope, ShortCircuitJump(isOr), inL)] + JoinWant(scope, isOr, reset, p - 2, inL, LabelName(a + 1)))
    && exists i :: 0 <= i < |code| - 7 && Fits(code[i], JumpWant(scope, ShortCircuitJump(isOr), inL))
  }

  /** The operands' code followed by the join's is a short-circuit
      operation's code. */
  lemma ShortCircuitLayout(jc: seq<Instr>, kc: seq<Instr>, scope: string, isOr: bool, reset: bool, t: int, p: int,
                            inL: string, outL: string, a: nat, b: nat)
    requires inL == LabelName(a)
    requires b == a + 1 && outL == LabelName(b)
    requires TwoJumps(jc, scope, ShortCircuitJump(isOr), inL)
    requires Layout(kc, JoinWant(scope, isOr, reset, t, inL, outL))
    requires p == t + 2
    ensures ShortCircuitCode(jc + kc, scope, isOr, reset, p, a)
  {
    assert p - 2 == t;
    var jw := JumpWant(scope, ShortCircuitJump(isOr), LabelName(a));
    EndsWithThen(jc, [jw], kc, JoinWant(scope, isOr, reset, t, LabelName(a), LabelName(a + 1)));
    var i :| 0 <= i < |jc| - 1 && Fits(jc[i], jw);
    assert (jc + kc)[i] == jc[i];
  }

  /** `ir_generate_for_short_circuit_operations`: two fresh labels, then each
      operand followed by a conditional jump to the first label, then the
      join, whose phi holds the result. */
  method LowerShortCircuit(st: IrState, e: Expr, strings: seq<Symbols.StringSymbol>) returns (r: Result<Gen>)
    requires GenValid(st) && e.Binary? && (e.op == LogicalOr || e.op == LogicalAnd)
    ensures Lowered(st, e, r)
    ensures r.Ok? ==> Read(r.value.v).Temp?
    ensures r.Ok? ==> ShortCircuitCode(r.value.code, st.scope, e.op == LogicalOr, st.resetRegisters, Read(r.value.v).t,
                                       st.labelCount)
    decreases e, 2
  {
    var isOr := e.op == LogicalOr;
    var (s1, inL) := NewLabel(st);
    var (s2, outL) := NewLabel(s1);
    var jR := JumpOperands(s2, e, strings, ShortCircuitJump(isOr), inL);
    if jR.Err? { return Err(jR.failure); }
    var j := jR.value;
    var kR := ShortCircuitJoin(j.st, isOr, inL, outL);
    if kR.Err? { return Err(kR.failure); }
    var k := kR.value;
    var t := j.st.nextTemp;
    LayoutWellFormed(k.code, JoinWant(st.scope, isOr, st.resetRegisters, t, inL, outL));
    Chain(st.prog, j.code, j.st.prog, k.code, k.st.prog);
    ShortCircuitLayout(j.code, k.code, st.scope, isOr, st.resetRegisters, t, Read(k.v).t, inL, outL, st.labelCount, s1.labelCount);
    return Ok(Gen(k.st, k.v, j.code + k.code));
  }

  // ---------------------------------------------------------------------------
  // Unary operations and casts
  // ---------------------------------------------------------------------------

  /** `ir_generate_for_unary_operation`: the increments and decrements have
      their own generator, which fails on a pointer operand and ends with
      the store of the new value; the other operators end with their
      negation or pass their operand's value on. */
  method LowerUnaryExpr(st: IrState, e: Expr, strings: seq<Symbols.StringSymbol>) returns (r: Result<Gen>)
    requires GenValid(st) && e.Unary?
    ensures Lowered(st, e, r)
    ensures r.Ok? ==> |r.value.code| > 0
    ensures e.uop in {PreIncrement, PreDecrement, PostIncrement, PostDecrement} ==>
              && (TypeOf(e.operand).kind == PointerKind ==> r.Err?)
              && (r.Ok? ==>
                    && InstructionType(e.ty, IncDecGeneric(e.uop)).Ok? && InstructionType(e.ty, GStore).Ok?
                    && exists one, target, x ::
                         && EndsWith(r.value.code, IncDecWant(st.scope, one, InstructionType(e.ty, IncDecGeneric(e.uop)).value,
                                                              InstructionType(e.ty, GStore).value, target, x))
                         && Read(r.value.v) == (if e.uop in {PostIncrement, PostDecrement} then target else Temp(one + 1)))
    ensures r.Ok? && e.uop in {Hyphen, LogicalNegation, BitwiseNegation} ==>
              && Read(r.value.v).Temp?
              && exists a :: EndsWith(r.value.code, [Want(NegationKind(e.uop), st.scope, [Read(r.value.v), a])])
    ensures r.Ok? && e.uop !in {Hyphen, LogicalNegation, BitwiseNegation, PreIncrement, PreDecrement, PostIncrement, PostDecrement} ==>
              r.value.v.UnaryV? && Read(r.value.v) == Read(r.value.v.inner)
    decreases e, 3
  {
    if e.uop in {PreIncrement, PreDecrement, PostIncrement, PostDecrement} {
      r := LowerIncDec(st, e, strings);
    } else {
      r := LowerUnary(st, e, strings);
    }
  }

  /** `ir_generate_for_specific_unary_operation` after the load: the negation
      into a fresh temporary, which becomes the node's own result. */
  method NegationInstr(st: IrState, e: Expr, ov: Value) returns (r: Gen)
    requires GenValid(st) && e.Unary? && e.uop in {Hyphen, LogicalNegation, BitwiseNegation}
    requires Mirrors(e.operand, ov)
    ensures Lowered(st, e, Ok(r))
    ensures Layout(r.code, [Want(NegationKind(e.uop), st.scope, [Temp(st.nextTemp), Read(ov)])])
    ensures r.v == UnaryV(true, Temp(st.nextTemp), ov)
  {
    var (s1, t) := NewTemp(st);
    var s2, x := Emit(s1, NegationKind(e.uop), [Temp(t), Read(ov)]);
    LayoutOne(x, Want(NegationKind(e.uop), st.scope, [Temp(t), Read(ov)]));
    return Gen(s2, UnaryV(true, Temp(t), ov), [x]);
  }

  /** `ir_generate_for_unary_operation` for the operators other than the
      increments: a negation loads its operand and computes into a fresh
      temporary, which is the result; `*` loads its operand; `+` and `&` only
      generate it and read its result. */
  method LowerUnary(st: IrState, e: Expr, strings: seq<Symbols.StringSymbol>) returns (r: Result<Gen>)
    requires GenValid(st) && e.Unary? && e.uop !in {PreIncrement, PreDecrement, PostIncrement, PostDecrement}
    ensures Lowered(st, e, r)
    ensures r.Ok? ==> |r.value.code| > 0
    ensures r.Ok? && e.uop in {Hyphen, LogicalNegation, BitwiseNegation} ==>
              && Read(r.value.v).Temp?
              && exists a :: EndsWith(r.value.code, [Want(NegationKind(e.uop), st.scope, [Read(r.value.v), a])])
    ensures r.Ok? && e.uop !in {Hyphen, LogicalNegation, BitwiseNegation} ==>
              r.value.v.UnaryV? && Read(r.value.v) == Read(r.value.v.inner)
    decreases e, 2
  {
    var giR := LowerExpr(st, e.operand, strings, false);
    if giR.Err? { return Err(giR.failure); }
    var gi := giR.value;
    if e.uop !in {Hyphen, LogicalNegation, BitwiseNegation, Pointer} {
      return Ok(Gen(gi.st, UnaryV(false, Unset, gi.v), gi.code));
    }
    var ciR := Rval(gi.st, e.operand, gi.v);
    if ciR.Err? { return Err(ciR.failure); }
    var ci := ciR.value;
    if e.uop == Pointer {
      Chain(st.prog, gi.code, gi.st.prog, ci.code, ci.st.prog);
      return Ok(Gen(ci.st, UnaryV(false, Unset, ci.v), gi.code + ci.code));
    }
    var n := NegationInstr(ci.st, e, ci.v);
    Chain(st.prog, gi.code, gi.st.prog, ci.code, ci.st.prog);
    Chain(st.prog, gi.code + ci.code, ci.st.prog, n.code, n.st.prog);
    EndsWithAfter(gi.code + ci.code, n.code, [Want(NegationKind(e.uop), st.scope, [Temp(ci.st.nextTemp), Read(ci.v)])]);
    return Ok(Gen(n.st, n.v, (gi.code + ci.code) + n.code));
  }

  /** The three instructions of an increment or decrement: the constant 1
      into `one`, the operation `kind` of `x` and it into the next temporary,
      and the store `store` of that through `target`. */
  function IncDecWant(scope: string, one: int, kind: Opcode, store: Opcode, target: Operand, x: Operand): seq<Want> {
    [Want(ConstInt, scope, [Temp(one), Num(1)]), Want(kind, scope, [Temp(one + 1), x, Temp(one)]),
     Want(store, scope, [target, Temp(one + 1)])]
  }

  /** The addition for an increment, the subtraction for a decrement. */
  function IncDecGeneric(op: UnaryOp): GenericKind {
    if op in {PreIncrement, PostIncrement} then GAdd else GSub
  }

  /** The constant 1 of an increment or decrement, in a fresh temporary,
      appended and then recorded in the constant map. */
  method ConstantOne(st: IrState) returns (r: Result<IrState>, x: Instr)
    requires GenValid(st)
    ensures r.Err? <==> st.consts.size == HashMap.MAX_SIZE
    ensures Fits(x, Want(ConstInt, st.scope, [Temp(st.nextTemp), Num(1)]))
    ensures r.Ok? ==>
              var b := r.value;
              && GenValid(b) && Grows(st, b) && b.scope == st.scope && b.nextTemp == st.nextTemp + 1
              && b.prog == st.prog + [x] && ConstValue(b.consts, st.nextTemp) == Some(1)
  {
    var (s1, one) := NewTemp(st);
    var s2;
    s2, x := Emit(s1, ConstInt, [Temp(one), Num(1)]);
    r := RecordConst(s2, one, 1);
  }

  /** The instructions of `ir_generate_for_inc_dec_operations` after the
      load: the constant 1 into a fresh temporary, appended and then
      recorded in the constant map; the addition or subtraction of it into
      another temporary; the store of that sum through `target`, the operand
      the operand had before its load. A prefix operation's result is the
      sum, a postfix one's `target`. */
  method IncDecTail(st: IrState, e: Expr, target: Operand, ov: Value) returns (r: Result<Gen>)
    requires GenValid(st) && e.Unary? && e.uop in {PreIncrement, PreDecrement, PostIncrement, PostDecrement}
    requires Mirrors(e.operand, ov)
    ensures Lowered(st, e, r)
    ensures r.Err? <==> st.consts.size == HashMap.MAX_SIZE || InstructionType(e.ty, IncDecGeneric(e.uop)).Err?
                        || InstructionType(e.ty, GStore).Err?
    ensures r.Ok? ==>
              var one := st.nextTemp;
              && Layout(r.value.code, IncDecWant(st.scope, one, InstructionType(e.ty, IncDecGeneric(e.uop)).value,
                                                 InstructionType(e.ty, GStore).value, target, Read(ov)))
              && Read(r.value.v) == (if e.uop in {PostIncrement, PostDecrement} then target else Temp(one + 1))
              && ConstValue(r.value.st.consts, one) == Some(1)
  {
    var isPost := e.uop in {PostIncrement, PostDecrement};
    var one := st.nextTemp;
    var s3R, x := ConstantOne(st);
    if s3R.Err? { return Err(s3R.failure); }
    var kindR := InstructionType(e.ty, IncDecGeneric(e.uop));
    if kindR.Err? { return Err(kindR.failure); }
    var (s4, t) := NewTemp(s3R.value);
    var s5, y := Emit(s4, kindR.value, [Temp(t), Read(ov), Temp(one)]);
    var kind2R := InstructionType(e.ty, GStore);
    if kind2R.Err? { return Err(kind2R.failure); }
    var s6, z := Emit(s5, kind2R.value, [target, Temp(t)]);
    LayoutThree(x, y, z, IncDecWant(st.scope, one, kindR.value, kind2R.value, target, Read(ov)));
    AppendedThree(st.prog, x, y, z, s6.prog);
    var result := if isPost then target else Temp(t);
    return Ok(Gen(s6, UnaryV(true, result, ov), [x, y, z]));
  }

  /** `ir_generate_for_inc_dec_operations`: the operand, converted, then the
      constant, the sum and the store through the operand's own slot. For a
      pointer operand the constant is never appended, yet its operands are
      read for the constant map before anything sets them. */
  method LowerIncDec(st: IrState, e: Expr, strings: seq<Symbols.StringSymbol>) returns (r: Result<Gen>)
    requires GenValid(st) && e.Unary? && e.uop in {PreIncrement, PreDecrement, PostIncrement, PostDecrement}
    ensures Lowered(st, e, r)
    ensures TypeOf(e.operand).kind == PointerKind ==> r.Err?
    ensures r.Ok? ==> InstructionType(e.ty, IncDecGeneric(e.uop)).Ok? && InstructionType(e.ty, GStore).Ok?
    ensures r.Ok? ==>
              exists one, target, x ::
                && EndsWith(r.value.code, IncDecWant(st.scope, one, InstructionType(e.ty, IncDecGeneric(e.uop)).value,
                                                     InstructionType(e.ty, GStore).value, target, x))
                && Read(r.value.v) == (if e.uop in {PostIncrement, PostDecrement} then target else Temp(one + 1))
    decreases e, 2
  {
    var giR := LowerExpr(st, e.operand, strings, false);
    if giR.Err? { return Err(giR.failure); }
    var gi := giR.value;
    var target := Read(gi.v);
    var ciR := ConvertIdentifier(gi.st, e.operand, gi.v);
    if ciR.Err? { return Err(ciR.failure); }
    var ci := ciR.value;
    if TypeOf(e.operand).kind == PointerKind {
      return Err(Undefined("the constant of a pointer increment is read before it is set"));
    }
    var tR := IncDecTail(ci.st, e, target, ci.v);
    if tR.Err? { return Err(tR.failure); }
    var t := tR.value;
    Chain(st.prog, gi.code, gi.st.prog, ci.code, ci.st.prog);
    Chain(st.prog, gi.code + ci.code, ci.st.prog, t.code, t.st.prog);
    EndsWithAfter(gi.code + ci.code, t.code,
                  IncDecWant(st.scope, ci.st.nextTemp, InstructionType(e.ty, IncDecGeneric(e.uop)).value,
                             InstructionType(e.ty, GStore).value, target, Read(ci.v)));
    return Ok(Gen(t.st, t.v, (gi.code + ci.code) + t.code));
  }

  /** The cast kind of a cast expression, by the table of
      `ir_generate_for_cast_operation`. */
  function CastOf(e: Expr): (r: Result<Opcode>)
    requires e.Cast?
  {
    CastKind(TypeOf(e.operand).basic, e.target.basic, e.target.isUnsigned)
  }

  /** The end of `ir_generate_for_cast_operation`: a cast between equal
      widths appends nothing and leaves the operand's result to be read;
      any other cast converts into a fresh temporary, read from then on. */
  method CastInstr(st: IrState, e: Expr, ov: Value) returns (r: Result<Gen>)
    requires GenValid(st) && e.Cast? && Mirrors(e.operand, ov)
    ensures Lowered(st, e, r)
    ensures r.Err? <==> CastOf(e).Err?
    ensures r.Ok? && CastOf(e).value == NoOperation ==> r.value == Gen(st, CastV(Unset, ov), [])
    ensures r.Ok? && CastOf(e).value != NoOperation ==>
              && Layout(r.value.code, [Want(CastOf(e).value, st.scope, [Temp(st.nextTemp), Read(ov)])])
              && r.value.v == CastV(Temp(st.nextTemp), ov)
  {
    var kindR := CastOf(e);
    if kindR.Err? { return Err(kindR.failure); }
    if kindR.value == NoOperation {
      return Ok(Gen(st, CastV(Unset, ov), []));
    }
    var (s1, t) := NewTemp(st);
    var s2, x := Emit(s1, kindR.value, [Temp(t), Read(ov)]);
    LayoutOne(x, Want(kindR.value, st.scope, [Temp(t), Read(ov)]));
    return Ok(Gen(s2, CastV(Temp(t), ov), [x]));
  }

  /** `ir_generate_for_cast_operation`: the operand, loaded, then the cast
      instruction of the cast table, if any. */
  method LowerCast(st: IrState, e: Expr, strings: seq<Symbols.StringSymbol>) returns (r: Result<Gen>)
    requires GenValid(st) && e.Cast?
    ensures Lowered(st, e, r)
    ensures r.Ok? ==> |r.value.code| > 0 && CastOf(e).Ok?
    ensures r.Ok? && CastOf(e).value == NoOperation ==>
              r.value.v.slot == Unset && Read(r.value.v) == Read(r.value.v.inner)
    ensures r.Ok? && CastOf(e).value != NoOperation ==>
              && Read(r.value.v).Temp?
              && exists a :: EndsWith(r.value.code, [Want(CastOf(e).value, st.scope, [Read(r.value.v), a])])
    decreases e, 2
  {
    var giR := LowerExpr(st, e.operand, strings, false);
    if giR.Err? { return Err(giR.failure); }
    var gi := giR.value;
    var ciR := Rval(gi.st, e.operand, gi.v);
    if ciR.Err? { return Err(ciR.failure); }
    var ci := ciR.value;
    var kR := CastInstr(ci.st, e, ci.v);
    if kR.Err? { return Err(kR.failure); }
    var k := kR.value;
    Chain(st.prog, gi.code, gi.st.prog, ci.code, ci.st.prog);
    Chain(st.prog, gi.code + ci.code, ci.st.prog, k.code, k.st.prog);
    if CastOf(e).value != NoOperation {
      EndsWithAfter(gi.code + ci.code, k.code, [Want(CastOf(e).value, st.scope, [Temp(ci.st.nextTemp), Read(ci.v)])]);
    }
    return Ok(Gen(k.st, k.v, (gi.code + ci.code) + k.code));
  }

  // ---------------------------------------------------------------------------
  // Calls
  // ---------------------------------------------------------------------------

  /** One argument of `ir_handle_function_arguments`, once generated: loaded,
      then passed by a `parameter` numbered by the global count, which
      counts up. */
  method PassArgument(st: IrState, a: Expr, av: Value) returns (r: Result<Gen>)
    requires GenValid(st) && Mirrors(a, av)
    ensures Lowered(st, a, r)
    ensures r.Err? <==> IsLvalue(a) && LoadKind(TypeOf(a)).Err?
    ensures r.Ok? ==> r.value.st.paramCount == st.paramCount + 1
    ensures r.Ok? ==> EndsWith(r.value.code, [Want(Parameter, st.scope, [Num(st.paramCount), Read(r.value.v)])])
  {
    var caR := Rval(st, a, av);
    if caR.Err? { return Err(caR.failure); }
    var ca := caR.value;
    var s1, x := Emit(ca.st, Parameter, [Num(ca.st.paramCount), Read(ca.v)]);
    var w := Want(Parameter, st.scope, [Num(st.paramCount), Read(ca.v)]);
    LayoutOne(x, w);
    EndsWithAfter(ca.code, [x], [w]);
    Chain(st.prog, ca.code, ca.st.prog, [x], s1.prog);
    return Ok(Gen(s1.(paramCount := s1.paramCount + 1), ca.v, ca.code + [x]));
  }

  /** `ir_handle_function_arguments`: the arguments in order, each generated
      and passed; a call with arguments first restarts the global count at
      0, so a call inside an argument shifts the numbers of the arguments
      after it. */
  method LowerArgs(st: IrState, e: Expr, strings: seq<Symbols.StringSymbol>) returns (r: Result<Gen>)
    requires GenValid(st) && e.Call?
    ensures r.Ok? ==>
              && GenValid(r.value.st) && Grows(st, r.value.st) && r.value.st.scope == st.scope
              && r.value.st.prog == st.prog + r.value.code && AllWellFormed(r.value.code)
              && |r.value.code| >= 2 * |e.args|
    decreases e, 1
  {
    var s := if |e.args| > 0 then st.(paramCount := 0) else st;
    var code: seq<Instr> := [];
    var i := 0;
    while i < |e.args|
      invariant 0 <= i <= |e.args|
      invariant GenValid(s) && Grows(st, s) && s.scope == st.scope
      invariant s.prog == st.prog + code && AllWellFormed(code) && |code| >= 2 * i
    {
      var gaR := LowerExpr(s, e.args[i], strings, false);
      if gaR.Err? { return Err(gaR.failure); }
      var ga := gaR.value;
      var pR := PassArgument(ga.st, e.args[i], ga.v);
      if pR.Err? { return Err(pR.failure); }
      var pa := pR.value;
      s, code := pa.st, (code + ga.code) + pa.code;
      i := i + 1;
    }
    return Ok(Gen(s, CallV(Unset), code));
  }

  /** The instruction kind of a call: a system call when the name mentions
      "syscall". */
  function CallKind(name: string): (k: Opcode)
    ensures k == SysCall <==> Symbols.IsSyscall(name)
    ensures k != SysCall ==> k == Opcode.Call
  {
    if Symbols.IsSyscall(name) then SysCall else Opcode.Call
  }

  /** The operands of a call: the name called (global functions carry the
      global prefix, system calls do not), and the plain name the MIPS step
      needs. */
  function CallOperands(name: string): (ops: seq<Operand>)
    ensures |ops| == 2 && ops[1] == Str(name)
    ensures Symbols.IsSyscall(name) ==> ops[0] == Str(name)
    ensures !Symbols.IsSyscall(name) ==> ops[0] == Str(FunctionName(name))
  {
    [Str(if Symbols.IsSyscall(name) then name else FunctionName(name)), Str(name)]
  }

  /** The end of `ir_generate_for_function_call`: the call, then, unless the
      function returns void, its result into a fresh temporary. */
  method CallInstrs(st: IrState, e: Expr) returns (r: Result<Gen>)
    requires GenValid(st) && e.Call?
    ensures Lowered(st, e, r)
    ensures r.Err? <==> e.ty.basic != Void && InstructionType(e.ty, GResult).Err?
    ensures r.Ok? && e.ty.basic == Void ==>
              && Layout(r.value.code, [Want(CallKind(e.name), st.scope, CallOperands(e.name))])
              && r.value.v == CallV(Unset)
    ensures r.Ok? && e.ty.basic != Void ==>
              && Layout(r.value.code, [Want(CallKind(e.name), st.scope, CallOperands(e.name)),
                                       Want(InstructionType(e.ty, GResult).value, st.scope, [Temp(st.nextTemp)])])
              && r.value.v == CallV(Temp(st.nextTemp))
  {
    var s1, x := Emit(st, CallKind(e.name), CallOperands(e.name));
    var w := Want(CallKind(e.name), st.scope, CallOperands(e.name));
    if e.ty.basic == Void {
      LayoutOne(x, w);
      return Ok(Gen(s1, CallV(Unset), [x]));
    }
    var kindR := InstructionType(e.ty, GResult);
    if kindR.Err? { return Err(kindR.failure); }
    var (s2, t) := NewTemp(s1);
    var s3, y := Emit(s2, kindR.value, [Temp(t)]);
    LayoutTwo(x, y, [w, Want(kindR.value, st.scope, [Temp(t)])]);
    return Ok(Gen(s3, CallV(Temp(t)), [x, y]));
  }

  /** Whatever precedes them, the call's instructions end the code. */
  lemma CallEnds(pre: seq<Instr>, code: seq<Instr>, scope: string, e: Expr, n: int, v: Value)
    requires e.Call?
    requires e.ty.basic == Void ==>
               && Layout(code, [Want(CallKind(e.name), scope, CallOperands(e.name))])
               && v == CallV(Unset)
    requires e.ty.basic != Void ==>
               && InstructionType(e.ty, GResult).Ok?
               && Layout(code, [Want(CallKind(e.name), scope, CallOperands(e.name)),
                                Want(InstructionType(e.ty, GResult).value, scope, [Temp(n)])])
               && v == CallV(Temp(n))
    ensures e.ty.basic == Void ==>
              && EndsWith(pre + code, [Want(CallKind(e.name), scope, CallOperands(e.name))])
              && Read(v) == Unset
    ensures e.ty.basic != Void ==>
              && Read(v).Temp?
              && EndsWith(pre + code, [Want(CallKind(e.name), scope, CallOperands(e.name)),
                                       Want(InstructionType(e.ty, GResult).value, scope, [Read(v)])])
  {
    var w := Want(CallKind(e.name), scope, CallOperands(e.name));
    if e.ty.basic == Void {
      EndsWithAfter(pre, code, [w]);
    } else {
      EndsWithAfter(pre, code, [w, Want(InstructionType(e.ty, GResult).value, scope, [Temp(n)])]);
    }
  }

  /** `ir_generate_for_function_call`: the arguments, then the call and the
      fetch of its result. */
  method LowerCall(st: IrState, e: Expr, strings: seq<Symbols.StringSymbol>) returns (r: Result<Gen>)
    requires GenValid(st) && e.Call?
    ensures Lowered(st, e, r)
    ensures r.Ok? ==> |r.value.code| >= 2 * |e.args| + (if e.ty.basic == Void then 1 else 2)
    ensures r.Ok? && e.ty.basic == Void ==>
              && EndsWith(r.value.code, [Want(CallKind(e.name), st.scope, CallOperands(e.name))])
              && Read(r.value.v) == Unset
    ensures r.Ok? && e.ty.basic != Void ==>
              && InstructionType(e.ty, GResult).Ok? && Read(r.value.v).Temp?
              && EndsWith(r.value.code, [Want(CallKind(e.name), st.scope, CallOperands(e.name)),
                                         Want(InstructionType(e.ty, GResult).value, st.scope, [Read(r.value.v)])])
    decreases e, 2
  {
    var aR := LowerArgs(st, e, strings);
    if aR.Err? { return Err(aR.failure); }
    var a := aR.value;
    var cR := CallInstrs(a.st, e);
    if cR.Err? { return Err(cR.failure); }
    var c := cR.value;
    Chain(st.prog, a.code, a.st.prog, c.code, c.st.prog);
    CallEnds(a.code, c.code, st.scope, e, a.st.nextTemp, c.v);
    return Ok(Gen(c.st, c.v, a.code + c.code));
  }

  // ---------------------------------------------------------------------------
  // Conditional expressions
  // ---------------------------------------------------------------------------

  /** An operand generated and then passed through
      `ir_convert_identifier_to_rval`. */
  method LowerConverted(st: IrState, x: Expr, strings: seq<Symbols.StringSymbol>) returns (r: Result<Gen>)
    requires GenValid(st)
    ensures Lowered(st, x, r)
    ensures r.Ok? ==> |r.value.code| > 0
    decreases x, 5
  {
    var gR := LowerExpr(st, x, strings, false);
    if gR.Err? { return Err(gR.failure); }
    var g := gR.value;
    var cR := ConvertIdentifier(g.st, x, g.v);
    if cR.Err? { return Err(cR.failure); }
    var c := cR.value;
    Chain(st.prog, g.code, g.st.prog, c.code, c.st.prog);
    return Ok(Gen(c.st, c.v, g.code + c.code));
  }

  /** The `then` part of a conditional as `ir_generate_for_possible_statement`
      generates it when it is an expression: a number, identifier, string,
      comma expression or nested conditional is generated (an identifier
      without its load); any other expression generates nothing and leaves
      no operand. */
  method LowerThen(st: IrState, x: Expr, strings: seq<Symbols.StringSymbol>) returns (r: Result<Gen>)
    requires GenValid(st)
    ensures Lowered(st, x, r)
    ensures !(x.Number? || x.Identifier? || x.StringLit? || x.List? || x.Conditional?) ==> r == Ok(Gen(st, Blank(x), []))
    decreases x, 5
  {
    if x.Number? || x.Identifier? || x.StringLit? || x.List? || x.Conditional? {
      r := LowerExpr(st, x, strings, false);
    } else {
      r := Ok(Gen(st, Blank(x), []));
    }
  }

  /** The `then` branch: its part, `ir_reset_register`, then the conversion
      of the part. */
  method ThenBranch(st: IrState, x: Expr, strings: seq<Symbols.StringSymbol>) returns (r: Result<Gen>)
    requires GenValid(st)
    ensures Lowered(st, x, r)
    decreases x, 6
  {
    var gR := LowerThen(st, x, strings);
    if gR.Err? { return Err(gR.failure); }
    var g := gR.value;
    var cR := ConvertIdentifier(ResetRegister(g.st), x, g.v);
    if cR.Err? { return Err(cR.failure); }
    var c := cR.value;
    Chain(st.prog, g.code, g.st.prog, c.code, c.st.prog);
    return Ok(Gen(c.st, c.v, g.code + c.code));
  }

  /** The `gotoIfFalse` of a conditional whose first label is `l`, on any
      operand, in the scope "l_true". */
  function CondJumpWant(l: string): Want {
    Want(GotoIfFalse, l + TRUE_SUFFIX, [Unset, Str(l)])
  }

  /** The end of the `then` branch: the jump to `lout` in "l_true", then the
      label `l` in the scope `l`. */
  function ThenEndWant(l: string, lout: string): seq<Want> {
    [Want(Opcode.Goto, l + TRUE_SUFFIX, [Str(lout)]), Want(Label, l, [Str(l)])]
  }

  /** The end of a conditional: the label `lout` in "l_true", then the phi
      into `phi` in `scope`. */
  function JoinEndWant(scope: string, l: string, lout: string, phi: Operand): seq<Want> {
    [Want(Label, l + TRUE_SUFFIX, [Str(lout)]), Want(Phi, scope, [phi])]
  }

  /** The condition, generated and converted, then a fresh label `l` (number
      `a`) and, in the scope "l_true", the `gotoIfFalse` on the condition to
      `l`. */
  method OpenBranch(st: IrState, e: Expr, strings: seq<Symbols.StringSymbol>) returns (r: Result<(Gen, nat)>)
    requires GenValid(st) && e.Conditional?
    ensures r.Ok? ==>
              var (g, a) := r.value;
              var c := g.code;
              && GenValid(g.st) && Grows(st, g.st) && st.labelCount <= a && g.st.labelCount == a + 1
              && g.st.scope == LabelName(a) + TRUE_SUFFIX
              && g.st.prog == st.prog + c && AllWellFormed(c) && |c| > 1
              && EndsWith(c, [Want(GotoIfFalse, LabelName(a) + TRUE_SUFFIX, [Read(g.v), Str(LabelName(a))])])
    decreases e, 0
  {
    var gR := LowerConverted(st, e.cond, strings);
    if gR.Err? { return Err(gR.failure); }
    var g := gR.value;
    var a := g.st.labelCount;
    var (s1, l) := NewLabel(g.st);
    var s2, x := Emit(s1.(scope := l + TRUE_SUFFIX), GotoIfFalse, [Read(g.v), Str(l)]);
    var w := Want(GotoIfFalse, l + TRUE_SUFFIX, [Read(g.v), Str(l)]);
    LayoutOne(x, w);
    EndsWithAfter(g.code, [x], [w]);
    return Ok((Gen(s2, g.v, g.code + [x]), a));
  }

  /** After the `then` branch: a fresh join label `lout`, the jump to it, and,
      in the scope `l`, the label `l` the `gotoIfFalse` goes to. */
  method CloseThen(st: IrState, l: string) returns (b: IrState, code: seq<Instr>)
    requires GenValid(st)
    ensures GenValid(b) && Grows(st, b) && b.scope == l && b.labelCount == st.labelCount + 1
    ensures b.prog == st.prog + code && AllWellFormed(code)
    ensures Layout(code, [Want(Opcode.Goto, st.scope, [Str(LabelName(st.labelCount))]), Want(Label, l, [Str(l)])])
  {
    var (s1, lout) := NewLabel(st);
    var s2, x := Emit(s1, Opcode.Goto, [Str(lout)]);
    var s3, y := Emit(s2.(scope := l), Label, [Str(l)]);
    LayoutTwo(x, y, [Want(Opcode.Goto, st.scope, [Str(lout)]), Want(Label, l, [Str(l)])]);
    return s3, [x, y];
  }

  /** The end of a conditional: the join label `lout` in `trueScope`, then,
      back in `scope`, the phi of the two parts' operands into a fresh
      temporary. */
  method JoinBranches(st: IrState, trueScope: string, scope: string, lout: string, tv: Value, ev: Value)
    returns (b: IrState, code: seq<Instr>)
    requires GenValid(st)
    ensures GenValid(b) && Grows(st, b) && b.scope == scope && b.nextTemp == st.nextTemp + 1
    ensures b.prog == st.prog + code && AllWellFormed(code)
    ensures Layout(code, [Want(Label, trueScope, [Str(lout)]), Want(Phi, scope, [Temp(st.nextTemp), Read(tv), Read(ev)])])
  {
    var s1, x := Emit(st.(scope := trueScope), Label, [Str(lout)]);
    var (s2, tp) := NewTemp(s1.(scope := scope));
    var s3, y := Emit(s2, Phi, [Temp(tp), Read(tv), Read(ev)]);
    LayoutTwo(x, y, [Want(Label, trueScope, [Str(lout)]), Want(Phi, scope, [Temp(tp), Read(tv), Read(ev)])]);
    return s3, [x, y];
  }

  /** The instructions of a conditional expression around its parts, `l`
      being its first label and `lout` the join label: the `gotoIfFalse` to
      `l` at index `i` and the jump to `lout` at index `j`, both in the scope
      "l_true"; the label `l` right after, in the scope `l`; then the label
      `lout`, in "l_true", and the phi into `phi`, in `scope`, at the end. */
  predicate BranchCode(code: seq<Instr>, scope: string, l: string, lout: string, i: int, j: int, phi: Operand) {
    && AllWellFormed(code) && 0 <= i < j && j + 3 < |code|
    && LayoutAt(code, i, [CondJumpWant(l)])
    && LayoutAt(code, j, ThenEndWant(l, lout))
    && EndsWith(code, JoinEndWant(scope, l, lout, phi))
  }

  /** The join label and phi of a conditional, whatever the phi reads. */
  lemma JoinEndLooser(p5: seq<Instr>, w5: seq<Want>, scope: string, l: string, lout: string, phi: Operand)
    requires |w5| == 2 && Layout(p5, w5)
    requires w5[0] == Want(Label, l + TRUE_SUFFIX, [Str(lout)])
    requires w5[1].kind == Phi && w5[1].scope == scope && |w5[1].ops| >= 1 && w5[1].ops[0] == phi
    ensures EndsWith(p5, JoinEndWant(scope, l, lout, phi))
  {
    var je := JoinEndWant(scope, l, lout, phi);
    assert Fits(p5[0 + 0], w5[0]) && Fits(p5[0 + 1], w5[1]);
    FitsLooser(p5[1], w5[1], je[1]);
    assert Fits(p5[|p5| - 2 + 0], je[0]) && Fits(p5[|p5| - 2 + 1], je[1]);
  }

  /** The conditional's `gotoIfFalse`, which ends its first piece, keeps
      its place in the whole. */
  lemma {:induction false} CondJumpPlaced(p1: seq<Instr>, p2: seq<Instr>, p3: seq<Instr>, p4: seq<Instr>, p5: seq<Instr>,
                                          l: string, c: Operand)
    requires EndsWith(p1, [Want(GotoIfFalse, l + TRUE_SUFFIX, [c, Str(l)])])
    ensures LayoutAt((((p1 + p2) + p3) + p4) + p5, |p1| - 1, [CondJumpWant(l)])
  {
    EndsLooser(p1, Want(GotoIfFalse, l + TRUE_SUFFIX, [c, Str(l)]), CondJumpWant(l));
    LayoutAtPrefix(p1, ((p2 + p3) + p4) + p5, |p1| - 1, [CondJumpWant(l)]);
    assert p1 + (((p2 + p3) + p4) + p5) == (((p1 + p2) + p3) + p4) + p5;
  }

  /** The end of the `then` part, the third piece, keeps its place in the
      whole. */
  lemma {:induction false} ThenEndPlaced(p1: seq<Instr>, p2: seq<Instr>, p3: seq<Instr>, p4: seq<Instr>, p5: seq<Instr>,
                                         l: string, lout: string)
    requires Layout(p3, ThenEndWant(l, lout))
    ensures LayoutAt((((p1 + p2) + p3) + p4) + p5, |p1| + |p2|, ThenEndWant(l, lout))
  {
    LayoutAtInside(p1 + p2, p3, p4 + p5, 0, ThenEndWant(l, lout));
    assert ((p1 + p2) + p3) + (p4 + p5) == (((p1 + p2) + p3) + p4) + p5;
  }

  /** The pieces of a conditional, each as it should be, make up its code. */
  lemma {:induction false} BranchLayout(p1: seq<Instr>, p2: seq<Instr>, p3: seq<Instr>, p4: seq<Instr>, p5: seq<Instr>,
                                        scope: string, l: string, lout: string, c: Operand, phi: Operand, a: Operand, b: Operand)
    requires AllWellFormed(p1) && AllWellFormed(p2) && AllWellFormed(p3) && AllWellFormed(p4) && AllWellFormed(p5)
    requires |p1| > 1 && |p4| > 0
    requires EndsWith(p1, [Want(GotoIfFalse, l + TRUE_SUFFIX, [c, Str(l)])])
    requires Layout(p3, ThenEndWant(l, lout))
    requires Layout(p5, [Want(Label, l + TRUE_SUFFIX, [Str(lout)]), Want(Phi, scope, [phi, a, b])])
    ensures BranchCode((((p1 + p2) + p3) + p4) + p5, scope, l, lout, |p1| - 1, |p1| + |p2|, phi)
  {
    CondJumpPlaced(p1, p2, p3, p4, p5, l, c);
    ThenEndPlaced(p1, p2, p3, p4, p5, l, lout);
    JoinEndLooser(p5, [Want(Label, l + TRUE_SUFFIX, [Str(lout)]), Want(Phi, scope, [phi, a, b])], scope, l, lout, phi);
    EndsWithAfter(((p1 + p2) + p3) + p4, p5, JoinEndWant(scope, l, lout, phi));
    WellFormedAppend(p1, p2);
    WellFormedAppend(p1 + p2, p3);
    WellFormedAppend((p1 + p2) + p3, p4);
    WellFormedAppend(((p1 + p2) + p3) + p4, p5);
  }

  /** A conditional before its final registers are assigned, with its label
      numbers `a` and `b`, the indices of its two jumps, and the phi's
      temporary. */
  datatype Built = Built(g: Gen, a: nat, b: nat, i: nat, j: nat, tp: int)

  /** `ir_generate_for_conditional_statement` for a conditional expression, up
      to the phi: the condition and its `gotoIfFalse`; the `then` part, the
      jump to the join label and the label `l`; the `else` part in the scope
      `l`; the join label and the phi. */
  method BuildConditional(st: IrState, e: Expr, strings: seq<Symbols.StringSymbol>) returns (r: Result<Built>)
    requires GenValid(st) && e.Conditional?
    ensures r.Ok? ==>
              var u := r.value;
              var c := u.g.code;
              && GenValid(u.g.st) && Grows(st, u.g.st) && u.g.st.scope == st.scope
              && u.g.st.prog == st.prog + c && Mirrors(e, u.g.v)
              && st.labelCount <= u.a < u.b
              && BranchCode(c, st.scope, LabelName(u.a), LabelName(u.b), u.i, u.j, Temp(u.tp))
              && Read(u.g.v) == Temp(u.tp)
    decreases e, 1
  {
    var oR := OpenBranch(st, e, strings);
    if oR.Err? { return Err(oR.failure); }
    var (o, a) := oR.value;
    var l := LabelName(a);
    var tR := ThenBranch(o.st, e.thenE, strings);
    if tR.Err? { return Err(tR.failure); }
    var t := tR.value;
    var b := t.st.labelCount;
    var s1, c3 := CloseThen(t.st, l);
    var fR := LowerConverted(s1, e.elseE, strings);
    if fR.Err? { return Err(fR.failure); }
    var f := fR.value;
    var tp := f.st.nextTemp;
    var s2, c5 := JoinBranches(f.st, l + TRUE_SUFFIX, st.scope, LabelName(b), t.v, f.v);
    BranchLayout(o.code, t.code, c3, f.code, c5, st.scope, l, LabelName(b), Read(o.v), Temp(tp), Read(t.v), Read(f.v));
    var code := (((o.code + t.code) + c3) + f.code) + c5;
    return Ok(Built(Gen(s2, CondV(Temp(tp), t.v), code), a, b, |o.code| - 1, |o.code| + |t.code|, tp));
  }

  /** The walk renumbers only instructions of the conditional's own code. */
  lemma RetargetedCode(pre: Program, code: seq<Instr>, q: Program, t: int)
    requires RetargetedAll(pre + code, q, t)
    requires forall k :: 0 <= k < |pre| ==> q[k] == (pre + code)[k]
    ensures q == pre + q[|pre|..]
    ensures RetargetedAll(code, q[|pre|..], t)
  {
    assert q == q[..|pre|] + q[|pre|..];
    assert q[..|pre|] == pre;
    forall k | 0 <= k < |code|
      ensures Retargeted(code[k], q[|pre|..][k], t)
    {
      assert (pre + code)[|pre| + k] == code[k];
    }
  }

  /** Renumbering first slots keeps a conditional's `gotoIfFalse`, whose
      first slot is the condition's and not renumbered by the walk's
      expectations. */
  lemma CondJumpKept(code: seq<Instr>, q: seq<Instr>, t: int, l: string, i: int)
    requires RetargetedAll(code, q, t) && LayoutAt(code, i, [CondJumpWant(l)])
    ensures LayoutAt(q, i, [CondJumpWant(l)])
  {
    assert KeepsUnderRetarget([CondJumpWant(l)][0], t);
    LayoutAtRetargeted(code, q, t, i, [CondJumpWant(l)]);
  }

  /** Renumbering first slots keeps the jump and label ending a `then`
      part, whose first slots are labels. */
  lemma ThenEndKept(code: seq<Instr>, q: seq<Instr>, t: int, l: string, lout: string, j: int)
    requires RetargetedAll(code, q, t) && LayoutAt(code, j, ThenEndWant(l, lout))
    ensures LayoutAt(q, j, ThenEndWant(l, lout))
  {
    var te := ThenEndWant(l, lout);
    assert KeepsUnderRetarget(te[0], t) && KeepsUnderRetarget(te[1], t);
    LayoutAtRetargeted(code, q, t, j, te);
  }

  /** Renumbering first slots to `t` keeps the join label and the phi into
      `t`. */
  lemma JoinEndKept(code: seq<Instr>, q: seq<Instr>, t: int, scope: string, l: string, lout: string)
    requires RetargetedAll(code, q, t) && EndsWith(code, JoinEndWant(scope, l, lout, Temp(t)))
    ensures EndsWith(q, JoinEndWant(scope, l, lout, Temp(t)))
  {
    var je := JoinEndWant(scope, l, lout, Temp(t));
    assert KeepsUnderRetarget(je[0], t) && KeepsUnderRetarget(je[1], t);
    LayoutAtRetargeted(code, q, t, |code| - 2, je);
  }

  /** Renumbering first slots to the phi's temporary keeps the branch
      instructions and the phi where they were. */
  lemma BranchesKept(code: seq<Instr>, q: seq<Instr>, t: int, scope: string, l: string, lout: string, i: int, j: int)
    requires BranchCode(code, scope, l, lout, i, j, Temp(t)) && RetargetedAll(code, q, t) && AllWellFormed(q)
    ensures BranchCode(q, scope, l, lout, i, j, Temp(t))
  {
    CondJumpKept(code, q, t, l, i);
    ThenEndKept(code, q, t, l, lout, j);
    JoinEndKept(code, q, t, scope, l, lout);
  }

  /** Placed after earlier instructions, a conditional's code starts the
      final-register walk as that walk needs: at its join label, with the
      jump of its `then` part after its own start. */
  lemma WalkReady(pre: Program, code: seq<Instr>, scope: string, l: string, lout: string, i: int, j: int, tp: int)
    requires AllWellFormed(pre) && BranchCode(code, scope, l, lout, i, j, Temp(tp))
    ensures var p := pre + code;
      && AllWellFormed(p) && |pre| < |p| - 2 && |pre| < |pre| + j <= |p| - 2
      && p[|p| - 2].kind == Label && p[|pre| + j].kind == Opcode.Goto
  {
    var p := pre + code;
    assert Fits(code[|code| - 2 + 0], JoinEndWant(scope, l, lout, Temp(tp))[0]);
    assert Fits(code[j + 0], ThenEndWant(l, lout)[0]);
    assert p[|p| - 2] == code[|code| - 2];
    assert p[|pre| + j] == code[j];
  }

  /** A conditional's code renumbered by the walk, which leaves what comes
      before it alone, is still a conditional's code. */
  lemma ConditionalKept(pre: Program, code: seq<Instr>, q: Program, scope: string, a: nat, b: nat, i: int, j: int,
                        tp: int, v: Value, first: nat)
    requires first <= a < b && BranchCode(code, scope, LabelName(a), LabelName(b), i, j, Temp(tp)) && Read(v) == Temp(tp)
    requires RetargetedAll(pre + code, q, tp) && AllWellFormed(q)
    requires forall k :: 0 <= k < |pre| ==> q[k] == (pre + code)[k]
    ensures q == pre + q[|pre|..] && AllWellFormed(q[|pre|..]) && |q[|pre|..]| > 0
    ensures exists a: nat, b: nat, i: int, j: int ::
              first <= a < b && BranchCode(q[|pre|..], scope, LabelName(a), LabelName(b), i, j, Read(v))
  {
    RetargetedCode(pre, code, q, tp);
    BranchesKept(code, q[|pre|..], tp, scope, LabelName(a), LabelName(b), i, j);
  }

  /** `ir_assign_final_register_conditional` from the join label, the
      second element from the end: it leaves the first `floor` elements
      alone when the join label and the `then` part's jump at `g` lie
      above them. */
  method RenumberFromJoin(p: Program, t: int, floor: nat, g: nat) returns (r: Result<Program>)
    requires AllWellFormed(p) && floor < |p| - 2 && floor < g <= |p| - 2
    requires p[|p| - 2].kind == Label && p[g].kind == Opcode.Goto
    ensures r.Ok? ==> RetargetedAll(p, r.value, t) && AllWellFormed(r.value)
    ensures r.Ok? ==> forall k :: 0 <= k < floor ==> r.value[k] == p[k]
  {
    var w := Walk(p, |p| - 2, false, false);
    FinalRegistersKeepPrefix(w, t, floor, g);
    r := FinalRegisters(w, t);
  }

  /** The renumbering that ends `ir_generate_for_conditional_statement` for
      a conditional expression: `ir_assign_final_register_conditional`
      walks back from the join label and renumbers the last results of the
      two parts to the phi's temporary, leaving the code before the
      conditional alone. */
  method FinishConditional(st: IrState, u: Built) returns (r: Result<Gen>)
    requires GenValid(st) && GenValid(u.g.st) && Grows(st, u.g.st) && u.g.st.scope == st.scope
    requires u.g.st.prog == st.prog + u.g.code && Read(u.g.v) == Temp(u.tp)
    requires st.labelCount <= u.a < u.b && BranchCode(u.g.code, st.scope, LabelName(u.a), LabelName(u.b), u.i, u.j, Temp(u.tp))
    ensures r.Ok? ==>
              && GenValid(r.value.st) && Grows(st, r.value.st) && r.value.st.scope == st.scope
              && r.value.st.prog == st.prog + r.value.code && AllWellFormed(r.value.code) && r.value.v == u.g.v
    ensures r.Ok? ==> |r.value.code| > 0 && Read(r.value.v).Temp?
    ensures r.Ok? ==> exists a: nat, b: nat, i: int, j: int ::
              st.labelCount <= a < b && BranchCode(r.value.code, st.scope, LabelName(a), LabelName(b), i, j, Read(r.value.v))
  {
    var g := u.g;
    WalkReady(st.prog, g.code, st.scope, LabelName(u.a), LabelName(u.b), u.i, u.j, u.tp);
    var qR := RenumberFromJoin(g.st.prog, u.tp, |st.prog|, |st.prog| + u.j);
    if qR.Err? { return Err(qR.failure); }
    var q := qR.value;
    ConditionalKept(st.prog, g.code, q, st.scope, u.a, u.b, u.i, u.j, u.tp, g.v, st.labelCount);
    return Ok(Gen(g.st.(prog := q), g.v, q[|st.prog|..]));
  }

  /** `ir_generate_for_conditional_statement` for a conditional expression:
      a `gotoIfFalse` to a fresh label L, the `then` part and a jump to a
      second fresh label, all in the scope "L_true"; the label L and the
      `else` part in the scope L; the second label, in "L_true"; and a phi
      of the two parts' operands in the enclosing scope, after which
      `ir_assign_final_register_conditional` renumbers the last results of
      the two parts to the phi's temporary. */
  method LowerConditional(st: IrState, e: Expr, strings: seq<Symbols.StringSymbol>) returns (r: Result<Gen>)
    requires GenValid(st) && e.Conditional?
    ensures Lowered(st, e, r)
    ensures r.Ok? ==> |r.value.code| > 0 && Read(r.value.v).Temp?
    ensures r.Ok? ==> exists a: nat, b: nat, i: int, j: int ::
              st.labelCount <= a < b && BranchCode(r.value.code, st.scope, LabelName(a), LabelName(b), i, j, Read(r.value.v))
    decreases e, 2
  {
    var uR := BuildConditional(st, e, strings);
    if uR.Err? { return Err(uR.failure); }
    r := FinishConditional(st, uR.value);
  }

}

=== FILE: ir_ops.dfy ===
/** The vocabulary of the intermediate representation (ir.h): operands, the
    instruction kinds in their enum order, and the two tables ir.c uses to pick
    a concrete kind: `ir_get_instruction_type` for operators, loads and stores,
    and the cast table of `ir_generate_for_cast_operation`. */
module IrOps {
  import opened Wrappers
  import opened Integers
  import opened Types

  /** `struct ir_operand`. `Unset` stands for a slot no setter has written. */
  datatype Operand = Unset | Num(n: int) | Str(name: string) | Temp(t: int) | Flag(b: bool)

  /** The bytes of a name as the union stores them: the characters, then NULs. */
  function NameByte(s: string, i: nat): (b: nat)
    ensures b < 256
  {
    if i < |s| then (s[i] as int) % 256 else 0
  }

  /** What reading `data.temporary` yields whatever the operand's kind: the low
      four bytes of the union as a signed little-endian int. A number yields its
      low 32 bits, a name its first four bytes; a flag leaves three bytes
      unwritten and an unset slot all four, so neither has a defined value. */
  function TemporaryView(op: Operand): (r: Option<int>)
    ensures op.Temp? ==> r == Some(op.t)
    ensures r.Some? && !op.Temp? ==> IsInt32(r.value)
    ensures op.Unset? || op.Flag? ==> r.None?
  {
    match op
    case Temp(t) => Some(t)
    case Num(n) => Some(Wrap32(n))
    case Str(s) =>
      Some(Wrap32(NameByte(s, 0) + 0x100 * NameByte(s, 1) + 0x1_0000 * NameByte(s, 2) + 0x100_0000 * NameByte(s, 3)))
    case _ => None
  }

  /** `enum ir_instruction_kind`. */
  datatype Opcode =
    | AddressOf
    | LoadWord | LoadHalfWord | LoadSignedHalfWord | LoadByte | LoadSignedByte
    | StoreWord | StoreHalfWord | StoreByte
    | MultSigned | MultUnsigned | DivSigned | DivUnsigned | AddSigned | AddUnsigned
    | SubSigned | SubUnsigned | RemSigned | RemUnsigned
    | LeftShiftWord | RightShiftSigned | RightShiftUnsigned
    | LtSigned | LtUnsigned | LeSigned | LeUnsigned | GeSigned | GeUnsigned | GtSigned | GtUnsigned
    | EqWord | NeWord | BitAndWord | BitXorWord | BitOrWord
    | UnaryMinus | UnaryLogicalNegation | UnaryBitwiseNegation
    | ConstInt
    | CastWordToHalfWord | CastWordToByte | CastHalfWordToByte
    | CastUnsignedHalfWordToWord | CastSignedHalfWordToWord
    | CastUnsignedByteToHalfWord | CastSignedByteToHalfWord
    | CastUnsignedByteToWord | CastSignedByteToWord
    | Label | Goto | GotoIfFalse | GotoIfTrue | ProcBegin | ProcEnd
    | ReturnWord | ReturnHalfWord | ReturnByte
    | Call | SysCall | Parameter
    | ResultWord | ResultHalfWord | ResultByte
    | Phi
    | NoOperation

  /** The C enum value of a kind. */
  function Index(k: Opcode): nat {
    match k
    case AddressOf => 0
    case LoadWord => 1
    case LoadHalfWord => 2
    case LoadSignedHalfWord => 3
    case LoadByte => 4
    case LoadSignedByte => 5
    case StoreWord => 6
    case StoreHalfWord => 7
    case StoreByte => 8
    case MultSigned => 9
    case MultUnsigned => 10
    case DivSigned => 11
    case DivUnsigned => 12
    case AddSigned => 13
    case AddUnsigned => 14
    case SubSigned => 15
    case SubUnsigned => 16
    case RemSigned => 17
    case RemUnsigned => 18
    case LeftShiftWord => 19
    case RightShiftSigned => 20
    case RightShiftUnsigned => 21
    case LtSigned => 22
    case LtUnsigned => 23
    case LeSigned => 24
    case LeUnsigned => 25
    case GeSigned => 26
    case GeUnsigned => 27
    case GtSigned => 28
    case GtUnsigned => 29
    case EqWord => 30
    case NeWord => 31
    case BitAndWord => 32
    case BitXorWord => 33
    case BitOrWord => 34
    case UnaryMinus => 35
    case UnaryLogicalNegation => 36
    case UnaryBitwiseNegation => 37
    case ConstInt => 38
    case CastWordToHalfWord => 39
    case CastWordToByte => 40
    case CastHalfWordToByte => 41
    case CastUnsignedHalfWordToWord => 42
    case CastSignedHalfWordToWord => 43
    case CastUnsignedByteToHalfWord => 44
    case CastSignedByteToHalfWord => 45
    case CastUnsignedByteToWord => 46
    case CastSignedByteToWord => 47
    case Label => 48
    case Goto => 49
    case GotoIfFalse => 50
    case GotoIfTrue => 51
    case ProcBegin => 52
    case ProcEnd => 53
    case ReturnWord => 54
    case ReturnHalfWord => 55
    case ReturnByte => 56
    case Call => 57
    case SysCall => 58
    case Parameter => 59
    case ResultWord => 60
    case ResultHalfWord => 61
    case ResultByte => 62
    case Phi => 63
    case NoOperation => 64
  }

  /** The kind whose C enum value is `i`, if any. */
  function FromIndex(i: int): Option<Opcode> {
    match i
    case 0 => Some(AddressOf)
    case 1 => Some(LoadWord)
    case 2 => Some(LoadHalfWord)
    case 3 => Some(LoadSignedHalfWord)
    case 4 => Some(LoadByte)
    case 5 => Some(LoadSignedByte)
    case 6 => Some(StoreWord)
    case 7 => Some(StoreHalfWord)
    case 8 => Some(StoreByte)
    case 9 => Some(MultSigned)
    case 10 => Some(MultUnsigned)
    case 11 => Some(DivSigned)
    case 12 => Some(DivUnsigned)
    case 13 => Some(AddSigned)
    case 14 => Some(AddUnsigned)
    case 15 => Some(SubSigned)
    case 16 => Some(SubUnsigned)
    case 17 => Some(RemSigned)
    case 18 => Some(RemUnsigned)
    case 19 => Some(LeftShiftWord)
    case 20 => Some(RightShiftSigned)
    case 21 => Some(RightShiftUnsigned)
    case 22 => Some(LtSigned)
    case 23 => Some(LtUnsigned)
    case 24 => Some(LeSigned)
    case 25 => Some(LeUnsigned)
    case 26 => Some(GeSigned)
    case 27 => Some(GeUnsigned)
    case 28 => Some(GtSigned)
    case 29 => Some(GtUnsigned)
    case 30 => Some(EqWord)
    case 31 => Some(NeWord)
    case 32 => Some(BitAndWord)
    case 33 => Some(BitXorWord)
    case 34 => Some(BitOrWord)
    case 35 => Some(UnaryMinus)
    case 36 => Some(UnaryLogicalNegation)
    case 37 => Some(UnaryBitwiseNegation)
    case 38 => Some(ConstInt)
    case 39 => Some(CastWordToHalfWord)
    case 40 => Some(CastWordToByte)
    case 41 => Some(CastHalfWordToByte)
    case 42 => Some(CastUnsignedHalfWordToWord)
    case 43 => Some(CastSignedHalfWordToWord)
    case 44 => Some(CastUnsignedByteToHalfWord)
    case 45 => Some(CastSignedByteToHalfWord)
    case 46 => Some(CastUnsignedByteToWord)
    case 47 => Some(CastSignedByteToWord)
    case 48 => Some(Label)
    case 49 => Some(Goto)
    case 50 => Some(GotoIfFalse)
    case 51 => Some(GotoIfTrue)
    case 52 => Some(ProcBegin)
    case 53 => Some(ProcEnd)
    case 54 => Some(ReturnWord)
    case 55 => Some(ReturnHalfWord)
    case 56 => Some(ReturnByte)
    case 57 => Some(Call)
    case 58 => Some(SysCall)
    case 59 => Some(Parameter)
    case 60 => Some(ResultWord)
    case 61 => Some(ResultHalfWord)
    case 62 => Some(ResultByte)
    case 63 => Some(Phi)
    case 64 => Some(NoOperation)
    case _ => None
  }

  /** Reading the enum value back gives the kind, so distinct kinds have
      distinct values, all of them at most 64. The proof goes through the
      values thirteen at a time. */
  lemma IndexRoundTrip(k: Opcode)
    ensures FromIndex(Index(k)) == Some(k)
    ensures Index(k) <= 64
  {
    if Index(k) < 13 {
      RoundTripFrom0(k);
    } else if Index(k) < 26 {
      RoundTripFrom13(k);
    } else if Index(k) < 39 {
      RoundTripFrom26(k);
    } else if Index(k) < 52 {
      RoundTripFrom39(k);
    } else {
      RoundTripFrom52(k);
    }
  }

  /** The round trip for the kinds with values 0 to 12. */
  lemma RoundTripFrom0(k: Opcode)
    requires 0 <= Index(k) < 13
    ensures FromIndex(Index(k)) == Some(k)
  {
  }

  /** The round trip for the kinds with values 13 to 25. */
  lemma RoundTripFrom13(k: Opcode)
    requires 13 <= Index(k) < 26
    ensures FromIndex(Index(k)) == Some(k)
  {
  }

  /** The round trip for the kinds with values 26 to 38. */
  lemma RoundTripFrom26(k: Opcode)
    requires 26 <= Index(k) < 39
    ensures FromIndex(Index(k)) == Some(k)
  {
  }

  /** The round trip for the kinds with values 39 to 51. */
  lemma RoundTripFrom39(k: Opcode)
    requires 39 <= Index(k) < 52
    ensures FromIndex(Index(k)) == Some(k)
  {
  }

  /** The round trip for the kinds with values 52 to 64. */
  lemma RoundTripFrom52(k: Opcode)
    requires 52 <= Index(k) < 65
    ensures FromIndex(Index(k)) == Some(k)
  {
  }

  /** The enum values are exactly 0 to 64. */
  lemma IndexRange(i: int)
    ensures FromIndex(i).Some? <==> 0 <= i <= 64
  {
  }

  /** `enum ir_instruction_kind_generic`: what the generator asks for before the
      operand type decides the concrete kind. */
  datatype GenericKind =
    | GLoad | GStore | GMult | GDiv | GAdd | GSub | GRem | GLeftShift | GRightShift
    | GLt | GLe | GGt | GGe | GBitOr | GBitXor | GBitAnd | GEq | GNe | GReturn | GResult

  /** The generic kinds whose concrete kind depends on the signedness of the type. */
  predicate SignSensitive(g: GenericKind) {
    g in {GMult, GDiv, GAdd, GSub, GRem, GRightShift, GLt, GLe, GGt, GGe}
  }

  /** The generic kinds whose concrete kind depends on the width of the type. */
  predicate WidthSensitive(g: GenericKind) {
    g in {GLoad, GStore, GReturn, GResult}
  }

  /** The signed and the unsigned word variant of a sign-sensitive kind. */
  function SignedVariants(g: GenericKind): (r: (Opcode, Opcode))
    requires SignSensitive(g)
  {
    match g
    case GMult => (MultSigned, MultUnsigned)
    case GDiv => (DivSigned, DivUnsigned)
    case GAdd => (AddSigned, AddUnsigned)
    case GSub => (SubSigned, SubUnsigned)
    case GRem => (RemSigned, RemUnsigned)
    case GRightShift => (RightShiftSigned, RightShiftUnsigned)
    case GLt => (LtSigned, LtUnsigned)
    case GLe => (LeSigned, LeUnsigned)
    case GGt => (GtSigned, GtUnsigned)
    case GGe => (GeSigned, GeUnsigned)
  }

  /** The width in bytes a load, store, return or result kind moves. */
  function MovedWidth(k: Opcode): nat {
    match k
    case LoadWord | StoreWord | ReturnWord | ResultWord => 4
    case LoadHalfWord | LoadSignedHalfWord | StoreHalfWord | ReturnHalfWord | ResultHalfWord => 2
    case LoadByte | LoadSignedByte | StoreByte | ReturnByte | ResultByte => 1
    case _ => 0
  }

  /** The generic kind a concrete load, store, return or result kind belongs to. */
  function MovedGeneric(k: Opcode): Option<GenericKind> {
    match k
    case LoadWord | LoadHalfWord | LoadSignedHalfWord | LoadByte | LoadSignedByte => Some(GLoad)
    case StoreWord | StoreHalfWord | StoreByte => Some(GStore)
    case ReturnWord | ReturnHalfWord | ReturnByte => Some(GReturn)
    case ResultWord | ResultHalfWord | ResultByte => Some(GResult)
    case _ => None
  }

  /** `ir_get_instruction_type`: the concrete kind for a generic kind and the
      type of the node it is generated for. An integer type is required except
      for the bitwise operators and the equality tests, which never look at it. */
  function InstructionType(t: Type, g: GenericKind): (r: Result<Opcode>)
  {
    var u := t.isUnsigned;
    match g
    case GBitOr => Ok(BitOrWord)
    case GBitXor => Ok(BitXorWord)
    case GBitAnd => Ok(BitAndWord)
    case GEq => Ok(EqWord)
    case GNe => Ok(NeWord)
    case _ =>
      if !IsInteger(t.basic) then Err(Aborts("ir_get_instruction_type: not an integer type"))
      else
        match g
        case GLoad =>
          (match t.basic
           case Char => Ok(if u then LoadByte else LoadSignedByte)
           case Short => Ok(if u then LoadHalfWord else LoadSignedHalfWord)
           case _ => Ok(LoadWord))
        case GStore =>
          (match t.basic
           case Char => Ok(StoreByte)
           case Short => Ok(StoreHalfWord)
           case _ => Ok(StoreWord))
        case GReturn =>
          (match t.basic
           case Char => Ok(ReturnByte)
           case Short => Ok(ReturnHalfWord)
           case _ => Ok(ReturnWord))
        case GResult =>
          (match t.basic
           case Char => Ok(ResultByte)
           case Short => Ok(ResultHalfWord)
           case _ => Ok(ResultWord))
        case GLeftShift => Ok(LeftShiftWord)
        case GMult => Ok(if u then MultUnsigned else MultSigned)
        case GDiv => Ok(if u then DivUnsigned else DivSigned)
        case GAdd => Ok(if u then AddUnsigned else AddSigned)
        case GSub => Ok(if u then SubUnsigned else SubSigned)
        case GRem => Ok(if u then RemUnsigned else RemSigned)
        case GRightShift => Ok(if u then RightShiftUnsigned else RightShiftSigned)
        case GLt => Ok(if u then LtUnsigned else LtSigned)
        case GLe => Ok(if u then LeUnsigned else LeSigned)
        case GGt => Ok(if u then GtUnsigned else GtSigned)
        case GGe => Ok(if u then GeUnsigned else GeSigned)
  }

  /** Only the five bitwise and equality kinds accept a type that is not an integer. */
  lemma InstructionTypeAccepts(t: Type, g: GenericKind)
    ensures InstructionType(t, g).Err? <==> !IsInteger(t.basic) && g !in {GBitOr, GBitXor, GBitAnd, GEq, GNe}
  {
  }

  /** Loads, stores, returns and results move exactly the type's width, and
      only a narrow signed load sign-extends. */
  lemma MovedKindsFollowWidth(t: Type, g: GenericKind)
    requires WidthSensitive(g) && IsInteger(t.basic)
    ensures MovedWidth(InstructionType(t, g).value) == BasicSize(t)
    ensures MovedGeneric(InstructionType(t, g).value) == Some(g)
    ensures g == GLoad ==>
              (InstructionType(t, g).value in {LoadSignedByte, LoadSignedHalfWord} <==> !t.isUnsigned && BasicSize(t) < 4)
  {
  }

  /** The arithmetic, shift-right and ordering kinds take their unsigned
      variant exactly for an unsigned type, whatever its width. */
  lemma SignSensitiveKinds(t: Type, g: GenericKind)
    requires SignSensitive(g) && IsInteger(t.basic)
    ensures InstructionType(t, g).value == if t.isUnsigned then SignedVariants(g).1 else SignedVariants(g).0
  {
  }

  /** Every other kind but the load ignores signedness: left shift, the bitwise
      operators, the equality tests, stores, returns and results. */
  lemma SignIgnoringKinds(t: Type, g: GenericKind)
    requires !SignSensitive(g) && g != GLoad
    ensures InstructionType(t, g) == InstructionType(t.(isUnsigned := !t.isUnsigned), g)
  {
  }

  /** A store, return or result kind depends on nothing but the width. */
  lemma WidthOnlyKinds(a: Type, b: Type, g: GenericKind)
    requires g in {GStore, GReturn, GResult}
    requires BasicSize(a) == BasicSize(b)
    ensures InstructionType(a, g) == InstructionType(b, g)
  {
  }

  /** The widths a cast kind converts from and to, and whether it zero-extends. */
  function CastWidths(k: Opcode): (r: (nat, nat, bool)) {
    match k
    case CastWordToHalfWord => (4, 2, false)
    case CastWordToByte => (4, 1, false)
    case CastHalfWordToByte => (2, 1, false)
    case CastUnsignedHalfWordToWord => (2, 4, true)
    case CastSignedHalfWordToWord => (2, 4, false)
    case CastUnsignedByteToHalfWord => (1, 2, true)
    case CastSignedByteToHalfWord => (1, 2, false)
    case CastUnsignedByteToWord => (1, 4, true)
    case CastSignedByteToWord => (1, 4, false)
    case _ => (0, 0, false)
  }

  /** The cast table of `ir_generate_for_cast_operation`: the kind converting a
      value of basic type `from` to basic type `to`, where `toUnsigned` is the
      signedness of the cast's target. `NoOperation` means nothing is emitted. */
  function CastKind(from: BasicType, to: BasicType, toUnsigned: bool): (r: Result<Opcode>)
  {
    var u := toUnsigned;
    match from
    case Char =>
      (match to
       case Char => Ok(NoOperation)
       case Short => Ok(if u then CastUnsignedByteToHalfWord else CastSignedByteToHalfWord)
       case Int => Ok(if u then CastUnsignedByteToWord else CastSignedByteToWord)
       case Long => Ok(if u then CastUnsignedByteToWord else CastSignedByteToWord)
       case _ => Err(Aborts("cast to a type without a width")))
    case Short =>
      (match to
       case Char => Ok(CastHalfWordToByte)
       case Short => Ok(NoOperation)
       case Int => Ok(if u then CastUnsignedHalfWordToWord else CastSignedHalfWordToWord)
       case Long => Ok(if u then CastUnsignedHalfWordToWord else CastSignedHalfWordToWord)
       case _ => Err(Aborts("cast to a type without a width")))
    case Int | Long =>
      (match to
       case Char => Ok(CastWordToByte)
       case Short => Ok(CastWordToHalfWord)
       case Int => Ok(NoOperation)
       case Long => Ok(NoOperation)
       case _ => Err(Aborts("cast to a type without a width")))
    case _ => Err(Aborts("cast from a type without a width"))
  }

  /** The cast table against the widths: a cast between equal widths emits
      nothing; any other cast converts exactly from the source width to the
      target width; a narrowing cast ignores the target's signedness and a
      widening one zero-extends exactly when the target is unsigned. */
  lemma CastKindRules(from: BasicType, to: BasicType, toUnsigned: bool)
    ensures CastKind(from, to, toUnsigned).Ok? <==> IsInteger(from) && IsInteger(to)
    ensures IsInteger(from) && IsInteger(to) ==>
              var k := CastKind(from, to, toUnsigned).value;
              var w1, w2 := BasicSize(Basic(false, from)), BasicSize(Basic(false, to));
              && (k == NoOperation <==> w1 == w2)
              && (w1 != w2 ==> CastWidths(k).0 == w1 && CastWidths(k).1 == w2)
              && (w1 > w2 ==> k == CastKind(from, to, !toUnsigned).value)
              && (w1 < w2 ==> CastWidths(k).2 == toUnsigned)
  {
    match from
    case Char =>
    case Short =>
    case Int =>
    case Long =>
    case _ =>
  }
}

=== FILE: ir_stmt.dfy ===
/** The statement half of the IR generator of ir.c: if/else, the three loops,
    `break`, `continue`, `return`, user labels and `goto`, statement lists and
    function definitions, and the entry point that lowers a whole program.

    The C generator finds the loop a `break` leaves and the function a
    `return` leaves by walking up parent pointers and reading the instruction
    lists other nodes have collected so far. Here what that walk finds is
    passed down in a context: the nearest loop's labels, as far as the loop
    has appended them before its body, and the enclosing function.
 */
module IrStmt {
  import opened Wrappers
  import opened Types
  import opened Ast
  import opened IrOps
  import opened Ir
  import opened IrValues
  import opened IrExpr
  import Symbols

  /** What a `break` or `continue` finds on its nearest enclosing loop:
      `head`, the first label appended to the loop's condition node (the
      loop label, which every loop appends before its body), and `exit`, the
      target of the first `gotoIfFalse` appended to the loop node itself, if
      one was appended before the body. */
  datatype Loop = Loop(head: string, exit: Option<string>)

  /** What a `return` or a user label finds on its enclosing function: its
      name as written, the label its body ends with, and its return type. */
  datatype Func = Func(name: string, exit: string, returnType: Type)

  /** The context of a statement. `bare` says that every ancestor is a
      statement list, a compound statement, an expression statement or a
      function definition (`node_is_expression_just_identifier`). */
  datatype Ctx = Ctx(bare: bool, loop: Option<Loop>, func: Option<Func>, strings: seq<Symbols.StringSymbol>)

  /** A lowered statement: the state after it, the code it appended, and for
      an expression statement the value of its expression. */
  datatype Done = Done(st: IrState, code: seq<Instr>, v: Option<Value>)

  /** What every statement generator keeps: the state stays valid, no counter
      goes back, the scope is restored, the code was appended to the list,
      and exactly an expression statement leaves a value. */
  predicate StmtLowered(st: IrState, s: Stmt, r: Result<Done>) {
    r.Ok? ==>
      && GenValid(r.value.st) && Grows(st, r.value.st) && r.value.st.scope == st.scope
      && r.value.st.prog == st.prog + r.value.code && AllWellFormed(r.value.code)
      && (s.ExprStmt? ==> r.value.v.Some? && Mirrors(s.e, r.value.v.value))
      && (!s.ExprStmt? ==> r.value.v.None?)
  }

  /** A `break` that reaches its loop without crossing another loop: itself,
      or inside an if, a labelled statement or a block. */
  predicate DirectBreak(s: Stmt) {
    match s
    case Break => true
    case If(_, t, e) => DirectBreak(t) || (e.Some? && DirectBreak(e.value))
    case Labeled(_, b) => b.Some? && DirectBreak(b.value)
    case Block(ss) => exists k :: 0 <= k < |ss| && DirectBreak(ss[k])
    case _ => false
  }

  /** A `break` in this context cannot find its target: there is no loop, or
      the loop appended no `gotoIfFalse` to itself before its body. */
  predicate BreakAborts(ctx: Ctx) {
    ctx.loop.None? || ctx.loop.value.exit.None?
  }

  /** The label of a user label `name` in the procedure `proc`. */
  function UserLabel(proc: string, name: string): (l: string)
    ensures |l| > |USER_PREFIX| && l[..|USER_PREFIX|] == USER_PREFIX
  {
    USER_PREFIX + proc + "_" + name
  }

  const USER_PREFIX: string := "_UserLabel_"

  /** The same procedure and label name always give the same label, and
      different label names in one procedure give different labels. */
  lemma UserLabelsDistinct(proc: string, a: string, b: string)
    ensures a != b ==> UserLabel(proc, a) != UserLabel(proc, b)
  {
    var n := |USER_PREFIX + proc + "_"|;
    if a != b {
      assert UserLabel(proc, a)[n..] == a;
      assert UserLabel(proc, b)[n..] == b;
    }
  }

  /** Two appended pieces: the list after both is the list before them
      followed by the two codes, and the code keeps its slots. */
  lemma Join(p: seq<Instr>, a: seq<Instr>, q: seq<Instr>, b: seq<Instr>, r: seq<Instr>)
    requires q == p + a && r == q + b && AllWellFormed(a) && AllWellFormed(b)
    ensures r == p + (a + b) && AllWellFormed(a + b)
  {
    Chain(p, a, q, b, r);
  }

  /** Grows is transitive. */
  lemma GrowsTrans(a: IrState, b: IrState, c: IrState)
    requires Grows(a, b) && Grows(b, c)
    ensures Grows(a, c)
  {
  }

  /** `ir_reset_register` keeps everything `Grows` tracks. */
  lemma ResetGrows(a: IrState, b: IrState)
    requires Grows(a, b)
    ensures Grows(a, ResetRegister(b)) && ResetRegister(b).prog == b.prog && ResetRegister(b).scope == b.scope
  {
  }

  /** Four appended pieces in a row. */
  lemma Pieces4(p0: seq<Instr>, a: seq<Instr>, p1: seq<Instr>, b: seq<Instr>, p2: seq<Instr>,
                c: seq<Instr>, p3: seq<Instr>, d: seq<Instr>, p4: seq<Instr>)
    requires p1 == p0 + a && p2 == p1 + b && p3 == p2 + c && p4 == p3 + d
    requires AllWellFormed(a) && AllWellFormed(b) && AllWellFormed(c) && AllWellFormed(d)
    ensures p4 == p0 + (((a + b) + c) + d) && AllWellFormed(((a + b) + c) + d)
  {
    Chain3(p0, a, p1, b, p2, c, p3);
    Chain(p0, (a + b) + c, p3, d, p4);
  }

  /** Grows along four steps. */
  lemma GrowsChain(a: IrState, b: IrState, c: IrState, d: IrState, e: IrState)
    requires Grows(a, b) && Grows(b, c) && Grows(c, d) && Grows(d, e)
    ensures Grows(a, e)
  {
  }

  // ---------------------------------------------------------------------------
  // Simple statements
  // ---------------------------------------------------------------------------

  /** `ir_generate_for_expression_statement`: the expression, and its value. */
  method LowerExprStmt(st: IrState, s: Stmt, ctx: Ctx) returns (r: Result<Done>)
    requires GenValid(st) && s.ExprStmt?
    ensures StmtLowered(st, s, r)
    ensures r.Ok? ==> |r.value.code| > 0
  {
    var gR := LowerExpr(st, s.e, ctx.strings, ctx.bare);
    if gR.Err? { return Err(gR.failure); }
    var g := gR.value;
    return Ok(Done(g.st, g.code, Some(g.v)));
  }

  /** `ir_convert_identifier_to_rval` on a statement: an expression statement
      has its identifier (or the parts of its comma expression) loaded; any
      other statement is left alone. */
  method ConvertStmt(st: IrState, s: Stmt, d: Done) returns (r: Result<(IrState, seq<Instr>)>)
    requires GenValid(st)
    requires s.ExprStmt? ==> d.v.Some? && Mirrors(s.e, d.v.value)
    ensures r.Ok? ==>
              && GenValid(r.value.0) && Grows(st, r.value.0) && r.value.0.scope == st.scope
              && r.value.0.prog == st.prog + r.value.1 && AllWellFormed(r.value.1)
    ensures !s.ExprStmt? ==> r == Ok((st, []))
  {
    if !s.ExprStmt? {
      return Ok((st, []));
    }
    var gR := ConvertIdentifier(st, s.e, d.v.value);
    if gR.Err? { return Err(gR.failure); }
    return Ok((gR.value.st, gR.value.code));
  }

  /** `ir_generate_for_break_statement`: a jump to the target of the first
      `gotoIfFalse` the nearest loop appended to itself. Without one the
      assertion fails; without a loop the walk up the tree reads a null
      pointer. */
  method LowerBreak(st: IrState, s: Stmt, ctx: Ctx) returns (r: Result<Done>)
    requires GenValid(st) && s.Break?
    ensures StmtLowered(st, s, r)
    ensures r.Ok? <==> !BreakAborts(ctx)
    ensures r.Ok? ==> |r.value.code| == 1 && Fits(r.value.code[0], Want(Opcode.Goto, st.scope, [Str(ctx.loop.value.exit.value)]))
  {
    if ctx.loop.None? {
      return Err(Undefined("ir_generate_for_break_statement: no enclosing loop"));
    }
    if ctx.loop.value.exit.None? {
      return Err(Aborts("ir_generate_for_break_statement: the loop has no gotoIfFalse yet"));
    }
    var s1, x := Emit(st, Opcode.Goto, [Str(ctx.loop.value.exit.value)]);
    return Ok(Done(s1, [x], None));
  }

  /** `ir_generate_for_continue_statement`: a jump to the nearest loop's
      label. That label precedes the loop's condition, so in a `for` loop a
      `continue` skips the step. */
  method LowerContinue(st: IrState, s: Stmt, ctx: Ctx) returns (r: Result<Done>)
    requires GenValid(st) && s.Continue?
    ensures StmtLowered(st, s, r)
    ensures r.Ok? <==> ctx.loop.Some?
    ensures r.Ok? ==> |r.value.code| == 1 && Fits(r.value.code[0], Want(Opcode.Goto, st.scope, [Str(ctx.loop.value.head)]))
  {
    if ctx.loop.None? {
      return Err(Undefined("ir_generate_for_continue_statement: no enclosing loop"));
    }
    var s1, x := Emit(st, Opcode.Goto, [Str(ctx.loop.value.head)]);
    return Ok(Done(s1, [x], None));
  }

  /** `ir_generate_for_goto_statement`: a jump to the user label qualified by
      the procedure it is defined in. */
  method LowerGoto(st: IrState, s: Stmt, ctx: Ctx) returns (r: Result<Done>)
    requires GenValid(st) && s.Goto?
    ensures StmtLowered(st, s, r)
    ensures r.Ok? <==> ctx.func.Some?
    ensures r.Ok? ==> |r.value.code| == 1 && Fits(r.value.code[0], Want(Opcode.Goto, st.scope, [Str(UserLabel(ctx.func.value.name, s.target))]))
  {
    if ctx.func.None? {
      return Err(Aborts("search_statement_label_table: the label has no procedure"));
    }
    var s1, x := Emit(st, Opcode.Goto, [Str(UserLabel(ctx.func.value.name, s.target))]);
    return Ok(Done(s1, [x], None));
  }

  /** The value of a `return`, generated and converted, then the return of
      the function's width. */
  method ReturnValue(st: IrState, x: Expr, ctx: Ctx, f: Func) returns (r: Result<Gen>)
    requires GenValid(st)
    ensures r.Ok? ==>
              && GenValid(r.value.st) && Grows(st, r.value.st) && r.value.st.scope == st.scope
              && r.value.st.prog == st.prog + r.value.code && AllWellFormed(r.value.code)
              && InstructionType(f.returnType, GReturn).Ok?
              && |r.value.code| > 0
              && Fits(r.value.code[|r.value.code| - 1], Want(InstructionType(f.returnType, GReturn).value, st.scope, [Unset]))
  {
    var gR := LowerConverted(st, x, ctx.strings);
    if gR.Err? { return Err(gR.failure); }
    var g := gR.value;
    var kindR := InstructionType(f.returnType, GReturn);
    if kindR.Err? { return Err(kindR.failure); }
    var s1, y := Emit(g.st, kindR.value, [Read(g.v)]);
    Chain(st.prog, g.code, g.st.prog, [y], s1.prog);
    return Ok(Gen(s1, g.v, g.code + [y]));
  }

  /** `ir_generate_for_return_statement`: the value, if any, returned with
      the width of the function's type, then a jump to the label the
      function's body ends with; temporaries restart afterwards. */
  method LowerReturn(st: IrState, s: Stmt, ctx: Ctx) returns (r: Result<Done>)
    requires GenValid(st) && s.Return?
    ensures StmtLowered(st, s, r)
    ensures ctx.func.None? ==> r.Err?
    ensures r.Ok? ==>
              && ctx.func.Some? && |r.value.code| > 0
              && Fits(r.value.code[|r.value.code| - 1], Want(Opcode.Goto, st.scope, [Str(ctx.func.value.exit)]))
              && (s.value.None? ==> |r.value.code| == 1)
              && (s.value.Some? ==>
                    && InstructionType(ctx.func.value.returnType, GReturn).Ok? && |r.value.code| > 1
                    && Fits(r.value.code[|r.value.code| - 2],
                            Want(InstructionType(ctx.func.value.returnType, GReturn).value, st.scope, [Unset])))
              && (st.resetRegisters ==> r.value.st.nextTemp == 1)
  {
    if ctx.func.None? {
      return Err(Undefined("ir_generate_for_return_statement: no enclosing function"));
    }
    var f := ctx.func.value;
    var s1 := st;
    var code: seq<Instr> := [];
    if s.value.Some? {
      var gR := ReturnValue(st, s.value.value, ctx, f);
      if gR.Err? { return Err(gR.failure); }
      s1 := gR.value.st;
      code := gR.value.code;
    }
    var s2, y := Emit(s1, Opcode.Goto, [Str(f.exit)]);
    Chain(st.prog, code, s1.prog, [y], s2.prog);
    ResetGrows(st, s2);
    return Ok(Done(ResetRegister(s2), code + [y], None));
  }

  // ---------------------------------------------------------------------------
  // Dispatch
  // ---------------------------------------------------------------------------

  /** What `ir_generate_for_possible_statement` hands each form on to: the
      code shape its own generator gives, and when that generator fails. */
  ghost predicate Dispatched(st: IrState, s: Stmt, ctx: Ctx, r: Result<Done>) {
    match s
    case ExprStmt(_) => r.Ok? ==> |r.value.code| > 0
    case If(_, _, elseS) => r.Ok? ==> exists sh :: r.value.code == IfCode(sh) && IfTags(sh, elseS.Some?)
    case While(_, _) =>
      r.Ok? ==> exists sh :: && r.value.code == WhileCode(sh) && sh.head == LabelName(st.labelCount)
                             && HeadTags(sh, LabelName(st.labelCount)) && ExitTags(sh)
    case DoWhile(_, _) =>
      r.Ok? ==> exists sh :: && r.value.code == DoWhileCode(sh) && sh.head == LabelName(st.labelCount)
                             && HeadTags(sh, st.scope) && ExitTags(sh)
    case For(_, test, _, _) =>
      r.Ok? ==> exists sh :: && r.value.code == ForCode(sh, test.Some?) && sh.head == LabelName(st.labelCount)
                             && HeadTags(sh, LabelName(st.labelCount)) && (test.Some? ==> ExitTags(sh))
    case Break =>
      && (r.Ok? <==> !BreakAborts(ctx))
      && (r.Ok? ==> |r.value.code| == 1 && Fits(r.value.code[0], Want(Opcode.Goto, st.scope, [Str(ctx.loop.value.exit.value)])))
    case Continue =>
      && (r.Ok? <==> ctx.loop.Some?)
      && (r.Ok? ==> |r.value.code| == 1 && Fits(r.value.code[0], Want(Opcode.Goto, st.scope, [Str(ctx.loop.value.head)])))
    case Return(_) =>
      && (ctx.func.None? ==> r.Err?)
      && (r.Ok? ==> |r.value.code| > 0 && Fits(r.value.code[|r.value.code| - 1], Want(Opcode.Goto, st.scope, [Str(ctx.func.value.exit)])))
    case Goto(target) =>
      && (r.Ok? <==> ctx.func.Some?)
      && (r.Ok? ==> |r.value.code| == 1 && Fits(r.value.code[0], Want(Opcode.Goto, st.scope, [Str(UserLabel(ctx.func.value.name, target))])))
    case Labeled(name, _) =>
      && (ctx.func.None? ==> r.Err?)
      && (r.Ok? ==> |r.value.code| > 0 && ctx.func.Some? &&
                    var l := UserLabel(ctx.func.value.name, name); Fits(r.value.code[0], Want(Label, l, [Str(l)])))
    case Block(_) => r.Ok? ==> r.value.v.None?
    case FunctionDef(name, _, _) =>
      r.Ok? ==> exists sh :: && r.value.code == FuncCode(sh) && sh.exit == LabelName(st.labelCount)
                             && Fits(sh.begin, Want(ProcBegin, st.scope, [Str(FunctionName(name)), Str(name)]))
    case NullStmt => r == Ok(Done(st, [], None))
  }

  /** `ir_generate_for_possible_statement`. */
  method LowerStmt(st: IrState, s: Stmt, ctx: Ctx) returns (r: Result<Done>)
    requires GenValid(st)
    ensures StmtLowered(st, s, r)
    ensures Dispatched(st, s, ctx, r)
    ensures DirectBreak(s) && BreakAborts(ctx) ==> r.Err?
    decreases s, 3
  {
    match s {
      case ExprStmt(_) => r := LowerExprStmt(st, s, ctx);
      case If(_, _, _) => var sh; r, sh := LowerIf(st, s, ctx);
      case While(_, _) => var sh; r, sh := LowerWhile(st, s, ctx);
      case DoWhile(_, _) => var sh; r, sh := LowerDoWhile(st, s, ctx);
      case For(_, _, _, _) => var sh; r, sh := LowerFor(st, s, ctx);
      case Break => r := LowerBreak(st, s, ctx);
      case Continue => r := LowerContinue(st, s, ctx);
      case Return(_) => r := LowerReturn(st, s, ctx);
      case Goto(_) => r := LowerGoto(st, s, ctx);
      case Labeled(_, _) => r := LowerLabeled(st, s, ctx);
      case Block(_) => r := LowerBlock(st, s, ctx);
      case FunctionDef(_, _, _) => var sh; r, sh := LowerFunction(st, s, ctx);
      case NullStmt => r := Ok(Done(st, [], None));
    }
  }

  /** A statement that may be missing. */
  method LowerOptional(st: IrState, s: Option<Stmt>, ctx: Ctx, ghost parent: Stmt) returns (r: Result<Done>)
    requires GenValid(st)
    requires s.Some? ==> s.value < parent
    ensures s.Some? ==> StmtLowered(st, s.value, r)
    ensures s.None? ==> r == Ok(Done(st, [], None))
    ensures r.Ok? ==>
              && GenValid(r.value.st) && Grows(st, r.value.st) && r.value.st.scope == st.scope
              && r.value.st.prog == st.prog + r.value.code && AllWellFormed(r.value.code)
    ensures s.Some? && DirectBreak(s.value) && BreakAborts(ctx) ==> r.Err?
    decreases parent, 0
  {
    if s.None? {
      return Ok(Done(st, [], None));
    }
    r := LowerStmt(st, s.value, ctx);
  }

  // ---------------------------------------------------------------------------
  // Statement lists
  // ---------------------------------------------------------------------------

  /** `ir_generate_for_statement_list` (and a compound statement or function
      body, which is one): the statements in order, temporaries restarting
      after each. */
  method LowerBlock(st: IrState, s: Stmt, ctx: Ctx) returns (r: Result<Done>)
    requires GenValid(st) && (s.Block? || s.FunctionDef?)
    ensures r.Ok? ==>
              && GenValid(r.value.st) && Grows(st, r.value.st) && r.value.st.scope == st.scope
              && r.value.st.prog == st.prog + r.value.code && AllWellFormed(r.value.code)
              && r.value.v.None?
    ensures (exists k :: 0 <= k < |s.stmts| && DirectBreak(s.stmts[k])) && BreakAborts(ctx) ==> r.Err?
    decreases s, 1
  {
    var cur := st;
    var code: seq<Instr> := [];
    var i := 0;
    while i < |s.stmts|
      invariant 0 <= i <= |s.stmts|
      invariant GenValid(cur) && Grows(st, cur) && cur.scope == st.scope
      invariant cur.prog == st.prog + code && AllWellFormed(code)
      invariant BreakAborts(ctx) ==> forall k :: 0 <= k < i ==> !DirectBreak(s.stmts[k])
    {
      var dR := LowerStmt(cur, s.stmts[i], ctx);
      if dR.Err? { return Err(dR.failure); }
      var d := dR.value;
      Join(st.prog, code, cur.prog, d.code, d.st.prog);
      GrowsTrans(st, cur, d.st);
      ResetGrows(st, d.st);
      cur := ResetRegister(d.st);
      code := code + d.code;
      i := i + 1;
    }
    return Ok(Done(cur, code, None));
  }

  // ---------------------------------------------------------------------------
  // If statements
  // ---------------------------------------------------------------------------

  /** The instructions of an if statement, `l` being its fresh label and
      `lout` the join label: the condition's code, the `gotoIfFalse` to `l`,
      the `then` code, the jump to `lout`, the `else` part (which starts with
      the label `l`) and the label `lout`. */
  datatype IfShape = IfShape(l: string, lout: string, cond: seq<Instr>, jump: Instr, thenCode: seq<Instr>,
                             jumpOut: Instr, elseCode: seq<Instr>, join: Instr)

  /** The tags of an if statement: the `gotoIfFalse`, the jump to the join
      label and the join label are in the scope "l_true"; the label `l` is in
      the scope `l` when there is an `else` part, which follows it, and in
      "l_true" when there is none. */
  predicate IfTags(sh: IfShape, hasElse: bool) {
    && sh.l != sh.lout && |sh.elseCode| > 0
    && Fits(sh.jump, Want(GotoIfFalse, sh.l + TRUE_SUFFIX, [Unset, Str(sh.l)]))
    && Fits(sh.jumpOut, Want(Opcode.Goto, sh.l + TRUE_SUFFIX, [Str(sh.lout)]))
    && Fits(sh.join, Want(Label, sh.l + TRUE_SUFFIX, [Str(sh.lout)]))
    && (hasElse ==> Fits(sh.elseCode[0], Want(Label, sh.l, [Str(sh.l)])))
    && (!hasElse ==> sh.elseCode == [sh.elseCode[0]] && Fits(sh.elseCode[0], Want(Label, sh.l + TRUE_SUFFIX, [Str(sh.l)])))
  }

  /** The code of an if statement in the order of its shape. */
  function IfCode(sh: IfShape): seq<Instr> {
    sh.cond + [sh.jump] + sh.thenCode + [sh.jumpOut] + sh.elseCode + [sh.join]
  }

  /** The condition, generated and converted in the enclosing scope, then a
      fresh label `l` and, in the scope "l_true", the `gotoIfFalse` to it. */
  method IfHead(st: IrState, cond: Expr, ctx: Ctx) returns (r: Result<(IrState, seq<Instr>, Instr)>)
    requires GenValid(st)
    ensures r.Ok? ==>
              var (b, c, x) := r.value;
              && GenValid(b) && Grows(st, b) && st.labelCount < b.labelCount
              && b.scope == LabelName(b.labelCount - 1) + TRUE_SUFFIX
              && b.prog == st.prog + (c + [x]) && AllWellFormed(c + [x])
              && Fits(x, Want(GotoIfFalse, LabelName(b.labelCount - 1) + TRUE_SUFFIX, [Unset, Str(LabelName(b.labelCount - 1))]))
  {
    var gR := LowerConverted(st, cond, ctx.strings);
    if gR.Err? { return Err(gR.failure); }
    var g := gR.value;
    var (s1, l) := NewLabel(g.st);
    var s2, x := Emit(s1.(scope := l + TRUE_SUFFIX), GotoIfFalse, [Read(g.v), Str(l)]);
    Join(st.prog, g.code, g.st.prog, [x], s2.prog);
    return Ok((s2, g.code, x));
  }

  /** The `then` statement, `ir_reset_register`, its conversion, then a fresh
      join label and the jump to it. */
  method IfThen(st: IrState, t: Stmt, ctx: Ctx, ghost parent: Stmt) returns (r: Result<(IrState, seq<Instr>, Instr)>)
    requires GenValid(st) && t < parent
    ensures r.Ok? ==>
              var (b, c, x) := r.value;
              && GenValid(b) && Grows(st, b) && st.labelCount < b.labelCount && b.scope == st.scope
              && b.prog == st.prog + (c + [x]) && AllWellFormed(c + [x])
              && Fits(x, Want(Opcode.Goto, st.scope, [Str(LabelName(b.labelCount - 1))]))
    ensures DirectBreak(t) && BreakAborts(ctx) ==> r.Err?
    decreases parent, 0
  {
    var dR := LowerStmt(st, t, ctx);
    if dR.Err? { return Err(dR.failure); }
    r := ThenEnd(st, t, dR.value);
  }

  /** The rest of the `then` part once the statement `t` is lowered to `d`:
      its conversion, then the jump to a fresh label. */
  method ThenEnd(st: IrState, t: Stmt, d: Done) returns (r: Result<(IrState, seq<Instr>, Instr)>)
    requires GenValid(st) && StmtLowered(st, t, Ok(d))
    ensures r.Ok? ==>
              var (b, c, x) := r.value;
              && GenValid(b) && Grows(st, b) && st.labelCount < b.labelCount && b.scope == st.scope
              && b.prog == st.prog + (c + [x]) && AllWellFormed(c + [x])
              && Fits(x, Want(Opcode.Goto, st.scope, [Str(LabelName(b.labelCount - 1))]))
  {
    ResetGrows(st, d.st);
    var cR := ConvertStmt(ResetRegister(d.st), t, d);
    if cR.Err? { return Err(cR.failure); }
    var (s1, cc) := cR.value;
    Join(st.prog, d.code, d.st.prog, cc, s1.prog);
    GrowsTrans(st, ResetRegister(d.st), s1);
    var (s2, lout) := NewLabel(s1);
    var s3, x := Emit(s2, Opcode.Goto, [Str(lout)]);
    Join(st.prog, d.code + cc, s1.prog, [x], s3.prog);
    return Ok((s3, d.code + cc, x));
  }

  /** The `else` part: in the scope `l`, the label `l`, the `else` statement
      and its conversion; with no `else` statement, the label `l` alone in
      the current scope. The scope is restored afterwards. */
  method IfElse(st: IrState, e: Option<Stmt>, l: string, ctx: Ctx, ghost parent: Stmt) returns (r: Result<(IrState, seq<Instr>)>)
    requires GenValid(st) && (e.Some? ==> e.value < parent)
    ensures r.Ok? ==>
              var (b, c) := r.value;
              && GenValid(b) && Grows(st, b) && b.scope == st.scope
              && b.prog == st.prog + c && AllWellFormed(c) && |c| > 0
              && (e.Some? ==> Fits(c[0], Want(Label, l, [Str(l)])))
              && (e.None? ==> c == [c[0]] && Fits(c[0], Want(Label, st.scope, [Str(l)])))
    ensures e.Some? && DirectBreak(e.value) && BreakAborts(ctx) ==> r.Err?
    decreases parent, 0
  {
    if e.None? {
      var s1, x := Emit(st, Label, [Str(l)]);
      return Ok((s1, [x]));
    }
    var s1, x := Emit(st.(scope := l), Label, [Str(l)]);
    var dR := LowerStmt(s1, e.value, ctx);
    if dR.Err? { return Err(dR.failure); }
    var d := dR.value;
    var cR := ConvertStmt(d.st, e.value, d);
    if cR.Err? { return Err(cR.failure); }
    var (s2, cc) := cR.value;
    Join(st.prog, [x], s1.prog, d.code, d.st.prog);
    Join(st.prog, [x] + d.code, d.st.prog, cc, s2.prog);
    GrowsTrans(st, s1, d.st);
    GrowsTrans(st, d.st, s2);
    return Ok((s2.(scope := st.scope), [x] + d.code + cc));
  }

  /** The four pieces of an if statement, appended one after the other,
      are its code. */
  lemma IfAssembled(p0: seq<Instr>, p1: seq<Instr>, p2: seq<Instr>, p3: seq<Instr>, p4: seq<Instr>, sh: IfShape)
    requires p1 == p0 + (sh.cond + [sh.jump]) && AllWellFormed(sh.cond + [sh.jump])
    requires p2 == p1 + (sh.thenCode + [sh.jumpOut]) && AllWellFormed(sh.thenCode + [sh.jumpOut])
    requires p3 == p2 + sh.elseCode && AllWellFormed(sh.elseCode)
    requires p4 == p3 + [sh.join] && WellFormed(sh.join)
    ensures p4 == p0 + IfCode(sh) && AllWellFormed(IfCode(sh))
  {
    Pieces4(p0, sh.cond + [sh.jump], p1, sh.thenCode + [sh.jumpOut], p2, sh.elseCode, p3, [sh.join], p4);
    assert (((sh.cond + [sh.jump]) + (sh.thenCode + [sh.jumpOut])) + sh.elseCode) + [sh.join] == IfCode(sh);
  }

  /** The tags of an if statement follow from what its pieces promise. */
  lemma IfTagged(s1: IrState, s2: IrState, s3: IrState, hasElse: bool, sh: IfShape)
    requires 0 < s1.labelCount < s2.labelCount
    requires sh.l == LabelName(s1.labelCount - 1) && sh.lout == LabelName(s2.labelCount - 1)
    requires s1.scope == LabelName(s1.labelCount - 1) + TRUE_SUFFIX
    requires Fits(sh.jump, Want(GotoIfFalse, LabelName(s1.labelCount - 1) + TRUE_SUFFIX, [Unset, Str(LabelName(s1.labelCount - 1))]))
    requires s2.scope == s1.scope && Fits(sh.jumpOut, Want(Opcode.Goto, s1.scope, [Str(LabelName(s2.labelCount - 1))]))
    requires |sh.elseCode| > 0 && s3.scope == s2.scope
    requires hasElse ==> Fits(sh.elseCode[0], Want(Label, sh.l, [Str(sh.l)]))
    requires !hasElse ==> sh.elseCode == [sh.elseCode[0]] && Fits(sh.elseCode[0], Want(Label, s2.scope, [Str(sh.l)]))
    requires Fits(sh.join, Want(Label, s3.scope, [Str(sh.lout)]))
    ensures IfTags(sh, hasElse)
  {
    assert sh.l != sh.lout by {
      LabelNamesDistinct(s1.labelCount - 1, s2.labelCount - 1, "");
    }
    assert s1.scope == sh.l + TRUE_SUFFIX && s3.scope == s1.scope;
    IfTagsInScope(sh, hasElse, s1.scope);
  }

  /** `IfTags` with the if's scope `l_true` given by name. */
  lemma IfTagsInScope(sh: IfShape, hasElse: bool, scope: string)
    requires sh.l != sh.lout && |sh.elseCode| > 0 && scope == sh.l + TRUE_SUFFIX
    requires Fits(sh.jump, Want(GotoIfFalse, scope, [Unset, Str(sh.l)]))
    requires Fits(sh.jumpOut, Want(Opcode.Goto, scope, [Str(sh.lout)]))
    requires Fits(sh.join, Want(Label, scope, [Str(sh.lout)]))
    requires hasElse ==> Fits(sh.elseCode[0], Want(Label, sh.l, [Str(sh.l)]))
    requires !hasElse ==> sh.elseCode == [sh.elseCode[0]] && Fits(sh.elseCode[0], Want(Label, scope, [Str(sh.l)]))
    ensures IfTags(sh, hasElse)
  {
  }

  /** `ir_generate_for_conditional_statement` for an if statement: see
      `IfTags`. No phi is generated. */
  method LowerIf(st: IrState, s: Stmt, ctx: Ctx) returns (r: Result<Done>, sh: IfShape)
    requires GenValid(st) && s.If?
    ensures StmtLowered(st, s, r)
    ensures r.Ok? ==> r.value.code == IfCode(sh) && IfTags(sh, s.elseS.Some?)
    ensures DirectBreak(s) && BreakAborts(ctx) ==> r.Err?
    decreases s, 2
  {
    var inner := ctx.(bare := false);
    var dummy := Make(Label, "", []);
    sh := IfShape("", "", [], dummy, [], dummy, [], dummy);
    var hR := IfHead(st, s.cond, inner);
    if hR.Err? { return Err(hR.failure), sh; }
    var tR := IfThen(hR.value.0, s.thenS, inner, s);
    if tR.Err? { return Err(tR.failure), sh; }
    var eR := IfElse(tR.value.0, s.elseS, LabelName(hR.value.0.labelCount - 1), inner, s);
    if eR.Err? { return Err(eR.failure), sh; }
    var s4, join := Emit(eR.value.0, Label, [Str(LabelName(tR.value.0.labelCount - 1))]);
    sh := IfShape(LabelName(hR.value.0.labelCount - 1), LabelName(tR.value.0.labelCount - 1),
                  hR.value.1, hR.value.2, tR.value.1, tR.value.2, eR.value.1, join);
    IfTagged(hR.value.0, tR.value.0, eR.value.0, s.elseS.Some?, sh);
    IfAssembled(st.prog, hR.value.0.prog, tR.value.0.prog, eR.value.0.prog, s4.prog, sh);
    GrowsChain(st, hR.value.0, tR.value.0, eR.value.0, s4);
    return Ok(Done(s4.(scope := st.scope), IfCode(sh), None)), sh;
  }

  // ---------------------------------------------------------------------------
  // Loops
  // ---------------------------------------------------------------------------

  /** The instructions of a loop, `head` being its loop label and `exit` the
      label after it: the code of the initialiser, the loop label, the
      condition's code and the `gotoIfFalse` to `exit`, the body, the step,
      the jump back to `head` and the label `exit`. A `while` and a `do`
      loop have no initialiser or step. */
  datatype LoopShape = LoopShape(head: string, exit: string, init: seq<Instr>, headLabel: Instr, test: seq<Instr>,
                                 jump: Instr, body: seq<Instr>, step: seq<Instr>, back: Instr, exitLabel: Instr)

  /** The loop label, tagged `labelScope`, and the jump back to it, tagged
      with the loop label. */
  predicate HeadTags(sh: LoopShape, labelScope: string) {
    && Fits(sh.headLabel, Want(Label, labelScope, [Str(sh.head)]))
    && Fits(sh.back, Want(Opcode.Goto, sh.head, [Str(sh.head)]))
  }

  /** The `gotoIfFalse` to `exit` and the label `exit`, both tagged with the
      loop label, which differs from `exit`. */
  predicate ExitTags(sh: LoopShape) {
    && sh.head != sh.exit
    && Fits(sh.jump, Want(GotoIfFalse, sh.head, [Unset, Str(sh.exit)]))
    && Fits(sh.exitLabel, Want(Label, sh.head, [Str(sh.exit)]))
  }

  /** The tags of a loop follow from what its pieces promise: the loop
      label `x` (tagged `labelScope`), the jump back `y`, and when the loop
      has an exit the `gotoIfFalse` `j` and the exit label `z`; `a`, `b`, `c`
      are the scopes the pieces were generated in, all the loop label. */
  lemma LoopTagged(n: nat, m: nat, labelScope: string, a: string, b: string, c: string,
                   x: Instr, j: Instr, y: Instr, z: Instr, hasExit: bool, sh: LoopShape)
    requires n < m && a == LabelName(n) && b == a && c == b
    requires sh.head == LabelName(n) && sh.exit == LabelName(m) && sh.headLabel == x && sh.back == y
    requires hasExit ==> sh.jump == j && sh.exitLabel == z
    requires Fits(x, Want(Label, labelScope, [Str(LabelName(n))]))
    requires Fits(y, Want(Opcode.Goto, c, [Str(LabelName(n))]))
    requires hasExit ==> Fits(j, Want(GotoIfFalse, b, [Unset, Str(LabelName(m))]))
    requires hasExit ==> Fits(z, Want(Label, c, [Str(LabelName(m))]))
    ensures HeadTags(sh, labelScope) && (hasExit ==> ExitTags(sh))
  {
    LabelNamesDistinct(n, m, "");
  }

  /** The code of a `while` loop in the order of its shape. */
  function WhileCode(sh: LoopShape): seq<Instr> {
    [sh.headLabel] + sh.test + [sh.jump] + sh.body + [sh.back, sh.exitLabel]
  }

  /** The code of a `do` loop in the order of its shape. */
  function DoWhileCode(sh: LoopShape): seq<Instr> {
    [sh.headLabel] + sh.body + sh.test + [sh.jump, sh.back, sh.exitLabel]
  }

  /** The code of a `for` loop in the order of its shape; without a
      condition there is no `gotoIfFalse` and no exit label. */
  function ForCode(sh: LoopShape, hasTest: bool): seq<Instr> {
    if hasTest then sh.init + [sh.headLabel] + sh.test + [sh.jump] + sh.body + sh.step + [sh.back, sh.exitLabel]
    else sh.init + [sh.headLabel] + sh.body + sh.step + [sh.back]
  }

  /** A fresh loop label, made the scope, then appended as a label. */
  method LoopLabel(st: IrState) returns (b: IrState, x: Instr)
    requires GenValid(st)
    ensures GenValid(b) && Grows(st, b) && b.labelCount == st.labelCount + 1
    ensures b.scope == LabelName(st.labelCount) && b.prog == st.prog + [x] && AllWellFormed([x])
    ensures Fits(x, Want(Label, LabelName(st.labelCount), [Str(LabelName(st.labelCount))]))
  {
    var (s1, l) := NewLabel(st);
    b, x := Emit(s1.(scope := l), Label, [Str(l)]);
  }

  /** A loop condition: generated and converted, then a fresh exit label and
      the `gotoIfFalse` to it. */
  method LoopTest(st: IrState, cond: Expr, ctx: Ctx) returns (r: Result<(IrState, seq<Instr>, Instr)>)
    requires GenValid(st)
    ensures r.Ok? ==>
              var (b, c, x) := r.value;
              && GenValid(b) && Grows(st, b) && st.labelCount < b.labelCount && b.scope == st.scope
              && b.prog == st.prog + (c + [x]) && AllWellFormed(c + [x])
              && Fits(x, Want(GotoIfFalse, st.scope, [Unset, Str(LabelName(b.labelCount - 1))]))
  {
    var gR := LowerConverted(st, cond, ctx.strings);
    if gR.Err? { return Err(gR.failure); }
    var g := gR.value;
    var (s1, lout) := NewLabel(g.st);
    var s2, x := Emit(s1, GotoIfFalse, [Read(g.v), Str(lout)]);
    Join(st.prog, g.code, g.st.prog, [x], s2.prog);
    return Ok((s2, g.code, x));
  }

  /** The end of a loop: the jump back to `head` and the label `exit`. */
  method LoopEnd(st: IrState, head: string, exit: string) returns (b: IrState, x: Instr, y: Instr)
    requires GenValid(st)
    ensures GenValid(b) && Grows(st, b) && b.scope == st.scope && b.prog == st.prog + [x, y] && AllWellFormed([x, y])
    ensures Fits(x, Want(Opcode.Goto, st.scope, [Str(head)])) && Fits(y, Want(Label, st.scope, [Str(exit)]))
  {
    var s1, x1 := Emit(st, Opcode.Goto, [Str(head)]);
    var s2, y1 := Emit(s1, Label, [Str(exit)]);
    assert s2.prog == st.prog + [x1, y1];
    return s2, x1, y1;
  }

  /** The three pieces of a `while` loop, appended one after the other,
      are its code. */
  lemma WhileAssembled(p0: seq<Instr>, p1: seq<Instr>, p2: seq<Instr>, p3: seq<Instr>, sh: LoopShape)
    requires p1 == p0 + [sh.headLabel] && WellFormed(sh.headLabel)
    requires p2 == p1 + (sh.test + [sh.jump]) && AllWellFormed(sh.test + [sh.jump])
    requires p3 == p2 + (sh.body + [sh.back, sh.exitLabel]) && AllWellFormed(sh.body) && AllWellFormed([sh.back, sh.exitLabel])
    ensures p3 == p0 + WhileCode(sh) && AllWellFormed(WhileCode(sh))
  {
    Chain3(p0, [sh.headLabel], p1, sh.test + [sh.jump], p2, sh.body + [sh.back, sh.exitLabel], p3);
    assert ([sh.headLabel] + (sh.test + [sh.jump])) + (sh.body + [sh.back, sh.exitLabel]) == WhileCode(sh);
  }

  /** The body of a `while` loop after `ir_reset_register`, in a context
      whose loop has the labels `head` and `exit`, then the jump back and the
      exit label. */
  method WhileBody(st: IrState, s: Stmt, ctx: Ctx, head: string, exit: string)
    returns (r: Result<(IrState, seq<Instr>, Instr, Instr)>)
    requires GenValid(st) && s.While?
    ensures r.Ok? ==>
              && GenValid(r.value.0) && Grows(st, r.value.0) && r.value.0.scope == st.scope
              && r.value.0.prog == st.prog + (r.value.1 + [r.value.2, r.value.3])
              && AllWellFormed(r.value.1) && AllWellFormed([r.value.2, r.value.3])
              && Fits(r.value.2, Want(Opcode.Goto, st.scope, [Str(head)]))
              && Fits(r.value.3, Want(Label, st.scope, [Str(exit)]))
    decreases s, 1
  {
    ResetGrows(st, st);
    var bR := LowerOptional(ResetRegister(st), s.body, ctx.(bare := false, loop := Some(Loop(head, Some(exit)))), s);
    if bR.Err? { return Err(bR.failure); }
    var s4, back, exitLabel := LoopEnd(bR.value.st, head, exit);
    Join(st.prog, bR.value.code, bR.value.st.prog, [back, exitLabel], s4.prog);
    return Ok((s4, bR.value.code, back, exitLabel));
  }

  /** What the pieces of a `while` loop promise makes the loop lowered: the
      loop label `x` from `LoopLabel`, the condition `tR` from `LoopTest` and
      the body `bR` from `WhileBody`, put together in the shape `sh`. */
  lemma WhileLowered(st: IrState, s: Stmt, s1: IrState, x: Instr,
                     tR: Result<(IrState, seq<Instr>, Instr)>, bR: Result<(IrState, seq<Instr>, Instr, Instr)>,
                     sh: LoopShape)
    requires GenValid(st) && s.While?
    requires GenValid(s1) && Grows(st, s1) && s1.labelCount == st.labelCount + 1
    requires s1.scope == LabelName(st.labelCount) && s1.prog == st.prog + [x] && AllWellFormed([x])
    requires Fits(x, Want(Label, LabelName(st.labelCount), [Str(LabelName(st.labelCount))]))
    requires tR.Ok? && bR.Ok?
    requires tR.Ok? ==>
               var (b, c, x) := tR.value;
               && GenValid(b) && Grows(s1, b) && s1.labelCount < b.labelCount && b.scope == s1.scope
               && b.prog == s1.prog + (c + [x]) && AllWellFormed(c + [x])
               && Fits(x, Want(GotoIfFalse, s1.scope, [Unset, Str(LabelName(b.labelCount - 1))]))
    requires bR.Ok? ==>
               && GenValid(bR.value.0) && Grows(tR.value.0, bR.value.0) && bR.value.0.scope == tR.value.0.scope
               && bR.value.0.prog == tR.value.0.prog + (bR.value.1 + [bR.value.2, bR.value.3])
               && AllWellFormed(bR.value.1) && AllWellFormed([bR.value.2, bR.value.3])
               && Fits(bR.value.2, Want(Opcode.Goto, tR.value.0.scope, [Str(LabelName(st.labelCount))]))
               && Fits(bR.value.3, Want(Label, tR.value.0.scope, [Str(LabelName(tR.value.0.labelCount - 1))]))
    requires sh == LoopShape(LabelName(st.labelCount), LabelName(tR.value.0.labelCount - 1), [], x,
                             tR.value.1, tR.value.2, bR.value.1, [], bR.value.2, bR.value.3)
    ensures StmtLowered(st, s, Ok(Done(bR.value.0.(scope := st.scope), WhileCode(sh), None)))
    ensures HeadTags(sh, LabelName(st.labelCount)) && ExitTags(sh)
  {
    var (s2, _, j) := tR.value;
    var (s4, _, back, exitLabel) := bR.value;
    LoopTagged(st.labelCount, s2.labelCount - 1, LabelName(st.labelCount), s1.scope, s1.scope, s2.scope,
               x, j, back, exitLabel, true, sh);
    WhileAssembled(st.prog, s1.prog, s2.prog, s4.prog, sh);
    GrowsTrans(st, s1, s2);
    GrowsTrans(st, s2, s4);
    LoopLowered(st, s, s4, WhileCode(sh));
  }

  /** A loop statement whose code was appended to the program, in a state
      that grew from `st`, is lowered once the scope is restored. */
  lemma LoopLowered(st: IrState, s: Stmt, s4: IrState, code: seq<Instr>)
    requires !s.ExprStmt? && GenValid(s4) && Grows(st, s4)
    requires s4.prog == st.prog + code && AllWellFormed(code)
    ensures StmtLowered(st, s, Ok(Done(s4.(scope := st.scope), code, None)))
  {
  }

  /** `ir_handle_while_loop`: in the scope of the loop label, the label, the
      condition and the `gotoIfFalse` out, the body (in which a `break` jumps
      out and a `continue` back to the label), the jump back and the exit
      label. */
  method LowerWhile(st: IrState, s: Stmt, ctx: Ctx) returns (r: Result<Done>, sh: LoopShape)
    requires GenValid(st) && s.While?
    ensures StmtLowered(st, s, r)
    ensures r.Ok? ==> r.value.code == WhileCode(sh) && sh.head == LabelName(st.labelCount) && HeadTags(sh, LabelName(st.labelCount)) && ExitTags(sh)
    decreases s, 2
  {
    var dummy := Make(Label, "", []);
    sh := LoopShape("", "", [], dummy, [], dummy, [], [], dummy, dummy);
    var s1, headLabel := LoopLabel(st);
    var tR := LoopTest(s1, s.cond, ctx.(bare := false));
    if tR.Err? { return Err(tR.failure), sh; }
    var bR := WhileBody(tR.value.0, s, ctx, LabelName(st.labelCount), LabelName(tR.value.0.labelCount - 1));
    if bR.Err? { return Err(bR.failure), sh; }
    sh := LoopShape(LabelName(st.labelCount), LabelName(tR.value.0.labelCount - 1), [], headLabel,
                    tR.value.1, tR.value.2, bR.value.1, [], bR.value.2, bR.value.3);
    WhileLowered(st, s, s1, headLabel, tR, bR, sh);
    return Ok(Done(bR.value.0.(scope := st.scope), WhileCode(sh), None)), sh;
  }

  /** The four pieces of a `do` loop, appended one after the other, are its
      code. */
  lemma DoWhileAssembled(p0: seq<Instr>, p1: seq<Instr>, p2: seq<Instr>, p3: seq<Instr>, p4: seq<Instr>, sh: LoopShape)
    requires p1 == p0 + [sh.headLabel] && WellFormed(sh.headLabel)
    requires p2 == p1 + sh.body && AllWellFormed(sh.body)
    requires p3 == p2 + (sh.test + [sh.jump]) && AllWellFormed(sh.test + [sh.jump])
    requires p4 == p3 + [sh.back, sh.exitLabel] && AllWellFormed([sh.back, sh.exitLabel])
    ensures p4 == p0 + DoWhileCode(sh) && AllWellFormed(DoWhileCode(sh))
  {
    Pieces4(p0, [sh.headLabel], p1, sh.body, p2, sh.test + [sh.jump], p3, [sh.back, sh.exitLabel], p4);
    assert ((([sh.headLabel] + sh.body) + (sh.test + [sh.jump])) + [sh.back, sh.exitLabel]) == DoWhileCode(sh);
  }

  /** The label of a `do` loop: a fresh label appended in the enclosing
      scope, which it then replaces. */
  method DoLabel(st: IrState) returns (b: IrState, x: Instr)
    requires GenValid(st)
    ensures GenValid(b) && Grows(st, b) && b.labelCount == st.labelCount + 1
    ensures b.scope == LabelName(st.labelCount) && b.prog == st.prog + [x] && AllWellFormed([x])
    ensures Fits(x, Want(Label, st.scope, [Str(LabelName(st.labelCount))]))
  {
    var (s1, l) := NewLabel(st);
    var s2, y := Emit(s1, Label, [Str(l)]);
    LayoutOne(y, Want(Label, st.scope, [Str(l)]));
    b, x := s2.(scope := l), y;
  }

  /** The condition of a `do` loop: generated and converted, then
      `ir_reset_register`, a fresh exit label and the `gotoIfFalse` to it. */
  method DoWhileTest(st: IrState, cond: Expr, ctx: Ctx) returns (r: Result<(IrState, seq<Instr>, Instr)>)
    requires GenValid(st)
    ensures r.Ok? ==>
              var (b, c, x) := r.value;
              && GenValid(b) && Grows(st, b) && st.labelCount < b.labelCount && b.scope == st.scope
              && b.prog == st.prog + (c + [x]) && AllWellFormed(c + [x])
              && Fits(x, Want(GotoIfFalse, st.scope, [Unset, Str(LabelName(b.labelCount - 1))]))
  {
    var gR := LowerConverted(st, cond, ctx.strings);
    if gR.Err? { return Err(gR.failure); }
    var g := gR.value;
    ResetGrows(st, g.st);
    var (s1, exit) := NewLabel(ResetRegister(g.st));
    var s2, x := Emit(s1, GotoIfFalse, [Read(g.v), Str(exit)]);
    Join(st.prog, g.code, g.st.prog, [x], s2.prog);
    return Ok((s2, g.code, x));
  }

  /** What the pieces of a `do` loop promise makes the loop lowered: the
      loop label `x` from `DoLabel`, the body `bR`, the condition `tR` from
      `DoWhileTest` and the end from `LoopEnd`, put together in the shape
      `sh`. */
  lemma DoWhileLowered(st: IrState, s: Stmt, s1: IrState, x: Instr, bR: Result<Done>,
                       tR: Result<(IrState, seq<Instr>, Instr)>, s4: IrState, back: Instr, exitLabel: Instr,
                       sh: LoopShape)
    requires GenValid(st) && s.DoWhile?
    requires GenValid(s1) && Grows(st, s1) && s1.labelCount == st.labelCount + 1
    requires s1.scope == LabelName(st.labelCount) && s1.prog == st.prog + [x] && AllWellFormed([x])
    requires Fits(x, Want(Label, st.scope, [Str(LabelName(st.labelCount))]))
    requires bR.Ok? && tR.Ok?
    requires bR.Ok? ==>
               && GenValid(bR.value.st) && Grows(s1, bR.value.st) && bR.value.st.scope == s1.scope
               && bR.value.st.prog == s1.prog + bR.value.code && AllWellFormed(bR.value.code)
    requires tR.Ok? ==>
               var (b, c, x) := tR.value;
               && GenValid(b) && Grows(bR.value.st, b) && bR.value.st.labelCount < b.labelCount && b.scope == bR.value.st.scope
               && b.prog == bR.value.st.prog + (c + [x]) && AllWellFormed(c + [x])
               && Fits(x, Want(GotoIfFalse, bR.value.st.scope, [Unset, Str(LabelName(b.labelCount - 1))]))
    requires GenValid(s4) && Grows(tR.value.0, s4) && s4.scope == tR.value.0.scope
    requires s4.prog == tR.value.0.prog + [back, exitLabel] && AllWellFormed([back, exitLabel])
    requires Fits(back, Want(Opcode.Goto, tR.value.0.scope, [Str(LabelName(st.labelCount))]))
    requires Fits(exitLabel, Want(Label, tR.value.0.scope, [Str(LabelName(tR.value.0.labelCount - 1))]))
    requires sh == LoopShape(LabelName(st.labelCount), LabelName(tR.value.0.labelCount - 1), [], x,
                             tR.value.1, tR.value.2, bR.value.code, [], back, exitLabel)
    ensures StmtLowered(st, s, Ok(Done(s4.(scope := st.scope), DoWhileCode(sh), None)))
    ensures HeadTags(sh, st.scope) && ExitTags(sh)
  {
    LoopTagged(st.labelCount, tR.value.0.labelCount - 1, st.scope, s1.scope, bR.value.st.scope, tR.value.0.scope,
               x, tR.value.2, back, exitLabel, true, sh);
    DoWhileAssembled(st.prog, s1.prog, bR.value.st.prog, tR.value.0.prog, s4.prog, sh);
    GrowsTrans(st, s1, bR.value.st);
    GrowsTrans(st, bR.value.st, tR.value.0);
    GrowsTrans(st, tR.value.0, s4);
    LoopLowered(st, s, s4, DoWhileCode(sh));
  }

  /** `ir_handle_do_while_loop`: the loop label in the enclosing scope, then
      in the loop label's scope the body, the condition, the `gotoIfFalse`
      out, the jump back and the exit label. The `gotoIfFalse` comes after
      the body, so a `break` in the body finds none and aborts. */
  method LowerDoWhile(st: IrState, s: Stmt, ctx: Ctx) returns (r: Result<Done>, sh: LoopShape)
    requires GenValid(st) && s.DoWhile?
    ensures StmtLowered(st, s, r)
    ensures r.Ok? ==> r.value.code == DoWhileCode(sh) && HeadTags(sh, st.scope) && ExitTags(sh) && sh.head == LabelName(st.labelCount)
    ensures s.body.Some? && DirectBreak(s.body.value) ==> r.Err?
    decreases s, 2
  {
    var dummy := Make(Label, "", []);
    sh := LoopShape("", "", [], dummy, [], dummy, [], [], dummy, dummy);
    var s1, headLabel := DoLabel(st);
    var bR := LowerOptional(s1, s.body,
                            ctx.(bare := false, loop := Some(Loop(LabelName(st.labelCount), None))), s);
    if bR.Err? { return Err(bR.failure), sh; }
    var tR := DoWhileTest(bR.value.st, s.cond, ctx);
    if tR.Err? { return Err(tR.failure), sh; }
    var s4, back, exitLabel := LoopEnd(tR.value.0, LabelName(st.labelCount), LabelName(tR.value.0.labelCount - 1));
    sh := LoopShape(LabelName(st.labelCount), LabelName(tR.value.0.labelCount - 1), [], headLabel,
                    tR.value.1, tR.value.2, bR.value.code, [], back, exitLabel);
    DoWhileLowered(st, s, s1, headLabel, bR, tR, s4, back, exitLabel, sh);
    return Ok(Done(s4.(scope := st.scope), DoWhileCode(sh), None)), sh;
  }

  /** The initialiser or step of a `for` loop: the statement if there is one,
      then `ir_reset_register`. */
  method ForPart(st: IrState, s: Option<Stmt>, ctx: Ctx, ghost parent: Stmt) returns (r: Result<(IrState, seq<Instr>)>)
    requires GenValid(st) && (s.Some? ==> s.value < parent)
    ensures r.Ok? ==>
              && GenValid(r.value.0) && Grows(st, r.value.0) && r.value.0.scope == st.scope
              && r.value.0.prog == st.prog + r.value.1 && AllWellFormed(r.value.1)
    ensures s.None? ==> r == Ok((st, []))
    decreases parent, 0
  {
    if s.None? {
      return Ok((st, []));
    }
    var dR := LowerStmt(st, s.value, ctx);
    if dR.Err? { return Err(dR.failure); }
    ResetGrows(st, dR.value.st);
    return Ok((ResetRegister(dR.value.st), dR.value.code));
  }

  /** The condition of a `for` loop: generated, then `ir_reset_register`,
      then converted (so a load it needs reuses the first temporary), then
      the `gotoIfFalse` to `exit`. */
  method ForTest(st: IrState, cond: Expr, ctx: Ctx, exit: string) returns (r: Result<(IrState, seq<Instr>, Instr)>)
    requires GenValid(st)
    ensures r.Ok? ==>
              var (b, c, x) := r.value;
              && GenValid(b) && Grows(st, b) && b.scope == st.scope
              && b.prog == st.prog + (c + [x]) && AllWellFormed(c + [x])
              && Fits(x, Want(GotoIfFalse, st.scope, [Unset, Str(exit)]))
  {
    var gR := LowerExpr(st, cond, ctx.strings, false);
    if gR.Err? { return Err(gR.failure); }
    var g := gR.value;
    ResetGrows(st, g.st);
    var cR := ConvertIdentifier(ResetRegister(g.st), cond, g.v);
    if cR.Err? { return Err(cR.failure); }
    var c := cR.value;
    var s1, x := Emit(c.st, GotoIfFalse, [Read(c.v), Str(exit)]);
    Join(st.prog, g.code, g.st.prog, c.code, c.st.prog);
    Join(st.prog, g.code + c.code, c.st.prog, [x], s1.prog);
    GrowsTrans(st, ResetRegister(g.st), c.st);
    return Ok((s1, g.code + c.code, x));
  }

  /** The condition of a `for` loop if it has one (see `ForTest`); nothing
      without one. */
  method ForCondition(st: IrState, test: Option<Expr>, ctx: Ctx, exit: string) returns (r: Result<(IrState, seq<Instr>, Instr)>)
    requires GenValid(st)
    ensures r.Ok? ==>
              && GenValid(r.value.0) && Grows(st, r.value.0) && r.value.0.scope == st.scope
              && r.value.0.prog == st.prog + (if test.Some? then r.value.1 + [r.value.2] else [])
              && AllWellFormed(if test.Some? then r.value.1 + [r.value.2] else [])
              && (test.Some? ==> Fits(r.value.2, Want(GotoIfFalse, st.scope, [Unset, Str(exit)])))
    ensures test.None? ==> r.Ok? && r.value.0 == st && r.value.1 == []
  {
    if test.None? {
      return Ok((st, [], Make(Label, "", [])));
    }
    r := ForTest(st, test.value, ctx, exit);
  }

  /** The pieces of a `for` loop, appended one after the other, are its
      code: the initialiser and loop label, the condition with its
      `gotoIfFalse` if there is one, the body and step, and the end. */
  lemma ForAssembled(p0: seq<Instr>, p1: seq<Instr>, p2: seq<Instr>, p3: seq<Instr>, p4: seq<Instr>,
                     sh: LoopShape, hasTest: bool, test: seq<Instr>, tail: seq<Instr>)
    requires test == (if hasTest then sh.test + [sh.jump] else [])
    requires tail == (if hasTest then [sh.back, sh.exitLabel] else [sh.back])
    requires p1 == p0 + (sh.init + [sh.headLabel]) && AllWellFormed(sh.init + [sh.headLabel])
    requires p2 == p1 + test && AllWellFormed(test)
    requires p3 == p2 + (sh.body + sh.step) && AllWellFormed(sh.body + sh.step)
    requires p4 == p3 + tail && AllWellFormed(tail)
    ensures p4 == p0 + ForCode(sh, hasTest) && AllWellFormed(ForCode(sh, hasTest))
  {
    Pieces4(p0, sh.init + [sh.headLabel], p1, test, p2, sh.body + sh.step, p3, tail, p4);
    assert (((sh.init + [sh.headLabel]) + test) + (sh.body + sh.step)) + tail == ForCode(sh, hasTest);
  }

  /** The start of a `for` loop: a fresh loop label made the scope, the
      initialiser, the label, and a fresh exit label. */
  method ForStart(st: IrState, s: Stmt, ctx: Ctx) returns (r: Result<(IrState, seq<Instr>, Instr)>)
    requires GenValid(st) && s.For?
    ensures r.Ok? ==>
              var (b, c, x) := r.value;
              && GenValid(b) && Grows(st, b) && b.scope == LabelName(st.labelCount)
              && st.labelCount < b.labelCount - 1
              && b.prog == st.prog + (c + [x]) && AllWellFormed(c + [x])
              && Fits(x, Want(Label, LabelName(st.labelCount), [Str(LabelName(st.labelCount))]))
    decreases s, 1
  {
    var (s0, head) := NewLabel(st);
    var iR := ForPart(s0.(scope := head), s.init, ctx, s);
    if iR.Err? { return Err(iR.failure); }
    var (s1, init) := iR.value;
    var s2, headLabel := Emit(s1, Label, [Str(head)]);
    Join(st.prog, init, s1.prog, [headLabel], s2.prog);
    var (s3, _) := NewLabel(s2);
    return Ok((s3, init, headLabel));
  }

  /** The end of a `for` loop: the body, the step, the jump back, and the
      exit label when there is a condition. */
  method ForRest(st: IrState, s: Stmt, ctx: Ctx, bodyCtx: Ctx, head: string, exit: string)
    returns (r: Result<(IrState, seq<Instr>, seq<Instr>, Instr, Instr)>)
    requires GenValid(st) && s.For?
    ensures r.Ok? ==>
              var (b, body, step, back, exitLabel) := r.value;
              && GenValid(b) && Grows(st, b) && b.scope == st.scope
              && b.prog == st.prog + ((body + step) + (if s.test.Some? then [back, exitLabel] else [back]))
              && AllWellFormed(body + step)
              && AllWellFormed(if s.test.Some? then [back, exitLabel] else [back])
              && Fits(back, Want(Opcode.Goto, st.scope, [Str(head)]))
              && (s.test.Some? ==> Fits(exitLabel, Want(Label, st.scope, [Str(exit)])))
    ensures s.body.Some? && DirectBreak(s.body.value) && BreakAborts(bodyCtx) ==> r.Err?
    decreases s, 1
  {
    var bR := LowerOptional(st, s.body, bodyCtx, s);
    if bR.Err? { return Err(bR.failure); }
    var b := bR.value;
    var pR := ForPart(b.st, s.step, ctx, s);
    if pR.Err? { return Err(pR.failure); }
    var (s1, step) := pR.value;
    Join(st.prog, b.code, b.st.prog, step, s1.prog);
    GrowsTrans(st, b.st, s1);
    if s.test.Some? {
      var s2, back, exitLabel := LoopEnd(s1, head, exit);
      Join(st.prog, b.code + step, s1.prog, [back, exitLabel], s2.prog);
      return Ok((s2, b.code, step, back, exitLabel));
    }
    var s2, back := Emit(s1, Opcode.Goto, [Str(head)]);
    Join(st.prog, b.code + step, s1.prog, [back], s2.prog);
    return Ok((s2, b.code, step, back, back));
  }

  /** What the pieces of a `for` loop promise makes the loop lowered: the
      start `aR` from `ForStart`, the condition `gR` from `ForCondition` and
      the rest `eR` from `ForRest`, put together in the shape `sh`. */
  lemma ForLowered(st: IrState, s: Stmt, aR: Result<(IrState, seq<Instr>, Instr)>,
                   gR: Result<(IrState, seq<Instr>, Instr)>, eR: Result<(IrState, seq<Instr>, seq<Instr>, Instr, Instr)>,
                   sh: LoopShape)
    requires GenValid(st) && s.For?
    requires aR.Ok? && gR.Ok? && eR.Ok?
    requires aR.Ok? ==>
               var (b, c, x) := aR.value;
               && GenValid(b) && Grows(st, b) && b.scope == LabelName(st.labelCount)
               && st.labelCount < b.labelCount - 1
               && b.prog == st.prog + (c + [x]) && AllWellFormed(c + [x])
               && Fits(x, Want(Label, LabelName(st.labelCount), [Str(LabelName(st.labelCount))]))
    requires gR.Ok? ==>
               && GenValid(gR.value.0) && Grows(aR.value.0, gR.value.0) && gR.value.0.scope == aR.value.0.scope
               && gR.value.0.prog == aR.value.0.prog + (if s.test.Some? then gR.value.1 + [gR.value.2] else [])
               && AllWellFormed(if s.test.Some? then gR.value.1 + [gR.value.2] else [])
               && (s.test.Some? ==> Fits(gR.value.2, Want(GotoIfFalse, aR.value.0.scope, [Unset, Str(LabelName(aR.value.0.labelCount - 1))])))
    requires eR.Ok? ==>
               var (b, body, step, back, exitLabel) := eR.value;
               && GenValid(b) && Grows(gR.value.0, b) && b.scope == gR.value.0.scope
               && b.prog == gR.value.0.prog + ((body + step) + (if s.test.Some? then [back, exitLabel] else [back]))
               && AllWellFormed(body + step)
               && AllWellFormed(if s.test.Some? then [back, exitLabel] else [back])
               && Fits(back, Want(Opcode.Goto, gR.value.0.scope, [Str(LabelName(st.labelCount))]))
               && (s.test.Some? ==> Fits(exitLabel, Want(Label, gR.value.0.scope, [Str(LabelName(aR.value.0.labelCount - 1))])))
    requires sh == LoopShape(LabelName(st.labelCount), LabelName(aR.value.0.labelCount - 1), aR.value.1, aR.value.2,
                             gR.value.1, gR.value.2, eR.value.1, eR.value.2, eR.value.3, eR.value.4)
    ensures StmtLowered(st, s, Ok(Done(eR.value.0.(scope := st.scope), ForCode(sh, s.test.Some?), None)))
    ensures HeadTags(sh, LabelName(st.labelCount)) && (s.test.Some? ==> ExitTags(sh))
  {
    var (s1, _, x) := aR.value;
    var (s2, c, j) := gR.value;
    var (s4, body, step, back, exitLabel) := eR.value;
    var hasTest := s.test.Some?;
    LoopTagged(st.labelCount, s1.labelCount - 1, LabelName(st.labelCount), s1.scope, s1.scope, s2.scope,
               x, j, back, exitLabel, hasTest, sh);
    var test := if hasTest then c + [j] else [];
    var tail := if hasTest then [back, exitLabel] else [back];
    ForAssembled(st.prog, s1.prog, s2.prog, s2.prog + (body + step), s4.prog, sh, hasTest, test, tail);
    GrowsTrans(st, s1, s2);
    GrowsTrans(st, s2, s4);
    LoopLowered(st, s, s4, ForCode(sh, hasTest));
  }

  /** `ir_handle_for_loop`: in the scope of the loop label, the initialiser,
      the label, the condition and the `gotoIfFalse` out (see `ForTest`), the
      body, the step, the jump back and the exit label; without a condition
      neither the `gotoIfFalse` nor the exit label, so a `break` in the body
      finds nothing to jump to and aborts. A `continue` in the body jumps to
      the label, before the condition, and so skips the step. */
  method LowerFor(st: IrState, s: Stmt, ctx: Ctx) returns (r: Result<Done>, sh: LoopShape)
    requires GenValid(st) && s.For?
    ensures StmtLowered(st, s, r)
    ensures r.Ok? ==> r.value.code == ForCode(sh, s.test.Some?) && sh.head == LabelName(st.labelCount) && HeadTags(sh, LabelName(st.labelCount))
    ensures r.Ok? && s.test.Some? ==> ExitTags(sh)
    ensures s.test.None? && s.body.Some? && DirectBreak(s.body.value) ==> r.Err?
    decreases s, 2
  {
    var dummy := Make(Label, "", []);
    sh := LoopShape("", "", [], dummy, [], dummy, [], [], dummy, dummy);
    var aR := ForStart(st, s, ctx.(bare := false));
    if aR.Err? { return Err(aR.failure), sh; }
    var gR := ForCondition(aR.value.0, s.test, ctx, LabelName(aR.value.0.labelCount - 1));
    if gR.Err? { return Err(gR.failure), sh; }
    var eR := ForRest(gR.value.0, s, ctx.(bare := false),
                      ctx.(bare := false, loop := Some(Loop(LabelName(st.labelCount),
                                                            if s.test.Some? then Some(LabelName(aR.value.0.labelCount - 1)) else None))),
                      LabelName(st.labelCount), LabelName(aR.value.0.labelCount - 1));
    if eR.Err? { return Err(eR.failure), sh; }
    sh := LoopShape(LabelName(st.labelCount), LabelName(aR.value.0.labelCount - 1), aR.value.1, aR.value.2,
                    gR.value.1, gR.value.2, eR.value.1, eR.value.2, eR.value.3, eR.value.4);
    ForLowered(st, s, aR, gR, eR, sh);
    return Ok(Done(eR.value.0.(scope := st.scope), ForCode(sh, s.test.Some?), None)), sh;
  }

  // ---------------------------------------------------------------------------
  // Labels and functions
  // ---------------------------------------------------------------------------

  /** `ir_generate_for_label_statement`: the user label, qualified by its
      procedure, becomes the scope; the label, then the labelled statement,
      in it. */
  method LowerLabeled(st: IrState, s: Stmt, ctx: Ctx) returns (r: Result<Done>)
    requires GenValid(st) && s.Labeled?
    ensures StmtLowered(st, s, r)
    ensures r.Ok? ==>
              && ctx.func.Some? && |r.value.code| > 0
              && var l := UserLabel(ctx.func.value.name, s.name);
                 Fits(r.value.code[0], Want(Label, l, [Str(l)]))
    ensures ctx.func.None? ==> r.Err?
    ensures DirectBreak(s) && BreakAborts(ctx) ==> r.Err?
    decreases s, 2
  {
    if ctx.func.None? {
      return Err(Aborts("search_statement_label_table: the label has no procedure"));
    }
    var l := UserLabel(ctx.func.value.name, s.name);
    var s1, x := Emit(st.(scope := l), Label, [Str(l)]);
    var bR := LowerOptional(s1, s.body, ctx.(bare := false), s);
    if bR.Err? { return Err(bR.failure); }
    LabeledLowered(st, s1, x, bR.value, l, s);
    return Ok(Done(bR.value.st.(scope := st.scope), [x] + bR.value.code, None));
  }

  /** A labelled statement is its label followed by the body's code. */
  lemma LabeledLowered(st: IrState, s1: IrState, x: Instr, b: Done, l: string, s: Stmt)
    requires GenValid(st) && s.Labeled?
    requires Fits(x, Want(Label, l, [Str(l)]))
    requires GenValid(s1) && Grows(st.(scope := l), s1) && s1.prog == st.prog + [x]
    requires s1 == st.(scope := l).(prog := s1.prog, position := st.position + 2)
    requires GenValid(b.st) && Grows(s1, b.st) && b.st.scope == s1.scope
    requires b.st.prog == s1.prog + b.code && AllWellFormed(b.code)
    ensures StmtLowered(st, s, Ok(Done(b.st.(scope := st.scope), [x] + b.code, None)))
    ensures ([x] + b.code)[0] == x
  {
    assert WellFormed(x) by {
      assert s1.prog[|st.prog|] == x;
    }
    Join(st.prog, [x], s1.prog, b.code, b.st.prog);
    GrowsTrans(st, s1, b.st);
  }

  /** The instructions of a function definition around its body. */
  datatype FuncShape = FuncShape(exit: string, begin: Instr, body: seq<Instr>, exitLabel: Instr, end: Instr)

  /** The code of a function definition in the order of its shape. */
  function FuncCode(sh: FuncShape): seq<Instr> {
    [sh.begin] + sh.body + [sh.exitLabel, sh.end]
  }

  lemma FuncAssembled(p0: seq<Instr>, p1: seq<Instr>, p2: seq<Instr>, p3: seq<Instr>, sh: FuncShape)
    requires p1 == p0 + [sh.begin] && WellFormed(sh.begin)
    requires p2 == p1 + sh.body && AllWellFormed(sh.body)
    requires p3 == p2 + [sh.exitLabel, sh.end] && AllWellFormed([sh.exitLabel, sh.end])
    ensures p3 == p0 + FuncCode(sh) && AllWellFormed(FuncCode(sh))
  {
    Chain3(p0, [sh.begin], p1, sh.body, p2, [sh.exitLabel, sh.end], p3);
  }

  /** The end of a function: its exit label and the procedure's end. */
  method FunctionEnd(st: IrState, exit: string, name: string) returns (b: IrState, x: Instr, y: Instr)
    requires GenValid(st)
    ensures GenValid(b) && Grows(st, b) && b.scope == st.scope && b.prog == st.prog + [x, y] && AllWellFormed([x, y])
    ensures Fits(x, Want(Label, st.scope, [Str(exit)])) && Fits(y, Want(ProcEnd, st.scope, [Str(name)]))
  {
    var s1, x1 := Emit(st, Label, [Str(exit)]);
    var s2, y1 := Emit(s1, ProcEnd, [Str(name)]);
    assert s2.prog == st.prog + [x1, y1];
    return s2, x1, y1;
  }

  /** `ir_generate_for_function_definition`: a fresh label that every
      `return` in the body jumps to, the procedure's start under its global
      name (with the name as written in the second slot), the body, the
      label, and the procedure's end. */
  method LowerFunction(st: IrState, s: Stmt, ctx: Ctx) returns (r: Result<Done>, sh: FuncShape)
    requires GenValid(st) && s.FunctionDef?
    ensures StmtLowered(st, s, r)
    ensures r.Ok? ==>
              && r.value.code == FuncCode(sh)
              && sh.exit == LabelName(st.labelCount)
              && Fits(sh.begin, Want(ProcBegin, st.scope, [Str(FunctionName(s.name)), Str(s.name)]))
              && Fits(sh.exitLabel, Want(Label, st.scope, [Str(sh.exit)]))
              && Fits(sh.end, Want(ProcEnd, st.scope, [Str(FunctionName(s.name))]))
    decreases s, 2
  {
    var dummy := Make(Label, "", []);
    sh := FuncShape("", dummy, [], dummy, dummy);
    var (s0, exit) := NewLabel(st);
    var name := FunctionName(s.name);
    var s1, begin := Emit(s0, ProcBegin, [Str(name), Str(s.name)]);
    var bR := LowerBlock(s1, s, ctx.(func := Some(Func(s.name, exit, s.returnType))));
    if bR.Err? { return Err(bR.failure), sh; }
    var b := bR.value;
    var s3, exitLabel, end := FunctionEnd(b.st, exit, name);
    sh := FuncShape(exit, begin, b.code, exitLabel, end);
    FuncAssembled(st.prog, s1.prog, b.st.prog, s3.prog, sh);
    GrowsChain(st, s1, b.st, s3, s3);
    return Ok(Done(s3, FuncCode(sh), None)), sh;
  }

  // ---------------------------------------------------------------------------
  // The whole program
  // ---------------------------------------------------------------------------

  /** `ir_generate_for_statement_list_wrapper`: a fresh constant map, then the
      program's statement list from the initial state, at the top of the
      tree, where every identifier statement is bare. The list the program
      leaves is exactly the code generated. */
  method GenerateProgram(stmts: seq<Stmt>, strings: seq<Symbols.StringSymbol>, resetRegisters: bool)
    returns (r: Result<Done>)
    ensures r.Ok? ==>
              && GenValid(r.value.st) && r.value.st.prog == r.value.code && r.value.st.scope == "main"
              && r.value.st.labelCount >= 1
    ensures (exists k :: 0 <= k < |stmts| && DirectBreak(stmts[k])) ==> r.Err?
  {
    var st := InitialState(resetRegisters);
    r := LowerBlock(st, Block(stmts), Ctx(true, None, None, strings));
  }
}

=== FILE: ir_values.dfy ===
/** What the IR generator of ir.c remembers about a node it has lowered, and
    the small state steps every generator function is built from.

    A C node keeps a pointer to the operand that holds its value. Two functions
    follow these pointers, and they do not always agree: `node_get_ir_operands`
    reads the operand a node stands for, `node_get_result` finds the slot a
    later step overwrites. For a unary `-`, a cast that emitted an instruction,
    a conditional or a call the slot written is not the slot read. `Value`
    keeps exactly the slots the two functions can reach.
 */
module IrValues {
  import opened Wrappers
  import opened IrOps
  import opened Ast
  import opened Operators
  import opened Ir
  import opened Integers
  import HashMap

  /** The result slots of a lowered expression.
      - `Own`: a number, identifier, string or binary operation reads and writes its own slot.
      - `CallV`: a call reads its own slot; writes go to the callee's symbol.
      - `UnaryV`: a unary operation; `special` ones (negations, increments) read
        their own slot, the others (`+`, `&`, `*`) read their operand's.
        Writes always go to the operand.
      - `CastV`: reads its own slot once the cast emitted an instruction, the
        operand's before; writes go to the operand.
      - `CondV`: a conditional reads its own slot; writes go to its `then` part.
      - `ListV`: a comma expression reads and writes its last part. */
  datatype Value =
    | Own(slot: Operand)
    | CallV(slot: Operand)
    | UnaryV(special: bool, slot: Operand, inner: Value)
    | CastV(slot: Operand, inner: Value)
    | CondV(slot: Operand, thenV: Value)
    | ListV(head: Value, next: Option<Value>)

  /** `is_unary_specially_handled`. */
  predicate SpecialUnary(op: UnaryOp) {
    op in {Hyphen, LogicalNegation, BitwiseNegation, PreDecrement, PreIncrement, PostDecrement, PostIncrement}
  }

  /** `node_get_ir_operands`; a NULL operand pointer reads as `Unset`. */
  function Read(v: Value): Operand {
    match v
    case Own(s) => s
    case CallV(s) => s
    case UnaryV(special, s, inner) => if special then s else Read(inner)
    case CastV(s, inner) => if s == Unset then Read(inner) else s
    case CondV(s, _) => s
    case ListV(head, next) => if next.Some? then Read(next.value) else Read(head)
  }

  /** `node_get_result(e)->ir_operand = op`. */
  function Write(v: Value, op: Operand): Value {
    match v
    case Own(_) => Own(op)
    case CallV(s) => CallV(s)
    case UnaryV(special, s, inner) => UnaryV(special, s, Write(inner, op))
    case CastV(s, inner) => CastV(s, Write(inner, op))
    case CondV(s, thenV) => CondV(s, Write(thenV, op))
    case ListV(head, next) => if next.Some? then ListV(head, Some(Write(next.value, op))) else ListV(Write(head, op), None)
  }

  /** The nodes whose written slot is the slot read. */
  predicate Coherent(v: Value) {
    match v
    case Own(_) => true
    case CallV(_) => false
    case UnaryV(special, _, inner) => !special && Coherent(inner)
    case CastV(s, inner) => s == Unset && Coherent(inner)
    case CondV(_, _) => false
    case ListV(head, next) => if next.Some? then Coherent(next.value) else Coherent(head)
  }

  /** Overwriting a node's result is seen by a later read exactly when the node
      is coherent; otherwise the read still finds the old operand. */
  lemma {:induction false} WriteThenRead(v: Value, op: Operand)
    ensures Coherent(v) ==> Read(Write(v, op)) == op
    ensures !Coherent(v) ==> Read(Write(v, op)) == Read(v)
    ensures Coherent(Write(v, op)) == Coherent(v)
  {
    match v
    case Own(_) =>
    case CallV(_) =>
    case UnaryV(_, _, inner) => WriteThenRead(inner, op);
    case CastV(_, inner) => WriteThenRead(inner, op);
    case CondV(_, thenV) =>
    case ListV(head, next) =>
      if next.Some? { WriteThenRead(next.value, op); } else { WriteThenRead(head, op); }
  }

  /** The shape of a lowered node: which kind of `Value` it has at each level,
      without the operands. A conditional is not looked into: nothing reads
      through its `then` part. */
  datatype Shape =
    | OwnS
    | CallS
    | UnaryS(special: bool, inner: Shape)
    | CastS(inner: Shape)
    | CondS
    | ListS(head: Shape, next: Option<Shape>)

  /** The shape the generator gives an expression's value. */
  function ExprShape(e: Expr): Shape {
    match e
    case Call(_, _, _) => CallS
    case Unary(op, operand, _) => UnaryS(SpecialUnary(op), ExprShape(operand))
    case Cast(_, operand) => CastS(ExprShape(operand))
    case Conditional(_, _, _) => CondS
    case List(head, next) => ListS(ExprShape(head), if next.Some? then Some(ExprShape(next.value)) else None)
    case _ => OwnS
  }

  function ValueShape(v: Value): Shape {
    match v
    case Own(_) => OwnS
    case CallV(_) => CallS
    case UnaryV(special, _, inner) => UnaryS(special, ValueShape(inner))
    case CastV(_, inner) => CastS(ValueShape(inner))
    case CondV(_, _) => CondS
    case ListV(head, next) => ListS(ValueShape(head), if next.Some? then Some(ValueShape(next.value)) else None)
  }

  /** The value has the shape the expression gives it. */
  predicate Mirrors(e: Expr, v: Value) {
    ExprShape(e) == ValueShape(v)
  }

  /** A write changes an operand, never the shape. */
  lemma {:induction false} WriteKeepsShape(v: Value, op: Operand)
    ensures ValueShape(Write(v, op)) == ValueShape(v)
  {
    match v
    case UnaryV(_, _, inner) => WriteKeepsShape(inner, op);
    case CastV(_, inner) => WriteKeepsShape(inner, op);
    case ListV(head, next) =>
      if next.Some? { WriteKeepsShape(next.value, op); } else { WriteKeepsShape(head, op); }
    case _ =>
  }

  /** The slots of an expression the generator skipped: every one is NULL. */
  function Blank(e: Expr): (v: Value)
    ensures Mirrors(e, v) && Read(v) == Unset
  {
    match e
    case Call(_, _, _) => CallV(Unset)
    case Unary(op, operand, _) => UnaryV(SpecialUnary(op), Unset, Blank(operand))
    case Cast(_, operand) => CastV(Unset, Blank(operand))
    case Conditional(_, thenE, _) => CondV(Unset, Own(Unset))
    case List(head, next) => ListV(Blank(head), if next.Some? then Some(Blank(next.value)) else None)
    case _ => Own(Unset)
  }

  // ---------------------------------------------------------------------------
  // State steps
  // ---------------------------------------------------------------------------

  /** The operands given, then the untouched slots. Written out slot by slot
      so that no quantifier comes with it. */
  function Fill(ops: seq<Operand>): (r: seq<Operand>)
    requires |ops| <= OPERAND_SLOTS
    ensures |r| == OPERAND_SLOTS
  {
    var u := Unset;
    if |ops| == 0 then [u, u, u, u, u, u, u]
    else if |ops| == 1 then [ops[0], u, u, u, u, u, u]
    else if |ops| == 2 then [ops[0], ops[1], u, u, u, u, u]
    else if |ops| == 3 then [ops[0], ops[1], ops[2], u, u, u, u]
    else if |ops| == 4 then [ops[0], ops[1], ops[2], ops[3], u, u, u]
    else if |ops| == 5 then [ops[0], ops[1], ops[2], ops[3], ops[4], u, u]
    else if |ops| == 6 then [ops[0], ops[1], ops[2], ops[3], ops[4], ops[5], u]
    else ops
  }

  /** `Fill` keeps the operands given and leaves the other slots unset. */
  lemma FillSlots(ops: seq<Operand>)
    requires |ops| <= OPERAND_SLOTS
    ensures forall k :: 0 <= k < |ops| ==> Fill(ops)[k] == ops[k]
    ensures forall k :: |ops| <= k < OPERAND_SLOTS ==> Fill(ops)[k] == Unset
  {
  }

  /** The instruction `ir_instruction(kind)` builds, with the operands written
      into the first slots. */
  function Make(kind: Opcode, scope: string, ops: seq<Operand>): (i: Instr)
    requires |ops| <= OPERAND_SLOTS
    ensures WellFormed(i) && i.kind == kind && i.scope == scope && i.isUsed && i.offset.None?
  {
    Instr(kind, Fill(ops), scope, 0, true, None)
  }

  /** `b` continues `a`: no counter went back, and the temporary counter went
      back only if the driver lets `ir_reset_register` rewind it. What became
      of the list each step states itself. */
  predicate Grows(a: IrState, b: IrState) {
    && a.position <= b.position
    && a.labelCount <= b.labelCount
    && a.resetRegisters == b.resetRegisters
    && (!a.resetRegisters ==> a.nextTemp <= b.nextTemp)
  }

  // ---------------------------------------------------------------------------
  // Expected instructions
  // ---------------------------------------------------------------------------

  /** An instruction as a contract expects it: its kind, its scope and its
      first operands, where an `Unset` operand stands for any operand. */
  datatype Want = Want(kind: Opcode, scope: string, ops: seq<Operand>)

  /** `i` is what `w` expects. */
  predicate Fits(i: Instr, w: Want) {
    && i.kind == w.kind && i.scope == w.scope && WellFormed(i) && |w.ops| <= OPERAND_SLOTS
    && forall k :: 0 <= k < |w.ops| ==> w.ops[k].Unset? || i.ops[k] == w.ops[k]
  }

  /** From index `at` on, the instructions are one by one what `ws` expects. */
  predicate LayoutAt(code: seq<Instr>, at: int, ws: seq<Want>) {
    0 <= at && at + |ws| <= |code| && forall k :: 0 <= k < |ws| ==> Fits(code[at + k], ws[k])
  }

  /** The code is exactly what `ws` expects. */
  predicate Layout(code: seq<Instr>, ws: seq<Want>) {
    |code| == |ws| && LayoutAt(code, 0, ws)
  }

  /** The code ends with what `ws` expects. */
  predicate EndsWith(code: seq<Instr>, ws: seq<Want>) {
    |ws| <= |code| && LayoutAt(code, |code| - |ws|, ws)
  }

  lemma LayoutOne(x: Instr, w: Want)
    requires Fits(x, w)
    ensures Layout([x], [w]) && AllWellFormed([x])
  {
    assert [x][0] == x;
  }

  lemma LayoutTwo(x: Instr, y: Instr, ws: seq<Want>)
    requires |ws| == 2 && Fits(x, ws[0]) && Fits(y, ws[1])
    ensures Layout([x, y], ws) && AllWellFormed([x, y])
  {
    forall k | 0 <= k < 2
      ensures Fits([x, y][k], ws[k])
    {
    }
  }

  lemma LayoutThree(x: Instr, y: Instr, z: Instr, ws: seq<Want>)
    requires |ws| == 3 && Fits(x, ws[0]) && Fits(y, ws[1]) && Fits(z, ws[2])
    ensures Layout([x, y, z], ws) && AllWellFormed([x, y, z])
  {
    forall k | 0 <= k < 3
      ensures Fits([x, y, z][k], ws[k])
    {
    }
  }

  /** Three appends in a row extend the list by the three instructions. */
  lemma AppendedThree(p: Program, x: Instr, y: Instr, z: Instr, q: Program)
    requires q == ((p + [x]) + [y]) + [z]
    ensures q == p + [x, y, z]
  {
    assert (p + [x]) + [y] == p + [x, y];
  }

  /** Two laid-out pieces in a row are laid out as their expectations in a
      row. */
  lemma {:induction false} LayoutAppend(a: seq<Instr>, wa: seq<Want>, b: seq<Instr>, wb: seq<Want>)
    requires Layout(a, wa) && Layout(b, wb)
    ensures Layout(a + b, wa + wb)
  {
    forall k | 0 <= k < |wa + wb|
      ensures Fits((a + b)[k], (wa + wb)[k])
    {
      if k < |wa| {
        assert Fits(a[0 + k], wa[k]);
      } else {
        assert Fits(b[0 + (k - |a|)], wb[k - |a|]);
      }
    }
  }

  /** Code in front of a piece does not change how it ends. */
  lemma {:induction false} EndsWithAfter(a: seq<Instr>, b: seq<Instr>, ws: seq<Want>)
    requires EndsWith(b, ws)
    ensures EndsWith(a + b, ws)
  {
    forall k | 0 <= k < |ws|
      ensures Fits((a + b)[|a + b| - |ws| + k], ws[k])
    {
      assert Fits(b[|b| - |ws| + k], ws[k]);
    }
  }

  /** A piece ending as `wa` followed by one laid out as `wb` ends as `wa`
      followed by `wb`. */
  lemma {:induction false} EndsWithThen(a: seq<Instr>, wa: seq<Want>, b: seq<Instr>, wb: seq<Want>)
    requires EndsWith(a, wa) && Layout(b, wb)
    ensures EndsWith(a + b, wa + wb)
  {
    var at := |a| - |wa|;
    forall k | 0 <= k < |wa + wb|
      ensures Fits((a + b)[at + k], (wa + wb)[k])
    {
      if k < |wa| {
        assert Fits(a[at + k], wa[k]);
      } else {
        assert Fits(b[0 + (k - |wa|)], wb[k - |wa|]);
      }
    }
  }

  /** Code before and after a laid-out stretch keeps it laid out, shifted by
      what comes before. */
  lemma {:induction false} LayoutAtInside(a: seq<Instr>, b: seq<Instr>, c: seq<Instr>, at: int, ws: seq<Want>)
    requires LayoutAt(b, at, ws)
    ensures LayoutAt((a + b) + c, |a| + at, ws)
  {
    forall k | 0 <= k < |ws|
      ensures Fits(((a + b) + c)[|a| + at + k], ws[k])
    {
      assert Fits(b[at + k], ws[k]);
    }
  }

  /** Well-formed pieces make a well-formed whole. */
  lemma WellFormedAppend(a: seq<Instr>, b: seq<Instr>)
    requires AllWellFormed(a) && AllWellFormed(b)
    ensures AllWellFormed(a + b)
  {
  }

  /** Appending keeps a layout where it was. */
  lemma {:induction false} LayoutAtPrefix(a: seq<Instr>, b: seq<Instr>, at: int, ws: seq<Want>)
    requires LayoutAt(a, at, ws)
    ensures LayoutAt(a + b, at, ws)
  {
    forall k | 0 <= k < |ws|
      ensures Fits((a + b)[at + k], ws[k])
    {
      assert Fits(a[at + k], ws[k]);
    }
  }

  /** `w2` expects no more of an instruction than `w` does. */
  predicate Looser(w: Want, w2: Want) {
    && w2.kind == w.kind && w2.scope == w.scope && |w2.ops| <= |w.ops|
    && forall k :: 0 <= k < |w2.ops| ==> w2.ops[k].Unset? || w2.ops[k] == w.ops[k]
  }

  lemma FitsLooser(x: Instr, w: Want, w2: Want)
    requires Fits(x, w) && Looser(w, w2)
    ensures Fits(x, w2)
  {
  }

  /** Code ending as `w` expects ends as any looser `w2` expects. */
  lemma EndsLooser(code: seq<Instr>, w: Want, w2: Want)
    requires EndsWith(code, [w]) && Looser(w, w2)
    ensures EndsWith(code, [w2])
  {
    assert Fits(code[|code| - 1 + 0], [w][0]);
  }

  /** Laid-out code ends as expected. */
  lemma LayoutEnds(code: seq<Instr>, ws: seq<Want>)
    requires Layout(code, ws)
    ensures EndsWith(code, ws)
  {
  }

  /** Laid-out code has every instruction well formed. */
  lemma {:induction false} LayoutWellFormed(code: seq<Instr>, ws: seq<Want>)
    requires Layout(code, ws)
    ensures AllWellFormed(code)
  {
    forall k | 0 <= k < |code|
      ensures WellFormed(code[k])
    {
      assert Fits(code[0 + k], ws[k]);
    }
  }

  // ---------------------------------------------------------------------------
  // Appending
  // ---------------------------------------------------------------------------

  /** Build an instruction in the current scope and `ir_append` it; `x` is the
      instruction appended. It is numbered with the second of the two numbers
      `ir_append` hands out, holds `ops` in its first slots and leaves the
      others unset. */
  method Emit(st: IrState, kind: Opcode, ops: seq<Operand>) returns (r: IrState, x: Instr)
    requires GenValid(st) && |ops| <= OPERAND_SLOTS
    ensures Fits(x, Want(kind, st.scope, ops)) && x.pos == st.position + 1 && x.isUsed && x.offset.None?
    ensures forall k :: |ops| <= k < OPERAND_SLOTS ==> x.ops[k] == Unset
    ensures GenValid(r) && Grows(st, r) && r.prog == st.prog + [x]
    ensures r == st.(prog := r.prog, position := st.position + 2)
  {
    FillSlots(ops);
    x := Make(kind, st.scope, ops).(pos := st.position + 1);
    r := Append(st, Make(kind, st.scope, ops));
  }

  /** Build an instruction in the current scope and `ir_append_to_main_list`
      it alone, so that it is numbered once. */
  method EmitToMainList(st: IrState, kind: Opcode, ops: seq<Operand>) returns (r: IrState, x: Instr)
    requires GenValid(st) && |ops| <= OPERAND_SLOTS
    ensures Fits(x, Want(kind, st.scope, ops)) && x.pos == st.position && x.isUsed && x.offset.None?
    ensures forall k :: |ops| <= k < OPERAND_SLOTS ==> x.ops[k] == Unset
    ensures GenValid(r) && Grows(st, r) && r.prog == st.prog + [x]
    ensures r == st.(prog := r.prog, position := st.position + 1)
  {
    FillSlots(ops);
    x := Make(kind, st.scope, ops).(pos := st.position);
    r := AppendToMainList(st, Make(kind, st.scope, ops));
  }

  /** `ir_add_const_to_map` as a step of a generator. */
  method RecordConst(st: IrState, t: int, value: int) returns (r: Result<IrState>)
    requires GenValid(st)
    ensures r.Ok? ==> GenValid(r.value) && Grows(st, r.value) && r.value == st.(consts := r.value.consts)
    ensures r.Ok? ==> ConstValue(r.value.consts, t) == Some(Wrap32(value))
    ensures r.Ok? ==> forall k :: k != t ==> ConstValue(r.value.consts, k) == ConstValue(st.consts, k)
    ensures r.Err? <==> st.consts.size == HashMap.MAX_SIZE
  {
    r := AddConst(st, t, value);
  }

  // ---------------------------------------------------------------------------
  // The ternary's final-register fix-up
  // ---------------------------------------------------------------------------

  /** `b` is `a`, or `a` with the temporary in its first slot renumbered to `t`. */
  predicate Retargeted(a: Instr, b: Instr, t: int) {
    b == a || (WellFormed(a) && a.ops[0].Temp? && b == SetOperand(a, 0, Temp(t)))
  }

  /** Every instruction is kept or has its first temporary renumbered to `t`. */
  predicate RetargetedAll(p: Program, q: Program, t: int) {
    |q| == |p| && forall k :: 0 <= k < |p| ==> Retargeted(p[k], q[k], t)
  }

  /** An expectation whose first operand is open, is not a temporary, or is
      already the temporary `t` survives renumbering to `t`. */
  predicate KeepsUnderRetarget(w: Want, t: int) {
    |w.ops| == 0 || !w.ops[0].Temp? || w.ops[0] == Temp(t)
  }

  /** Renumbering keeps every expectation that survives it. */
  lemma {:induction false} LayoutAtRetargeted(p: Program, q: Program, t: int, at: int, ws: seq<Want>)
    requires RetargetedAll(p, q, t) && LayoutAt(p, at, ws)
    requires forall k :: 0 <= k < |ws| ==> KeepsUnderRetarget(ws[k], t)
    ensures LayoutAt(q, at, ws)
  {
    forall k | 0 <= k < |ws|
      ensures Fits(q[at + k], ws[k])
    {
      var a, b, w := p[at + k], q[at + k], ws[k];
      assert Fits(a, w) && Retargeted(a, b, t) && KeepsUnderRetarget(w, t);
      if b != a {
        forall m | 0 <= m < |w.ops|
          ensures w.ops[m].Unset? || b.ops[m] == w.ops[m]
        {
          if m == 0 {
            assert b.ops[0] == Temp(t);
          } else {
            assert b.ops[m] == a.ops[m];
          }
        }
      }
    }
  }

  /** One write of `ir_assign_final_register_conditional`:
      `operands[0].data.temporary = t`. A slot holding a temporary is renumbered
      and a slot never written stays unwritten; any other operand would have the
      first bytes of its union overwritten, which the model does not follow. */
  function Retarget(p: Program, j: nat, t: int): (r: Result<Program>)
    requires AllWellFormed(p) && j < |p|
    ensures r.Err? <==> !(p[j].ops[0].Temp? || p[j].ops[0].Unset?)
    ensures r.Ok? ==> RetargetedAll(p, r.value, t) && AllWellFormed(r.value)
    ensures r.Ok? ==> forall k :: 0 <= k < |p| && k != j ==> r.value[k] == p[k]
  {
    match p[j].ops[0]
    case Temp(_) => Ok(p[j := SetOperand(p[j], 0, Temp(t))])
    case Unset => Ok(p)
    case _ => Err(Undefined("a temporary number is written over an operand that is not a temporary"))
  }

  /** Where the walk of `ir_assign_final_register_conditional` stands: the
      list, the element `at` it looks at, and whether the label and the goto
      it is looking for were met. */
  datatype Walk = Walk(p: Program, at: int, falseDone: bool, trueDone: bool)

  /** One turn of the walk at a non-conditional-goto element: the first label
      met has the element before it renumbered and the walk steps onto that
      element; the first goto met (looked for at the element the walk then
      stands on) likewise. */
  function WalkStep(w: Walk, t: int): (r: Result<Walk>)
    requires AllWellFormed(w.p) && 0 <= w.at < |w.p|
    ensures r.Ok? ==> RetargetedAll(w.p, r.value.p, t) && AllWellFormed(r.value.p)
    ensures r.Ok? ==> 0 <= r.value.at <= w.at
    ensures r.Ok? ==> forall x :: 0 <= x < r.value.at ==> r.value.p[x] == w.p[x]
    ensures r.Ok? ==> (r.value.falseDone <==> w.falseDone || w.p[w.at].kind == Label)
    ensures r.Ok? && !w.falseDone && w.p[w.at].kind == Label ==> r.value.at < w.at
    ensures r.Ok? && !r.value.trueDone ==>
              !w.trueDone && forall x :: r.value.at <= x <= w.at ==> w.p[x].kind != Opcode.Goto
    ensures r.Ok? && r.value.trueDone && !w.trueDone ==>
              r.value.at + 1 <= w.at && w.p[r.value.at + 1].kind == Opcode.Goto
              && forall x :: r.value.at + 1 < x <= w.at ==> w.p[x].kind != Opcode.Goto
    ensures r.Ok? && w.falseDone && w.trueDone ==> r.value == w
  {
    var afterLabel: Result<Walk> :=
      if w.p[w.at].kind == Label && !w.falseDone then
        (if w.at == 0 then Err(Undefined("a label heads the list"))
         else match Retarget(w.p, w.at - 1, t)
           case Ok(q) => Ok(Walk(q, w.at - 1, true, w.trueDone))
           case Err(f) => Err(f))
      else Ok(w);
    match afterLabel
    case Err(f) => Err(f)
    case Ok(v) =>
      if v.p[v.at].kind == Opcode.Goto && !v.trueDone then
        (if v.at == 0 then Err(Undefined("a goto heads the list"))
         else match Retarget(v.p, v.at - 1, t)
           case Ok(q) => RetargetedTransitive(w.p, v.p, q, t); Ok(Walk(q, v.at - 1, v.falseDone, true))
           case Err(f) => Err(f))
      else Ok(v)
  }

  /** `ir_assign_final_register_conditional`: walk back from `w.at` until a
      conditional goto, turn by turn. Running off the head of the list reads
      through NULL. */
  function FinalRegisters(w: Walk, t: int): (r: Result<Program>)
    requires AllWellFormed(w.p) && w.at < |w.p|
    ensures r.Ok? ==> RetargetedAll(w.p, r.value, t) && AllWellFormed(r.value)
    decreases w.at + 1
  {
    if w.at < 0 then Err(Undefined("the walk back from the phi runs off the list"))
    else if w.p[w.at].kind == GotoIfFalse || w.p[w.at].kind == GotoIfTrue then Ok(w.p)
    else
      match WalkStep(w, t)
      case Err(f) => Err(f)
      case Ok(v) =>
        var r := FinalRegisters(v.(at := v.at - 1), t);
        if r.Ok? then RetargetedTransitive(w.p, v.p, r.value, t); r else r
  }

  lemma RetargetedTransitive(p: Program, q: Program, r: Program, t: int)
    requires RetargetedAll(p, q, t) && RetargetedAll(q, r, t)
    ensures RetargetedAll(p, r, t)
  {
    forall k | 0 <= k < |p|
      ensures Retargeted(p[k], r[k], t)
    {
      if q[k] != p[k] {
        assert q[k].ops[0] == Temp(t);
      }
    }
  }

  /** One turn started as `FinalRegistersKeepPrefix` asks leaves the walk
      at or above `floor` (or unmoved), with the label met and the goto still
      ahead when not yet met. */
  lemma WalkStepAboveFloor(w: Walk, t: int, floor: nat, g: nat)
    requires AllWellFormed(w.p) && 0 <= w.at < |w.p| && floor <= |w.p|
    requires !w.falseDone ==> floor < w.at && w.p[w.at].kind == Label
    requires !w.trueDone ==> floor < g <= w.at && w.p[g].kind == Opcode.Goto
    requires WalkStep(w, t).Ok?
    ensures var v := WalkStep(w, t).value;
      v.falseDone && |v.p| == |w.p| && (floor <= v.at || v == w)
      && (!v.trueDone ==> g < v.at && v.p[g] == w.p[g])
  {
    var v := WalkStep(w, t).value;
    if !v.trueDone {
      assert g < v.at;
    }
  }

  /** The walk writes nothing below `floor` when it starts on a label above
      `floor` with a goto between the two: a ternary renumbers only its own
      instructions. */
  lemma {:induction false} FinalRegistersKeepPrefix(w: Walk, t: int, floor: nat, g: nat)
    requires AllWellFormed(w.p) && w.at < |w.p| && floor <= |w.p|
    requires !w.falseDone ==> floor < w.at && w.p[w.at].kind == Label
    requires !w.trueDone ==> floor < g <= w.at && w.p[g].kind == Opcode.Goto
    ensures FinalRegisters(w, t).Ok? ==> forall k :: 0 <= k < floor ==> FinalRegisters(w, t).value[k] == w.p[k]
    decreases w.at + 1
  {
    if w.at < 0 || w.p[w.at].kind == GotoIfFalse || w.p[w.at].kind == GotoIfTrue {
      return;
    }
    var step := WalkStep(w, t);
    if step.Err? {
      return;
    }
    var v := step.value;
    var next := v.(at := v.at - 1);
    WalkStepAboveFloor(w, t, floor, g);
    FinalRegistersKeepPrefix(next, t, floor, g);
    assert FinalRegisters(w, t) == FinalRegisters(next, t);
  }
}

=== FILE: literals.dfy ===
/** The literal constructors of node.c: the typing of integer constants
    (`node_number`), character constants (`node_character`), the escape
    decoding of string literals (`node_string`) and the printer that
    re-encodes a decoded string (`print_string_node`).

    The scanner hands each constructor the token's text: the digits of a
    number, a character constant with its quotes, a string literal with its
    double quotes. The text is bytes, read through C's signed `char`.
 */
module Literals {
  import opened Wrappers
  import opened Integers
  import opened Types
  import Util

  // ---------------------------------------------------------------------------
  // Bytes and the escape tables of utils.h
  // ---------------------------------------------------------------------------

  /** Every character of `s` is a byte. */
  predicate IsBytes(s: string) {
    forall i :: 0 <= i < |s| ==> s[i] as int < 256
  }

  /** Every character of `s` is 7-bit ASCII. */
  predicate IsAscii(s: string) {
    forall i :: 0 <= i < |s| ==> s[i] as int < 128
  }

  /** The value a byte has when read through a signed `char`. */
  function Code(c: char): (v: int)
    requires c as int < 256
    ensures -128 <= v < 128
    ensures v % 256 == c as int
  {
    if c as int < 128 then c as int else c as int - 256
  }

  /** The escape table of utils.h, `escapeCodes` against
      `escapeCharactersASCII`: the code a letter after a backslash stands for.
      The C loops run to `ESCAPE_CHAR_LENGTH`, 11, one past the ten entries of
      both arrays; the eleventh entry is taken here to match nothing. */
  function EscapeValue(c: char): (v: Option<int>)
    ensures v.Some? ==> 0 <= v.value < 40
  {
    match c
    case 'a' => Some(7)
    case 'b' => Some(8)
    case 'f' => Some(12)
    case 'n' => Some(10)
    case 'r' => Some(13)
    case 't' => Some(9)
    case 'v' => Some(11)
    case '\'' => Some(39)
    case '"' => Some(34)
    case '0' => Some(0)
    case _ => None
  }

  /** The same table read the other way, as `print_string_node` does: the
      letter that stands for a code. */
  function EscapeLetter(v: int): (c: Option<char>)
  {
    match v
    case 7 => Some('a')
    case 8 => Some('b')
    case 12 => Some('f')
    case 10 => Some('n')
    case 13 => Some('r')
    case 9 => Some('t')
    case 11 => Some('v')
    case 39 => Some('\'')
    case 34 => Some('"')
    case 0 => Some('0')
    case _ => None
  }

  /** The two readings are inverse: no letter and no code is in the table
      twice, so the first match the C loops stop at is the only one. */
  lemma EscapeTableInverse(c: char, v: int)
    ensures EscapeValue(c) == Some(v) <==> EscapeLetter(v) == Some(c)
  {
  }

  // ---------------------------------------------------------------------------
  // Integer constants
  // ---------------------------------------------------------------------------

  /** What `node_number` records: a literal starting with two zeros is only
      flagged and typed UNDEF; any other gets the value `strtoul` read, the
      overflow flag and a type. */
  datatype NumberLit =
    | LeadingZeros
    | Number(value: nat, overflow: bool, ty: Type)

  /** The type a number node carries. */
  function NumberType(n: NumberLit): Type {
    if n.LeadingZeros? then UNDEF else n.ty
  }

  const UNDEF: Type := Basic(false, Undef)

  /** `ULONG_MAX` of the host the compiler runs on, a 64-bit one: where
      `strtoul` saturates and reports `ERANGE`. */
  const HOST_ULONG_MAX: nat := 18446744073709551615

  /** The macros of util-functions.h the typing compares against; a "long"
      has the range of an int in this compiler. */
  const SIGNED_INT_MAX: int := 2147483647
  const SIGNED_LONG_MAX: int := 2147483647
  const UNSIGNED_INT_MAX: int := 4294967295
  const UNSIGNED_LONG_MAX: int := 4294967295

  /** `node_number` on the digits of a decimal constant. */
  function NumberLiteral(text: string): (r: NumberLit)
    requires forall i :: 0 <= i < |text| ==> IsDigit(text[i])
    ensures r.LeadingZeros? <==> |text| >= 2 && text[0] == '0' && text[1] == '0'
    ensures r.Number? ==> (r.overflow <==> r.ty == UNDEF)
    ensures r.Number? ==> r.value == DigitsValue(text) || (r.overflow && r.value == HOST_ULONG_MAX)
  {
    if |text| >= 2 && text[0] == '0' && text[1] == '0' then LeadingZeros
    else
      var read := DigitsValue(text);
      if read > HOST_ULONG_MAX then Number(HOST_ULONG_MAX, true, UNDEF)
      else if read > UNSIGNED_LONG_MAX then Number(read, true, UNDEF)
      else if read <= SIGNED_INT_MAX then Number(read, false, Basic(false, Int))
      else if read <= SIGNED_LONG_MAX then Number(read, false, Basic(false, Long))
      else if read <= UNSIGNED_INT_MAX then Number(read, false, Basic(true, Int))
      else if read <= UNSIGNED_LONG_MAX then Number(read, false, Basic(true, Long))
      else Number(read, true, UNDEF)
  }

  /** The candidate types of an unsuffixed constant in the order the code
      tries them. */
  const CANDIDATES: seq<Type> := [Basic(false, Int), Basic(false, Long), Basic(true, Int), Basic(true, Long)]

  /** The first candidate whose range, as `get_type_max` gives it, holds `v`. */
  function FirstFitting(v: nat, from: nat): (r: Option<Type>)
    requires from <= |CANDIDATES|
    decreases |CANDIDATES| - from
  {
    if from == |CANDIDATES| then None
    else if v <= Util.TypeMax(CANDIDATES[from].basic, CANDIDATES[from].isUnsigned).value then Some(CANDIDATES[from])
    else FirstFitting(v, from + 1)
  }

  /** A constant without leading zeros gets the first of int, long, unsigned
      int and unsigned long whose range holds its value, and overflows
      exactly when none does. Since a long is no wider than an int, a signed
      long is never chosen, and neither is an unsigned long. */
  lemma NumberTypeIsFirstFitting(text: string)
    requires forall i :: 0 <= i < |text| ==> IsDigit(text[i])
    requires !(|text| >= 2 && text[0] == '0' && text[1] == '0')
    ensures var r := NumberLiteral(text);
            var f := FirstFitting(DigitsValue(text), 0);
            && r.Number?
            && (r.overflow <==> f.None?)
            && (f.Some? ==> r.ty == f.value && r.value == DigitsValue(text))
            && r.ty != Basic(false, Long) && r.ty != Basic(true, Long)
  {
  }

  /** A constant that does not overflow is within the range of its type. */
  lemma NumberFitsItsType(text: string)
    requires forall i :: 0 <= i < |text| ==> IsDigit(text[i])
    ensures var r := NumberLiteral(text);
            r.Number? && !r.overflow ==>
              Util.TypeMin(r.ty.basic, r.ty.isUnsigned).value <= r.value
              <= Util.TypeMax(r.ty.basic, r.ty.isUnsigned).value
  {
  }

  /** The boundary values: 2^31 - 1 is the largest int constant, 2^31 is an
      unsigned int (where ISO C99 section 6.4.4.1 would pick a wider signed
      type), and 2^32 overflows. */
  lemma NumberBoundaries(text: string)
    requires forall i :: 0 <= i < |text| ==> IsDigit(text[i])
    requires !(|text| >= 2 && text[0] == '0' && text[1] == '0')
    ensures DigitsValue(text) == 2147483647 ==> NumberLiteral(text) == Number(2147483647, false, Basic(false, Int))
    ensures DigitsValue(text) == 2147483648 ==> NumberLiteral(text) == Number(2147483648, false, Basic(true, Int))
    ensures DigitsValue(text) == 4294967296 ==> NumberLiteral(text) == Number(4294967296, true, UNDEF)
  {
  }

  /** Two zeros in front make any literal UNDEF; a single zero is an int. */
  lemma LeadingZeroExamples()
    ensures NumberLiteral("007") == LeadingZeros
    ensures NumberLiteral("0") == Number(0, false, Basic(false, Int))
    ensures NumberLiteral("07") == Number(7, false, Basic(false, Int))
  {
    assert DigitsValue("07") == 10 * DigitsValue("0") + 7;
  }

  // ---------------------------------------------------------------------------
  // Character constants
  // ---------------------------------------------------------------------------

  /** `node_character` on a character constant with its quotes: the byte
      after the opening quote, or, in a text longer than three characters,
      the code of the escape letter at index 2 when it is in the table. The
      code goes through `sprintf("%d")` and `strtoul`, which cannot overflow
      for three digits, so the node is a signed int number. */
  function CharLiteral(text: string): (r: NumberLit)
    requires |text| >= 3 && IsAscii(text)
    ensures r.Number? && !r.overflow && r.ty == Basic(false, Int)
    ensures |text| == 3 ==> r.value == text[1] as int
  {
    var e := if |text| > 3 then EscapeValue(text[2]) else None;
    Number(if e.Some? then e.value else text[1] as int, false, Basic(false, Int))
  }

  /** Two letters in quotes are not rejected: `'ab'` is the code of `\b`. */
  lemma TwoLetterCharacter()
    ensures CharLiteral("'ab'").value == 8
  {
  }

  // ---------------------------------------------------------------------------
  // String literals
  // ---------------------------------------------------------------------------

  /** `STRING_MAX`: the longest string content, quotes excluded. */
  const STRING_MAX: nat := 509

  /** What `node_string` records: content longer than `STRING_MAX` is only
      flagged; otherwise the decoded codes with their terminating 0, the
      `length` field, and whether a backslash was followed by three digits
      above 377. */
  datatype StringLit =
    | Overflow
    | Decoded(codes: seq<int>, length: int, octalOverflow: bool)

  /** The decoding loop from index `size` on: the codes produced, the number
      of escapes replaced, and whether the octal check fired. */
  datatype Scan = Scan(codes: seq<int>, escapes: nat, octal: bool)

  /** A backslash at `size` followed by three digits that, read as a decimal
      number, exceed 377. */
  predicate OctalTooLarge(text: string, size: nat)
    requires size < |text|
  {
    && size + 3 < |text|
    && IsDigit(text[size + 1]) && IsDigit(text[size + 2]) && IsDigit(text[size + 3])
    && DigitValue(text[size + 1]) * 100 + DigitValue(text[size + 2]) * 10 + DigitValue(text[size + 3]) > 377
  }

  /** The body of the loop of `node_string` from index `size` up to the
      closing quote. A backslash before the last content byte starts an
      escape: if the next letter is in the table, the pair becomes its code;
      otherwise the backslash is copied and the next byte is read normally.
      Every other byte is copied as a signed `char`. */
  function DecodeFrom(text: string, size: nat): (r: Scan)
    requires IsBytes(text) && 1 <= size <= |text| - 1
    ensures |r.codes| + r.escapes == |text| - 1 - size
    ensures forall k :: 0 <= k < |r.codes| ==> -128 <= r.codes[k] < 128
    decreases |text| - size
  {
    if size + 1 >= |text| then Scan([], 0, false)
    else
      var backslash := size + 2 < |text| && text[size] == '\\';
      var octal := backslash && OctalTooLarge(text, size);
      var e := if backslash then EscapeValue(text[size + 1]) else None;
      if e.Some? then
        var rest := DecodeFrom(text, size + 2);
        Scan([e.value] + rest.codes, rest.escapes + 1, octal || rest.octal)
      else
        var rest := DecodeFrom(text, size + 1);
        Scan([Code(text[size])] + rest.codes, rest.escapes, octal || rest.octal)
  }

  /** `node_string` on a string literal with its quotes. The `length` field,
      the content length minus the escapes plus one, counts exactly the
      codes stored, the last being the terminating 0. */
  function StringLiteral(text: string): (r: StringLit)
    requires |text| >= 2 && IsBytes(text)
    ensures r.Overflow? <==> |text| - 2 > STRING_MAX
    ensures r.Decoded? ==> r.length == |r.codes| >= 1 && r.codes[r.length - 1] == 0
    ensures r.Decoded? ==> r.length <= |text| - 1
  {
    if |text| - 2 > STRING_MAX then Overflow
    else
      var sc := DecodeFrom(text, 1);
      Decoded(sc.codes + [0], |text| - 1 - sc.escapes, sc.octal)
  }

  // ---------------------------------------------------------------------------
  // print_string_node
  // ---------------------------------------------------------------------------

  /** One code as `print_string_node` prints it: a code in the table as a
      backslash and its letter, any other with `%c`, that is as the byte it
      is modulo 256. */
  function PrintCode(v: int): (s: string)
    ensures |s| == 1 || |s| == 2
  {
    var c := EscapeLetter(v);
    if c.Some? then ['\\', c.value] else [(v % 256) as char]
  }

  /** The codes in order, each printed. */
  function PrintCodes(codes: seq<int>): (s: string)
    ensures |codes| <= |s| <= 2 * |codes|
  {
    if |codes| == 0 then "" else PrintCode(codes[0]) + PrintCodes(codes[1..])
  }

  /** `print_string_node`: every code of a decoded string but the last (the
      terminating 0). */
  function PrintString(lit: StringLit): (s: string)
    requires lit.Decoded? && 1 <= lit.length <= |lit.codes|
    ensures |s| >= lit.length - 1
  {
    PrintCodes(lit.codes[..lit.length - 1])
  }

  /** No byte of the string's content is itself one of the codes of the
      table (a raw apostrophe, a raw newline, a raw NUL...). */
  predicate NoRawEscapeValue(text: string)
    requires IsBytes(text)
  {
    forall i {:trigger Code(text[i])} :: 1 <= i < |text| - 1 ==> EscapeLetter(Code(text[i])).None?
  }

  /** Printing a code in front prints it in front. */
  lemma PrintCons(x: int, rest: seq<int>)
    ensures PrintCodes([x] + rest) == PrintCode(x) + PrintCodes(rest)
  {
    assert ([x] + rest)[1..] == rest;
  }

  /** One step of the decoder at `size`: the first code it produces and the
      index it continues from, either an escape pair or a single byte. */
  lemma DecodeStep(text: string, size: nat)
    requires IsBytes(text) && 1 <= size && size + 1 < |text|
    ensures var e := if size + 2 < |text| && text[size] == '\\' then EscapeValue(text[size + 1]) else None;
            if e.Some? then DecodeFrom(text, size).codes == [e.value] + DecodeFrom(text, size + 2).codes
            else DecodeFrom(text, size).codes == [Code(text[size])] + DecodeFrom(text, size + 1).codes
  {
  }

  /** A slice is its first element followed by the rest. */
  lemma SliceFront(t: string, i: nat, k: nat)
    requires i < k <= |t|
    ensures t[i..k] == [t[i]] + t[i + 1..k]
  {
  }

  /** The decoder's codes from `size` on print as the text from `size` up to
      the closing quote. */
  predicate PrintsBack(text: string, size: nat)
    requires IsBytes(text) && 1 <= size <= |text| - 1
  {
    PrintCodes(DecodeFrom(text, size).codes) == text[size..|text| - 1]
  }

  /** An escape pair prints back as the pair, given that the rest does. */
  lemma PrintEscapeStep(text: string, size: nat, v: int)
    requires IsBytes(text) && 1 <= size && size + 2 < |text| && text[size] == '\\'
    requires EscapeValue(text[size + 1]) == Some(v)
    requires PrintsBack(text, size + 2)
    ensures PrintsBack(text, size)
  {
    DecodeStep(text, size);
    PrintCons(v, DecodeFrom(text, size + 2).codes);
    EscapeTableInverse(text[size + 1], v);
    SliceFront(text, size, |text| - 1);
    SliceFront(text, size + 1, |text| - 1);
  }

  /** A byte that is not an escape prints back as itself, given that the
      rest does and that the byte's code is not in the table. */
  lemma PrintByteStep(text: string, size: nat)
    requires IsBytes(text) && 1 <= size && size + 1 < |text|
    requires !(size + 2 < |text| && text[size] == '\\' && EscapeValue(text[size + 1]).Some?)
    requires EscapeLetter(Code(text[size])).None?
    requires PrintsBack(text, size + 1)
    ensures PrintsBack(text, size)
  {
    DecodeStep(text, size);
    PrintCons(Code(text[size]), DecodeFrom(text, size + 1).codes);
    SliceFront(text, size, |text| - 1);
  }

  /** Induction over the decoder: everything from `size` on prints back. */
  lemma {:induction false} PrintDecodeFrom(text: string, size: nat)
    requires IsBytes(text) && 1 <= size <= |text| - 1
    requires NoRawEscapeValue(text)
    ensures PrintsBack(text, size)
    decreases |text| - size
  {
    if size + 1 < |text| {
      if size + 2 < |text| && text[size] == '\\' && EscapeValue(text[size + 1]).Some? {
        PrintDecodeFrom(text, size + 2);
        PrintEscapeStep(text, size, EscapeValue(text[size + 1]).value);
      } else {
        PrintDecodeFrom(text, size + 1);
        assert EscapeLetter(Code(text[size])).None?;
        PrintByteStep(text, size);
      }
    }
  }

  /** Decoding a string and printing it gives back the content between the
      quotes, escapes and all, unless the content holds a raw byte whose code
      the printer would write as an escape. */
  lemma PrintInvertsDecode(text: string)
    requires |text| >= 2 && IsBytes(text) && |text| - 2 <= STRING_MAX
    requires NoRawEscapeValue(text)
    ensures StringLiteral(text).Decoded?
    ensures PrintString(StringLiteral(text)) == text[1..|text| - 1]
  {
    PrintDecodeFrom(text, 1);
    var sc := DecodeFrom(text, 1);
    assert (sc.codes + [0])[..|sc.codes|] == sc.codes;
  }

  /** Without that condition the round trip fails: a raw apostrophe comes
      back escaped. */
  lemma RawApostropheComesBackEscaped()
    ensures StringLiteral("\"'\"") == Decoded([39, 0], 2, false)
    ensures PrintString(StringLiteral("\"'\"")) == "\\'"
  {
  }

  /** A character constant and a string literal read the same one- or
      two-letter body to the same first code: the escapes agree, and a
      backslash before a letter outside the table stays a backslash in
      both. */
  lemma CharAgreesWithString(body: string)
    requires IsAscii(body)
    requires |body| == 1 || (|body| == 2 && body[0] == '\\')
    ensures var c := CharLiteral("'" + body + "'");
            var s := StringLiteral("\"" + body + "\"");
            s.Decoded? && c.value == s.codes[0]
  {
    var t := "\"" + body + "\"";
    assert IsBytes(t);
    if |body| == 2 {
      assert t[1] == '\\' && t[2] == body[1];
    }
  }
}

=== FILE: mips_asm.dfy ===
/** The target side of mips.c: the instruction records the back end emits in
    place of assembly text, and the register names it hands out. */
module MipsAsm {

  /** An operand of an emitted instruction: `$name`, an immediate, `offset($base)`
      or a branch target. */
  datatype Arg = Reg(name: string) | Imm(value: int) | At(offset: int, base: string) | Target(dest: string)

  /** One line of the text section: an instruction, or a label definition. */
  datatype Asm = Op(op: string, args: seq<Arg>) | LabelDef(name: string)

  /** `registers_list`: slot 0 is never handed out, then s0..s7 and t0..t9. */
  const REGISTERS: seq<string> :=
    ["", "s0", "s1", "s2", "s3", "s4", "s5", "s6", "s7",
     "t0", "t1", "t2", "t3", "t4", "t5", "t6", "t7", "t8", "t9"]

  /** How many registers a procedure can use: the length of the list less one. */
  const REGISTER_CAPACITY: nat := 18

  /** The first index of `registers_list` that names a t-register. */
  const FIRST_T_REGISTER: nat := 9

  /** `$<letter><i>` for a single-digit `i`. */
  function Numbered(letter: char, i: nat): (name: string)
    requires i < 10
    ensures |name| == 2 && name[0] == letter
  {
    [letter, ('0' as int + i) as char]
  }

  /** The name in slot `i` of the list: s0..s7, then t0..t9. */
  function RegisterName(i: nat): (name: string)
    requires 1 <= i <= REGISTER_CAPACITY
    ensures |name| == 2 && (name[0] == 's' <==> i < FIRST_T_REGISTER)
  {
    if i < FIRST_T_REGISTER then Numbered('s', i - 1) else Numbered('t', i - FIRST_T_REGISTER)
  }

  /** The list is the s-registers then the t-registers, each in number order. */
  lemma RegisterLayout(i: nat)
    requires 1 <= i <= REGISTER_CAPACITY
    ensures |REGISTERS| == REGISTER_CAPACITY + 1
    ensures REGISTERS[i] == RegisterName(i)
  {
  }

  /** No two slots of the list hold the same name. */
  lemma RegisterNamesDistinct(i: nat, j: nat)
    requires 1 <= i <= REGISTER_CAPACITY && 1 <= j <= REGISTER_CAPACITY && i != j
    ensures RegisterName(i) != RegisterName(j)
  {
    if (i < FIRST_T_REGISTER) == (j < FIRST_T_REGISTER) {
      assert RegisterName(i)[1] != RegisterName(j)[1];
    }
  }

  /** No name occurs twice, so distinct slots are distinct registers. */
  lemma RegistersDistinct(i: nat, j: nat)
    requires i < j < |REGISTERS|
    ensures REGISTERS[i] != REGISTERS[j]
  {
    RegisterLayout(j);
    if i == 0 {
      assert |REGISTERS[i]| == 0;
    } else {
      RegisterLayout(i);
      RegisterNamesDistinct(i, j);
    }
  }
}

=== FILE: mips_branch.dfy ===
/** Conditional branches in mips.c: `mips_print_branch_instruction` prints
    `beqz`/`bgtz` on the condition's register, and at optimisation level 2
    `mips_convert_to_branch_instructions` fuses the comparison before the goto
    into one branch (the comparison itself then prints nothing). */
module MipsBranch {
  import opened Wrappers
  import opened Integers
  import opened IrOps
  import opened MipsAsm
  import opened MipsSelect

  // ---------------------------------------------------------------------------
  // What the IR means
  // ---------------------------------------------------------------------------

  /** The relation a comparison kind tests. */
  datatype Relation = Less | AtMost | AtLeast | Greater | Equal | Different

  /** The ten comparison kinds, enum values 22..31: the slots of the branch
      tables. The bitwise kinds that follow them in the enum are not among
      them. */
  predicate IsBranchComparison(k: Opcode) {
    k in {LtSigned, LtUnsigned, LeSigned, LeUnsigned, GeSigned, GeUnsigned, GtSigned, GtUnsigned, EqWord, NeWord}
  }

  predicate IsUnsignedComparison(k: Opcode) {
    k in {LtUnsigned, LeUnsigned, GeUnsigned, GtUnsigned}
  }

  function RelationOf(k: Opcode): Relation
    requires IsBranchComparison(k)
  {
    match k
    case LtSigned | LtUnsigned => Less
    case LeSigned | LeUnsigned => AtMost
    case GeSigned | GeUnsigned => AtLeast
    case GtSigned | GtUnsigned => Greater
    case EqWord => Equal
    case NeWord => Different
  }

  function Holds(rel: Relation, x: int, y: int): bool {
    match rel
    case Less => x < y
    case AtMost => x <= y
    case AtLeast => x >= y
    case Greater => x > y
    case Equal => x == y
    case Different => x != y
  }

  /** The comparison on two words, the unsigned kinds reading them unsigned. */
  function Compare(k: Opcode, a: int, b: int): bool
    requires IsBranchComparison(k)
  {
    if IsUnsignedComparison(k) then Holds(RelationOf(k), ToUInt32(a), ToUInt32(b))
    else Holds(RelationOf(k), a, b)
  }

  /** Whether `goto-if-true` (`ifTrue`) or `goto-if-false` jumps on the result
      of comparing `a` with `b`. */
  function IrJumps(ifTrue: bool, k: Opcode, a: int, b: int): bool
    requires IsBranchComparison(k)
  {
    Compare(k, a, b) == ifTrue
  }

  /** Whether the goto jumps on a condition value: goto-if-true on any
      non-zero value, goto-if-false on zero. */
  function IrConditionJumps(ifTrue: bool, v: int): bool {
    (v != 0) == ifTrue
  }

  // ---------------------------------------------------------------------------
  // What the MIPS branches do
  // ---------------------------------------------------------------------------

  /** The two-register branches of the SPIM instruction set. */
  function BranchHolds(op: string, x: int, y: int): Option<bool> {
    if op == "blt" then Some(x < y)
    else if op == "ble" then Some(x <= y)
    else if op == "bge" then Some(x >= y)
    else if op == "bgt" then Some(x > y)
    else if op == "bltu" then Some(ToUInt32(x) < ToUInt32(y))
    else if op == "bleu" then Some(ToUInt32(x) <= ToUInt32(y))
    else if op == "bgeu" then Some(ToUInt32(x) >= ToUInt32(y))
    else if op == "bgtu" then Some(ToUInt32(x) > ToUInt32(y))
    else if op == "beq" then Some(x == y)
    else if op == "bne" then Some(x != y)
    else None
  }

  /** The branches that compare one register with zero. */
  function ZeroBranchHolds(op: string, x: int): Option<bool> {
    if op == "bltz" then Some(x < 0)
    else if op == "blez" then Some(x <= 0)
    else if op == "bgez" then Some(x >= 0)
    else if op == "bgtz" then Some(x > 0)
    else if op == "beqz" then Some(x == 0)
    else if op == "bnez" then Some(x != 0)
    else None
  }

  /** Whether a branch is taken when `reg` gives the registers' contents; None
      for anything that is not a branch. */
  function Taken(i: Asm, reg: string -> int): Option<bool> {
    match i
    case Op(op, args) =>
      if |args| == 3 && args[0].Reg? && args[1].Reg? && args[2].Target? then
        BranchHolds(op, reg(args[0].name), reg(args[1].name))
      else if |args| == 2 && args[0].Reg? && args[1].Target? then
        ZeroBranchHolds(op, reg(args[0].name))
      else None
    case LabelDef(_) => None
  }

  // ---------------------------------------------------------------------------
  // The plain branch
  // ---------------------------------------------------------------------------

  /** `mips_print_branch_instruction` without fusion: `beqz` for goto-if-false,
      `bgtz` for goto-if-true. */
  function UnfusedBranchAsWritten(ifTrue: bool, r: string, target: string): (i: Asm)
    ensures i.Op? && i.args == [Reg(r), Target(target)]
  {
    Op(if ifTrue then "bgtz" else "beqz", [Reg(r), Target(target)])
  }

  /** Goto-if-false is printed right: `beqz` jumps exactly on a zero condition. */
  lemma UnfusedIfFalseAgrees(r: string, target: string, reg: string -> int)
    ensures Taken(UnfusedBranchAsWritten(false, r, target), reg) == Some(IrConditionJumps(false, reg(r)))
  {
  }

  /** Goto-if-true is not: `bgtz` does not jump on a negative condition, so
      the left operand -1 of `||` counts as false. */
  lemma NegativeConditionFallsThrough()
    ensures Taken(UnfusedBranchAsWritten(true, "s0", "L"), _ => -1) == Some(false)
    ensures IrConditionJumps(true, -1)
  {
  }

  /** The plain branch with goto-if-true printed as `bnez`. */
  function UnfusedBranch(ifTrue: bool, r: string, target: string): (i: Asm)
    ensures !ifTrue ==> i == UnfusedBranchAsWritten(false, r, target)
  {
    Op(if ifTrue then "bnez" else "beqz", [Reg(r), Target(target)])
  }

  /** The corrected plain branch jumps exactly when the IR goto does. */
  lemma UnfusedBranchAgrees(ifTrue: bool, r: string, target: string, reg: string -> int)
    ensures Taken(UnfusedBranch(ifTrue, r, target), reg) == Some(IrConditionJumps(ifTrue, reg(r)))
  {
  }

  // ---------------------------------------------------------------------------
  // The fused branch
  // ---------------------------------------------------------------------------

  /** `opcodes` of `mips_convert_to_branch_instructions`, indexed by `kind - 22`. */
  const BRANCH_OPCODES: seq<string> :=
    ["ble", "bltu", "ble", "bleu", "bge", "bgeu", "bgt", "bgtu", "beq", "bne"]

  /** `opcodes_immediate`, indexed the same way. */
  const BRANCH_ZERO_OPCODES: seq<string> :=
    ["bltz", "bltz", "blez", "blez", "bgez", "bgez", "bgtz", "bgtz", "beqz", "bnez"]

  /** `mips_convert_to_branch_instructions` as written. `k` is the kind of the
      instruction before the goto, `c1`/`c2` the constant-map entries of its
      operands and `r1`/`r2` their registers. The opcode depends on `k` alone,
      never on whether the goto is if-true or if-false. An operand that is the
      constant 0 while the other is not selects the compare-with-zero form on
      the other register; otherwise the registers are printed second operand
      first. A kind outside the ten comparisons reads past either end of the
      tables. */
  function FusedBranchAsWritten(k: Opcode, c1: Option<string>, c2: Option<string>,
                                r1: string, r2: string, target: string): (r: Result<Asm>)
    ensures r.Err? <==> !IsBranchComparison(k)
    ensures r.Err? ==> r.failure.Undefined?
    ensures r.Ok? && c1.Some? && c2.None? && Atoi(c1.value) == 0 ==>
              r.value == Op(BRANCH_ZERO_OPCODES[Index(k) - 22], [Reg(r2), Target(target)])
    ensures r.Ok? && c2.Some? && c1.None? && Atoi(c2.value) == 0 ==>
              r.value == Op(BRANCH_ZERO_OPCODES[Index(k) - 22], [Reg(r1), Target(target)])
    ensures r.Ok? && !(c1.Some? && c2.None? && Atoi(c1.value) == 0) && !(c2.Some? && c1.None? && Atoi(c2.value) == 0) ==>
              r.value == Op(BRANCH_OPCODES[Index(k) - 22], [Reg(r2), Reg(r1), Target(target)])
  {
    if !IsBranchComparison(k) then Err(Undefined("branch opcode table read out of bounds"))
    else
      var slot := Index(k) - 22;
      if c1.Some? && c2.None? && Atoi(c1.value) == 0 then Ok(Op(BRANCH_ZERO_OPCODES[slot], [Reg(r2), Target(target)]))
      else if c2.Some? && c1.None? && Atoi(c2.value) == 0 then Ok(Op(BRANCH_ZERO_OPCODES[slot], [Reg(r1), Target(target)]))
      else Ok(Op(BRANCH_OPCODES[slot], [Reg(r2), Reg(r1), Target(target)]))
  }

  /** The one case written right: `if (a < b)` on signed words, with no zero
      constant, jumps past the body exactly when `a < b` fails. */
  lemma FusionRightForLessThan(c1: Option<string>, c2: Option<string>, r1: string, r2: string,
                               target: string, reg: string -> int, a: int, b: int)
    requires Consistent(reg, c1, c2, r1, r2, a, b)
    requires c1.None? || Atoi(c1.value) != 0
    requires c2.None? || Atoi(c2.value) != 0
    ensures Taken(FusedBranchAsWritten(LtSigned, c1, c2, r1, r2, target).value, reg) == Some(IrJumps(false, LtSigned, a, b))
  {
  }

  /** Goto-if-false after `a == b` with both words 5: the IR falls through,
      the fused `beq` jumps. */
  lemma FusionIgnoresBranchSense()
    ensures var i := FusedBranchAsWritten(EqWord, None, None, "s0", "s1", "L");
            i.Ok? && Taken(i.value, _ => 5) == Some(true) && !IrJumps(false, EqWord, 5, 5)
  {
  }

  /** Goto-if-false after `a < 0` with `a == -1`: the IR falls through into the
      body, the fused `bltz` jumps past it. */
  lemma FusionZeroFormNotNegated()
    ensures var reg := (r: string) => if r == "s0" then -1 else 0;
            var i := FusedBranchAsWritten(LtSigned, None, Some("0"), "s0", "s1", "L");
            && Consistent(reg, None, Some("0"), "s0", "s1", -1, 0)
            && i.Ok? && Taken(i.value, reg) == Some(true) && !IrJumps(false, LtSigned, -1, 0)
  {
    assert Atoi("0") == 0 by { assert TakeDigits("0") == "0"; }
  }

  function Negated(rel: Relation): (n: Relation)
    ensures forall x: int, y: int {:trigger Holds(n, x, y)} :: Holds(n, x, y) == !Holds(rel, x, y)
  {
    match rel
    case Less => AtLeast
    case AtMost => Greater
    case AtLeast => Less
    case Greater => AtMost
    case Equal => Different
    case Different => Equal
  }

  /** The relation with its operands exchanged. */
  function Mirrored(rel: Relation): (m: Relation)
    ensures forall x: int, y: int {:trigger Holds(m, x, y)} :: Holds(m, x, y) == Holds(rel, y, x)
  {
    match rel
    case Less => Greater
    case AtMost => AtLeast
    case AtLeast => AtMost
    case Greater => Less
    case Equal => Equal
    case Different => Different
  }

  function TwoRegisterMnemonic(rel: Relation, unsigned: bool): (op: string)
    requires unsigned ==> rel !in {Equal, Different}
    ensures forall x: int, y: int {:trigger BranchHolds(op, x, y)} ::
              BranchHolds(op, x, y) == Some(if unsigned then Holds(rel, ToUInt32(x), ToUInt32(y)) else Holds(rel, x, y))
  {
    match rel
    case Less => if unsigned then "bltu" else "blt"
    case AtMost => if unsigned then "bleu" else "ble"
    case AtLeast => if unsigned then "bgeu" else "bge"
    case Greater => if unsigned then "bgtu" else "bgt"
    case Equal => "beq"
    case Different => "bne"
  }

  function ZeroMnemonic(rel: Relation): (op: string)
    ensures forall x: int {:trigger ZeroBranchHolds(op, x)} :: ZeroBranchHolds(op, x) == Some(Holds(rel, x, 0))
  {
    match rel
    case Less => "bltz"
    case AtMost => "blez"
    case AtLeast => "bgez"
    case Greater => "bgtz"
    case Equal => "beqz"
    case Different => "bnez"
  }

  /** The fused branch with the relation negated for goto-if-false, the
      registers in operand order, and the compare-with-zero forms kept to the
      signed and equality kinds (an unsigned word compared with 0 needs the
      register form). */
  function FusedBranch(k: Opcode, ifTrue: bool, c1: Option<string>, c2: Option<string>,
                       r1: string, r2: string, target: string): (r: Result<Asm>)
    ensures r.Err? <==> !IsBranchComparison(k)
    ensures r.Err? ==> r.failure.Undefined?
    ensures r.Ok? ==> r.value.Op? && |r.value.args| >= 2 && r.value.args[|r.value.args| - 1] == Target(target)
  {
    if !IsBranchComparison(k) then Err(Undefined("branch opcode table read out of bounds"))
    else
      var rel := if ifTrue then RelationOf(k) else Negated(RelationOf(k));
      var signed := !IsUnsignedComparison(k);
      if signed && c2.Some? && c1.None? && Atoi(c2.value) == 0 then
        Ok(Op(ZeroMnemonic(rel), [Reg(r1), Target(target)]))
      else if signed && c1.Some? && c2.None? && Atoi(c1.value) == 0 then
        Ok(Op(ZeroMnemonic(Mirrored(rel)), [Reg(r2), Target(target)]))
      else
        Ok(Op(TwoRegisterMnemonic(rel, !signed), [Reg(r1), Reg(r2), Target(target)]))
  }

  /** The corrected fused branch jumps exactly when the IR goto would, for
      every comparison, both gotos and all operand values. */
  lemma FusedBranchAgrees(k: Opcode, ifTrue: bool, c1: Option<string>, c2: Option<string>,
                          r1: string, r2: string, target: string, reg: string -> int, a: int, b: int)
    requires IsBranchComparison(k) && Consistent(reg, c1, c2, r1, r2, a, b)
    ensures FusedBranch(k, ifTrue, c1, c2, r1, r2, target).Ok?
    ensures Taken(FusedBranch(k, ifTrue, c1, c2, r1, r2, target).value, reg) == Some(IrJumps(ifTrue, k, a, b))
  {
    var rel := if ifTrue then RelationOf(k) else Negated(RelationOf(k));
    assert Holds(rel, a, b) == IrJumps(ifTrue, k, a, b) || IsUnsignedComparison(k);
  }

  // ---------------------------------------------------------------------------
  // The comparison the fused branch stands for
  // ---------------------------------------------------------------------------

  /** Whether `mips_print_comparison` prints its instruction: at optimisation
      level 2 it prints nothing when the next instruction is a conditional
      goto, whose branch is printed in its place. */
  function ComparisonPrinted(mid: bool, next: Option<Opcode>): bool {
    !(mid && next.Some? && next.value in {GotoIfFalse, GotoIfTrue})
  }

  /** A comparison goes unprinted exactly when level 2 is on and a
      conditional goto follows, and that goto is then always fused. The
      fusion finds a table slot exactly for the ten comparisons: `and`, `xor`
      and `or`, printed by the same routine, are silenced the same way but
      send the fusion past the end of its tables. */
  lemma SilencedComparisonIsFused(mid: bool, k: Opcode, next: Option<Opcode>, c1: Option<string>, c2: Option<string>,
                                  r1: string, r2: string, target: string)
    ensures !ComparisonPrinted(mid, next) <==> mid && next.Some? && next.value in {GotoIfFalse, GotoIfTrue}
    ensures !ComparisonPrinted(mid, next) && IsBranchComparison(k) ==> FusedBranchAsWritten(k, c1, c2, r1, r2, target).Ok?
    ensures !ComparisonPrinted(mid, next) && k in {BitAndWord, BitXorWord, BitOrWord} ==>
              FusedBranchAsWritten(k, c1, c2, r1, r2, target).Err?
  {
  }
}

=== FILE: mips_cast.dfy ===
/** `mips_print_cast`: the narrowing casts are register moves (the store that
    follows narrows), the widening casts clear or sign-fill the high bits of
    the value's register. */
module MipsCast {
  import opened Wrappers
  import opened Integers
  import opened IrOps
  import opened MipsAsm
  import opened MipsSelect

  /** The widening casts, enum values 42..47. */
  predicate IsWidening(k: Opcode) {
    k in {CastUnsignedHalfWordToWord, CastSignedHalfWordToWord,
          CastUnsignedByteToHalfWord, CastSignedByteToHalfWord,
          CastUnsignedByteToWord, CastSignedByteToWord}
  }

  /** The low `n` bits of `x` read as a two's-complement number. */
  function SignExtend(x: int, n: nat): (r: int)
    requires 1 <= n
    ensures -(Pow2(n - 1) as int) <= r < Pow2(n - 1)
  {
    Pow2Add(1, n - 1);
    var low := ToUInt32(x) % Pow2(n);
    if low >= Pow2(n - 1) then low - Pow2(n) else low
  }

  /** The low `n` bits of `x` read as an unsigned number. */
  function ZeroExtend(x: int, n: nat): (r: int)
    ensures 0 <= r < Pow2(n)
  {
    ToUInt32(x) % Pow2(n)
  }

  /** What a widening cast makes of the word `x`: a half-word source keeps its
      low 16 bits, a byte source its low 8, sign- or zero-extended. */
  function WidenedValue(k: Opcode, x: int): int
    requires IsWidening(k)
  {
    match k
    case CastUnsignedHalfWordToWord => ZeroExtend(x, 16)
    case CastSignedHalfWordToWord => SignExtend(x, 16)
    case CastUnsignedByteToHalfWord | CastUnsignedByteToWord => ZeroExtend(x, 8)
    case CastSignedByteToHalfWord | CastSignedByteToWord => SignExtend(x, 8)
  }

  // ---------------------------------------------------------------------------
  // What the emitted instructions do
  // ---------------------------------------------------------------------------

  /** `move`, `andi` with a mask of low ones, `sll` and `sra` on a register
      value `x` with immediate `imm`. */
  function Apply(op: string, x: int, imm: int): Option<int> {
    if op == "move" then Some(x)
    else if op == "andi" && imm == 0xff then Some(ZeroExtend(x, 8))
    else if op == "andi" && imm == 0xffff then Some(ZeroExtend(x, 16))
    else if op == "sll" && 0 <= imm < 32 then Some(Wrap32(x * Pow2(imm)))
    else if op == "sra" && 0 <= imm < 32 then Some(x / Pow2(imm))
    else None
  }

  /** The registers after one instruction `op $d, $s[, imm]`. */
  function Execute(i: Asm, reg: string -> int): Option<string -> int> {
    match i
    case Op(op, args) =>
      if |args| >= 2 && args[0].Reg? && args[1].Reg? then
        var imm := if |args| == 3 && args[2].Imm? then args[2].value else 0;
        match Apply(op, reg(args[1].name), imm)
        case None => None
        case Some(v) => Some((r: string) => if r == args[0].name then v else reg(r))
      else None
    case LabelDef(_) => None
  }

  function Run(code: seq<Asm>, reg: string -> int): Option<string -> int>
    decreases |code|
  {
    if |code| == 0 then Some(reg)
    else
      match Execute(code[0], reg)
      case None => None
      case Some(next) => Run(code[1..], next)
  }

  /** The register `dst` after the code, if every instruction runs. */
  function Result(code: seq<Asm>, reg: string -> int, dst: string): Option<int> {
    match Run(code, reg)
    case None => None
    case Some(after) => Some(after(dst))
  }

  // ---------------------------------------------------------------------------
  // The cast printer
  // ---------------------------------------------------------------------------

  function ShiftPair(dst: string, src: string, amount: int): seq<Asm> {
    [Op("sll", [Reg(dst), Reg(src), Imm(amount)]), Op("sra", [Reg(dst), Reg(dst), Imm(amount)])]
  }

  /** `mips_print_cast` as written: unsigned half-word to word masks with
      0xff, unsigned byte to half-word or word with 0xffff, and signed byte to
      half-word shifts by 8. */
  function CastCodeAsWritten(k: Opcode, dst: string, src: string): (code: seq<Asm>)
    requires HandlerOf(k) == PrintCast
    ensures 1 <= |code| <= 2
    ensures !IsWidening(k) ==> code == [Op("move", [Reg(dst), Reg(src)])]
  {
    match k
    case CastWordToHalfWord | CastWordToByte | CastHalfWordToByte => [Op("move", [Reg(dst), Reg(src)])]
    case CastUnsignedHalfWordToWord => [Op("andi", [Reg(dst), Reg(src), Imm(0xff)])]
    case CastUnsignedByteToHalfWord | CastUnsignedByteToWord => [Op("andi", [Reg(dst), Reg(src), Imm(0xffff)])]
    case CastSignedHalfWordToWord => ShiftPair(dst, src, 16)
    case CastSignedByteToHalfWord => ShiftPair(dst, src, 8)
    case CastSignedByteToWord => ShiftPair(dst, src, 24)
  }

  /** The casts as `mips_print_cast` evidently means them: each mask keeps the
      source's width, and a signed byte is sign-extended from bit 7 whatever
      the destination width. The narrowing casts stay moves. */
  function CastCode(k: Opcode, dst: string, src: string): (code: seq<Asm>)
    requires HandlerOf(k) == PrintCast
    ensures 1 <= |code| <= 2
    ensures !IsWidening(k) ==> code == [Op("move", [Reg(dst), Reg(src)])]
    ensures forall i :: 0 <= i < |code| ==> code[i].Op? && |code[i].args| >= 2 && code[i].args[0] == Reg(dst)
  {
    match k
    case CastWordToHalfWord | CastWordToByte | CastHalfWordToByte => [Op("move", [Reg(dst), Reg(src)])]
    case CastUnsignedHalfWordToWord => [Op("andi", [Reg(dst), Reg(src), Imm(0xffff)])]
    case CastUnsignedByteToHalfWord | CastUnsignedByteToWord => [Op("andi", [Reg(dst), Reg(src), Imm(0xff)])]
    case CastSignedHalfWordToWord => ShiftPair(dst, src, 16)
    case CastSignedByteToHalfWord | CastSignedByteToWord => ShiftPair(dst, src, 24)
  }

  /** Every widening cast leaves the destination holding the widened value of
      the source word. */
  lemma CastCodeAgrees(k: Opcode, dst: string, src: string, reg: string -> int)
    requires IsWidening(k) && IsInt32(reg(src))
    ensures HandlerOf(k) == PrintCast
    ensures Result(CastCode(k, dst, src), reg, dst) == Some(WidenedValue(k, reg(src)))
  {
    Pow2Values();
    match k
    case CastUnsignedHalfWordToWord => MaskComputes(dst, src, 0xffff, reg);
    case CastUnsignedByteToHalfWord | CastUnsignedByteToWord => MaskComputes(dst, src, 0xff, reg);
    case CastSignedHalfWordToWord => ShiftPairSignExtends(dst, src, 16, reg);
    case CastSignedByteToHalfWord | CastSignedByteToWord => ShiftPairSignExtends(dst, src, 8, reg);
  }

  /** The two signed casts to a word are right as written. */
  lemma CastCodeAsWrittenSignedToWord(k: Opcode, dst: string, src: string, reg: string -> int)
    requires k in {CastSignedHalfWordToWord, CastSignedByteToWord} && IsInt32(reg(src))
    ensures HandlerOf(k) == PrintCast
    ensures Result(CastCodeAsWritten(k, dst, src), reg, dst) == Some(WidenedValue(k, reg(src)))
  {
    if k == CastSignedHalfWordToWord {
      assert CastCodeAsWritten(k, dst, src) == ShiftPair(dst, src, 16);
      ShiftPairSignExtends(dst, src, 16, reg);
    } else {
      assert CastCodeAsWritten(k, dst, src) == ShiftPair(dst, src, 24);
      ShiftPairSignExtends(dst, src, 8, reg);
    }
  }

  /** As written, an unsigned half-word 0x1234 widens to 0x34: the mask is a
      byte mask. */
  lemma HalfWordMaskDropsHighByte(dst: string, src: string)
    ensures var reg := (r: string) => 0x1234;
            Result(CastCodeAsWritten(CastUnsignedHalfWordToWord, dst, src), reg, dst) == Some(0x34)
            && WidenedValue(CastUnsignedHalfWordToWord, 0x1234) == 0x1234
  {
    Pow2Values();
    MaskComputes(dst, src, 0xff, (r: string) => 0x1234);
  }

  /** As written, an unsigned byte held as 511 widens to 511 rather than 255:
      the mask is a half-word mask. */
  lemma ByteMaskKeepsNinthBit(dst: string, src: string)
    ensures var reg := (r: string) => 511;
            Result(CastCodeAsWritten(CastUnsignedByteToWord, dst, src), reg, dst) == Some(511)
            && WidenedValue(CastUnsignedByteToWord, 511) == 255
  {
    Pow2Values();
    MaskComputes(dst, src, 0xffff, (r: string) => 511);
  }

  /** As written, the signed byte 0xff held as 255 widens to the half-word 255
      rather than -1: shifting by 8 extends from bit 23, not bit 7. */
  lemma SignedByteShiftedByEight(dst: string, src: string)
    ensures var reg := (r: string) => 255;
            Result(CastCodeAsWritten(CastSignedByteToHalfWord, dst, src), reg, dst) == Some(255)
            && WidenedValue(CastSignedByteToHalfWord, 255) == -1
  {
    Pow2Values();
    Pow2Add(8, 16);
    Pow2Add(8, 15);
    ShiftPairSignExtends(dst, src, 24, (r: string) => 255);
  }

  /** A single `andi` leaves the masked source in `dst`. */
  lemma MaskComputes(dst: string, src: string, mask: int, reg: string -> int)
    requires mask in {0xff, 0xffff}
    ensures Result([Op("andi", [Reg(dst), Reg(src), Imm(mask)])], reg, dst) == Apply("andi", reg(src), mask)
  {
    var code := [Op("andi", [Reg(dst), Reg(src), Imm(mask)])];
    var v := Apply("andi", reg(src), mask).value;
    var after := (r: string) => if r == dst then v else reg(r);
    assert Execute(code[0], reg) == Some(after);
    assert Run(code[1..], after) == Some(after) by { assert code[1..] == []; }
  }

  /** Shifting left by `32 - n` and arithmetically back sign-extends the low
      `n` bits. */
  lemma ShiftPairSignExtends(dst: string, src: string, n: nat, reg: string -> int)
    requires n in {8, 16, 24} && IsInt32(reg(src))
    ensures Result(ShiftPair(dst, src, 32 - n), reg, dst) == Some(SignExtend(reg(src), n))
  {
    var x := reg(src);
    ShiftPairComputes(dst, src, 32 - n, reg);
    Pow2Values();
    if n == 8 {
      Pow2Add(8, 16);
      ShiftBackFromByte(x);
    } else if n == 16 {
      ShiftBackFromHalf(x);
    } else {
      Pow2Add(8, 16);
      Pow2Add(8, 15);
      ShiftBackFrom24(x);
    }
  }

  /** The two shifts leave `dst` holding the source shifted out and back. */
  lemma ShiftPairComputes(dst: string, src: string, amount: int, reg: string -> int)
    requires 0 <= amount < 32
    ensures Result(ShiftPair(dst, src, amount), reg, dst) == Some(Wrap32(reg(src) * Pow2(amount)) / Pow2(amount))
  {
    var code := ShiftPair(dst, src, amount);
    var v := Wrap32(reg(src) * Pow2(amount));
    assert Apply("sll", reg(src), amount) == Some(v);
    var after := (r: string) => if r == dst then v else reg(r);
    assert Execute(code[0], reg) == Some(after);
    var w := v / Pow2(amount);
    assert Apply("sra", after(dst), amount) == Some(w);
    var last := (r: string) => if r == dst then w else after(r);
    assert Execute(code[1], after) == Some(last);
    assert Run(code[1..], after) == Some(last) by {
      assert code[1..][0] == code[1];
      assert Run(code[1..][1..], last) == Some(last) by { assert code[1..][1..] == []; }
    }
  }

  lemma ShiftBackFromByte(x: int)
    requires IsInt32(x)
    ensures Wrap32(x * 0x100_0000) / 0x100_0000 == (var low := ToUInt32(x) % 0x100; if low >= 0x80 then low - 0x100 else low)
  {
    var u := ToUInt32(x);
    var c := if x < 0 then 1 else 0;
    assert u == x + c * TWO_TO_32;
    var h, low := u / 0x100, u % 0x100;
    assert u == h * 0x100 + low;
    assert x * 0x100_0000 == low * 0x100_0000 + (h - c * 0x100_0000) * TWO_TO_32;
    ModOfShiftedLow(x * 0x100_0000, low * 0x100_0000, h - c * 0x100_0000);
  }

  lemma ShiftBackFromHalf(x: int)
    requires IsInt32(x)
    ensures Wrap32(x * 0x1_0000) / 0x1_0000 == (var low := ToUInt32(x) % 0x1_0000; if low >= 0x8000 then low - 0x1_0000 else low)
  {
    var u := ToUInt32(x);
    var c := if x < 0 then 1 else 0;
    assert u == x + c * TWO_TO_32;
    var h, low := u / 0x1_0000, u % 0x1_0000;
    assert u == h * 0x1_0000 + low;
    assert x * 0x1_0000 == low * 0x1_0000 + (h - c * 0x1_0000) * TWO_TO_32;
    ModOfShiftedLow(x * 0x1_0000, low * 0x1_0000, h - c * 0x1_0000);
  }

  lemma ShiftBackFrom24(x: int)
    requires IsInt32(x)
    ensures Wrap32(x * 0x100) / 0x100 == (var low := ToUInt32(x) % 0x100_0000; if low >= 0x80_0000 then low - 0x100_0000 else low)
  {
    var u := ToUInt32(x);
    var c := if x < 0 then 1 else 0;
    assert u == x + c * TWO_TO_32;
    var h, low := u / 0x100_0000, u % 0x100_0000;
    assert u == h * 0x100_0000 + low;
    assert x * 0x100 == low * 0x100 + (h - c * 0x100) * TWO_TO_32;
    ModOfShiftedLow(x * 0x100, low * 0x100, h - c * 0x100);
  }

  lemma ModOfShiftedLow(y: int, l: int, k: int)
    requires 0 <= l < TWO_TO_32 && y == l + k * TWO_TO_32
    ensures y % TWO_TO_32 == l
  {
  }
}

=== FILE: mips_frame.dfy ===
/** The stack frame of a procedure as mips.c lays it out.

    From the frame pointer upwards: an optional padding word, the four
    argument registers, the eight s-registers, the old frame pointer, the
    return address, then the t-register spill area used around calls. The
    procedure's variables are placed downwards from the top of the frame.
 */
module MipsFrame {
  import opened MipsAsm

  const T_REGISTERS_SIZE: int := 40
  const S_REGISTERS_SIZE: int := 32
  const A_REGISTERS_SIZE: int := 16
  const RA_REGISTER_SIZE: int := 4
  const OLD_FP_REGISTER_SIZE: int := 4
  /** The fixed part of every frame. */
  const STACK_SIZE: int :=
    T_REGISTERS_SIZE + S_REGISTERS_SIZE + A_REGISTERS_SIZE + RA_REGISTER_SIZE + OLD_FP_REGISTER_SIZE
  /** `_SIGNED_LONG_MIN`: where the search for the largest child block starts. */
  const SIGNED_LONG_MIN: int := -2147483648

  /** `mips_round_up_to_double_word_boundry`, `((size + 7) >> 3) << 3`: the
      least multiple of 8 not below `size`. The shift floors, as Dafny's
      division by a positive number does. */
  function RoundUp8(size: int): (r: int)
    ensures r % 8 == 0
    ensures size <= r < size + 8
  {
    ((size + 7) / 8) * 8
  }

  /** `(x >> 2) << 2`: `x` with its two low bits cleared. An arithmetic shift
      floors, so this is `x` less Dafny's non-negative remainder. */
  function ClearLow2(x: int): (r: int)
    ensures r % 4 == 0 && x - 4 < r <= x
  {
    x - x % 4
  }

  /** `(x >> 1) << 1`: `x` with its low bit cleared. */
  function ClearLow1(x: int): (r: int)
    ensures r % 2 == 0 && x - 2 < r <= x
  {
    x - x % 2
  }

  /** `mips_round_variable_address` as written. A variable of `size` bytes is
      then placed at the result. `fp % k == 0` means the same under C's
      truncating remainder as under Dafny's; on that branch `fp` is its own
      `ClearLow`, so the result is the code's `fp - 4` (or `fp - 2`). */
  function RoundVariableAddress(fp: int, size: int): (r: int)
    ensures size == 4 ==> r % 4 == 0 && fp - 4 <= r < fp
    ensures size == 2 ==> r % 2 == 0 && fp - 2 <= r < fp
    ensures size != 4 && size != 2 ==> r == fp - 1
  {
    if size == 4 then
      if fp % 4 == 0 then ClearLow2(fp) - 4 else ClearLow2(fp)
    else if size == 2 then
      if fp % 2 == 0 then ClearLow1(fp) - 2 else ClearLow1(fp)
    else fp - 1
  }

  /** Two byte ranges `[a, a + sa)` and `[b, b + sb)` share a byte. */
  predicate Overlap(a: int, sa: int, b: int, sb: int) {
    a < b + sb && b < a + sa
  }

  /** From the top of a 104-byte frame, a short goes to 102 and an int placed
      after it to 100, so the int's bytes 100..103 cover the short's 102..103. */
  lemma ShortThenIntOverlap()
    ensures RoundVariableAddress(104, 2) == 102
    ensures RoundVariableAddress(102, 4) == 100
    ensures Overlap(RoundVariableAddress(102, 4), 4, RoundVariableAddress(104, 2), 2)
  {
  }

  /** The slot the rounding evidently means: the highest multiple of `size`
      that still leaves `size` bytes below `fp`. Sizes other than 2 and 4 are
      placed as the code places them. */
  function PlaceVariable(fp: int, size: int): (r: int)
    ensures size == 4 ==> r % 4 == 0 && fp - 8 < r && r + 4 <= fp
    ensures size == 2 ==> r % 2 == 0 && fp - 4 < r && r + 2 <= fp
    ensures size != 4 && size != 2 ==> r == RoundVariableAddress(fp, size)
  {
    if size == 4 then ClearLow2(fp - 4)
    else if size == 2 then ClearLow1(fp - 2)
    else RoundVariableAddress(fp, size)
  }

  /** When `fp` is already a multiple of the size, the code as written and the
      corrected placement agree. A frame size is always a multiple of 8, so the
      first variable placed in any frame (the int at 100 of the 104-byte frame
      of tests/mips/expected/fib.c) lands where the code puts it. */
  lemma PlacementAgreesWhenAligned(fp: int, size: int)
    requires size == 4 || size == 2
    requires fp % size == 0
    ensures PlaceVariable(fp, size) == RoundVariableAddress(fp, size)
  {
  }

  /** The addresses successive variables of the given sizes receive. */
  function Placements(fp: int, sizes: seq<int>): (a: seq<int>)
    ensures |a| == |sizes|
    decreases |sizes|
  {
    if |sizes| == 0 then []
    else
      var r := PlaceVariable(fp, sizes[0]);
      [r] + Placements(r, sizes[1..])
  }

  /** The sizes `type_get_size` gives a scalar: 1, 2 or 4. */
  predicate ScalarSizes(sizes: seq<int>) {
    forall i :: 0 <= i < |sizes| ==> sizes[i] == 1 || sizes[i] == 2 || sizes[i] == 4
  }

  /** Every placed variable is aligned to its size and lies below `fp`, and
      each one lies wholly below the one placed before it, so no two share a
      byte. */
  lemma {:induction false} PlacementsDisjoint(fp: int, sizes: seq<int>)
    requires ScalarSizes(sizes)
    ensures forall i :: 0 <= i < |sizes| ==>
              Placements(fp, sizes)[i] % sizes[i] == 0 && Placements(fp, sizes)[i] + sizes[i] <= fp
    ensures forall i, j :: 0 <= i < j < |sizes| ==>
              Placements(fp, sizes)[j] + sizes[j] <= Placements(fp, sizes)[i]
    decreases |sizes|
  {
    if |sizes| > 0 {
      var r := PlaceVariable(fp, sizes[0]);
      var rest := Placements(r, sizes[1..]);
      assert ScalarSizes(sizes[1..]) by {
        forall i | 0 <= i < |sizes| - 1 ensures sizes[1..][i] == sizes[i + 1] { }
      }
      PlacementsDisjoint(r, sizes[1..]);
      var a := Placements(fp, sizes);
      assert a == [r] + rest;
      assert r % sizes[0] == 0 && r + sizes[0] <= fp;
      forall i | 0 < i < |sizes|
        ensures a[i] % sizes[i] == 0 && a[i] + sizes[i] <= r
      {
        assert a[i] == rest[i - 1] && sizes[i] == sizes[1..][i - 1];
      }
    }
  }

  /** What the frame of a procedure is built from: the basic sizes of its own
      variables (parameters included) and those of each direct child block. */
  datatype FrameInput = FrameInput(own: seq<nat>, children: seq<seq<nat>>)

  function Sum(s: seq<nat>): nat {
    if |s| == 0 then 0 else Sum(s[..|s| - 1]) + s[|s| - 1]
  }

  /** The block-size loop of `mips_get_max_block_size`: the largest sum over
      the children, the first one on a tie, `_SIGNED_LONG_MIN` for none. */
  function LargestBlock(children: seq<seq<nat>>): (m: int)
    ensures |children| == 0 ==> m == SIGNED_LONG_MIN
    ensures forall i :: 0 <= i < |children| ==> Sum(children[i]) <= m
    ensures |children| > 0 ==> exists i :: 0 <= i < |children| && Sum(children[i]) == m
  {
    if |children| == 0 then SIGNED_LONG_MIN
    else
      var m := LargestBlock(children[..|children| - 1]);
      var b := Sum(children[|children| - 1]);
      assert forall i :: 0 <= i < |children| - 1 ==> children[..|children| - 1][i] == children[i];
      if b > m then b else m
  }

  /** `mips_get_max_block_size`: room for the procedure's own variables and the
      largest direct child block, rounded up to a double word. */
  function MaxBlockSize(size: int, children: seq<seq<nat>>): (r: int)
    ensures r % 8 == 0
    ensures |children| == 0 ==> size <= r < size + 8
    ensures forall i :: 0 <= i < |children| ==> size + Sum(children[i]) <= r
    ensures |children| > 0 ==> exists i :: 0 <= i < |children| && r < size + Sum(children[i]) + 8
  {
    if |children| == 0 then RoundUp8(size) else RoundUp8(size + LargestBlock(children))
  }

  /** The globals `mips_print_function` sets for a procedure. */
  datatype Frame = Frame(size: int, finalSize: int, total: int, alignmentWordAdded: bool, fpPosition: int)

  /** The padding word below the argument save area, when there is one. */
  function Pad(f: Frame): int {
    if f.alignmentWordAdded then 4 else 0
  }

  /** The arithmetic part of `mips_print_function`. */
  function LayoutFrame(input: FrameInput): (f: Frame)
    ensures f.size == Sum(input.own)
    ensures f.total % 8 == 0 && f.total == STACK_SIZE + f.finalSize
    ensures forall i :: 0 <= i < |input.children| ==> f.size + Sum(input.children[i]) <= f.finalSize
    ensures f.size <= f.finalSize
    ensures f.alignmentWordAdded <==> f.finalSize > f.size
    ensures f.fpPosition == Pad(f) + A_REGISTERS_SIZE + S_REGISTERS_SIZE
  {
    var size := Sum(input.own);
    var final := MaxBlockSize(size, input.children);
    assert |input.children| > 0 ==> size + Sum(input.children[0]) <= final;
    var aligned := final > size;
    Frame(size, final, STACK_SIZE + final, aligned, (if aligned then 4 else 0) + A_REGISTERS_SIZE + S_REGISTERS_SIZE)
  }

  /** The shape every frame `LayoutFrame` builds has, which the epilogue relies on. */
  predicate Shaped(f: Frame) {
    f.fpPosition == Pad(f) + A_REGISTERS_SIZE + S_REGISTERS_SIZE
  }

  /** The frame of `fib(short n)`: two bytes of variables round up to eight,
      so the frame is 104 bytes with a padding word and the old frame pointer
      goes to 52 (tests/mips/expected/fib.c, lines 5 and 6). */
  lemma FibFrame()
    ensures LayoutFrame(FrameInput([2], [])) == Frame(2, 8, 104, true, 52)
  {
    assert Sum([2]) == 2 by {
      assert [2][..0] == [];
    }
  }

  /** `mips_print_function` after the label: reserve the frame, save the old
      frame pointer, point $fp at the frame, then save a0..a3, s0..s7 and $ra
      upwards from the padding word. Returns the code and `fp_offset_low`. */
  method Prologue(name: string, f: Frame) returns (code: seq<Asm>, low: int)
    requires Shaped(f)
    ensures |code| == 17
    ensures code[0] == LabelDef(name)
    ensures code[1] == Op("addiu", [Reg("sp"), Reg("sp"), Imm(-f.total)])
    ensures code[2] == Op("sw", [Reg("fp"), At(Pad(f) + 48, "sp")])
    ensures code[3] == Op("or", [Reg("fp"), Reg("sp"), Reg("0")])
    ensures forall i :: 0 <= i < 4 ==> code[4 + i] == Op("sw", [Reg(Numbered('a', i)), At(Pad(f) + 4 * i, "fp")])
    ensures forall j :: 0 <= j < 8 ==> code[8 + j] == Op("sw", [Reg(Numbered('s', j)), At(Pad(f) + 16 + 4 * j, "fp")])
    ensures code[16] == Op("sw", [Reg("ra"), At(Pad(f) + 52, "fp")])
    ensures low == Pad(f) + 56
  {
    low := 0;
    code := [LabelDef(name), Op("addiu", [Reg("sp"), Reg("sp"), Imm(-f.total)])];
    low := low + (if f.alignmentWordAdded then 4 else 0);
    var fpPosition := low + A_REGISTERS_SIZE + S_REGISTERS_SIZE;
    code := code + [Op("sw", [Reg("fp"), At(fpPosition, "sp")]), Op("or", [Reg("fp"), Reg("sp"), Reg("0")])];
    var i := 0;
    while i < 4
      invariant 0 <= i <= 4 && |code| == 4 + i && low == Pad(f) + 4 * i
      invariant code[..4] == [LabelDef(name), Op("addiu", [Reg("sp"), Reg("sp"), Imm(-f.total)]),
                              Op("sw", [Reg("fp"), At(Pad(f) + 48, "sp")]), Op("or", [Reg("fp"), Reg("sp"), Reg("0")])]
      invariant forall k :: 0 <= k < i ==> code[4 + k] == Op("sw", [Reg(Numbered('a', k)), At(Pad(f) + 4 * k, "fp")])
    {
      code := code + [Op("sw", [Reg(Numbered('a', i)), At(low, "fp")])];
      low := low + 4;
      i := i + 1;
    }
    var j := 0;
    while j < 8
      invariant 0 <= j <= 8 && |code| == 8 + j && low == Pad(f) + 16 + 4 * j
      invariant code[..4] == [LabelDef(name), Op("addiu", [Reg("sp"), Reg("sp"), Imm(-f.total)]),
                              Op("sw", [Reg("fp"), At(Pad(f) + 48, "sp")]), Op("or", [Reg("fp"), Reg("sp"), Reg("0")])]
      invariant forall k :: 0 <= k < 4 ==> code[4 + k] == Op("sw", [Reg(Numbered('a', k)), At(Pad(f) + 4 * k, "fp")])
      invariant forall k :: 0 <= k < j ==> code[8 + k] == Op("sw", [Reg(Numbered('s', k)), At(Pad(f) + 16 + 4 * k, "fp")])
    {
      code := code + [Op("sw", [Reg(Numbered('s', j)), At(low, "fp")])];
      low := low + 4;
      j := j + 1;
    }
    low := low + OLD_FP_REGISTER_SIZE;
    code := code + [Op("sw", [Reg("ra"), At(low, "fp")])];
    low := low + RA_REGISTER_SIZE;
  }

  /** `mips_print_function_reset`: reload $ra and s7..s0 downwards from
      `fp_offset_low`, skipping the old frame pointer's word, reload $fp from
      where the prologue put it, pop the frame and return. When `low` is what
      the prologue left, every register comes back from the slot it was saved
      in. */
  method Epilogue(f: Frame, low: int) returns (code: seq<Asm>, low': int)
    requires Shaped(f)
    ensures |code| == 12
    ensures code[0] == Op("lw", [Reg("ra"), At(low - 4, "fp")])
    ensures forall k :: 0 <= k < 8 ==> code[1 + k] == Op("lw", [Reg(Numbered('s', 7 - k)), At(low - 12 - 4 * k, "fp")])
    ensures code[9] == Op("lw", [Reg("fp"), At(Pad(f) + 48, "fp")])
    ensures code[10] == Op("addiu", [Reg("sp"), Reg("sp"), Imm(f.total)])
    ensures code[11] == Op("jr", [Reg("ra")])
    ensures low' == low - 40
    ensures low == Pad(f) + 56 ==>
              && code[0] == Op("lw", [Reg("ra"), At(Pad(f) + 52, "fp")])
              && forall j :: 0 <= j < 8 ==> code[8 - j] == Op("lw", [Reg(Numbered('s', j)), At(Pad(f) + 16 + 4 * j, "fp")])
  {
    low' := low - RA_REGISTER_SIZE;
    code := [Op("lw", [Reg("ra"), At(low', "fp")])];
    low' := low' - OLD_FP_REGISTER_SIZE;
    var k := 0;
    while k < 8
      invariant 0 <= k <= 8 && |code| == 1 + k && low' == low - 8 - 4 * k
      invariant code[0] == Op("lw", [Reg("ra"), At(low - 4, "fp")])
      invariant forall m :: 0 <= m < k ==> code[1 + m] == Op("lw", [Reg(Numbered('s', 7 - m)), At(low - 12 - 4 * m, "fp")])
    {
      low' := low' - 4;
      code := code + [Op("lw", [Reg(Numbered('s', 7 - k)), At(low', "fp")])];
      k := k + 1;
    }
    code := code + [Op("lw", [Reg("fp"), At(f.fpPosition, "fp")]),
                    Op("addiu", [Reg("sp"), Reg("sp"), Imm(f.total)]),
                    Op("jr", [Reg("ra")])];
    if low == Pad(f) + 56 {
      forall j | 0 <= j < 8
        ensures code[8 - j] == Op("lw", [Reg(Numbered('s', j)), At(Pad(f) + 16 + 4 * j, "fp")])
      {
        assert code[1 + (7 - j)] == Op("lw", [Reg(Numbered('s', 7 - (7 - j))), At(low - 12 - 4 * (7 - j), "fp")]);
      }
    }
  }

  /** How many t-registers a call spills: with optimisation, those handed out
      so far (slots 9..register_count of the list); without, all ten. */
  function SpillCount(opt: int, count: int): (n: nat)
    ensures n <= 10 || opt >= 1
    ensures opt >= 1 && count <= REGISTER_CAPACITY ==> n <= 10
  {
    if opt >= 1 then (if count >= FIRST_T_REGISTER then count - FIRST_T_REGISTER + 1 else 0) else 10
  }

  /** `mips_save_t_registers`: spill upwards from `fp_offset_low`. */
  method SaveT(opt: int, count: int, low: int) returns (code: seq<Asm>, low': int)
    requires count <= REGISTER_CAPACITY
    ensures |code| == SpillCount(opt, count) && low' == low + 4 * |code|
    ensures forall i :: 0 <= i < |code| ==> code[i] == Op("sw", [Reg(Numbered('t', i)), At(low + 4 * i, "fp")])
  {
    code := [];
    low' := low;
    if opt >= 1 {
      var r := FIRST_T_REGISTER;
      while r <= count
        invariant FIRST_T_REGISTER <= r <= if count >= FIRST_T_REGISTER then count + 1 else FIRST_T_REGISTER
        invariant |code| == r - FIRST_T_REGISTER <= 10 && low' == low + 4 * |code|
        invariant forall i :: 0 <= i < |code| ==> code[i] == Op("sw", [Reg(Numbered('t', i)), At(low + 4 * i, "fp")])
      {
        RegisterLayout(r);
        code := code + [Op("sw", [Reg(REGISTERS[r]), At(low', "fp")])];
        low' := low' + 4;
        r := r + 1;
      }
    } else {
      var i := 0;
      while i < 10
        invariant 0 <= i <= 10 && |code| == i && low' == low + 4 * i
        invariant forall m :: 0 <= m < i ==> code[m] == Op("sw", [Reg(Numbered('t', m)), At(low + 4 * m, "fp")])
      {
        code := code + [Op("sw", [Reg(Numbered('t', i)), At(low', "fp")])];
        low' := low' + 4;
        i := i + 1;
      }
    }
  }

  /** `mips_restore_t_registers`: reload downwards from `fp_offset_low`, the
      last register spilled first. */
  method RestoreT(opt: int, count: int, low: int) returns (code: seq<Asm>, low': int)
    requires count <= REGISTER_CAPACITY
    ensures |code| == SpillCount(opt, count) && low' == low - 4 * |code|
    ensures forall k :: 0 <= k < |code| ==>
              code[k] == Op("lw", [Reg(Numbered('t', |code| - 1 - k)), At(low - 4 * (k + 1), "fp")])
  {
    code := [];
    low' := low;
    var n := SpillCount(opt, count);
    if opt >= 1 {
      var r := count;
      while r >= FIRST_T_REGISTER
        invariant r <= count && (r >= FIRST_T_REGISTER - 1 || count < FIRST_T_REGISTER)
        invariant |code| == count - r && low' == low - 4 * |code|
        invariant count >= FIRST_T_REGISTER ==> n == count - FIRST_T_REGISTER + 1
        invariant |code| <= n
        invariant forall k :: 0 <= k < |code| ==>
                    code[k] == Op("lw", [Reg(Numbered('t', n - 1 - k)), At(low - 4 * (k + 1), "fp")])
      {
        RegisterLayout(r);
        low' := low' - 4;
        code := code + [Op("lw", [Reg(REGISTERS[r]), At(low', "fp")])];
        r := r - 1;
      }
    } else {
      var j := 9;
      while j >= 0
        invariant -1 <= j <= 9 && |code| == 9 - j && low' == low - 4 * |code|
        invariant forall k :: 0 <= k < |code| ==>
                    code[k] == Op("lw", [Reg(Numbered('t', 9 - k)), At(low - 4 * (k + 1), "fp")])
      {
        low' := low' - 4;
        code := code + [Op("lw", [Reg(Numbered('t', j)), At(low', "fp")])];
        j := j - 1;
      }
    }
  }

  /** `mips_print_function_call` after the argument count is reset: spill,
      `jal`, reload. Each spilled register is reloaded from its own slot and
      `fp_offset_low` ends where it started. */
  method CallSequence(opt: int, count: int, low: int, callee: string) returns (code: seq<Asm>, low': int)
    requires count <= REGISTER_CAPACITY
    ensures low' == low
    ensures |code| == 2 * SpillCount(opt, count) + 1
    ensures code[SpillCount(opt, count)] == Op("jal", [Target(callee)])
    ensures forall i :: 0 <= i < SpillCount(opt, count) ==>
              && code[i] == Op("sw", [Reg(Numbered('t', i)), At(low + 4 * i, "fp")])
              && code[2 * SpillCount(opt, count) - i] == Op("lw", [Reg(Numbered('t', i)), At(low + 4 * i, "fp")])
  {
    var save, mid := SaveT(opt, count, low);
    var restore, end := RestoreT(opt, count, mid);
    code := save + [Op("jal", [Target(callee)])] + restore;
    low' := end;
    var n := |save|;
    forall i | 0 <= i < n
      ensures code[2 * n - i] == Op("lw", [Reg(Numbered('t', i)), At(low + 4 * i, "fp")])
    {
      assert code[2 * n - i] == restore[n - 1 - i];
    }
  }
}

=== FILE: mips_regs.dfy ===
/** The bookkeeping mips.c keeps per procedure: the bump allocator that gives
    each temporary one of s0..s7, t0..t9, the argument-register counter, and
    the map from variable ids to frame offsets. */
module MipsRegisters {
  import opened Wrappers
  import opened Integers
  import HashMap
  import Ir
  import opened MipsAsm
  import opened MipsFrame

  /** `temp_register_map` and `register_count`. */
  datatype Alloc = Alloc(regs: HashMap.Map, count: int)

  /** The map holds `size` temporaries, the i-th of them mapped to the i-th
      register handed out since the map was emptied; those are slots
      `count - size + 1 .. count` of the register list. */
  predicate Allocated(a: Alloc) {
    && HashMap.Valid(a.regs) && HashMap.DistinctKeys(a.regs)
    && a.regs.size <= a.count <= REGISTER_CAPACITY
    && forall i :: 0 <= i < a.regs.size ==> a.regs.data[i].value == RegisterName(a.count - a.regs.size + i + 1)
  }

  /** The allocator as `mips_print_function` leaves it: a fresh map
      (`mips_initialise_temp_regsiter_map`), and `register_count` as the last
      epilogue reset it. */
  function StartProcedure(count: int): (a: Alloc)
    requires 0 <= count <= REGISTER_CAPACITY
    ensures Allocated(a) && a.count == count
    ensures forall t :: HashMap.Get(a.regs, t).None?
  {
    Alloc(HashMap.Empty(), count)
  }

  /** Adding a key the map lacks appends it in the next free slot. */
  lemma AddAppends(m: HashMap.Map, key: int, value: string)
    requires HashMap.Valid(m) && |value| < HashMap.VALUE_CAPACITY
    requires m.size < HashMap.MAX_SIZE && HashMap.Get(m, key).None?
    ensures HashMap.Add(m, key, value) == Ok(HashMap.Map(m.size + 1, m.data[m.size := HashMap.Entry(key, value)]))
  {
    assert HashMap.FindFrom(m, key, 0).None?;
  }

  /** `mips_get_next_available_register`. The capacity check comes first, so
      once all 18 registers are in use every call aborts, even for a
      temporary that already has one. Otherwise a mapped temporary keeps its
      register and a new one gets the next register of the list. */
  function NextRegister(a: Alloc, temp: int): (r: Result<(Alloc, string)>)
    requires Allocated(a)
    ensures r.Err? <==> a.count >= REGISTER_CAPACITY
    ensures r.Err? ==> r.failure.Aborts?
    ensures r.Ok? ==> Allocated(r.value.0)
    ensures r.Ok? ==> HashMap.Get(r.value.0.regs, temp) == Some(r.value.1)
    ensures r.Ok? && HashMap.Get(a.regs, temp).Some? ==> r.value == (a, HashMap.Get(a.regs, temp).value)
    ensures r.Ok? && HashMap.Get(a.regs, temp).None? ==>
              r.value.1 == RegisterName(a.count + 1) && r.value.0.count == a.count + 1
    ensures r.Ok? ==> forall k :: k != temp ==> HashMap.Get(r.value.0.regs, k) == HashMap.Get(a.regs, k)
  {
    if a.count >= REGISTER_CAPACITY then Err(Aborts("every register is in use"))
    else
      match HashMap.Get(a.regs, temp)
      case Some(reg) => Ok((a, reg))
      case None =>
        var reg := RegisterName(a.count + 1);
        AddAppends(a.regs, temp, reg);
        HashMap.AddKeepsKeysDistinct(a.regs, temp, reg);
        var m := HashMap.Map(a.regs.size + 1, a.regs.data[a.regs.size := HashMap.Entry(temp, reg)]);
        Ok((Alloc(m, a.count + 1), reg))
  }

  /** The slot of the map that holds `key`. */
  function SlotOf(m: HashMap.Map, key: int): (j: nat)
    requires m.size <= |m.data| && HashMap.Get(m, key).Some?
    ensures j < m.size && m.data[j] == HashMap.Entry(key, HashMap.Get(m, key).value)
  {
    HashMap.FindFrom(m, key, 0).value
  }

  /** Two different temporaries never share a register within a procedure. */
  lemma DistinctTempsDistinctRegisters(a: Alloc, t1: int, t2: int)
    requires Allocated(a) && t1 != t2
    requires HashMap.Get(a.regs, t1).Some? && HashMap.Get(a.regs, t2).Some?
    ensures HashMap.Get(a.regs, t1) != HashMap.Get(a.regs, t2)
  {
    var base := a.count - a.regs.size;
    var j1 := SlotOf(a.regs, t1);
    var j2 := SlotOf(a.regs, t2);
    RegisterNamesDistinct(base + j1 + 1, base + j2 + 1);
  }

  /** The register a new temporary gets is not held by any other. */
  lemma NextRegisterIsUnused(a: Alloc, t: int)
    requires Allocated(a) && a.count < REGISTER_CAPACITY
    requires HashMap.Get(a.regs, t).Some?
    ensures HashMap.Get(a.regs, t).value != RegisterName(a.count + 1)
  {
    var base := a.count - a.regs.size;
    var j := SlotOf(a.regs, t);
    RegisterNamesDistinct(base + j + 1, a.count + 1);
  }

  /** `sizeof(arguments_registers_list) / sizeof(char *)`: the list has an
      unused first slot and a0..a3, five entries in all. */
  const ARGUMENT_LIST_LENGTH: nat := 5

  /** `mips_get_next_available_argument_register`: "a" followed by the
      counter in decimal, then the counter goes up. The bound is the length
      of the list, so a fifth argument gets `$a4`. */
  function NextArgumentRegister(count: nat): (r: Result<(string, nat)>)
    ensures r.Err? <==> count >= ARGUMENT_LIST_LENGTH
    ensures r.Err? ==> r.failure.Aborts?
    ensures r.Ok? ==> r.value == (Numbered('a', count), count + 1)
  {
    if count >= ARGUMENT_LIST_LENGTH then Err(Aborts("no argument register left"))
    else
      assert IntToDecimal(count) == [DigitChar(count)];
      assert "a" + IntToDecimal(count) == ['a', DigitChar(count)];
      Ok(("a" + IntToDecimal(count), count + 1))
  }

  /** `variable_address_map`, `fp_offset_high` and `alignment_word_added`. The
      map stores the offset as `"%d($fp)"`; the constant suffix is left out. */
  datatype Addresses = Addresses(known: HashMap.Map, fpHigh: int, aligned: bool)

  /** The common part of `mips_get_address_of_variable`: a variable seen
      before keeps its offset. A new local (argument number -1) is recorded at
      `high`, which becomes the new `fp_offset_high`; a new argument lives in
      the slot the prologue saved its register in. The offset is a C `int`
      printed with "%d". */
  function RecordAddress(s: Addresses, id: int, high: int, arg: int): (r: Result<(Addresses, int)>)
    requires HashMap.Valid(s.known)
    ensures Ir.ConstValue(s.known, id).Some? ==> r == Ok((s, Ir.ConstValue(s.known, id).value))
    ensures Ir.ConstValue(s.known, id).None? ==> (r.Err? <==> s.known.size == HashMap.MAX_SIZE)
    ensures r.Err? ==> r.failure.Aborts?
    ensures r.Ok? ==> HashMap.Valid(r.value.0.known) && r.value.0.aligned == s.aligned
    ensures r.Ok? ==> Ir.ConstValue(r.value.0.known, id) == Some(r.value.1)
    ensures r.Ok? ==> forall k :: k != id ==> Ir.ConstValue(r.value.0.known, k) == Ir.ConstValue(s.known, k)
    ensures r.Ok? && Ir.ConstValue(s.known, id).None? && arg == -1 ==>
              r.value.0.fpHigh == high && r.value.1 == Wrap32(high)
    ensures r.Ok? && Ir.ConstValue(s.known, id).None? && arg != -1 ==>
              r.value.0.fpHigh == s.fpHigh && r.value.1 == Wrap32(arg * 4 + (if s.aligned then 4 else 0))
  {
    match Ir.ConstValue(s.known, id)
    case Some(offset) => Ok((s, offset))
    case None =>
      var high := if arg == -1 then high else s.fpHigh;
      var offset := if arg == -1 then high else arg * 4 + (if s.aligned then 4 else 0);
      match Ir.SetConst(s.known, id, offset)
      case Err(f) => Err(f)
      case Ok(m) => Ok((Addresses(m, high, s.aligned), Wrap32(offset)))
  }

  /** `mips_get_address_of_variable` as written: a new local goes where
      `mips_calculate_offset` moves `fp_offset_high`, the as-written rounding
      `RoundVariableAddress`. */
  function AddressOfVariable(s: Addresses, id: int, size: int, arg: int): (r: Result<(Addresses, int)>)
    requires HashMap.Valid(s.known)
    ensures Ir.ConstValue(s.known, id).Some? ==> r == Ok((s, Ir.ConstValue(s.known, id).value))
    ensures Ir.ConstValue(s.known, id).None? ==> (r.Err? <==> s.known.size == HashMap.MAX_SIZE)
    ensures r.Err? ==> r.failure.Aborts?
    ensures r.Ok? ==> HashMap.Valid(r.value.0.known) && r.value.0.aligned == s.aligned
    ensures r.Ok? ==> Ir.ConstValue(r.value.0.known, id) == Some(r.value.1)
    ensures r.Ok? ==> forall k :: k != id ==> Ir.ConstValue(r.value.0.known, k) == Ir.ConstValue(s.known, k)
    ensures r.Ok? && Ir.ConstValue(s.known, id).None? && arg == -1 ==>
              r.value.0.fpHigh == RoundVariableAddress(s.fpHigh, size) && r.value.1 == Wrap32(r.value.0.fpHigh)
    ensures r.Ok? && Ir.ConstValue(s.known, id).None? && arg != -1 ==>
              r.value.0.fpHigh == s.fpHigh && r.value.1 == Wrap32(arg * 4 + (if s.aligned then 4 else 0))
  {
    RecordAddress(s, id, RoundVariableAddress(s.fpHigh, size), arg)
  }

  /** The corrected `mips_get_address_of_variable`: a new local goes to the
      aligned slot `PlaceVariable` gives, wholly below every earlier one. */
  function PlacedAddressOfVariable(s: Addresses, id: int, size: int, arg: int): (r: Result<(Addresses, int)>)
    requires HashMap.Valid(s.known)
    ensures Ir.ConstValue(s.known, id).Some? ==> r == Ok((s, Ir.ConstValue(s.known, id).value))
    ensures Ir.ConstValue(s.known, id).None? ==> (r.Err? <==> s.known.size == HashMap.MAX_SIZE)
    ensures r.Err? ==> r.failure.Aborts?
    ensures r.Ok? ==> HashMap.Valid(r.value.0.known) && r.value.0.aligned == s.aligned
    ensures r.Ok? ==> Ir.ConstValue(r.value.0.known, id) == Some(r.value.1)
    ensures r.Ok? ==> forall k :: k != id ==> Ir.ConstValue(r.value.0.known, k) == Ir.ConstValue(s.known, k)
    ensures r.Ok? && Ir.ConstValue(s.known, id).None? && arg == -1 ==>
              r.value.0.fpHigh == PlaceVariable(s.fpHigh, size) && r.value.1 == Wrap32(r.value.0.fpHigh)
    ensures r.Ok? && Ir.ConstValue(s.known, id).None? && arg != -1 ==>
              r.value.0.fpHigh == s.fpHigh && r.value.1 == Wrap32(arg * 4 + (if s.aligned then 4 else 0))
  {
    RecordAddress(s, id, PlaceVariable(s.fpHigh, size), arg)
  }

  /** The addresses of a new procedure whose 104-byte frame has no padding
      word. */
  function FreshAddresses(): (s: Addresses)
    ensures HashMap.Valid(s.known) && s.known.size == 0 && s.fpHigh == 104
  {
    Addresses(HashMap.Empty(), 104, false)
  }

  /** In the code generator itself, a `short` local (id 1) then an `int`
      local (id 2) of a 104-byte frame get "102($fp)" and "100($fp)", and the
      int's bytes cover the short's. */
  lemma AddressesOverlapAsWritten()
    ensures var s := FreshAddresses();
            var r1 := AddressOfVariable(s, 1, 2, -1);
            r1.Ok? && r1.value.1 == 102 &&
            var r2 := AddressOfVariable(r1.value.0, 2, 4, -1);
            r2.Ok? && r2.value.1 == 100 && Overlap(r2.value.1, 4, r1.value.1, 2)
  {
    var s := FreshAddresses();
    assert Ir.ConstValue(s.known, 1).None?;
    var r1 := AddressOfVariable(s, 1, 2, -1);
    assert r1.Ok? && r1.value.1 == 102 && r1.value.0.fpHigh == 102;
    assert Ir.ConstValue(r1.value.0.known, 2).None?;
  }

  /** The corrected placement gives the same two locals "102($fp)" and
      "96($fp)", which share no byte. */
  lemma PlacedAddressesDisjoint()
    ensures var s := FreshAddresses();
            var r1 := PlacedAddressOfVariable(s, 1, 2, -1);
            r1.Ok? && r1.value.1 == 102 &&
            var r2 := PlacedAddressOfVariable(r1.value.0, 2, 4, -1);
            r2.Ok? && r2.value.1 == 96 && !Overlap(r2.value.1, 4, r1.value.1, 2)
  {
    var s := FreshAddresses();
    assert Ir.ConstValue(s.known, 1).None?;
    var r1 := PlacedAddressOfVariable(s, 1, 2, -1);
    assert r1.Ok? && r1.value.1 == 102 && r1.value.0.fpHigh == 102;
    assert Ir.ConstValue(r1.value.0.known, 2).None?;
  }

  /** The first four arguments are found where the prologue saved a0..a3. */
  lemma ArgumentsLiveInTheirSaveSlots(s: Addresses, f: Frame, id: int, size: int, arg: int)
    requires HashMap.Valid(s.known) && Ir.ConstValue(s.known, id).None?
    requires s.known.size < HashMap.MAX_SIZE
    requires 0 <= arg < 4 && s.aligned == f.alignmentWordAdded
    ensures AddressOfVariable(s, id, size, arg).Ok?
    ensures AddressOfVariable(s, id, size, arg).value.1 == Pad(f) + 4 * arg
  {
  }
}

=== FILE: mips_select.dfy ===
/** Instruction selection in mips.c: which printer an IR kind is handed to,
    the opcode tables those printers index by `kind - offset`, the immediate
    forms tried at optimisation level 1, and the system-call service codes. */
module MipsSelect {
  import opened Wrappers
  import opened Integers
  import opened Strings
  import opened Types
  import opened IrOps
  import opened MipsAsm
  import opened MipsRegisters
  import HashMap
  import Ir
  import opened MipsFrame

  /** `mips_is_optimization_low` / `_mid`: level 1 and above, level 2 and above. */
  predicate IsLow(opt: int) { opt >= 1 }
  predicate IsMid(opt: int) { opt >= 2 }

  // ---------------------------------------------------------------------------
  // Dispatch
  // ---------------------------------------------------------------------------

  /** The printers `mips_print_instruction` chooses between. */
  datatype Handler =
    | PrintFunction | PrintFunctionReset | PrintParameter | PrintCall | PrintSysCall
    | PrintLoadAddress | PrintLoadImmediate | PrintStore | PrintArithmetic | PrintLoad
    | PrintReturn | PrintLabel | PrintGoto | PrintResult | PrintComparison | PrintBranch
    | PrintUnary | PrintCast | NoHandler

  /** The switch of `mips_print_instruction`; phi and no-operation fall to the
      default and print nothing. */
  function HandlerOf(k: Opcode): (h: Handler)
    ensures h == PrintArithmetic <==> 9 <= Index(k) <= 21
    ensures h == PrintComparison <==> 22 <= Index(k) <= 34
    ensures h == PrintUnary <==> 35 <= Index(k) <= 37
  {
    match k
    case ProcBegin => PrintFunction
    case ProcEnd => PrintFunctionReset
    case Parameter => PrintParameter
    case Call => PrintCall
    case SysCall => PrintSysCall
    case AddressOf => PrintLoadAddress
    case ConstInt => PrintLoadImmediate
    case StoreWord | StoreHalfWord | StoreByte => PrintStore
    case MultSigned | MultUnsigned | DivSigned | DivUnsigned | AddSigned | AddUnsigned
      | SubSigned | SubUnsigned | RemSigned | RemUnsigned
      | LeftShiftWord | RightShiftSigned | RightShiftUnsigned => PrintArithmetic
    case LoadWord | LoadHalfWord | LoadSignedHalfWord | LoadByte | LoadSignedByte => PrintLoad
    case ReturnWord | ReturnHalfWord | ReturnByte => PrintReturn
    case Label => PrintLabel
    case Goto => PrintGoto
    case ResultWord | ResultHalfWord | ResultByte => PrintResult
    case LtSigned | LtUnsigned | LeSigned | LeUnsigned | GeSigned | GeUnsigned
      | GtSigned | GtUnsigned | EqWord | NeWord
      | BitAndWord | BitXorWord | BitOrWord => PrintComparison
    case GotoIfFalse | GotoIfTrue => PrintBranch
    case UnaryMinus | UnaryLogicalNegation | UnaryBitwiseNegation => PrintUnary
    case CastWordToHalfWord | CastWordToByte | CastHalfWordToByte
      | CastUnsignedHalfWordToWord | CastSignedHalfWordToWord
      | CastUnsignedByteToHalfWord | CastSignedByteToHalfWord
      | CastUnsignedByteToWord | CastSignedByteToWord => PrintCast
    case Phi | NoOperation => NoHandler
  }

  /** The remaining kinds: casts are the contiguous block 39..47, the two
      conditional gotos go to the branch printer, and phi and no-operation are
      the only kinds that print nothing. */
  lemma OtherHandlers(k: Opcode)
    ensures HandlerOf(k) == PrintCast <==> 39 <= Index(k) <= 47
    ensures HandlerOf(k) == PrintBranch <==> k in {GotoIfFalse, GotoIfTrue}
    ensures HandlerOf(k) == NoHandler <==> k in {Phi, NoOperation}
  {
  }

  // ---------------------------------------------------------------------------
  // Opcode tables
  // ---------------------------------------------------------------------------

  /** `mips_print_arithmetic`'s table, indexed by `kind - 9`. */
  const ARITHMETIC_OPCODES: seq<string> :=
    ["mul", "mulou", "div", "divu", "addu", "addu", "sub", "subu", "rem", "remu", "sll", "sra", "srl"]

  /** `mips_print_comparison`'s table, indexed by `kind - 22`. */
  const COMPARISON_OPCODES: seq<string> :=
    ["slt", "sltu", "sle", "sleu", "sge", "sgeu", "sgt", "sgtu", "seq", "sne", "and", "xor", "or"]

  /** `mips_print_unary_operaions`' table, indexed by `kind - 35`; logical
      negation is printed separately. */
  const UNARY_OPCODES: seq<string> := ["neg", "", "not"]

  /** The MIPS mnemonic that computes an arithmetic or comparison kind,
      written kind by kind. */
  function Mnemonic(k: Opcode): (op: string)
    requires HandlerOf(k) in {PrintArithmetic, PrintComparison}
  {
    match k
    case MultSigned => "mul"
    case MultUnsigned => "mulou"
    case DivSigned => "div"
    case DivUnsigned => "divu"
    case AddSigned | AddUnsigned => "addu"
    case SubSigned => "sub"
    case SubUnsigned => "subu"
    case RemSigned => "rem"
    case RemUnsigned => "remu"
    case LeftShiftWord => "sll"
    case RightShiftSigned => "sra"
    case RightShiftUnsigned => "srl"
    case LtSigned => "slt"
    case LtUnsigned => "sltu"
    case LeSigned => "sle"
    case LeUnsigned => "sleu"
    case GeSigned => "sge"
    case GeUnsigned => "sgeu"
    case GtSigned => "sgt"
    case GtUnsigned => "sgtu"
    case EqWord => "seq"
    case NeWord => "sne"
    case BitAndWord => "and"
    case BitXorWord => "xor"
    case BitOrWord => "or"
  }

  /** The register form `op $dst, $r1, $r2` of an arithmetic or comparison
      kind: the printers look the mnemonic up at `kind - 9` or `kind - 22`.
      Every kind they are handed lands inside its table, on its own mnemonic. */
  function RegisterForm(k: Opcode, dst: string, r1: string, r2: string): (i: Asm)
    requires HandlerOf(k) in {PrintArithmetic, PrintComparison}
    ensures i == Op(Mnemonic(k), [Reg(dst), Reg(r1), Reg(r2)])
  {
    var op := if HandlerOf(k) == PrintArithmetic then ARITHMETIC_OPCODES[Index(k) - 9]
              else COMPARISON_OPCODES[Index(k) - 22];
    Op(op, [Reg(dst), Reg(r1), Reg(r2)])
  }

  /** `mips_print_unary_operaions`: logical negation is `sleu $dst, $r, $0`,
      the other two kinds come from the table at `kind - 35`. */
  function UnaryForm(k: Opcode, dst: string, r: string): (i: Asm)
    requires HandlerOf(k) == PrintUnary
    ensures k == UnaryLogicalNegation ==> i == Op("sleu", [Reg(dst), Reg(r), Reg("0")])
    ensures k == UnaryMinus ==> i == Op("neg", [Reg(dst), Reg(r)])
    ensures k == UnaryBitwiseNegation ==> i == Op("not", [Reg(dst), Reg(r)])
  {
    if k == UnaryLogicalNegation then Op("sleu", [Reg(dst), Reg(r), Reg("0")])
    else Op(UNARY_OPCODES[Index(k) - 35], [Reg(dst), Reg(r)])
  }

  // ---------------------------------------------------------------------------
  // What the selected instructions compute
  // ---------------------------------------------------------------------------

  function Xor32(a: int, b: int): (r: int)
    ensures IsInt32(r)
  {
    Wrap32(((ToUInt32(a) as bv32) ^ (ToUInt32(b) as bv32)) as int)
  }

  function Or32(a: int, b: int): (r: int)
    ensures IsInt32(r)
  {
    Wrap32(((ToUInt32(a) as bv32) | (ToUInt32(b) as bv32)) as int)
  }

  function Bit(b: bool): int { if b then 1 else 0 }

  /** The value an immediate-form instruction leaves in its destination, the
      immediate taken as the 32-bit value the assembler materialises. */
  function ImmediateValue(op: string, x: int, imm: int): (r: Option<int>)
    ensures r.Some? <==> op in {"addiu", "slti", "sltiu", "xori", "ori"}
  {
    if op == "addiu" then Some(Wrap32(x + imm))
    else if op == "slti" then Some(Bit(x < imm))
    else if op == "sltiu" then Some(Bit(ToUInt32(x) < ToUInt32(imm)))
    else if op == "xori" then Some(Xor32(x, imm))
    else if op == "ori" then Some(Or32(x, imm))
    else None
  }

  /** The destination value of `op $d, $s, imm` when `reg` gives the registers'
      contents. */
  function Evaluate(i: Asm, reg: string -> int): Option<int> {
    match i
    case Op(op, args) =>
      if |args| == 3 && args[0].Reg? && args[1].Reg? && args[2].Imm?
      then ImmediateValue(op, reg(args[1].name), args[2].value)
      else None
    case LabelDef(_) => None
  }

  /** The kinds `mips_convert_to_immediate_instructions` handles. */
  predicate HasImmediateForm(k: Opcode) {
    k in {AddSigned, LtSigned, LtUnsigned, BitXorWord, BitOrWord}
  }

  /** What the IR instruction computes from its operand values. */
  function IrValue(k: Opcode, a: int, b: int): (r: int)
    requires HasImmediateForm(k)
    ensures IsInt32(r)
  {
    match k
    case AddSigned => Wrap32(a + b)
    case LtSigned => Bit(a < b)
    case LtUnsigned => Bit(ToUInt32(a) < ToUInt32(b))
    case BitXorWord => Xor32(a, b)
    case BitOrWord => Or32(a, b)
  }

  // ---------------------------------------------------------------------------
  // Immediate forms
  // ---------------------------------------------------------------------------

  /** Slot `i` of the 35-entry table of `mips_convert_to_immediate_instructions`,
      indexed by kind: blank except at the five kinds that have an immediate
      form. */
  function ImmediateSlot(i: int): string {
    if i == 13 then "addiu"
    else if i == 22 then "slti"
    else if i == 23 then "sltiu"
    else if i == 33 then "xori"
    else if i == 34 then "ori"
    else ""
  }

  /** The immediate mnemonic of a kind that has one. */
  function ImmediateMnemonic(k: Opcode): (op: string)
    requires HasImmediateForm(k)
    ensures Index(k) < 35 && ImmediateSlot(Index(k)) == op
  {
    match k
    case AddSigned => "addiu"
    case LtSigned => "slti"
    case LtUnsigned => "sltiu"
    case BitXorWord => "xori"
    case BitOrWord => "ori"
  }

  /** `mips_convert_to_immediate_instructions` as written. `c1` and `c2` are
      the constant-map entries of the two operand temporaries, `r1` and `r2`
      their registers, `dst` the register handed to the result. With both
      operands constant it prints the sum of the operands' `number` fields,
      which for temporaries is not a defined value. With one constant it
      always puts the other operand's register first and the constant last. */
  function ImmediateFormAsWritten(k: Opcode, c1: Option<string>, c2: Option<string>,
                                  dst: string, r1: string, r2: string): (r: Result<Option<Asm>>)
    ensures r.Err? <==> HasImmediateForm(k) && c1.Some? && c2.Some?
    ensures r.Err? ==> r.failure.Undefined?
    ensures r.Ok? && r.value.Some? <==> HasImmediateForm(k) && (c1.Some? != c2.Some?)
    ensures r.Ok? && r.value.Some? && c1.Some? ==>
              r.value.value == Op(ImmediateMnemonic(k), [Reg(dst), Reg(r2), Imm(Atoi(c1.value))])
    ensures r.Ok? && r.value.Some? && c2.Some? ==>
              r.value.value == Op(ImmediateMnemonic(k), [Reg(dst), Reg(r1), Imm(Atoi(c2.value))])
  {
    if !HasImmediateForm(k) then Ok(None)
    else
      var op := ImmediateSlot(Index(k));
      if c1.Some? && c2.Some? then Err(Undefined("li of the number fields of two temporaries"))
      else if c1.Some? then Ok(Some(Op(op, [Reg(dst), Reg(r2), Imm(Atoi(c1.value))])))
      else if c2.Some? then Ok(Some(Op(op, [Reg(dst), Reg(r1), Imm(Atoi(c2.value))])))
      else Ok(None)
  }

  /** The registers hold the operand values and the constant map agrees with
      them: the state the back end reads an instruction in. */
  predicate Consistent(reg: string -> int, c1: Option<string>, c2: Option<string>, r1: string, r2: string, a: int, b: int) {
    && reg(r1) == a && reg(r2) == b
    && (c1.Some? ==> Atoi(c1.value) == a)
    && (c2.Some? ==> Atoi(c2.value) == b)
  }

  /** With the constant on the right, and for the commutative kinds with the
      constant on either side, the instruction written computes the IR value. */
  lemma ImmediateFormAsWrittenAgrees(k: Opcode, c1: Option<string>, c2: Option<string>,
                                     dst: string, r1: string, r2: string, reg: string -> int, a: int, b: int)
    requires HasImmediateForm(k) && Consistent(reg, c1, c2, r1, r2, a, b)
    requires c2.Some? || k !in {LtSigned, LtUnsigned}
    requires ImmediateFormAsWritten(k, c1, c2, dst, r1, r2).Ok?
    requires ImmediateFormAsWritten(k, c1, c2, dst, r1, r2).value.Some?
    ensures Evaluate(ImmediateFormAsWritten(k, c1, c2, dst, r1, r2).value.value, reg) == Some(IrValue(k, a, b))
  {
    if c1.Some? {
      BitwiseCommutes(a, b);
    }
  }

  lemma BitwiseCommutes(a: int, b: int)
    ensures Xor32(b, a) == Xor32(a, b) && Or32(b, a) == Or32(a, b)
  {
  }

  /** `1 < x` with `x` in a register becomes `slti $d, $x, 1`, which computes
      `x < 1`: for `x == 2` the IR value is 1 and the instruction gives 0. */
  lemma SltiSwapsOperands()
    ensures var reg := (r: string) => if r == "s0" then 1 else 2;
            var i := ImmediateFormAsWritten(LtSigned, Some("1"), None, "s2", "s0", "s1");
            && Consistent(reg, Some("1"), None, "s0", "s1", 1, 2)
            && i.Ok? && i.value.Some?
            && Evaluate(i.value.value, reg) == Some(0)
            && IrValue(LtSigned, 1, 2) == 1
  {
    assert Atoi("1") == 1 by { assert TakeDigits("1") == "1"; }
  }

  /** The immediate forms with the operand order fixed: a constant on the left
      of a less-than keeps the register form, and two constants keep it too
      instead of printing an undefined sum. */
  function ImmediateForm(k: Opcode, c1: Option<string>, c2: Option<string>,
                         dst: string, r1: string, r2: string): (r: Option<Asm>)
    ensures r.Some? <==> HasImmediateForm(k) && (c1.Some? != c2.Some?) && (c1.Some? ==> k !in {LtSigned, LtUnsigned})
    ensures r.Some? ==> r == ImmediateFormAsWritten(k, c1, c2, dst, r1, r2).value
  {
    if !HasImmediateForm(k) || (c1.Some? && c2.Some?) then None
    else if c1.Some? && k in {LtSigned, LtUnsigned} then None
    else ImmediateFormAsWritten(k, c1, c2, dst, r1, r2).value
  }

  /** Whenever the corrected selection picks an immediate form, the instruction
      computes what the IR instruction does. */
  lemma ImmediateFormAgrees(k: Opcode, c1: Option<string>, c2: Option<string>,
                            dst: string, r1: string, r2: string, reg: string -> int, a: int, b: int)
    requires Consistent(reg, c1, c2, r1, r2, a, b)
    requires ImmediateForm(k, c1, c2, dst, r1, r2).Some?
    ensures HasImmediateForm(k)
    ensures Evaluate(ImmediateForm(k, c1, c2, dst, r1, r2).value, reg) == Some(IrValue(k, a, b))
  {
    ImmediateFormAsWrittenAgrees(k, c1, c2, dst, r1, r2, reg, a, b);
  }

  // ---------------------------------------------------------------------------
  // System calls and the data section
  // ---------------------------------------------------------------------------

  /** The SPIM services the runtime functions stand for. */
  datatype Service = PrintInt | PrintString | ReadInt | ReadString

  /** The service numbers of the SPIM system-call table. */
  function ServiceNumber(s: Service): int {
    match s
    case PrintInt => 1
    case PrintString => 4
    case ReadInt => 5
    case ReadString => 8
  }

  /** The part of a runtime function's name that names its service. */
  function ServiceName(s: Service): string {
    match s
    case PrintInt => "print_int"
    case PrintString => "print_string"
    case ReadInt => "read_int"
    case ReadString => "read_string"
  }

  /** `mips_get_syscall_code`: the first service name found in the function
      name, searched in the order print_string, print_int, read_int,
      read_string; a name mentioning none of them aborts. */
  function SyscallCode(name: string): (r: Result<int>)
    ensures r.Err? <==> forall s: Service :: !Contains(name, ServiceName(s))
    ensures r.Err? ==> r.failure.Aborts?
    ensures r.Ok? ==> exists s: Service :: Contains(name, ServiceName(s)) && r.value == ServiceNumber(s)
  {
    if Contains(name, ServiceName(PrintString)) then Ok(ServiceNumber(PrintString))
    else if Contains(name, ServiceName(PrintInt)) then Ok(ServiceNumber(PrintInt))
    else if Contains(name, ServiceName(ReadInt)) then Ok(ServiceNumber(ReadInt))
    else if Contains(name, ServiceName(ReadString)) then Ok(ServiceNumber(ReadString))
    else
      NoServiceNamed(name);
      Err(Aborts("unknown system call"))
  }

  lemma NoServiceNamed(name: string)
    requires !Contains(name, ServiceName(PrintString)) && !Contains(name, ServiceName(PrintInt))
    requires !Contains(name, ServiceName(ReadInt)) && !Contains(name, ServiceName(ReadString))
    ensures forall s: Service :: !Contains(name, ServiceName(s))
  {
    forall s: Service ensures !Contains(name, ServiceName(s)) {
      match s
      case PrintInt =>
      case PrintString =>
      case ReadInt =>
      case ReadString =>
    }
  }

  /** The bytes one item of a MIPS data directive occupies. */
  function DirectiveWidth(d: string): nat {
    match d
    case "byte" => 1
    case "half" => 2
    case "word" => 4
    case _ => 0
  }

  /** `mips_get_static_word_type`: the directive a global of a basic type is
      declared with, one whose items are exactly as wide as the type; any
      other type aborts. */
  function StaticWordType(b: BasicType): (r: Result<string>)
    ensures r.Err? <==> b !in {Char, Short, Int, Long}
    ensures r.Ok? ==> r.value in {"byte", "half", "word"}
    ensures r.Ok? ==> DirectiveWidth(r.value) == BasicSize(Basic(false, b))
    ensures r == Ok("byte") <==> b == Char
    ensures r == Ok("half") <==> b == Short
    ensures r == Ok("word") <==> b in {Int, Long}
  {
    match b
    case Char => Ok("byte")
    case Short => Ok("half")
    case Int | Long => Ok("word")
    case _ => Err(Aborts("no static word type"))
  }

  // ---------------------------------------------------------------------------
  // Parameters
  // ---------------------------------------------------------------------------

  /** `mips_print_parameter`: the next argument register is loaded through
      the value's register when the previous instruction was a store, and
      copied from it otherwise. */
  function ParameterForm(prev: Opcode, argCount: nat, r: string): (res: Result<(Asm, nat)>)
    ensures res.Err? <==> argCount >= ARGUMENT_LIST_LENGTH
    ensures res.Ok? ==> res.value.1 == argCount + 1
    ensures res.Ok? && prev in {StoreWord, StoreHalfWord, StoreByte} ==>
              res.value.0 == Op("lw", [Reg(Numbered('a', argCount)), At(0, r)])
    ensures res.Ok? && prev !in {StoreWord, StoreHalfWord, StoreByte} ==>
              res.value.0 == Op("move", [Reg(Numbered('a', argCount)), Reg(r)])
  {
    match NextArgumentRegister(argCount)
    case Err(f) => Err(f)
    case Ok((a, next)) =>
      if prev in {StoreWord, StoreHalfWord, StoreByte} then Ok((Op("lw", [Reg(a), At(0, r)]), next))
      else Ok((Op("move", [Reg(a), Reg(r)]), next))
  }

  /** Parameters and arguments meet: the k-th parameter of a call, for each
      of the four a-registers, is written into `$a<k>`, a register no earlier
      parameter wrote, and the callee finds its k-th argument at the slot
      its prologue saves `$a<k>` in. */
  lemma ParameterMeetsArgument(prev: Opcode, k: nat, r: string, s: Addresses, f: Frame, id: int, size: int)
    requires k < 4
    requires HashMap.Valid(s.known) && Ir.ConstValue(s.known, id).None? && s.known.size < HashMap.MAX_SIZE
    requires s.aligned == f.alignmentWordAdded
    ensures ParameterForm(prev, k, r).Ok? && ParameterForm(prev, k, r).value.1 == k + 1
    ensures ParameterForm(prev, k, r).value.0.Op? && ParameterForm(prev, k, r).value.0.args[0] == Reg(Numbered('a', k))
    ensures forall j :: 0 <= j < k ==> Numbered('a', j) != Numbered('a', k)
    ensures AddressOfVariable(s, id, size, k).Ok? && AddressOfVariable(s, id, size, k).value.1 == Pad(f) + 4 * k
  {
    forall j | 0 <= j < k
      ensures Numbered('a', j) != Numbered('a', k)
    {
      assert Numbered('a', j)[1] != Numbered('a', k)[1];
    }
    ArgumentsLiveInTheirSaveSlots(s, f, id, size, k);
  }
}

=== FILE: operators.dfy ===
/** The operator enumerations of node.h, shared by the type rules, the
    constant evaluator and the IR generator. */
module Operators {

  /** `enum node_unary_operation`. */
  datatype UnaryOp =
    | Hyphen | Plus | LogicalNegation | BitwiseNegation | Address | Pointer
    | PreIncrement | PreDecrement | PostIncrement | PostDecrement

  /** `enum node_binary_operation`: the plain operators and then the compound assignments. */
  datatype BinaryOp =
    | Multiplication | Division | Addition | Mod | Subtraction | Assign
    | LogicalOr | LogicalAnd | BitwiseOr | BitwiseXor | BitwiseAnd
    | Equality | Inequality | LessThan | LessThanEq | GreaterThan | GreaterThanEq
    | LeftShift | RightShift
    | PlusEqual | MinusEqual | MultiplyEqual | DivideEqual | ModuloEqual
    | LeftShiftEqual | RightShiftEqual | BitwiseAndEqual | BitwiseXorEqual | BitwiseOrEqual

  /** `enum iterative_type`. */
  datatype IterativeKind = While | DoWhile | For

  /** `node_is_equality_operation`: the operators whose result is a truth value. */
  predicate IsEqualityOperation(op: BinaryOp) {
    op in {Equality, Inequality, LessThan, LessThanEq, GreaterThan, GreaterThanEq, LogicalAnd, LogicalOr}
  }

  predicate IsCompoundAssignment(op: BinaryOp) {
    op in {PlusEqual, MinusEqual, MultiplyEqual, DivideEqual, ModuloEqual,
           LeftShiftEqual, RightShiftEqual, BitwiseAndEqual, BitwiseXorEqual, BitwiseOrEqual}
  }
}

=== FILE: opt1.dfy ===
/** The first optimisation pass of optimization-1.c: one forward sweep over the
    instruction list that folds operations on known constants, unlinks
    additions and subtractions of 0, turns multiplications and unsigned
    divisions by constants into shifts, and links loads and stores to the
    address-of instruction that computes their address.

    Which temporaries hold constants is read from the constant map of the
    state; the instructions the pass inserts get temporaries and positions from
    the state's counters, as `ir_operand_temporary` and `ir_list_create` hand
    them out.
 */
module Opt1 {
  import opened Wrappers
  import opened Integers
  import opened IrOps
  import opened Ir
  import HashMap
  import Util

  /** What visiting one instruction leaves behind: the new state, and whether
      the visited instruction was unlinked, in which case the sweep goes on
      with the element that took its place. */
  datatype Visit = Visit(st: IrState, removed: bool)

  // ---------------------------------------------------------------------------
  // The kinds the pass acts on
  // ---------------------------------------------------------------------------

  predicate IsAddSub(k: Opcode) {
    k in {AddSigned, AddUnsigned, SubSigned, SubUnsigned}
  }

  predicate IsMult(k: Opcode) {
    k in {MultSigned, MultUnsigned}
  }

  predicate IsDiv(k: Opcode) {
    k in {DivSigned, DivUnsigned}
  }

  predicate IsRem(k: Opcode) {
    k in {RemSigned, RemUnsigned}
  }

  predicate IsComparison(k: Opcode) {
    k in {GtSigned, GtUnsigned, GeSigned, GeUnsigned, LtSigned, LtUnsigned, LeSigned, LeUnsigned}
  }

  predicate IsLoad(k: Opcode) {
    k in {LoadWord, LoadHalfWord, LoadSignedHalfWord, LoadByte, LoadSignedByte}
  }

  predicate IsStore(k: Opcode) {
    k in {StoreWord, StoreHalfWord, StoreByte}
  }

  /** The kinds whose two operands can be folded into one constant. */
  predicate IsFoldable(k: Opcode) {
    IsAddSub(k) || IsMult(k) || IsDiv(k) || IsRem(k) || IsComparison(k)
  }

  /** The kinds `ir_perform_optimizations` dispatches on. */
  predicate IsVisited(k: Opcode) {
    IsFoldable(k) || IsLoad(k) || IsStore(k)
  }

  /** The number of multiplications in the list: the pass only ever lowers it. */
  function Mults(p: Program): nat {
    multiset(Kinds(p))[MultSigned] + multiset(Kinds(p))[MultUnsigned]
  }

  function MultCount(k: Opcode): nat {
    if IsMult(k) then 1 else 0
  }

  lemma KindsOfUpdate(p: Program, i: nat, x: Instr)
    requires i < |p|
    ensures Kinds(p[i := x]) == Kinds(p)[i := x.kind]
  {
  }

  /** Changing one element's kind changes the count by at most that element. */
  lemma MultsOfUpdate(p: Program, i: nat, x: Instr)
    requires i < |p|
    ensures Mults(p[i := x]) == Mults(p) - MultCount(p[i].kind) + MultCount(x.kind)
  {
    KindsOfUpdate(p, i, x);
  }

  // ---------------------------------------------------------------------------
  // Constants and the instructions that define them
  // ---------------------------------------------------------------------------

  /** `atoi(ir_get_const_map_entry(operands[slot].data.temporary))`, or none
      when the map holds nothing for it. The map only ever receives the
      decimal text of a C `int`, so the value is taken as one. */
  function Constant(st: IrState, i: nat, slot: nat): (r: Option<int>)
    requires StateValid(st) && i < |st.prog| && slot < OPERAND_SLOTS
    ensures r.Some? <==> OperandConst(st.consts, st.prog[i].ops[slot]).Some?
    ensures r.Some? ==> IsInt32(r.value) && TemporaryView(st.prog[i].ops[slot]).Some?
    ensures r.Some? ==> r.value == Wrap32(OperandConst(st.consts, st.prog[i].ops[slot]).value)
  {
    match OperandConst(st.consts, st.prog[i].ops[slot])
    case None => None
    case Some(v) => Some(Wrap32(v))
  }

  /** What `ir_add_const_to_map` records is what `Constant` finds: an operand
      denoting the recorded temporary now has the stored value, and every
      other operand keeps the constant it had. */
  lemma ConstantAfterAddConst(st: IrState, t: int, v: int, i: nat, slot: nat)
    requires StateValid(st) && i < |st.prog| && slot < OPERAND_SLOTS
    requires st.consts.size < HashMap.MAX_SIZE
    ensures AddConst(st, t, v).Ok? && StateValid(AddConst(st, t, v).value)
    ensures TemporaryView(st.prog[i].ops[slot]) == Some(t) ==>
              Constant(AddConst(st, t, v).value, i, slot) == Some(Wrap32(v))
    ensures TemporaryView(st.prog[i].ops[slot]) != Some(t) ==>
              Constant(AddConst(st, t, v).value, i, slot) == Constant(st, i, slot)
  {
    OperandConstReadsBack(st.consts, t, v, st.prog[i].ops[slot]);
  }

  /** `ir_update_const_value`: a constInt gets the new value as its operand 1
      and in the constant map under its own temporary. Anything but a constInt
      fails the assert. */
  function UpdateConstValue(st: IrState, j: nat, v: int): (r: Result<IrState>)
    requires StateValid(st) && j < |st.prog|
    ensures r.Err? <==> st.prog[j].kind != ConstInt || TemporaryView(st.prog[j].ops[0]).None?
                        || st.consts.size == HashMap.MAX_SIZE
    ensures r.Ok? ==> StateValid(r.value)
    ensures r.Ok? ==> r.value == st.(prog := r.value.prog, consts := r.value.consts)
    ensures r.Ok? ==> r.value.prog == st.prog[j := SetOperand(st.prog[j], 1, Num(Wrap32(v)))]
    ensures r.Ok? ==> ConstValue(r.value.consts, TemporaryView(st.prog[j].ops[0]).value) == Some(Wrap32(v))
    ensures r.Ok? ==> forall t :: t != TemporaryView(st.prog[j].ops[0]).value ==>
                        ConstValue(r.value.consts, t) == ConstValue(st.consts, t)
  {
    if st.prog[j].kind != ConstInt then Err(Aborts("ir_update_const_value: not a constInt"))
    else
      match TemporaryView(st.prog[j].ops[0])
      case None => Err(Undefined("ir_update_const_value: operand 0 was never written"))
      case Some(t) =>
        var m :- SetConst(st.consts, t, v);
        var x := SetOperand(st.prog[j], 1, Num(Wrap32(v)));
        ReplaceKeepsValid(st, j, x, m);
        Ok(st.(prog := st.prog[j := x], consts := m))
  }

  /** Replacing one instruction by another with the same position, and the
      constant map by a well-formed one, keeps the state valid. */
  lemma ReplaceKeepsValid(st: IrState, j: nat, x: Instr, m: HashMap.Map)
    requires StateValid(st) && j < |st.prog| && WellFormed(x) && x.pos == st.prog[j].pos && HashMap.Valid(m)
    ensures StateValid(st.(prog := st.prog[j := x], consts := m))
  {
    var q := st.prog[j := x];
    assert forall k :: 0 <= k < |q| ==> q[k].pos == st.prog[k].pos;
  }

  /** `ir_mark_constant_as_obselete`: the instruction that defines temporary `t`
      must be a constInt, and it is marked unused. With no defining
      instruction the code reads through NULL. */
  function MarkObsolete(st: IrState, t: int): (r: Result<IrState>)
    requires StateValid(st)
    ensures r.Err? <==> ByTemporary(st.prog, t).None? || st.prog[ByTemporary(st.prog, t).value].kind != ConstInt
    ensures r.Ok? ==> StateValid(r.value)
    ensures r.Ok? ==> var j := ByTemporary(st.prog, t).value;
                      r.value == st.(prog := st.prog[j := st.prog[j].(isUsed := false)])
  {
    match ByTemporary(st.prog, t)
    case None => Err(Undefined("ir_mark_constant_as_obselete: no instruction defines the temporary"))
    case Some(j) =>
      if st.prog[j].kind != ConstInt then Err(Aborts("ir_mark_constant_as_obselete: not a constInt"))
      else
        ReplaceKeepsValid(st, j, st.prog[j].(isUsed := false), st.consts);
        Ok(st.(prog := st.prog[j := st.prog[j].(isUsed := false)]))
  }

  /** Give the instruction at `i` a new kind. */
  function ChangeKind(st: IrState, i: nat, k: Opcode): (r: IrState)
    requires StateValid(st) && i < |st.prog|
    ensures StateValid(r) && r == st.(prog := r.prog)
    ensures r.prog == st.prog[i := st.prog[i].(kind := k)]
  {
    ReplaceKeepsValid(st, i, st.prog[i].(kind := k), st.consts);
    st.(prog := st.prog[i := st.prog[i].(kind := k)])
  }

  // ---------------------------------------------------------------------------
  // Folding
  // ---------------------------------------------------------------------------

  /** The value a folded instruction of kind `k` gets from the constants `c1` and
      `c2`, computed on C `int`s: sums, differences and products wrap around,
      `/` and `%` truncate, and a comparison is 1 or 0. The unsigned kinds
      compute exactly as the signed ones, comparisons included. A division by
      zero, or one whose quotient does not fit (INT_MIN / -1), is undefined. */
  function FoldValue(k: Opcode, c1: int, c2: int): (r: Result<int>)
    requires IsFoldable(k) && IsInt32(c1) && IsInt32(c2)
    ensures r.Ok? ==> IsInt32(r.value)
    ensures r.Err? <==> (IsDiv(k) || IsRem(k)) && (c2 == 0 || !IsInt32(CDiv(c1, c2)))
    ensures r.Err? ==> r.failure.Undefined?
    ensures k in {AddSigned, AddUnsigned} ==> r == Ok(Wrap32(c1 + c2))
    ensures k in {SubSigned, SubUnsigned} ==> r == Ok(Wrap32(c1 - c2))
    ensures IsMult(k) ==> r == Ok(Wrap32(c1 * c2))
    ensures IsDiv(k) && r.Ok? ==> r.value * c2 + CRem(c1, c2) == c1 && Abs(CRem(c1, c2)) < Abs(c2)
    ensures IsRem(k) && r.Ok? ==> CDiv(c1, c2) * c2 + r.value == c1
    ensures IsComparison(k) ==> r.Ok? && r.value in {0, 1}
    ensures k in {GtSigned, GtUnsigned} ==> (r == Ok(1) <==> c1 > c2)
    ensures k in {GeSigned, GeUnsigned} ==> (r == Ok(1) <==> c1 >= c2)
    ensures k in {LtSigned, LtUnsigned} ==> (r == Ok(1) <==> c1 < c2)
    ensures k in {LeSigned, LeUnsigned} ==> (r == Ok(1) <==> c1 <= c2)
  {
    if k in {AddSigned, AddUnsigned} then Ok(Wrap32(c1 + c2))
    else if k in {SubSigned, SubUnsigned} then Ok(Wrap32(c1 - c2))
    else if IsMult(k) then Ok(Wrap32(c1 * c2))
    else if IsDiv(k) || IsRem(k) then
      if c2 == 0 then Err(Undefined("constant division by zero"))
      else if !IsInt32(CDiv(c1, c2)) then Err(Undefined("constant division overflows int"))
      else if IsDiv(k) then Ok(CDiv(c1, c2))
      else Ok(CRem(c1, c2))
    else if k in {GtSigned, GtUnsigned} then Ok(if c1 > c2 then 1 else 0)
    else if k in {GeSigned, GeUnsigned} then Ok(if c1 >= c2 then 1 else 0)
    else if k in {LtSigned, LtUnsigned} then Ok(if c1 < c2 then 1 else 0)
    else Ok(if c1 <= c2 then 1 else 0)
  }

  /** Folding does not look at signedness: an unsigned comparison of the
      constants -1 and 0 folds as the signed one does. */
  lemma FoldIgnoresSignedness(c1: int, c2: int)
    requires IsInt32(c1) && IsInt32(c2)
    ensures FoldValue(GtUnsigned, c1, c2) == FoldValue(GtSigned, c1, c2)
    ensures FoldValue(GeUnsigned, c1, c2) == FoldValue(GeSigned, c1, c2)
    ensures FoldValue(LtUnsigned, c1, c2) == FoldValue(LtSigned, c1, c2)
    ensures FoldValue(LeUnsigned, c1, c2) == FoldValue(LeSigned, c1, c2)
    ensures FoldValue(DivUnsigned, c1, c2) == FoldValue(DivSigned, c1, c2)
    ensures FoldValue(RemUnsigned, c1, c2) == FoldValue(RemSigned, c1, c2)
    ensures FoldValue(MultUnsigned, c1, c2) == FoldValue(MultSigned, c1, c2)
    ensures FoldValue(LtUnsigned, -1, 0) == Ok(1)
  {
  }

  /** The both-constant branch shared by every foldable kind: both operand
      constants are marked unused, then the instruction becomes a constInt
      holding `value`. */
  function Fold(st: IrState, i: nat, value: Result<int>): (r: Result<IrState>)
    requires StateValid(st) && i < |st.prog|
    requires TemporaryView(st.prog[i].ops[1]).Some? && TemporaryView(st.prog[i].ops[2]).Some?
    ensures r.Ok? ==> StateValid(r.value) && |r.value.prog| == |st.prog|
    ensures r.Ok? ==> Mults(r.value.prog) == Mults(st.prog) - MultCount(st.prog[i].kind)
  {
    var st1 :- MarkObsolete(st, TemporaryView(st.prog[i].ops[1]).value);
    MarkKeepsMults(st, TemporaryView(st.prog[i].ops[1]).value);
    var st2 :- MarkObsolete(st1, TemporaryView(st.prog[i].ops[2]).value);
    MarkKeepsMults(st1, TemporaryView(st.prog[i].ops[2]).value);
    var v :- value;
    BecomeConstant(st2, i, v)
  }

  /** The instruction becomes the constant `v` (`kind = IR_CONST_INT`, then
      `ir_update_const_value`). */
  function BecomeConstant(st: IrState, i: nat, v: int): (r: Result<IrState>)
    requires StateValid(st) && i < |st.prog|
    ensures r.Err? <==> TemporaryView(st.prog[i].ops[0]).None? || st.consts.size == HashMap.MAX_SIZE
    ensures r.Ok? ==> StateValid(r.value) && |r.value.prog| == |st.prog|
    ensures r.Ok? ==> Mults(r.value.prog) == Mults(st.prog) - MultCount(st.prog[i].kind)
  {
    var st1 := ChangeKind(st, i, ConstInt);
    MultsOfUpdate(st.prog, i, st.prog[i].(kind := ConstInt));
    var r := UpdateConstValue(st1, i, v);
    if r.Ok? then
      UpdateKeepsMults(st1, i, v);
      r
    else r
  }

  /** Marking a constant unused keeps every kind, so the count too. */
  lemma MarkKeepsMults(st: IrState, t: int)
    requires StateValid(st) && MarkObsolete(st, t).Ok?
    ensures Mults(MarkObsolete(st, t).value.prog) == Mults(st.prog)
    ensures |MarkObsolete(st, t).value.prog| == |st.prog|
    ensures forall k :: 0 <= k < |st.prog| ==> MarkObsolete(st, t).value.prog[k].kind == st.prog[k].kind
  {
    var j := ByTemporary(st.prog, t).value;
    MultsOfUpdate(st.prog, j, st.prog[j].(isUsed := false));
  }

  /** Marking or rewriting a constant keeps every kind and the length. */
  lemma UpdateKeepsMults(st: IrState, j: nat, v: int)
    requires StateValid(st) && j < |st.prog| && UpdateConstValue(st, j, v).Ok?
    ensures Mults(UpdateConstValue(st, j, v).value.prog) == Mults(st.prog)
    ensures |UpdateConstValue(st, j, v).value.prog| == |st.prog|
    ensures forall k :: 0 <= k < |st.prog| ==> UpdateConstValue(st, j, v).value.prog[k].kind == st.prog[k].kind
  {
    MultsOfUpdate(st.prog, j, SetOperand(st.prog[j], 1, Num(Wrap32(v))));
  }

  // ---------------------------------------------------------------------------
  // Unlinking
  // ---------------------------------------------------------------------------

  /** How a visit moves the sweep on: an unlinked instruction leaves the list one
      shorter and the sweep stays at the same index; otherwise the sweep moves
      past the instruction, and either a multiplication disappeared or the list
      kept its length. The count of multiplications never grows. */
  predicate Advances(p: Program, i: nat, v: Visit) {
    if v.removed then |v.st.prog| == |p| - 1 && i <= |v.st.prog| && Mults(v.st.prog) <= Mults(p)
    else i < |v.st.prog| && (Mults(v.st.prog) < Mults(p) || (Mults(v.st.prog) == Mults(p) && |v.st.prog| == |p|))
  }

  /** `ir_remove_instruction_from_list(instruction)` for the visited
      instruction. */
  function Unlink(st: IrState, i: nat): (r: Result<Visit>)
    requires StateValid(st) && i < |st.prog|
    ensures r.Err? <==> 0 < i == |st.prog| - 1
    ensures r.Ok? ==> r.value == Visit(st.(prog := RemoveAt(st.prog, i).value), true)
    ensures r.Ok? ==> StateValid(r.value.st) && Advances(st.prog, i, r.value)
  {
    RemoveFindsElement(st.prog, i);
    var q :- Remove(st.prog, st.prog[i].pos);
    UnlinkKeepsValid(st, i);
    Ok(Visit(st.(prog := q), true))
  }

  lemma UnlinkKeepsValid(st: IrState, i: nat)
    requires StateValid(st) && i < |st.prog| && RemoveAt(st.prog, i).Ok?
    ensures StateValid(st.(prog := RemoveAt(st.prog, i).value))
    ensures Mults(RemoveAt(st.prog, i).value) == Mults(st.prog) - MultCount(st.prog[i].kind)
  {
    UnlinkKeepsPositions(st, i);
    UnlinkCount(st.prog, i);
  }

  lemma UnlinkKeepsPositions(st: IrState, i: nat)
    requires StateValid(st) && i < |st.prog| && RemoveAt(st.prog, i).Ok?
    ensures StateValid(st.(prog := RemoveAt(st.prog, i).value))
  {
    var p := st.prog;
    var q := RemoveAt(p, i).value;
    RemoveAtPositions(p, i);
    forall k | 0 <= k < |q|
      ensures q[k].pos < st.position
    {
      if k > i || (k == i && i == 0) {
        assert q[k] == p[k + 1];
      }
    }
  }

  lemma UnlinkCount(p: Program, i: nat)
    requires AllWellFormed(p) && i < |p| && RemoveAt(p, i).Ok?
    ensures Mults(RemoveAt(p, i).value) == Mults(p) - MultCount(p[i].kind)
  {
    RemoveAtViews(p, i);
    var ks := Kinds(p);
    assert Kinds(RemoveAt(p, i).value) == ks[..i] + ks[i + 1..];
    MultisetOfRemoval(ks, i);
  }

  lemma MultisetOfRemoval(ks: seq<Opcode>, i: nat)
    requires i < |ks|
    ensures multiset(ks[..i] + ks[i + 1..]) == multiset(ks) - multiset{ks[i]}
  {
    assert ks == ks[..i] + [ks[i]] + ks[i + 1..];
  }

  /** The constant of the one operand that is a known constant, when
      exactly one is. */
  function LoneValue(st: IrState, i: nat): (c: Option<int>)
    requires StateValid(st) && i < |st.prog|
    ensures c.Some? <==> (Constant(st, i, 1).Some? != Constant(st, i, 2).Some?)
    ensures c.Some? ==> c == Constant(st, i, 1) || c == Constant(st, i, 2)
  {
    var c1 := Constant(st, i, 1);
    var c2 := Constant(st, i, 2);
    if c1.Some? && c2.None? then c1
    else if c2.Some? && c1.None? then c2
    else None
  }

  predicate BothConstant(st: IrState, i: nat)
    requires StateValid(st) && i < |st.prog|
  {
    Constant(st, i, 1).Some? && Constant(st, i, 2).Some?
  }

  /** Instruction `i` of `st` has become, in `q`, a constInt holding `v` as a
      C int, and the map records that value for its destination. */
  predicate HoldsConstant(st: IrState, i: nat, q: IrState, v: int)
    requires i < |st.prog|
  {
    && i < |q.prog| && |q.prog[i].ops| > 1 && |st.prog[i].ops| > 0
    && q.prog[i].kind == ConstInt && q.prog[i].ops[1] == Num(Wrap32(v))
    && TemporaryView(st.prog[i].ops[0]).Some? && q.consts.size <= |q.consts.data|
    && ConstValue(q.consts, TemporaryView(st.prog[i].ops[0]).value) == Some(Wrap32(v))
  }

  /** The value the both-constant branch folds instruction `i` to. */
  function BothValue(st: IrState, i: nat): Result<int>
    requires StateValid(st) && i < |st.prog| && IsFoldable(st.prog[i].kind) && BothConstant(st, i)
  {
    FoldValue(st.prog[i].kind, Constant(st, i, 1).value, Constant(st, i, 2).value)
  }

  /** Instruction `i`, whose operands are both constants, now holds the value
      the C operator gives on them. */
  predicate Folded(st: IrState, i: nat, q: IrState)
    requires StateValid(st) && i < |st.prog| && IsFoldable(st.prog[i].kind) && BothConstant(st, i)
  {
    BothValue(st, i).Ok? && HoldsConstant(st, i, q, BothValue(st, i).value)
  }

  lemma FoldBothFolds(st: IrState, i: nat)
    requires StateValid(st) && i < |st.prog| && IsFoldable(st.prog[i].kind) && BothConstant(st, i)
    requires Fold(st, i, BothValue(st, i)).Ok?
    ensures Folded(st, i, Fold(st, i, BothValue(st, i)).value)
  {
    FoldResult(st, i, BothValue(st, i));
  }

  /** The both-constant branch shared by every arithmetic visit. */
  function FoldBoth(st: IrState, i: nat): (r: Result<Visit>)
    requires StateValid(st) && i < |st.prog| && IsFoldable(st.prog[i].kind) && BothConstant(st, i)
    ensures r.Ok? ==> StateValid(r.value.st) && Advances(st.prog, i, r.value) && !r.value.removed
    ensures r.Ok? ==> Folded(st, i, r.value.st)
  {
    match Fold(st, i, BothValue(st, i))
    case Err(f) => Err(f)
    case Ok(st') =>
      FoldBothFolds(st, i);
      Ok(Visit(st', false))
  }

  /** `ir_perform_identity_add_optimization` and
      `ir_perform_identity_sub_optimization`: one constant operand equal to 0
      unlinks the instruction, whichever side it is on (so `0 - x` too); two
      constants fold. */
  function AddSub(st: IrState, i: nat): (r: Result<Visit>)
    requires StateValid(st) && i < |st.prog| && IsAddSub(st.prog[i].kind)
    ensures r.Ok? ==> StateValid(r.value.st) && Advances(st.prog, i, r.value)
    ensures r.Ok? ==> (r.value.removed <==> LoneValue(st, i) == Some(0))
    ensures r.Ok? && r.value.removed ==> RemoveAt(st.prog, i).Ok? && r.value.st == st.(prog := RemoveAt(st.prog, i).value)
    ensures r.Ok? && BothConstant(st, i) ==> Folded(st, i, r.value.st)
    ensures LoneValue(st, i) != Some(0) && !BothConstant(st, i) ==> r == Ok(Visit(st, false))
  {
    if LoneValue(st, i) == Some(0) then Unlink(st, i)
    else if BothConstant(st, i) then FoldBoth(st, i)
    else Ok(Visit(st, false))
  }

  // ---------------------------------------------------------------------------
  // Strength reduction
  // ---------------------------------------------------------------------------

  /** The power-of-two rewrite: the instruction becomes kind `k`, and the
      constInt that defines the temporary in operand `slot` is rewritten to the
      base-2 logarithm of `c`. */
  function ShiftByConstant(st: IrState, i: nat, k: Opcode, slot: nat, c: int): (r: Result<IrState>)
    requires StateValid(st) && i < |st.prog| && slot < OPERAND_SLOTS && IsInt32(c)
    requires !IsMult(k) && k != ConstInt
    ensures r.Ok? ==> StateValid(r.value) && |r.value.prog| == |st.prog| && r.value.prog[i].kind == k
    ensures r.Ok? ==> Mults(r.value.prog) == Mults(st.prog) - MultCount(st.prog[i].kind)
  {
    var st1 := ChangeKind(st, i, k);
    MultsOfUpdate(st.prog, i, st.prog[i].(kind := k));
    match TemporaryView(st.prog[i].ops[slot])
    case None => Err(Undefined("the operand read as a temporary was never written"))
    case Some(t) => RewriteDefiner(st1, t, Util.MyLog2(ToUInt32(c)))
  }

  lemma SameKinds(p: Program, q: Program)
    requires |p| == |q| && forall j :: 0 <= j < |p| ==> q[j].kind == p[j].kind
    ensures Kinds(q) == Kinds(p)
  {
  }

  /** The power-of-two rewrite changes the kind of the instruction at `i` and
      of no other. */
  lemma ShiftByConstantKinds(st: IrState, i: nat, k: Opcode, slot: nat, c: int)
    requires StateValid(st) && i < |st.prog| && slot < OPERAND_SLOTS && IsInt32(c)
    requires !IsMult(k) && k != ConstInt
    requires ShiftByConstant(st, i, k, slot, c).Ok?
    ensures Kinds(ShiftByConstant(st, i, k, slot, c).value.prog) == Kinds(st.prog)[i := k]
  {
    var st1 := ChangeKind(st, i, k);
    KindsOfUpdate(st.prog, i, st.prog[i].(kind := k));
    var t := TemporaryView(st.prog[i].ops[slot]).value;
    var rw := RewriteDefiner(st1, t, Util.MyLog2(ToUInt32(c)));
    assert ShiftByConstant(st, i, k, slot, c) == rw;
    SameKinds(st1.prog, rw.value.prog);
  }

  /** `ir_get_instruction_by_temporary(t)`, then `ir_update_const_value` on
      it: the constInt defining `t` now holds `v`. */
  function RewriteDefiner(st: IrState, t: int, v: int): (r: Result<IrState>)
    requires StateValid(st)
    ensures r.Ok? ==> StateValid(r.value) && |r.value.prog| == |st.prog| && Mults(r.value.prog) == Mults(st.prog)
    ensures r.Ok? ==> forall j :: 0 <= j < |st.prog| ==> r.value.prog[j].kind == st.prog[j].kind
  {
    match ByTemporary(st.prog, t)
    case None => Err(Undefined("ir_get_instruction_by_temporary found nothing to rewrite"))
    case Some(j) =>
      var r := UpdateConstValue(st, j, v);
      if r.Ok? then
        UpdateKeepsMults(st, j, v);
        r
      else r
  }

  /** One term of the decomposition: add or subtract `operand << log2(power)`. */
  datatype Term = Term(add: bool, power: int)

  /** The kinds one term inserts: a constInt, a left shift, and an addition
      or subtraction. */
  function TermKinds(t: Term): multiset<Opcode> {
    multiset{ConstInt, LeftShiftWord, if t.add then AddSigned else SubSigned}
  }

  /** The kinds a chain of terms inserts. */
  function ChainKinds(ts: seq<Term>): (m: multiset<Opcode>)
    ensures |m| == 3 * |ts|
    decreases |ts|
  {
    if |ts| == 0 then multiset{} else TermKinds(ts[0]) + ChainKinds(ts[1..])
  }

  /** The nearest power of two strictly shrinks a positive remainder, so the
      loop of `ir_convert_mult_to_shift` ends. */
  lemma RemainingShrinks(r: nat)
    requires r > 0
    ensures Abs(r - Util.NearestPowerOfTwo(r)) < r
  {
    Util.NearestIsNearest(r);
    assert 1 in Util.POWERS_OF_TWO;
    assert Abs(1 - r) == r - 1;
  }

  /** The terms the loop of `ir_convert_mult_to_shift` emits for `remaining`:
      each takes the nearest power of two of what is left, the first with the
      sign the caller chose and every later one as an addition. */
  function ShiftTerms(remaining: nat, isAdd: bool): (ts: seq<Term>)
    ensures |ts| == 0 <==> remaining == 0
    ensures |ts| > 0 ==> ts[0].add == isAdd
    ensures forall k :: 1 <= k < |ts| ==> ts[k].add
    ensures forall k :: 0 <= k < |ts| ==> 1 <= ts[k].power <= 1024
    decreases remaining
  {
    if remaining == 0 then []
    else
      var p := Util.NearestPowerOfTwo(remaining);
      RemainingShrinks(remaining);
      [Term(isAdd, p)] + ShiftTerms(Abs(remaining - p), true)
  }

  /** The factor a chain of terms multiplies by, starting from `acc`. */
  function TermsValue(acc: int, ts: seq<Term>): int
    decreases |ts|
  {
    if |ts| == 0 then acc
    else TermsValue(if ts[0].add then acc + ts[0].power else acc - ts[0].power, ts[1..])
  }

  /** The factor `x * c` is turned into: the nearest power of two, then the
      terms for what is left. */
  function Multiplier(c: int): int
    requires Util.NEAREST_LOWER_BOUND <= c
  {
    var p := Util.NearestPowerOfTwo(c);
    TermsValue(p, ShiftTerms(Abs(c - p), p < c))
  }

  /** For 50 the loop's decomposition is 64 - 16 + 2, the value the source's
      comment works out. */
  lemma MultiplierFifty()
    ensures ShiftTerms(14, false) == [Term(false, 16), Term(true, 2)]
    ensures Multiplier(50) == 50
  {
    assert ShiftTerms(0, true) == [];
    assert ShiftTerms(2, true) == [Term(true, 2)];
  }

  /** For 13 the loop's decomposition is 16 - 2 + 1: after the first term every
      term is added, so `x * 13` is compiled as `x * 15`. */
  lemma MultiplierThirteen()
    ensures ShiftTerms(3, false) == [Term(false, 2), Term(true, 1)]
    ensures TermsValue(16, ShiftTerms(3, false)) == 15
    ensures Multiplier(13) == 15
  {
    assert ShiftTerms(0, true) == [];
    assert ShiftTerms(1, true) == [Term(true, 1)];
  }

  /** For -5 the nearest power is 1 and the loop's terms for 6 are -4 + 2, so
      `x * -5` is compiled as `x * -1`. */
  lemma MultiplierMinusFive()
    ensures ShiftTerms(6, false) == [Term(false, 4), Term(true, 2)]
    ensures Multiplier(-5) == -1
  {
    assert ShiftTerms(0, true) == [];
    assert ShiftTerms(2, true) == [Term(true, 2)];
  }

  /** The decomposition the source's comment describes, as a corrected
      reference for the loop: the sign of each term follows the sign of what
      is still owed, so `x * 13` becomes `(x << 4) - (x << 1) - (x << 0)`.
      `r` is the signed
      difference between the factor and what the terms so far produce. */
  function SignedTerms(r: int): (ts: seq<Term>)
    ensures |ts| == 0 <==> r == 0
    ensures |ts| > 0 ==> ts[0].add == (r > 0)
    ensures forall k :: 0 <= k < |ts| ==> 1 <= ts[k].power <= 1024
    decreases Abs(r)
  {
    if r == 0 then []
    else
      var p := Util.NearestPowerOfTwo(Abs(r));
      RemainingShrinks(Abs(r));
      [Term(r > 0, p)] + SignedTerms(if r > 0 then r - p else r + p)
  }

  /** The signed terms add up to exactly what they were asked for. */
  lemma {:induction false} SignedTermsValue(acc: int, r: int)
    ensures TermsValue(acc, SignedTerms(r)) == acc + r
    decreases Abs(r)
  {
    if r != 0 {
      var p := Util.NearestPowerOfTwo(Abs(r));
      var next := if r > 0 then r - p else r + p;
      var acc' := if r > 0 then acc + p else acc - p;
      assert Abs(next) < Abs(r) by {
        RemainingShrinks(Abs(r));
      }
      assert SignedTerms(r) == [Term(r > 0, p)] + SignedTerms(next);
      SignedTermsValue(acc', next);
      TermsValueStep(acc, Term(r > 0, p), SignedTerms(next));
    }
  }

  lemma TermsValueStep(acc: int, t: Term, ts: seq<Term>)
    ensures TermsValue(acc, [t] + ts) == TermsValue(if t.add then acc + t.power else acc - t.power, ts)
  {
    assert ([t] + ts)[1..] == ts;
  }

  /** With signed terms the shifts multiply by exactly `c`, and the first term
      is the one the source emits. */
  lemma ExactDecomposition(c: int)
    requires Util.NEAREST_LOWER_BOUND <= c
    ensures var p := Util.NearestPowerOfTwo(c);
            && TermsValue(p, SignedTerms(c - p)) == c
            && (c != p ==> SignedTerms(c - p)[0] == ShiftTerms(Abs(c - p), p < c)[0])
  {
    var p := Util.NearestPowerOfTwo(c);
    SignedTermsValue(p, c - p);
    if c != p {
      var r := c - p;
      RemainingShrinks(Abs(r));
      assert SignedTerms(r)[0] == Term(r > 0, Util.NearestPowerOfTwo(Abs(r)));
      assert ShiftTerms(Abs(r), p < c)[0] == Term(p < c, Util.NearestPowerOfTwo(Abs(r)));
    }
  }

  // ---------------------------------------------------------------------------
  // Inserting the shift chain
  // ---------------------------------------------------------------------------

  /** An insertion of an instruction that is not a multiplication keeps the count. */
  lemma InsertKeepsMults(p: Program, after: int, ni: Instr, original: Option<int>, counter: int)
    requires AllWellFormed(p) && WellFormed(ni) && ni.ops[0].Temp? && !IsMult(ni.kind)
    requires Insert(p, after, ni, original, counter).Ok?
    ensures Mults(Insert(p, after, ni, original, counter).value.0) == Mults(p)
  {
    match FindInsertionPoint(p, after, 0)
    case None =>
    case Some(i) =>
      InsertAddsKind(p, after, ni, original, counter, i);
  }

  /** An insertion adds one instruction of the new kind to the list. */
  lemma InsertAddsKind(p: Program, after: int, ni: Instr, original: Option<int>, counter: int, k: nat)
    requires AllWellFormed(p) && WellFormed(ni) && ni.ops[0].Temp?
    requires Insert(p, after, ni, original, counter).Ok?
    requires FindInsertionPoint(p, after, 0) == Some(k)
    ensures multiset(Kinds(Insert(p, after, ni, original, counter).value.0)) == multiset(Kinds(p)) + multiset{ni.kind}
  {
    InsertKinds(p, after, ni, original, counter, k);
    MultisetOfInsertion(Kinds(p), k + 1, ni.kind);
  }

  lemma MultisetOfInsertion(ks: seq<Opcode>, j: nat, x: Opcode)
    requires j <= |ks|
    ensures multiset(ks[..j] + [x] + ks[j..]) == multiset(ks) + multiset{x}
  {
    assert ks == ks[..j] + ks[j..];
  }

  /** An element just inserted with a fresh position is where the next
      insertion after that position goes. */
  lemma InsertedIsFindable(p: Program, after: int, ni: Instr, original: Option<int>, counter: int, k: nat)
    requires AllWellFormed(p) && WellFormed(ni) && ni.ops[0].Temp?
    requires DistinctPositions(p) && forall j :: 0 <= j < |p| ==> p[j].pos < counter
    requires FindInsertionPoint(p, after, 0) == Some(k)
    requires Insert(p, after, ni, original, counter).Ok?
    ensures FindInsertionPoint(Insert(p, after, ni, original, counter).value.0, counter, 0) == Some(k + 1)
  {
    var q := Insert(p, after, ni, original, counter).value.0;
    InsertKeepsPositionsDistinct(p, after, ni, original, counter);
    assert q[k + 1].pos == counter && k + 1 < |q| - 1;
    var f := FindInsertionPoint(q, counter, 0);
    assert f.Some?;
  }

  /** `ir_insert` on the state: the new instruction takes the next position. */
  function InsertInto(st: IrState, after: int, ni: Instr, original: Option<int>): (r: Result<IrState>)
    requires StateValid(st) && WellFormed(ni) && ni.ops[0].Temp? && !IsMult(ni.kind)
    ensures r.Err? <==> Insert(st.prog, after, ni, original, st.position).Err?
    ensures r.Ok? ==> StateValid(r.value) && Mults(r.value.prog) == Mults(st.prog)
    ensures r.Ok? ==> r.value == st.(prog := Insert(st.prog, after, ni, original, st.position).value.0,
                                      position := Insert(st.prog, after, ni, original, st.position).value.1)
  {
    var q :- Insert(st.prog, after, ni, original, st.position);
    InsertKeepsPositionsDistinct(st.prog, after, ni, original, st.position);
    InsertKeepsMults(st.prog, after, ni, original, st.position);
    Ok(st.(prog := q.0, position := q.1))
  }

  /** An insertion after the element at index `k`: the new instruction takes
      the next position, and is itself the insertion point for that position. */
  function InsertAt(st: IrState, after: int, k: nat, ni: Instr, original: Option<int>): (r: Result<IrState>)
    requires StateValid(st) && WellFormed(ni) && ni.ops[0].Temp? && !IsMult(ni.kind)
    requires FindInsertionPoint(st.prog, after, 0) == Some(k)
    ensures r.Ok? ==> StateValid(r.value) && Mults(r.value.prog) == Mults(st.prog)
    ensures r.Ok? ==> |r.value.prog| == |st.prog| + 1 && r.value.position == st.position + 1
    ensures r.Ok? ==> FindInsertionPoint(r.value.prog, st.position, 0) == Some(k + 1)
    ensures r.Ok? ==> r.value.nextTemp == st.nextTemp && r.value.scope == st.scope
    ensures r.Ok? ==> multiset(Kinds(r.value.prog)) == multiset(Kinds(st.prog)) + multiset{ni.kind}
  {
    var r := InsertInto(st, after, ni, original);
    if r.Ok? then
      InsertedIsFindable(st.prog, after, ni, original, st.position, k);
      InsertAddsKind(st.prog, after, ni, original, st.position, k);
      r
    else r
  }

  /** A new instruction writing a fresh temporary from `op1` and `op2`, put
      after the element at index `k`. */
  method Emit(st: IrState, after: int, k: nat, kind: Opcode, op1: Operand, op2: Operand, original: Option<int>)
    returns (r: Result<IrState>)
    requires StateValid(st) && !IsMult(kind)
    requires FindInsertionPoint(st.prog, after, 0) == Some(k)
    ensures r.Ok? ==> StateValid(r.value) && Mults(r.value.prog) == Mults(st.prog)
    ensures r.Ok? ==> |r.value.prog| == |st.prog| + 1 && r.value.position == st.position + 1
    ensures r.Ok? ==> FindInsertionPoint(r.value.prog, st.position, 0) == Some(k + 1)
    ensures r.Ok? ==> r.value.nextTemp == st.nextTemp + 1
    ensures r.Ok? ==> multiset(Kinds(r.value.prog)) == multiset(Kinds(st.prog)) + multiset{kind}
  {
    var (st', t) := NewTemp(st);
    var ni := SetOperand(SetOperand(SetOperand(NewInstr(kind, st.scope), 0, Temp(t)), 1, op1), 2, op2);
    r := InsertAt(st', after, k, ni, original);
  }

  /** `ir_create_shift_instruction`: after the instruction at position `oldPos`
      come a constInt holding log2(c), a left shift of `source` by it, and an
      addition (or subtraction) of the shift to the old result, which the
      instruction that read the old result now reads instead. The result is the
      addition's position and result operand. When the old instruction is the
      last one nothing is linked, and the constInt's position is then read
      without ever being set. */
  method EmitShift(st: IrState, oldPos: int, oldOp0: Operand, source: Operand, c: int, isAdd: bool)
    returns (r: Result<(IrState, int, Operand)>)
    requires StateValid(st) && 1 <= c <= 1024
    ensures FindInsertionPoint(st.prog, oldPos, 0).None? ==> r.Err?
    ensures r.Ok? ==> StateValid(r.value.0) && Mults(r.value.0.prog) == Mults(st.prog)
    ensures r.Ok? ==> |r.value.0.prog| == |st.prog| + 3
    ensures r.Ok? ==> multiset(Kinds(r.value.0.prog)) == multiset(Kinds(st.prog)) + TermKinds(Term(isAdd, c))
  {
    var found := FindInsertionPoint(st.prog, oldPos, 0);
    if found.None? {
      return Err(Undefined("ir_create_shift_instruction: the constant is never linked, its position is unset"));
    }
    r := EmitShiftAt(st, oldPos, found.value, oldOp0, source, c, isAdd);
  }

  /** The shift term once the old instruction was found at index `k`. */
  method EmitShiftAt(st: IrState, oldPos: int, k: nat, oldOp0: Operand, source: Operand, c: int, isAdd: bool)
    returns (r: Result<(IrState, int, Operand)>)
    requires StateValid(st) && 1 <= c <= 1024
    requires FindInsertionPoint(st.prog, oldPos, 0) == Some(k)
    ensures r.Ok? ==> StateValid(r.value.0) && Mults(r.value.0.prog) == Mults(st.prog)
    ensures r.Ok? ==> |r.value.0.prog| == |st.prog| + 3
    ensures r.Ok? ==> multiset(Kinds(r.value.0.prog)) == multiset(Kinds(st.prog)) + TermKinds(Term(isAdd, c))
  {
    var s2R := EmitShiftedSource(st, oldPos, k, source, c);
    if s2R.Err? {
      return Err(s2R.failure);
    }
    var o := TemporaryView(oldOp0);
    if o.None? {
      return Err(Undefined("ir_insert: the old result was never written"));
    }
    var s3R := Emit(s2R.value, st.position + 1, k + 2, if isAdd then AddSigned else SubSigned,
                    oldOp0, Temp(st.nextTemp + 1), Some(o.value));
    if s3R.Err? {
      return Err(s3R.failure);
    }
    return Ok((s3R.value, st.position + 2, Temp(st.nextTemp + 2)));
  }

  /** The first two instructions of a shift term: a constInt holding log2(c)
      after the element at index `k`, and a left shift of `source` by it. */
  method EmitShiftedSource(st: IrState, oldPos: int, k: nat, source: Operand, c: int) returns (r: Result<IrState>)
    requires StateValid(st) && 1 <= c <= 1024
    requires FindInsertionPoint(st.prog, oldPos, 0) == Some(k)
    ensures r.Ok? ==> StateValid(r.value) && Mults(r.value.prog) == Mults(st.prog)
    ensures r.Ok? ==> |r.value.prog| == |st.prog| + 2 && r.value.position == st.position + 2
    ensures r.Ok? ==> FindInsertionPoint(r.value.prog, st.position + 1, 0) == Some(k + 2)
    ensures r.Ok? ==> r.value.nextTemp == st.nextTemp + 2
    ensures r.Ok? ==> multiset(Kinds(r.value.prog)) == multiset(Kinds(st.prog)) + multiset{ConstInt, LeftShiftWord}
  {
    var s1 :- Emit(st, oldPos, k, ConstInt, Num(Util.MyLog2(c)), Unset, None);
    r := Emit(s1, st.position, k + 1, LeftShiftWord, source, Temp(st.nextTemp), None);
  }

  /** The loop of `ir_convert_mult_to_shift`: one triple per term, each after
      the previous addition. */
  method ShiftChain(st: IrState, oldPos: int, oldOp0: Operand, source: Operand, ts: seq<Term>)
    returns (r: Result<IrState>)
    requires StateValid(st) && forall k :: 0 <= k < |ts| ==> 1 <= ts[k].power <= 1024
    ensures |ts| == 0 ==> r == Ok(st)
    ensures r.Ok? ==> StateValid(r.value) && Mults(r.value.prog) == Mults(st.prog)
    ensures r.Ok? ==> |r.value.prog| == |st.prog| + 3 * |ts|
    ensures r.Ok? ==> multiset(Kinds(r.value.prog)) == multiset(Kinds(st.prog)) + ChainKinds(ts)
    decreases |ts|
  {
    if |ts| == 0 {
      return Ok(st);
    }
    var e :- EmitShift(st, oldPos, oldOp0, source, ts[0].power, ts[0].add);
    assert Term(ts[0].add, ts[0].power) == ts[0];
    assert ChainKinds(ts) == TermKinds(ts[0]) + ChainKinds(ts[1..]);
    r := ShiftChain(e.0, e.1, e.2, source, ts[1..]);
  }

  /** The multiplication at `i` becomes a left shift by log2(p). */
  method ShiftToPower(st: IrState, i: nat, p: int) returns (r: Result<IrState>)
    requires StateValid(st) && i < |st.prog| && 1 <= p <= 1024
    ensures r.Ok? ==> StateValid(r.value) && |r.value.prog| == |st.prog| && r.value.prog[i].kind == LeftShiftWord
    ensures r.Ok? ==> Mults(r.value.prog) == Mults(st.prog) - MultCount(st.prog[i].kind)
    ensures r.Ok? ==> Kinds(r.value.prog) == Kinds(st.prog)[i := LeftShiftWord]
  {
    r := ShiftByConstant(st, i, LeftShiftWord, 2, p);
    if r.Ok? {
      ShiftByConstantKinds(st, i, LeftShiftWord, 2, p);
    }
  }

  /** `ir_convert_mult_to_shift`: the multiplication becomes a shift by log2 of
      the power of two nearest to `c`, and the loop's terms for the distance
      `|c - p|` follow it: the first with the sign of `c - p`, every later one
      added (so `x * 13` becomes `x * 15`, see `MultiplierThirteen`). Below
      `1024 - INT_MAX` the distance computation overflows. */
  method ConvertMultToShift(st: IrState, i: nat, c: int) returns (r: Result<IrState>)
    requires StateValid(st) && i < |st.prog| && IsInt32(c)
    ensures c < Util.NEAREST_LOWER_BOUND ==> r.Err?
    ensures r.Ok? ==> StateValid(r.value)
    ensures r.Ok? ==> Mults(r.value.prog) == Mults(st.prog) - MultCount(st.prog[i].kind)
    ensures r.Ok? ==> var p := Util.NearestPowerOfTwo(c);
                      |r.value.prog| == |st.prog| + 3 * |ShiftTerms(Abs(c - p), p < c)|
    ensures r.Ok? ==> var p := Util.NearestPowerOfTwo(c);
                      multiset(Kinds(r.value.prog))
                      == multiset(Kinds(st.prog)[i := LeftShiftWord]) + ChainKinds(ShiftTerms(Abs(c - p), p < c))
  {
    if c < Util.NEAREST_LOWER_BOUND {
      return Err(Undefined("find_nearest_power_of_two: abs overflows"));
    }
    var p := Util.NearestPowerOfTwo(c);
    var ts := ShiftTerms(Abs(c - p), p < c);
    var st1R := ShiftToPower(st, i, p);
    if st1R.Err? {
      return Err(st1R.failure);
    }
    r := ShiftChain(st1R.value, st.prog[i].pos, st.prog[i].ops[0], st.prog[i].ops[1], ts);
  }

  /** `q` is the multiplication at `i` of `st` lowered for the constant `c`:
      it became a left shift, and for a constant that is not a power of two
      the kinds of the loop's chain were added. */
  predicate Lowered(st: IrState, i: nat, c: int, q: IrState)
    requires StateValid(st) && i < |st.prog| && IsInt32(c)
  {
    if Util.IsPowerOfTwo(c) then Kinds(q.prog) == Kinds(st.prog)[i := LeftShiftWord]
    else
      var p := Util.NearestPowerOfTwo(c);
      && Util.NEAREST_LOWER_BOUND <= c
      && multiset(Kinds(q.prog)) == multiset(Kinds(st.prog)[i := LeftShiftWord]) + ChainKinds(ShiftTerms(Abs(c - p), p < c))
  }

  /** The two single-constant branches of
      `ir_perform_identity_multiply_optimization`, which act alike: a power of
      two makes the instruction a left shift and rewrites the constant behind
      operand 2 (whichever operand held `c`), anything else is decomposed. The
      code after both returns, which would unlink `x * 1`, never runs. */
  method MultByConstant(st: IrState, i: nat, c: int) returns (r: Result<IrState>)
    requires StateValid(st) && i < |st.prog| && IsInt32(c)
    ensures Util.IsPowerOfTwo(c) ==> r == ShiftByConstant(st, i, LeftShiftWord, 2, c)
    ensures r.Ok? ==> StateValid(r.value) && |r.value.prog| >= |st.prog|
    ensures r.Ok? ==> Mults(r.value.prog) == Mults(st.prog) - MultCount(st.prog[i].kind)
    ensures r.Ok? ==> Lowered(st, i, c, r.value)
  {
    if Util.IsPowerOfTwo(c) {
      r := ShiftByConstant(st, i, LeftShiftWord, 2, c);
      if r.Ok? {
        ShiftByConstantKinds(st, i, LeftShiftWord, 2, c);
      }
    } else {
      r := ConvertMultToShift(st, i, c);
    }
  }

  /** `ir_perform_identity_multiply_optimization`. */
  method Mult(st: IrState, i: nat) returns (r: Result<Visit>)
    requires StateValid(st) && i < |st.prog| && IsMult(st.prog[i].kind)
    ensures Constant(st, i, 1).Some? && Constant(st, i, 2).Some? ==>
              r == (var f := Fold(st, i, FoldValue(st.prog[i].kind, Constant(st, i, 1).value, Constant(st, i, 2).value));
                    if f.Ok? then Ok(Visit(f.value, false)) else Err(f.failure))
    ensures Constant(st, i, 1).None? && Constant(st, i, 2).None? ==> r == Ok(Visit(st, false))
    ensures r.Ok? ==> StateValid(r.value.st) && Advances(st.prog, i, r.value)
    ensures r.Ok? ==> MultOutcome(st, i, r.value)
  {
    var c1 := Constant(st, i, 1);
    var c2 := Constant(st, i, 2);
    if c1.Some? && c2.None? {
      var st' :- MultByConstant(st, i, c1.value);
      r := Ok(Visit(st', false));
    } else if c2.Some? && c1.None? {
      var st' :- MultByConstant(st, i, c2.value);
      r := Ok(Visit(st', false));
    } else if c1.Some? && c2.Some? {
      var st' :- Fold(st, i, FoldValue(st.prog[i].kind, c1.value, c2.value));
      r := Ok(Visit(st', false));
    } else {
      r := Ok(Visit(st, false));
    }
  }

  /** One single-constant branch of `ir_perform_identity_divide_optimization`:
      an unsigned division by a power of two becomes an unsigned right shift
      with the constant behind operand `slot` rewritten to its log2, and then,
      separately, a constant 1 unlinks the instruction. */
  function DivByConstant(st: IrState, i: nat, slot: nat, c: int): (r: Result<Visit>)
    requires StateValid(st) && i < |st.prog| && IsDiv(st.prog[i].kind) && slot < OPERAND_SLOTS && IsInt32(c)
    ensures r.Ok? ==> StateValid(r.value.st) && Advances(st.prog, i, r.value)
    ensures r.Ok? ==> (r.value.removed <==> c == 1)
    ensures r.Ok? && c != 1 && st.prog[i].kind == DivUnsigned && Util.IsPowerOfTwo(c) ==>
              r.value.st.prog[i].kind == RightShiftUnsigned
    ensures c != 1 && !(st.prog[i].kind == DivUnsigned && Util.IsPowerOfTwo(c)) ==> r == Ok(Visit(st, false))
  {
    var st1 :- if st.prog[i].kind == DivUnsigned && Util.IsPowerOfTwo(c)
               then ShiftByConstant(st, i, RightShiftUnsigned, slot, c)
               else Ok(st);
    if c == 1 then Unlink(st1, i) else Ok(Visit(st1, false))
  }

  /** `ir_perform_identity_divide_optimization`: a lone constant 1 unlinks
      the instruction, a lone unsigned power of two other than 1 makes it an
      unsigned right shift (on either side, so `8 / x` too), two constants
      fold. */
  function Div(st: IrState, i: nat): (r: Result<Visit>)
    requires StateValid(st) && i < |st.prog| && IsDiv(st.prog[i].kind)
    ensures r.Ok? ==> StateValid(r.value.st) && Advances(st.prog, i, r.value)
    ensures r.Ok? ==> (r.value.removed <==> LoneValue(st, i) == Some(1))
    ensures r.Ok? && BothConstant(st, i) ==> Folded(st, i, r.value.st)
    ensures r.Ok? && LoneValue(st, i).Some? && LoneValue(st, i).value != 1 &&
            st.prog[i].kind == DivUnsigned && Util.IsPowerOfTwo(LoneValue(st, i).value) ==>
              r.value.st.prog[i].kind == RightShiftUnsigned
    ensures LoneValue(st, i).None? && !BothConstant(st, i) ==> r == Ok(Visit(st, false))
  {
    var c1 := Constant(st, i, 1);
    var c2 := Constant(st, i, 2);
    if c1.Some? && c2.None? then DivByConstant(st, i, 1, c1.value)
    else if c2.Some? && c1.None? then DivByConstant(st, i, 2, c2.value)
    else if c1.Some? && c2.Some? then FoldBoth(st, i)
    else Ok(Visit(st, false))
  }

  /** After `BecomeConstant` the instruction is a constInt holding the value
      (as a C int) in operand 1 and in the map under its own temporary, and no
      other instruction changed. */
  lemma BecomeConstantResult(st: IrState, i: nat, v: int)
    requires StateValid(st) && i < |st.prog| && BecomeConstant(st, i, v).Ok?
    ensures var q := BecomeConstant(st, i, v).value;
            && HoldsConstant(st, i, q, v)
            && forall k :: 0 <= k < |st.prog| && k != i ==> q.prog[k] == st.prog[k]
  {
  }

  /** Changing anything but the operands keeps the defining instruction of
      every temporary. */
  lemma ByTemporaryIgnoresFlags(p: Program, j: nat, x: Instr, t: int)
    requires AllWellFormed(p) && j < |p| && x.ops == p[j].ops
    ensures ByTemporary(p[j := x], t) == ByTemporary(p, t)
  {
    var q := p[j := x];
    assert forall k :: 0 <= k < |q| ==> q[k].ops == p[k].ops;
  }

  /** The both-constant branch: the instruction becomes a constInt holding the
      folded value, and the constInts behind both operands are marked unused. */
  /** Marking the definers of both operands obsolete clears their `isUsed`
      flags and leaves every instruction that is not a constant as it was. */
  lemma MarkBoth(st: IrState, t1: int, t2: int)
    requires StateValid(st)
    requires MarkObsolete(st, t1).Ok? && MarkObsolete(MarkObsolete(st, t1).value, t2).Ok?
    ensures var st2 := MarkObsolete(MarkObsolete(st, t1).value, t2).value;
            var d1 := ByTemporary(st.prog, t1);
            var d2 := ByTemporary(st.prog, t2);
            && |st2.prog| == |st.prog|
            && d1.Some? && d2.Some?
            && st.prog[d1.value].kind == ConstInt && st.prog[d2.value].kind == ConstInt
            && !st2.prog[d1.value].isUsed && !st2.prog[d2.value].isUsed
            && forall k :: 0 <= k < |st.prog| && st.prog[k].kind != ConstInt ==> st2.prog[k] == st.prog[k]
  {
    var j1 := ByTemporary(st.prog, t1).value;
    var st1 := MarkObsolete(st, t1).value;
    ByTemporaryIgnoresFlags(st.prog, j1, st.prog[j1].(isUsed := false), t2);
  }

  /** A successful fold turns instruction `i` into the wrapped constant and
      records that constant for its destination. */
  lemma FoldResult(st: IrState, i: nat, value: Result<int>)
    requires StateValid(st) && i < |st.prog| && st.prog[i].kind != ConstInt
    requires TemporaryView(st.prog[i].ops[1]).Some? && TemporaryView(st.prog[i].ops[2]).Some?
    requires Fold(st, i, value).Ok?
    ensures value.Ok? && HoldsConstant(st, i, Fold(st, i, value).value, value.value)
  {
    var t1 := TemporaryView(st.prog[i].ops[1]).value;
    var t2 := TemporaryView(st.prog[i].ops[2]).value;
    MarkBoth(st, t1, t2);
    var st2 := MarkObsolete(MarkObsolete(st, t1).value, t2).value;
    assert Fold(st, i, value) == BecomeConstant(st2, i, value.value);
    BecomeConstantResult(st2, i, value.value);
  }

  /** A successful fold leaves the constants that defined both operands unused,
      so the second optimization pass removes them. */
  lemma FoldRetiresOperands(st: IrState, i: nat, value: Result<int>)
    requires StateValid(st) && i < |st.prog| && st.prog[i].kind != ConstInt
    requires TemporaryView(st.prog[i].ops[1]).Some? && TemporaryView(st.prog[i].ops[2]).Some?
    requires Fold(st, i, value).Ok?
    ensures var q := Fold(st, i, value).value;
            var d1 := ByTemporary(st.prog, TemporaryView(st.prog[i].ops[1]).value);
            var d2 := ByTemporary(st.prog, TemporaryView(st.prog[i].ops[2]).value);
            && d1.Some? && d2.Some? && d1.value != i && d2.value != i
            && !q.prog[d1.value].isUsed && !q.prog[d2.value].isUsed
  {
    var t1 := TemporaryView(st.prog[i].ops[1]).value;
    var t2 := TemporaryView(st.prog[i].ops[2]).value;
    MarkBoth(st, t1, t2);
    var st2 := MarkObsolete(MarkObsolete(st, t1).value, t2).value;
    var d1 := ByTemporary(st.prog, t1).value;
    var d2 := ByTemporary(st.prog, t2).value;
    assert Fold(st, i, value) == BecomeConstant(st2, i, value.value);
    var q := BecomeConstant(st2, i, value.value).value;
    BecomeConstantResult(st2, i, value.value);
    assert q.prog[d1] == st2.prog[d1];
    assert q.prog[d2] == st2.prog[d2];
  }

  /** `ir_perform_identity_remainder_optimization`: a lone constant 1 on
      either side makes the instruction the constant 0 (so `1 % x` too); two
      constants fold. */
  function Rem(st: IrState, i: nat): (r: Result<Visit>)
    requires StateValid(st) && i < |st.prog| && IsRem(st.prog[i].kind)
    ensures r.Ok? ==> StateValid(r.value.st) && Advances(st.prog, i, r.value) && !r.value.removed
    ensures r.Ok? && LoneValue(st, i) == Some(1) ==> HoldsConstant(st, i, r.value.st, 0)
    ensures r.Ok? && BothConstant(st, i) ==> Folded(st, i, r.value.st)
    ensures LoneValue(st, i) != Some(1) && !BothConstant(st, i) ==> r == Ok(Visit(st, false))
  {
    var c1 := Constant(st, i, 1);
    var c2 := Constant(st, i, 2);
    if (c1.Some? && c2.None? && c1.value == 1) || (c2.Some? && c1.None? && c2.value == 1) then
      var st' :- BecomeConstant(st, i, 0);
      BecomeConstantResult(st, i, 0);
      Ok(Visit(st', false))
    else if c1.Some? && c2.Some? then FoldBoth(st, i)
    else Ok(Visit(st, false))
  }

  /** `ir_perform_identity_gt_optimization` and
      `ir_perform_identity_lt_optimization`: only two constants fold. */
  function Compare(st: IrState, i: nat): (r: Result<Visit>)
    requires StateValid(st) && i < |st.prog| && IsComparison(st.prog[i].kind)
    ensures r.Ok? ==> StateValid(r.value.st) && Advances(st.prog, i, r.value) && !r.value.removed
    ensures r.Ok? && BothConstant(st, i) ==> Folded(st, i, r.value.st)
    ensures !BothConstant(st, i) ==> r == Ok(Visit(st, false))
  {
    if BothConstant(st, i) then FoldBoth(st, i)
    else Ok(Visit(st, false))
  }

  // ---------------------------------------------------------------------------
  // Loads and stores through an address
  // ---------------------------------------------------------------------------

  /** The address-of instruction that writes temporary `t`. The code reads
      operand 0 as a temporary without looking at its kind; an address-of
      always writes one. */
  predicate IsAddressOfTemp(x: Instr, t: int)
    requires WellFormed(x)
  {
    x.kind == AddressOf && TemporaryView(x.ops[0]) == Some(t)
  }

  /** One of operands 0 to 5 of `x` is temporary `t`; the scan never looks at
      operand 6. */
  predicate MentionsTemp(x: Instr, t: int)
    requires WellFormed(x)
  {
    exists s :: 0 <= s < 6 && x.ops[s] == Temp(t)
  }

  /** `a` is the nearest address-of writing `t` at or before index `b`. */
  predicate NearestAddressOf(p: Program, t: int, a: nat, b: int)
    requires AllWellFormed(p) && b < |p|
  {
    a <= b && IsAddressOfTemp(p[a], t) && forall e :: a < e <= b ==> !IsAddressOfTemp(p[e], t)
  }

  /** No instruction strictly between indexes `lo` and `hi` mentions `t`. */
  predicate Unmentioned(p: Program, t: int, lo: int, hi: int)
    requires AllWellFormed(p) && hi <= |p|
  {
    forall e :: lo < e < hi && 0 <= e ==> !MentionsTemp(p[e], t)
  }

  /** The backward walk of `ir_use_offset_for_load_store` from index `b`: it
      stops at the nearest address-of writing `t`, and clears `canUse` at every
      instruction it passes that mentions `t`. */
  function Walk(p: Program, t: int, b: int, canUse: bool): (r: (Option<nat>, bool))
    requires AllWellFormed(p) && -1 <= b < |p|
    ensures r.0.Some? ==> r.0.value <= b && NearestAddressOf(p, t, r.0.value, b)
    ensures r.0.None? ==> forall e :: 0 <= e <= b ==> !IsAddressOfTemp(p[e], t)
    ensures r.1 <==> canUse && Unmentioned(p, t, if r.0.Some? then r.0.value else -1, b + 1)
    decreases b + 1
  {
    if b < 0 then (None, canUse)
    else if IsAddressOfTemp(p[b], t) then (Some(b), canUse)
    else Walk(p, t, b - 1, canUse && !MentionsTemp(p[b], t))
  }

  /** `ir_use_offset_for_load_store`: a load (address in operand 1) or a store
      (address in operand 0) whose address temporary comes from an address-of
      that nothing in between touches takes that address-of as its offset
      variable, and the address-of is marked unused; otherwise the address-of
      is marked used and the offset cleared. The search for the previous list
      element runs off the end when the instruction is the head; without an
      address-of the walk ends on NULL, which fails the assert when nothing
      mentioned the temporary and is dereferenced otherwise. */
  function UseOffset(st: IrState, i: nat, slot: nat): (r: Result<Visit>)
    requires StateValid(st) && i < |st.prog| && slot < OPERAND_SLOTS
    ensures i == 0 || TemporaryView(st.prog[i].ops[slot]).None? ==> r.Err?
    ensures r.Ok? ==> StateValid(r.value.st) && Advances(st.prog, i, r.value)
    ensures r.Ok? ==> r.value.st == st.(prog := r.value.st.prog) && |r.value.st.prog| == |st.prog|
  {
    match TemporaryView(st.prog[i].ops[slot])
    case None => Err(Undefined("the address operand was never written"))
    case Some(t) =>
      if i == 0 then Err(Undefined("ir_use_offset_for_load_store: no element precedes the head"))
      else
        var st' :- WalkAndLink(st, i, t);
        Ok(Visit(st', false))
  }

  /** The walk back from the element before `i`, and what it decides. */
  function WalkAndLink(st: IrState, i: nat, t: int): (r: Result<IrState>)
    requires StateValid(st) && 0 < i < |st.prog|
    ensures r.Ok? ==> StateValid(r.value) && Mults(r.value.prog) == Mults(st.prog)
    ensures r.Ok? ==> r.value == st.(prog := r.value.prog) && |r.value.prog| == |st.prog|
  {
    var w := Walk(st.prog, t, i - 1, true);
    if w.0.Some? then Ok(LinkOffset(st, w.0.value, i, w.1))
    else if w.1 then Err(Aborts("ir_use_offset_for_load_store: no address-of for the temporary"))
    else Err(Undefined("ir_use_offset_for_load_store: is_used written through NULL"))
  }

  /** The end of `ir_use_offset_for_load_store` once the walk stopped at the
      address-of at `a`: it is marked unused and becomes the offset variable
      of the instruction at `i`, or it is marked used and the offset cleared. */
  function LinkOffset(st: IrState, a: nat, i: nat, canUse: bool): (r: IrState)
    requires StateValid(st) && a < i < |st.prog|
    ensures StateValid(r) && Mults(r.prog) == Mults(st.prog) && r == st.(prog := r.prog)
    ensures r.prog == st.prog[a := st.prog[a].(isUsed := !canUse)]
                             [i := st.prog[i].(offset := if canUse then Some(st.prog[a].(isUsed := false)) else None)]
  {
    var base := st.prog[a].(isUsed := !canUse);
    var x := st.prog[i].(offset := if canUse then Some(base) else None);
    OffsetKeepsValid(st, a, i, base, x);
    st.(prog := st.prog[a := base][i := x])
  }

  /** Rewriting the flags of two instructions keeps the state and the count. */
  lemma OffsetKeepsValid(st: IrState, a: nat, i: nat, base: Instr, x: Instr)
    requires StateValid(st) && a < i < |st.prog|
    requires base == st.prog[a].(isUsed := base.isUsed) && x == st.prog[i].(offset := x.offset)
    ensures StateValid(st.(prog := st.prog[a := base][i := x]))
    ensures Mults(st.prog[a := base][i := x]) == Mults(st.prog)
  {
    ReplaceKeepsValid(st, a, base, st.consts);
    var st1 := st.(prog := st.prog[a := base]);
    ReplaceKeepsValid(st1, i, x, st.consts);
    MultsOfUpdate(st.prog, a, base);
    MultsOfUpdate(st1.prog, i, x);
  }

  /** The offset rule: with `a` the nearest address-of of the address
      temporary, the load or store takes it as its offset exactly when no
      instruction in between mentions the temporary, the address-of is marked
      unused exactly then, and no other instruction changes. Later uses of the
      temporary are not looked at. */
  lemma OffsetRule(st: IrState, i: nat, slot: nat, a: nat)
    requires StateValid(st) && i < |st.prog| && slot < OPERAND_SLOTS && UseOffset(st, i, slot).Ok?
    requires TemporaryView(st.prog[i].ops[slot]).Some?
    requires NearestAddressOf(st.prog, TemporaryView(st.prog[i].ops[slot]).value, a, i - 1)
    ensures var q := UseOffset(st, i, slot).value.st.prog;
            var t := TemporaryView(st.prog[i].ops[slot]).value;
            && (q[i].offset.Some? <==> Unmentioned(st.prog, t, a, i))
            && (q[i].offset.Some? ==> q[i].offset.value == st.prog[a].(isUsed := false))
            && q[a] == st.prog[a].(isUsed := !Unmentioned(st.prog, t, a, i))
            && q[i] == st.prog[i].(offset := q[i].offset)
            && forall e :: 0 <= e < |q| && e != a && e != i ==> q[e] == st.prog[e]
  {
    var t := TemporaryView(st.prog[i].ops[slot]).value;
    WalkFinds(st.prog, t, a, i);
    var canUse := Unmentioned(st.prog, t, a, i);
    assert WalkAndLink(st, i, t) == Ok(LinkOffset(st, a, i, canUse));
    assert UseOffset(st, i, slot).value.st == LinkOffset(st, a, i, canUse);
  }

  /** The walk from the element before `i` stops at the nearest address-of,
      and can use it exactly when nothing in between mentions the
      temporary. */
  lemma WalkFinds(p: Program, t: int, a: nat, i: nat)
    requires AllWellFormed(p) && 0 < i <= |p| && NearestAddressOf(p, t, a, i - 1)
    ensures Walk(p, t, i - 1, true) == (Some(a), Unmentioned(p, t, a, i))
  {
    var w := Walk(p, t, i - 1, true);
    assert w.0 == Some(a);
  }

  /** Without an address-of for the temporary before the instruction the
      walk ends on NULL: the assert fails when nothing on the way mentioned the
      temporary, and NULL is written through otherwise. */
  lemma OffsetWithoutAddressOf(st: IrState, i: nat, slot: nat)
    requires StateValid(st) && 0 < i < |st.prog| && slot < OPERAND_SLOTS
    requires TemporaryView(st.prog[i].ops[slot]).Some?
    requires forall e :: 0 <= e < i ==> !IsAddressOfTemp(st.prog[e], TemporaryView(st.prog[i].ops[slot]).value)
    ensures UseOffset(st, i, slot).Err?
    ensures UseOffset(st, i, slot).failure.Aborts? <==>
              Unmentioned(st.prog, TemporaryView(st.prog[i].ops[slot]).value, -1, i)
  {
    var t := TemporaryView(st.prog[i].ops[slot]).value;
    var w := Walk(st.prog, t, i - 1, true);
    assert w.0.None?;
  }

  // ---------------------------------------------------------------------------
  // The driver
  // ---------------------------------------------------------------------------

  /** The arithmetic cases of `ir_perform_optimizations` other than
      multiplication. */
  function Arithmetic(st: IrState, i: nat): (r: Result<Visit>)
    requires StateValid(st) && i < |st.prog| && IsFoldable(st.prog[i].kind) && !IsMult(st.prog[i].kind)
    ensures r.Ok? ==> StateValid(r.value.st) && Advances(st.prog, i, r.value)
  {
    var k := st.prog[i].kind;
    if IsAddSub(k) then AddSub(st, i)
    else if IsDiv(k) then Div(st, i)
    else if IsComparison(k) then Compare(st, i)
    else Rem(st, i)
  }

  /** The load and store cases of `ir_perform_optimizations`: a load keeps its
      address in operand 1, a store in operand 0. */
  function Access(st: IrState, i: nat): (r: Result<Visit>)
    requires StateValid(st) && i < |st.prog| && (IsLoad(st.prog[i].kind) || IsStore(st.prog[i].kind))
    ensures r.Ok? ==> StateValid(r.value.st) && Advances(st.prog, i, r.value)
    ensures IsLoad(st.prog[i].kind) ==> r == UseOffset(st, i, 1)
    ensures IsStore(st.prog[i].kind) ==> r == UseOffset(st, i, 0)
  {
    if IsLoad(st.prog[i].kind) then UseOffset(st, i, 1) else UseOffset(st, i, 0)
  }

  /** What visiting the multiplication at `i` leaves: two constants fold,
      one constant lowers it to shifts, none leaves it alone. It is never
      unlinked. */
  predicate MultOutcome(st: IrState, i: nat, v: Visit)
    requires StateValid(st) && i < |st.prog| && IsMult(st.prog[i].kind)
  {
    var c1 := Constant(st, i, 1);
    var c2 := Constant(st, i, 2);
    && !v.removed
    && if c1.Some? && c2.Some? then Fold(st, i, FoldValue(st.prog[i].kind, c1.value, c2.value)) == Ok(v.st)
       else if c1.Some? then Lowered(st, i, c1.value, v.st)
       else if c2.Some? then Lowered(st, i, c2.value, v.st)
       else v.st == st
  }

  /** What visiting index `i` of `st` leaves, case by case of
      `ir_perform_optimizations`. */
  predicate VisitOutcome(st: IrState, i: nat, v: Visit)
    requires StateValid(st) && i < |st.prog|
  {
    var k := st.prog[i].kind;
    if IsMult(k) then MultOutcome(st, i, v)
    else if IsFoldable(k) then Arithmetic(st, i) == Ok(v)
    else if IsLoad(k) || IsStore(k) then Access(st, i) == Ok(v)
    else v == Visit(st, false)
  }

  /** `ir_perform_optimizations`: dispatch on the kind; other kinds are left
      alone. */
  method Perform(st: IrState, i: nat) returns (r: Result<Visit>)
    requires StateValid(st) && i < |st.prog|
    ensures !IsVisited(st.prog[i].kind) ==> r == Ok(Visit(st, false))
    ensures r.Ok? ==> StateValid(r.value.st) && Advances(st.prog, i, r.value)
    ensures r.Ok? ==> VisitOutcome(st, i, r.value)
  {
    var k := st.prog[i].kind;
    if IsMult(k) {
      r := Mult(st, i);
    } else if IsFoldable(k) {
      r := Arithmetic(st, i);
    } else if IsLoad(k) || IsStore(k) {
      r := Access(st, i);
    } else {
      r := Ok(Visit(st, false));
    }
  }

  /** One visit of the sweep: the state before, the index, what it left. */
  datatype Step = Step(before: IrState, index: nat, visit: Visit)

  /** `steps` is the sweep from index `i` of `st` to `final`: each step
      visits the index the previous one left the sweep at (the same one after
      an unlink, the next otherwise) with an outcome `VisitOutcome` allows,
      and the sweep stops exactly at the end of the list. */
  predicate Sweeps(st: IrState, i: nat, steps: seq<Step>, final: IrState)
    decreases |steps|
  {
    && StateValid(st) && i <= |st.prog|
    && if |steps| == 0 then i == |st.prog| && final == st
       else
         && i < |st.prog|
         && steps[0].before == st && steps[0].index == i
         && VisitOutcome(st, i, steps[0].visit)
         && Sweeps(steps[0].visit.st, if steps[0].visit.removed then i else i + 1, steps[1..], final)
  }

  /** The visits that did not unlink their instruction. */
  function Kept(steps: seq<Step>): nat
    decreases |steps|
  {
    if |steps| == 0 then 0 else (if steps[0].visit.removed then 0 else 1) + Kept(steps[1..])
  }

  /** Every element of the final list from index `i` on was visited and kept
      exactly once: one kept visit per element. */
  lemma {:induction false} SweepVisitsEachOnce(st: IrState, i: nat, steps: seq<Step>, final: IrState)
    requires Sweeps(st, i, steps, final)
    ensures i <= |final.prog| && Kept(steps) == |final.prog| - i
    decreases |steps|
  {
    if |steps| > 0 {
      SweepVisitsEachOnce(steps[0].visit.st, if steps[0].visit.removed then i else i + 1, steps[1..], final);
    }
  }

  /** The loop of `ir_start_optimization_1` from index `i`. No instruction's
      `next` field is ever set, so each list element is visited once: after a
      visit the sweep goes on with the element that now follows, which is
      one the visit inserted when it inserted any. Multiplications are only
      ever removed, so the sweep ends. The visits made are returned. */
  method Sweep(st: IrState, i: nat) returns (r: Result<IrState>, steps: seq<Step>)
    requires StateValid(st) && i <= |st.prog|
    ensures r.Ok? ==> StateValid(r.value) && Mults(r.value.prog) <= Mults(st.prog)
    ensures r.Ok? ==> Sweeps(st, i, steps, r.value)
    ensures (forall j :: i <= j < |st.prog| ==> !IsVisited(st.prog[j].kind)) ==> r == Ok(st)
    decreases Mults(st.prog), |st.prog| - i
  {
    if i == |st.prog| {
      return Ok(st), [];
    }
    var vR := Perform(st, i);
    if vR.Err? {
      return Err(vR.failure), [];
    }
    var v := vR.value;
    var rest;
    if v.removed {
      r, rest := Sweep(v.st, i);
    } else {
      r, rest := Sweep(v.st, i + 1);
    }
    steps := [Step(st, i, v)] + rest;
    assert steps[1..] == rest;
  }

  /** `ir_start_optimization_1`. */
  method Optimize(st: IrState) returns (r: Result<IrState>, steps: seq<Step>)
    requires StateValid(st)
    ensures r.Ok? ==> StateValid(r.value) && Mults(r.value.prog) <= Mults(st.prog)
    ensures r.Ok? ==> Sweeps(st, 0, steps, r.value)
    ensures (forall j :: 0 <= j < |st.prog| ==> !IsVisited(st.prog[j].kind)) ==> r == Ok(st)
  {
    r, steps := Sweep(st, 0);
  }
}

=== FILE: opt2.dfy ===
/** The second optimisation pass of optimization-2.c: rounds of deletions
    keyed on labels, scope tags and unused constants, repeated until a round
    changes nothing that sets the flag. */
module Opt2 {
  import opened Wrappers
  import opened IrOps
  import opened Ir
  import HashMap

  /** The list after one action or round, and the `optimization_applied` flag. */
  datatype Round = Round(prog: Program, applied: bool)

  /** The elements of `xs` whose scope tag, read from `ss` at the same place,
      is not `scope`. */
  function Survivors<T>(xs: seq<T>, ss: seq<string>, scope: string): (r: seq<T>)
    requires |xs| == |ss|
    ensures |r| <= |xs|
    ensures |r| < |xs| <==> exists k :: 0 <= k < |ss| && ss[k] == scope
  {
    if |xs| == 0 then []
    else (if ss[0] == scope then [] else [xs[0]]) + Survivors(xs[1..], ss[1..], scope)
  }

  /** No scope tag survives the filter it names. */
  lemma {:induction false} SurvivorsExclude(ss: seq<string>, scope: string)
    ensures forall k :: 0 <= k < |Survivors(ss, ss, scope)| ==> Survivors(ss, ss, scope)[k] != scope
  {
    if |ss| > 0 {
      SurvivorsExclude(ss[1..], scope);
    }
  }

  /** One step of the filter, at index `j` of a longer sequence. */
  lemma SurvivorsStep<T>(xs: seq<T>, ss: seq<string>, scope: string, j: nat)
    requires |xs| == |ss| && j < |xs|
    ensures Survivors(xs[j..], ss[j..], scope)
            == (if ss[j] == scope then [] else [xs[j]]) + Survivors(xs[j + 1..], ss[j + 1..], scope)
  {
    assert xs[j..][1..] == xs[j + 1..];
    assert ss[j..][1..] == ss[j + 1..];
  }

  predicate InScopeFrom(p: Program, scope: string, j: nat) {
    exists k :: j <= k < |p| && p[k].scope == scope
  }

  /** The filtered view of `xs` from `j` on. */
  function FilteredFrom<T>(xs: seq<T>, ss: seq<string>, scope: string, j: nat): seq<T>
    requires |xs| == |ss| && j <= |xs|
  {
    xs[..j] + Survivors(xs[j..], ss[j..], scope)
  }

  /** Erasing an element of the swept scope at `j` keeps the filtered view. */
  lemma EraseStep<T>(xs: seq<T>, ss: seq<string>, scope: string, j: nat)
    requires |xs| == |ss| && j < |xs| && ss[j] == scope
    ensures FilteredFrom(Erase(xs, j), Erase(ss, j), scope, j) == FilteredFrom(xs, ss, scope, j)
  {
    SurvivorsStep(xs, ss, scope, j);
    assert Erase(xs, j)[..j] == xs[..j] && Erase(xs, j)[j..] == xs[j + 1..];
    assert Erase(ss, j)[j..] == ss[j + 1..];
  }

  /** Stepping over an element of another scope keeps the filtered view. */
  lemma SkipStep<T>(xs: seq<T>, ss: seq<string>, scope: string, j: nat)
    requires |xs| == |ss| && j < |xs| && ss[j] != scope
    ensures FilteredFrom(xs, ss, scope, j + 1) == FilteredFrom(xs, ss, scope, j)
  {
    SurvivorsStep(xs, ss, scope, j);
    assert xs[..j + 1] == xs[..j] + [xs[j]];
  }

  /** The sweep `for (iter = ir_list; ...) if (scope matches) remove(iter)`,
      started at index `j`. A removed node keeps its `next` link, so after a
      removal the sweep carries on with the element that took its place. */
  function RemoveScope(p: Program, scope: string, j: nat, deleted: bool): (r: Result<(Program, bool)>)
    requires AllWellFormed(p) && DistinctPositions(p) && j <= |p|
    ensures r.Ok? ==> AllWellFormed(r.value.0) && DistinctPositions(r.value.0)
    ensures r.Ok? ==> |r.value.0| <= |p|
    decreases |p| - j
  {
    if j == |p| then Ok((p, deleted))
    else if p[j].scope == scope then
      RemoveFindsElement(p, j);
      var q :- Remove(p, p[j].pos);
      RemoveScope(q, scope, j, true)
    else
      RemoveScope(p, scope, j + 1, deleted)
  }

  /** The sweep from `j` leaves the elements before `j` as they were. */
  lemma {:induction false} RemoveScopeKeepsPrefix(p: Program, scope: string, j: nat, deleted: bool)
    requires AllWellFormed(p) && DistinctPositions(p) && j <= |p|
    ensures var r := RemoveScope(p, scope, j, deleted);
            r.Ok? ==> j <= |r.value.0| && r.value.0[..j] == p[..j]
    decreases |p| - j
  {
    if j == |p| {
    } else if p[j].scope == scope {
      RemoveFindsElement(p, j);
      if RemoveAt(p, j).Ok? {
        var q := RemoveAt(p, j).value;
        assert RemoveScope(p, scope, j, deleted) == RemoveScope(q, scope, j, true);
        RemoveScopeKeepsPrefix(q, scope, j, true);
        assert q[..j] == p[..j];
      }
    } else {
      assert RemoveScope(p, scope, j, deleted) == RemoveScope(p, scope, j + 1, deleted);
      RemoveScopeKeepsPrefix(p, scope, j + 1, deleted);
      assert p[..j + 1][..j] == p[..j];
    }
  }

  /** With no element of the scope from `j` on, the sweep changes nothing. */
  lemma {:induction false} RemoveScopeUntouched(p: Program, scope: string, j: nat, deleted: bool)
    requires AllWellFormed(p) && DistinctPositions(p) && j <= |p|
    requires !InScopeFrom(p, scope, j)
    ensures RemoveScope(p, scope, j, deleted) == Ok((p, deleted))
    decreases |p| - j
  {
    if j < |p| {
      RemoveScopeUntouched(p, scope, j + 1, deleted);
    }
  }

  /** The sweep keeps, in order, the kinds and scope tags of the elements of
      other scopes, and drops those of the swept scope. */
  lemma {:induction false} RemoveScopeKinds(p: Program, scope: string, j: nat, deleted: bool)
    requires AllWellFormed(p) && DistinctPositions(p) && j <= |p|
    ensures var r := RemoveScope(p, scope, j, deleted);
            r.Ok? ==> Kinds(r.value.0) == FilteredFrom(Kinds(p), Scopes(p), scope, j)
                      && Scopes(r.value.0) == FilteredFrom(Scopes(p), Scopes(p), scope, j)
    decreases |p| - j
  {
    if j == |p| {
      assert Kinds(p)[..j] == Kinds(p) && Scopes(p)[..j] == Scopes(p);
    } else if p[j].scope == scope {
      RemoveFindsElement(p, j);
      if RemoveAt(p, j).Ok? {
        var q := RemoveAt(p, j).value;
        assert RemoveScope(p, scope, j, deleted) == RemoveScope(q, scope, j, true);
        RemoveScopeKinds(q, scope, j, true);
        RemoveAtViews(p, j);
        EraseStep(Kinds(p), Scopes(p), scope, j);
        EraseStep(Scopes(p), Scopes(p), scope, j);
      }
    } else {
      assert RemoveScope(p, scope, j, deleted) == RemoveScope(p, scope, j + 1, deleted);
      RemoveScopeKinds(p, scope, j + 1, deleted);
      SkipStep(Kinds(p), Scopes(p), scope, j);
      SkipStep(Scopes(p), Scopes(p), scope, j);
    }
  }

  /** The flag is raised exactly when an element of the scope was there. */
  lemma {:induction false} RemoveScopeFlag(p: Program, scope: string, j: nat, deleted: bool)
    requires AllWellFormed(p) && DistinctPositions(p) && j <= |p|
    ensures var r := RemoveScope(p, scope, j, deleted);
            r.Ok? ==> (r.value.1 <==> deleted || InScopeFrom(p, scope, j))
    decreases |p| - j
  {
    if j == |p| {
    } else if p[j].scope == scope {
      RemoveFindsElement(p, j);
      if RemoveAt(p, j).Ok? {
        var q := RemoveAt(p, j).value;
        assert RemoveScope(p, scope, j, deleted) == RemoveScope(q, scope, j, true);
        RemoveScopeFlag(q, scope, j, true);
      }
    } else {
      assert RemoveScope(p, scope, j, deleted) == RemoveScope(p, scope, j + 1, deleted);
      RemoveScopeFlag(p, scope, j + 1, deleted);
    }
  }

  /** The sweep fails only when the last element belongs to the scope and is
      not the head: removing it reads a successor that does not exist. */
  lemma {:induction false} RemoveScopeFails(p: Program, scope: string, j: nat, deleted: bool)
    requires AllWellFormed(p) && DistinctPositions(p) && j <= |p|
    ensures var r := RemoveScope(p, scope, j, deleted);
            r.Err? ==> |p| > 1 && p[|p| - 1].scope == scope && r.failure.Undefined?
    decreases |p| - j
  {
    if j == |p| {
    } else if p[j].scope == scope {
      RemoveFindsElement(p, j);
      if RemoveAt(p, j).Ok? {
        var q := RemoveAt(p, j).value;
        assert RemoveScope(p, scope, j, deleted) == RemoveScope(q, scope, j, true);
        RemoveScopeFails(q, scope, j, true);
        if |q| > 0 {
          assert q[|q| - 1].scope == p[|p| - 1].scope;
        }
      }
    } else {
      assert RemoveScope(p, scope, j, deleted) == RemoveScope(p, scope, j + 1, deleted);
      RemoveScopeFails(p, scope, j + 1, deleted);
    }
  }

  /** The sweep keeps, in order, exactly the elements of other scopes from `j`
      on, removes an element exactly when one of the swept scope is there, and
      leaves none of that scope behind. */
  lemma RemoveScopeFilters(p: Program, scope: string, j: nat)
    requires AllWellFormed(p) && DistinctPositions(p) && j <= |p|
    requires RemoveScope(p, scope, j, false).Ok?
    ensures var r := RemoveScope(p, scope, j, false).value.0;
            && (forall k :: j <= k < |r| ==> r[k].scope != scope)
            && (|r| < |p| <==> InScopeFrom(p, scope, j))
            && j <= |r| && (forall k :: 0 <= k < j ==> r[k] == p[k])
  {
    var r := RemoveScope(p, scope, j, false).value.0;
    RemoveScopeKeepsPrefix(p, scope, j, false);
    RemoveScopeKinds(p, scope, j, false);
    var tail := Survivors(Scopes(p)[j..], Scopes(p)[j..], scope);
    SurvivorsExclude(Scopes(p)[j..], scope);
    assert Scopes(r)[j..] == tail;
    TailFree(r, j, scope);
    assert |r| == j + |tail|;
    ShrinksIff(p, scope, j);
    assert forall k :: 0 <= k < j ==> r[k] == r[..j][k];
  }

  /** A list whose scope tags from `j` on avoid `scope` has no element of it
      there. */
  lemma TailFree(r: Program, j: nat, scope: string)
    requires j <= |r| && forall k :: 0 <= k < |Scopes(r)[j..]| ==> Scopes(r)[j..][k] != scope
    ensures forall k :: j <= k < |r| ==> r[k].scope != scope
  {
    forall k | j <= k < |r|
      ensures r[k].scope != scope
    {
      assert r[k].scope == Scopes(r)[j..][k - j];
    }
  }

  /** The filter from `j` drops something exactly when an element of the
      scope is there. */
  lemma ShrinksIff(p: Program, scope: string, j: nat)
    requires j <= |p|
    ensures j + |Survivors(Scopes(p)[j..], Scopes(p)[j..], scope)| < |p| <==> InScopeFrom(p, scope, j)
  {
    if j + |Survivors(Scopes(p)[j..], Scopes(p)[j..], scope)| < |p| {
      var k :| 0 <= k < |Scopes(p)[j..]| && Scopes(p)[j..][k] == scope;
      assert p[j + k].scope == scope;
    }
    if InScopeFrom(p, scope, j) {
      var k :| j <= k < |p| && p[k].scope == scope;
      assert Scopes(p)[j..][k - j] == scope;
    }
  }

  /** Where the element at index `g` is, and which position it carries, once
      the sweep from `j` is over. Removing its predecessor, unless that is the
      head, hands it the predecessor's position; once it is removed itself it
      keeps the last position it had. */
  function Tracked(p: Program, scope: string, j: nat, g: Option<nat>, pos: int): (r: (Option<nat>, int))
    requires AllWellFormed(p) && DistinctPositions(p) && j <= |p|
    requires g.Some? ==> g.value < |p|
    decreases |p| - j
  {
    if j == |p| then (g, pos)
    else if p[j].scope == scope then
      RemoveFindsElement(p, j);
      match RemoveAt(p, j)
      case Err(_) => (g, pos)
      case Ok(q) =>
        if g == Some(j) then Tracked(q, scope, j, None, pos)
        else if g.Some? && g.value > j then
          Tracked(q, scope, j, Some(g.value - 1), if g.value == j + 1 && j > 0 then p[j].pos else pos)
        else Tracked(q, scope, j, g, pos)
    else Tracked(p, scope, j + 1, g, pos)
  }

  /** The tracked element survives the sweep exactly when it lies before `j`
      or belongs to another scope; then it is where `Tracked` says, with the
      same kind and scope, and carries the tracked position. */
  lemma {:induction false} TrackedFollows(p: Program, scope: string, j: nat, g: Option<nat>, pos: int, deleted: bool)
    requires AllWellFormed(p) && DistinctPositions(p) && j <= |p|
    requires g.Some? ==> g.value < |p| && p[g.value].pos == pos
    requires RemoveScope(p, scope, j, deleted).Ok?
    ensures var swept := RemoveScope(p, scope, j, deleted).value.0;
            var t := Tracked(p, scope, j, g, pos);
            && (t.0.Some? <==> g.Some? && (g.value < j || p[g.value].scope != scope))
            && (t.0.Some? ==> t.0.value < |swept| && swept[t.0.value].pos == t.1
                              && swept[t.0.value].kind == p[g.value].kind
                              && swept[t.0.value].scope == p[g.value].scope)
    decreases |p| - j
  {
    if j == |p| {
    } else if p[j].scope == scope {
      RemoveFindsElement(p, j);
      var q := RemoveAt(p, j).value;
      assert RemoveScope(p, scope, j, deleted) == RemoveScope(q, scope, j, true);
      if g == Some(j) {
        TrackedFollows(q, scope, j, None, pos, true);
      } else if g.Some? && g.value > j {
        var pos' := if g.value == j + 1 && j > 0 then p[j].pos else pos;
        assert q[g.value - 1].pos == pos';
        assert q[g.value - 1].kind == p[g.value].kind && q[g.value - 1].scope == p[g.value].scope;
        TrackedFollows(q, scope, j, Some(g.value - 1), pos', true);
      } else {
        TrackedFollows(q, scope, j, g, pos, true);
      }
    } else {
      TrackedFollows(p, scope, j + 1, g, pos, deleted);
    }
  }

  /** With no element of the scope from `j` on, nothing moves. */
  lemma {:induction false} TrackedUntouched(p: Program, scope: string, j: nat, g: Option<nat>, pos: int)
    requires AllWellFormed(p) && DistinctPositions(p) && j <= |p|
    requires g.Some? ==> g.value < |p|
    requires !InScopeFrom(p, scope, j)
    ensures Tracked(p, scope, j, g, pos) == (g, pos)
    decreases |p| - j
  {
    if j < |p| {
      TrackedUntouched(p, scope, j + 1, g, pos);
    }
  }

  // ---------------------------------------------------------------------------
  // The four actions
  // ---------------------------------------------------------------------------

  /** The instruction names `name` as its jump target: operand 0 of a goto,
      operand 1 of a conditional goto. */
  predicate Targets(i: Instr, name: Operand)
    requires WellFormed(i)
  {
    name.Str?
    && ((i.kind == Goto && i.ops[0] == name)
        || (i.kind in {GotoIfFalse, GotoIfTrue} && i.ops[1] == name))
  }

  /** The scope a conditional goto on a known constant makes dead: the target's
      own block when a `gotoIfFalse` tests 1, the target's "_true" block
      otherwise. */
  function DeadScope(kind: Opcode, constant: int, target: string): (s: string)
    requires kind in {GotoIfFalse, GotoIfTrue}
    ensures kind == GotoIfFalse && constant == 1 ==> s == target
    ensures !(kind == GotoIfFalse && constant == 1) ==> s == target + TRUE_SUFFIX
  {
    if kind == GotoIfFalse && constant == 1 then target else target + TRUE_SUFFIX
  }

  /** `ir_remove_dead_label_uncalled`: a conditional goto whose condition is a
      recorded constant takes one block with it, then is removed itself (by its
      position, which a removed successor may have handed on). The flag says
      whether the block had any instruction. */
  function DeadLabelUncalled(p: Program, consts: HashMap.Map, i: nat): (r: Result<Round>)
    requires AllWellFormed(p) && DistinctPositions(p) && i < |p| && consts.size <= |consts.data|
    requires p[i].kind in {GotoIfFalse, GotoIfTrue}
    ensures OperandConst(consts, p[i].ops[0]).None? ==> r == Ok(Round(p, false))
    ensures r.Ok? ==> AllWellFormed(r.value.prog) && DistinctPositions(r.value.prog)
    ensures r.Ok? ==> |r.value.prog| <= |p| && (r.value.applied ==> |r.value.prog| < |p|)
    ensures r.Ok? && !r.value.applied ==> r.value.prog == p || RemoveAt(p, i) == Ok(r.value.prog)
  {
    match OperandConst(consts, p[i].ops[0])
    case None => Ok(Round(p, false))
    case Some(c) =>
      if !p[i].ops[1].Str? then Err(Undefined("the jump target is not a name"))
      else
        var scope := DeadScope(p[i].kind, c, p[i].ops[1].name);
        var swept :- RemoveScope(p, scope, 0, false);
        RemoveScopeFlag(p, scope, 0, false);
        RemoveScopeFilters(p, scope, 0);
        var jump := Tracked(p, scope, 0, Some(i), p[i].pos);
        RemovePreservesDistinct(swept.0, jump.1);
        var q :- Remove(swept.0, jump.1);
        if !swept.1 then
          RemoveScopeUntouched(p, scope, 0, false);
          TrackedUntouched(p, scope, 0, Some(i), p[i].pos);
          RemoveFindsElement(p, i);
          Ok(Round(q, false))
        else Ok(Round(q, true))
  }

  /** After a conditional goto on a known constant nothing of the dead block
      is left, and the flag says whether the block had anything in it. */
  lemma DeadLabelUncalledRemovesBlock(p: Program, consts: HashMap.Map, i: nat, c: int, target: string)
    requires AllWellFormed(p) && DistinctPositions(p) && i < |p| && consts.size <= |consts.data|
    requires p[i].kind in {GotoIfFalse, GotoIfTrue}
    requires OperandConst(consts, p[i].ops[0]) == Some(c) && p[i].ops[1] == Str(target)
    requires DeadLabelUncalled(p, consts, i).Ok?
    ensures var r := DeadLabelUncalled(p, consts, i).value;
            var scope := DeadScope(p[i].kind, c, target);
            && (forall k :: 0 <= k < |r.prog| ==> r.prog[k].scope != scope)
            && (r.applied <==> InScopeFrom(p, scope, 0))
  {
    var scope := DeadScope(p[i].kind, c, target);
    var swept := RemoveScope(p, scope, 0, false).value;
    RemoveScopeFlag(p, scope, 0, false);
    RemoveScopeFilters(p, scope, 0);
    var r := DeadLabelUncalled(p, consts, i).value;
    assert Remove(swept.0, Tracked(p, scope, 0, Some(i), p[i].pos).1) == Ok(r.prog);
    ScopeFreeAfterRemove(swept.0, Tracked(p, scope, 0, Some(i), p[i].pos).1, scope);
  }

  /** Removing by position keeps a list free of a scope free of it. */
  lemma ScopeFreeAfterRemove(p: Program, pos: int, scope: string)
    requires AllWellFormed(p) && Remove(p, pos).Ok?
    requires forall k :: 0 <= k < |p| ==> p[k].scope != scope
    ensures forall k :: 0 <= k < |Remove(p, pos).value| ==> Remove(p, pos).value[k].scope != scope
  {
    var r := Remove(p, pos).value;
    forall k | 0 <= k < |r|
      ensures r[k].scope != scope
    {
      match FindPosition(p, pos, 0)
      case None =>
      case Some(x) =>
        assert r[k].scope == p[if k < x then k else k + 1].scope;
    }
  }

  /** Besides the dead block at most one element, normally the conditional
      goto itself, is removed. */
  lemma DeadLabelUncalledCount(p: Program, consts: HashMap.Map, i: nat, c: int, target: string)
    requires AllWellFormed(p) && DistinctPositions(p) && i < |p| && consts.size <= |consts.data|
    requires p[i].kind in {GotoIfFalse, GotoIfTrue}
    requires OperandConst(consts, p[i].ops[0]) == Some(c) && p[i].ops[1] == Str(target)
    requires DeadLabelUncalled(p, consts, i).Ok?
    ensures var n := |Survivors(Scopes(p), Scopes(p), DeadScope(p[i].kind, c, target))|;
            && n - 1 <= |DeadLabelUncalled(p, consts, i).value.prog| <= n
            && (p[i].scope != DeadScope(p[i].kind, c, target) ==> |DeadLabelUncalled(p, consts, i).value.prog| == n - 1)
  {
    var scope := DeadScope(p[i].kind, c, target);
    var swept := RemoveScope(p, scope, 0, false).value;
    RemoveScopeKinds(p, scope, 0, false);
    assert Scopes(p)[0..] == Scopes(p);
    assert |Scopes(swept.0)| == |Survivors(Scopes(p)[0..], Scopes(p)[0..], scope)|;
    var jump := Tracked(p, scope, 0, Some(i), p[i].pos);
    RemovePreservesDistinct(swept.0, jump.1);
    if p[i].scope != scope {
      TrackedFollows(p, scope, 0, Some(i), p[i].pos, false);
      RemoveFindsElement(swept.0, jump.0.value);
    }
  }

  /** A conditional goto whose predecessor is the whole dead block: removing
      the block hands the goto the block's position (and the label's name as
      operand 1), so the goto is removed by that position, not by the one it
      had before the sweep, which no element carries any more (see
      `HandOffSweep`). Of the four elements two are left. */
  lemma GotoRemovedByInheritedPosition(consts: HashMap.Map)
    requires consts.size <= |consts.data| && ConstValue(consts, 5) == Some(1)
    ensures var p := HandOffExample();
            DeadLabelUncalled(p, consts, 2) == Ok(Round([p[0], p[3].(ops := p[3].ops[1 := Str("f")], pos := 2)], true))
  {
    var p := HandOffExample();
    HandOffSweep();
    var swept := [p[0], Successor(p, 1), p[3]];
    assert OperandConst(consts, p[2].ops[0]) == Some(1);
    assert DeadScope(p[2].kind, 1, "S") == "S";
    HandOffRemoval(swept);
  }

  /** Removing position 2 from the swept example unlinks the goto; the last
      goto inherits its position and takes the label's name as operand 1. */
  lemma HandOffRemoval(swept: Program)
    requires var p := HandOffExample(); 1 < |p| - 1 && swept == [p[0], Successor(p, 1), p[3]]
    ensures var p := HandOffExample();
            Remove(swept, 2) == Ok([p[0], p[3].(ops := p[3].ops[1 := Str("f")], pos := 2)])
  {
    var p := HandOffExample();
    FindDistinct(swept, 1);
    var last := [p[0], Successor(swept, 1)];
    assert swept[..1] + [Successor(swept, 1)] + swept[3..] == last;
    assert Successor(swept, 1) == p[3].(ops := p[3].ops[1 := Str("f")], pos := 2);
  }

  /** The sweep of the example: block `S` goes, and the goto, now at index 1,
      carries position 2 with the label's name as operand 1. No element
      carries its old position 4 any more. */
  lemma HandOffSweep()
    ensures var p := HandOffExample();
            && 1 < |p| - 1
            && Successor(p, 1) == p[2].(ops := p[2].ops[1 := Str("f")], pos := 2)
            && RemoveScope(p, "S", 0, false) == Ok(([p[0], Successor(p, 1), p[3]], true))
            && Tracked(p, "S", 0, Some(2), 4) == (Some(1), 2)
            && FindPosition([p[0], Successor(p, 1), p[3]], p[2].pos, 0).None?
  {
    var p := HandOffExample();
    var swept := [p[0], Successor(p, 1), p[3]];
    assert p[..1] + [Successor(p, 1)] + p[3..] == swept;
    RemoveFindsElement(p, 1);
    assert Remove(p, p[1].pos) == Ok(swept);
    assert swept[1].scope == "f" && swept[2].scope == "f";
    assert RemoveScope(swept, "S", 3, true) == Ok((swept, true));
    assert RemoveScope(swept, "S", 2, true) == Ok((swept, true));
    assert RemoveScope(swept, "S", 1, true) == Ok((swept, true));
    assert Tracked(swept, "S", 3, Some(1), 2) == (Some(1), 2);
    assert Tracked(swept, "S", 2, Some(1), 2) == (Some(1), 2);
    assert Tracked(swept, "S", 1, Some(1), 2) == (Some(1), 2);
    assert Tracked(p, "S", 1, Some(2), 4) == (Some(1), 2);
  }

  /** The operand slots of an instruction that sets only the first two. */
  function TwoOperands(a: Operand, b: Operand): (ops: seq<Operand>)
    ensures |ops| == OPERAND_SLOTS && ops[0] == a && ops[1] == b
  {
    [a, b, Unset, Unset, Unset, Unset, Unset]
  }

  /** A label of function `f`, one instruction of block `S`, a `gotoIfFalse`
      on temporary 5 to `S`, and a goto to `E`, at positions 0, 2, 4 and 6. */
  function HandOffExample(): (p: Program)
    ensures AllWellFormed(p) && DistinctPositions(p) && |p| == 4
    ensures p[2].kind == GotoIfFalse && p[2].ops[0] == Temp(5) && p[2].ops[1] == Str("S")
    ensures p[1].scope == "S" && p[0].scope == p[2].scope == p[3].scope == "f"
  {
    [ Instr(Label, TwoOperands(Str("f"), Unset), "f", 0, true, None),
      Instr(AddSigned, TwoOperands(Unset, Unset), "S", 2, true, None),
      Instr(GotoIfFalse, TwoOperands(Temp(5), Str("S")), "f", 4, true, None),
      Instr(Goto, TwoOperands(Str("E"), Unset), "f", 6, true, None) ]
  }

  /** `ir_remove_dead_label`: a label that no goto or conditional goto anywhere
      in the list names takes its whole scope with it, itself included. */
  function DeadLabel(p: Program, i: nat): (r: Result<Round>)
    requires AllWellFormed(p) && DistinctPositions(p) && i < |p| && p[i].kind == Label
    ensures (exists j :: 0 <= j < |p| && Targets(p[j], p[i].ops[0])) ==> r == Ok(Round(p, false))
    ensures r.Ok? ==> AllWellFormed(r.value.prog) && DistinctPositions(r.value.prog)
    ensures r.Ok? ==> |r.value.prog| <= |p| && (r.value.applied ==> |r.value.prog| < |p|)
    ensures r.Ok? && !r.value.applied ==> r.value.prog == p
    ensures r.Ok? && r.value.applied ==> forall k :: 0 <= k < |r.value.prog| ==> r.value.prog[k].scope != p[i].scope
  {
    if exists j | 0 <= j < |p| :: Targets(p[j], p[i].ops[0]) then Ok(Round(p, false))
    else
      var swept :- RemoveScope(p, p[i].scope, 0, false);
      RemoveScopeFilters(p, p[i].scope, 0);
      Ok(Round(swept.0, true))
  }

  /** The element that was at index `n` sits at the returned index after the
      element at `i` is removed, and carries the returned position. */
  function Shifted(p: Program, i: nat, n: nat): (r: (nat, int))
    requires i < |p| && n < |p| && n != i
    ensures r.0 == if n < i then n else n - 1
  {
    (if n < i then n else n - 1, if n == i + 1 && i > 0 then p[i].pos else p[n].pos)
  }

  lemma ShiftedTracks(p: Program, i: nat, n: nat)
    requires AllWellFormed(p) && i < |p| && n < |p| && n != i && RemoveAt(p, i).Ok?
    ensures Shifted(p, i, n).0 < |RemoveAt(p, i).value|
    ensures RemoveAt(p, i).value[Shifted(p, i, n).0].pos == Shifted(p, i, n).1
    ensures RemoveAt(p, i).value[Shifted(p, i, n).0].kind == p[n].kind
  {
  }

  /** Remove the goto at `i` and then the element that was at `n`, by the
      position that element carries once the goto is gone. */
  function RemoveGotoAndLabel(p: Program, i: nat, n: nat): (r: Result<Program>)
    requires AllWellFormed(p) && DistinctPositions(p) && i < |p| && n < |p| && n != i
    ensures r.Ok? ==> AllWellFormed(r.value) && DistinctPositions(r.value) && |r.value| < |p|
  {
    RemoveFindsElement(p, i);
    var q :- Remove(p, p[i].pos);
    RemovePreservesDistinct(q, Shifted(p, i, n).1);
    Remove(q, Shifted(p, i, n).1)
  }

  /** `ir_remove_dead_goto`: a goto whose next instruction (by position) is the
      label it jumps to is removed together with that label. The label is
      removed by the position it carries once the goto is gone: the goto's own
      when the label was its successor. A goto with no next instruction fails
      the `assert`. */
  function DeadGoto(p: Program, i: nat): (r: Result<Round>)
    requires AllWellFormed(p) && DistinctPositions(p) && i < |p| && p[i].kind == Goto
    ensures NextInstruction(p, p[i].pos).None? <==> r.Err? && r.failure.Aborts?
    ensures r.Ok? ==> AllWellFormed(r.value.prog) && DistinctPositions(r.value.prog)
    ensures r.Ok? ==> |r.value.prog| <= |p| && (r.value.applied ==> |r.value.prog| < |p|)
    ensures r.Ok? && !r.value.applied ==> r.value.prog == p
    ensures r.Ok? ==> (r.value.applied <==>
              var n := NextInstruction(p, p[i].pos).value;
              p[n].kind == Label && p[i].ops[0].Str? && p[n].ops[0] == p[i].ops[0])
  {
    match NextInstruction(p, p[i].pos)
    case None => Err(Aborts("ir_remove_dead_goto: no instruction follows the goto"))
    case Some(n) =>
      if p[n].kind == Label && p[i].ops[0].Str? && p[n].ops[0] == p[i].ops[0] then
        var q :- RemoveGotoAndLabel(p, i, n);
        Ok(Round(q, true))
      else Ok(Round(p, false))
  }

  /** When it applies, the dead goto removal takes out exactly two elements:
      the goto and the label after it. */
  lemma DeadGotoRemovesBoth(p: Program, i: nat)
    requires AllWellFormed(p) && DistinctPositions(p) && i < |p| && p[i].kind == Goto
    requires DeadGoto(p, i).Ok? && DeadGoto(p, i).value.applied
    ensures var n := NextInstruction(p, p[i].pos).value;
            var r := DeadGoto(p, i).value.prog;
            && |r| == |p| - 2
            && Kinds(r) == Erase(Erase(Kinds(p), i), Shifted(p, i, n).0)
  {
    var n := NextInstruction(p, p[i].pos).value;
    assert DeadGoto(p, i).value.prog == RemoveGotoAndLabel(p, i, n).value;
    RemoveFindsElement(p, i);
    var q := RemoveAt(p, i).value;
    ShiftedTracks(p, i, n);
    RemoveFindsElement(q, Shifted(p, i, n).0);
    RemoveAtViews(p, i);
    RemoveAtViews(q, Shifted(p, i, n).0);
  }

  /** `ir_remove_unused_const`: a constant marked unused goes. */
  function UnusedConst(p: Program, i: nat): (r: Result<Round>)
    requires AllWellFormed(p) && DistinctPositions(p) && i < |p| && p[i].kind == ConstInt
    ensures p[i].isUsed ==> r == Ok(Round(p, false))
    ensures !p[i].isUsed ==> r == (match RemoveAt(p, i) case Ok(q) => Ok(Round(q, true)) case Err(f) => Err(f))
    ensures r.Ok? ==> AllWellFormed(r.value.prog) && DistinctPositions(r.value.prog)
  {
    if p[i].isUsed then Ok(Round(p, false))
    else
      RemoveFindsElement(p, i);
      var q :- Remove(p, p[i].pos);
      Ok(Round(q, true))
  }

  /** `ir_perform_optimizations`: dispatch on the kind; other kinds are left alone. */
  function Perform(p: Program, consts: HashMap.Map, i: nat): (r: Result<Round>)
    requires AllWellFormed(p) && DistinctPositions(p) && i < |p| && consts.size <= |consts.data|
    ensures p[i].kind !in {Goto, Label, GotoIfFalse, GotoIfTrue, ConstInt} ==> r == Ok(Round(p, false))
    ensures r.Ok? ==> AllWellFormed(r.value.prog) && DistinctPositions(r.value.prog)
    ensures r.Ok? ==> |r.value.prog| <= |p| && (r.value.applied ==> |r.value.prog| < |p|)
    ensures r.Ok? && !r.value.applied ==>
              r.value.prog == p
              || (p[i].kind in {GotoIfFalse, GotoIfTrue} && RemoveAt(p, i) == Ok(r.value.prog))
    ensures p[i].kind == ConstInt ==> (r.Ok? && r.value.applied <==> !p[i].isUsed && RemoveAt(p, i).Ok?)
  {
    var k := p[i].kind;
    if k == Goto then DeadGoto(p, i)
    else if k == Label then DeadLabel(p, i)
    else if k == GotoIfFalse || k == GotoIfTrue then DeadLabelUncalled(p, consts, i)
    else if k == ConstInt then UnusedConst(p, i)
    else Ok(Round(p, false))
  }

  // ---------------------------------------------------------------------------
  // Rounds and the driver
  // ---------------------------------------------------------------------------

  /** `ir_start_optimization_round` from index `i`: visit each element in turn
      and stop at the first action that raises the flag. An action that removed
      its own instruction without raising the flag lets the walk carry on with
      the element that took its place. */
  function RoundFrom(p: Program, consts: HashMap.Map, i: nat): (r: Result<Round>)
    requires AllWellFormed(p) && DistinctPositions(p) && i <= |p| && consts.size <= |consts.data|
    ensures r.Ok? ==> AllWellFormed(r.value.prog) && DistinctPositions(r.value.prog)
    ensures r.Ok? ==> |r.value.prog| <= |p| && (r.value.applied ==> |r.value.prog| < |p|)
    ensures r.Ok? && !r.value.applied ==> i <= |r.value.prog| && r.value.prog[..i] == p[..i]
    decreases |p| - i
  {
    if i == |p| then Ok(Round(p, false))
    else
      var aR := Perform(p, consts, i);
      if aR.Err? then Err(aR.failure)
      else if aR.value.applied then aR
      else if |aR.value.prog| < |p| then
        assert aR.value.prog[..i] == p[..i];
        RoundFrom(aR.value.prog, consts, i)
      else
        assert aR.value.prog == p;
        RoundFrom(aR.value.prog, consts, i + 1)
  }

  /** A round whose first flag-raising action is at index `k` (every action
      before it leaves the list as it is) returns exactly what that action does. */
  lemma {:induction false} RoundStopsAtFirstFlag(p: Program, consts: HashMap.Map, i: nat, k: nat)
    requires AllWellFormed(p) && DistinctPositions(p) && i <= k < |p| && consts.size <= |consts.data|
    requires forall j :: i <= j < k ==> Perform(p, consts, j) == Ok(Round(p, false))
    requires Perform(p, consts, k).Ok? && Perform(p, consts, k).value.applied
    ensures RoundFrom(p, consts, i) == Perform(p, consts, k)
    decreases k - i
  {
    if i < k {
      assert Perform(p, consts, i) == Ok(Round(p, false));
      assert RoundFrom(p, consts, i) == RoundFrom(p, consts, i + 1);
      RoundStopsAtFirstFlag(p, consts, i + 1, k);
    } else {
      assert RoundFrom(p, consts, i) == Perform(p, consts, i);
    }
  }

  /** One quiet step of a round: the action at `i` raised no flag and either
      left the list alone, so the walk moves on, or removed its own element,
      so the walk stays at `i`. */
  lemma QuietStep(p: Program, consts: HashMap.Map, i: nat)
    requires AllWellFormed(p) && DistinctPositions(p) && i < |p| && consts.size <= |consts.data|
    requires RoundFrom(p, consts, i).Ok? && !RoundFrom(p, consts, i).value.applied
    ensures Perform(p, consts, i).Ok? && !Perform(p, consts, i).value.applied
    ensures var a := Perform(p, consts, i).value;
            |a.prog| < |p| ==> RoundFrom(p, consts, i) == RoundFrom(a.prog, consts, i)
    ensures var a := Perform(p, consts, i).value;
            |a.prog| >= |p| ==> a.prog == p && RoundFrom(p, consts, i) == RoundFrom(p, consts, i + 1)
                                && (p[i].kind == ConstInt ==> p[i].isUsed)
  {
  }

  /** Every constant from index `i` on is marked used. */
  predicate ConstsUsedFrom(q: Program, i: nat) {
    forall k :: i <= k < |q| && q[k].kind == ConstInt ==> q[k].isUsed
  }

  /** A round that raises no flag leaves no unused constant from `i` on. */
  lemma {:induction false} QuietRoundKeepsUsedConsts(p: Program, consts: HashMap.Map, i: nat)
    requires AllWellFormed(p) && DistinctPositions(p) && i <= |p| && consts.size <= |consts.data|
    requires RoundFrom(p, consts, i).Ok? && !RoundFrom(p, consts, i).value.applied
    ensures ConstsUsedFrom(RoundFrom(p, consts, i).value.prog, i)
    decreases |p| - i
  {
    if i < |p| {
      QuietStep(p, consts, i);
      var a := Perform(p, consts, i).value;
      if |a.prog| < |p| {
        QuietRoundKeepsUsedConsts(a.prog, consts, i);
      } else {
        QuietRoundKeepsUsedConsts(p, consts, i + 1);
        QuietHead(p, consts, i);
      }
    }
  }

  lemma QuietHead(p: Program, consts: HashMap.Map, i: nat)
    requires AllWellFormed(p) && DistinctPositions(p) && i < |p| && consts.size <= |consts.data|
    requires RoundFrom(p, consts, i + 1).Ok? && !RoundFrom(p, consts, i + 1).value.applied
    requires ConstsUsedFrom(RoundFrom(p, consts, i + 1).value.prog, i + 1)
    requires p[i].kind == ConstInt ==> p[i].isUsed
    ensures ConstsUsedFrom(RoundFrom(p, consts, i + 1).value.prog, i)
  {
    var q := RoundFrom(p, consts, i + 1).value.prog;
    assert q[i] == q[..i + 1][i] == p[i];
  }

  /** `ir_start_optimization_2`: rounds until one raises no flag. Every round
      that raises the flag removes something, so the list length bounds the
      number of rounds. */
  function Optimize(p: Program, consts: HashMap.Map): (r: Result<Program>)
    requires AllWellFormed(p) && DistinctPositions(p) && consts.size <= |consts.data|
    ensures r.Ok? ==> AllWellFormed(r.value) && DistinctPositions(r.value) && |r.value| <= |p|
    decreases |p|
  {
    var round :- RoundFrom(p, consts, 0);
    if round.applied then Optimize(round.prog, consts) else Ok(round.prog)
  }

  /** When the pass succeeds, no constant marked unused is left in the list. */
  lemma {:induction false} OptimizeLeavesNoUnusedConst(p: Program, consts: HashMap.Map)
    requires AllWellFormed(p) && DistinctPositions(p) && consts.size <= |consts.data|
    requires Optimize(p, consts).Ok?
    ensures ConstsUsedFrom(Optimize(p, consts).value, 0)
    decreases |p|
  {
    var round := RoundFrom(p, consts, 0).value;
    if round.applied {
      OptimizeLeavesNoUnusedConst(round.prog, consts);
    } else {
      QuietRoundKeepsUsedConsts(p, consts, 0);
    }
  }
}

=== FILE: scope_stack.dfy ===
/** The static stack of helpers/stack.c that holds the open symbol tables.

    The C stack is a global array of N pointers (zero-initialised, so every slot
    starts NULL) and a global index `top` that starts at -1.
 */
module ScopeStack {
  import opened Wrappers

  /** The capacity N. */
  const CAPACITY: nat := 15

  datatype Stack<T> = Stack(top: int, slots: seq<Option<T>>)

  /** -1 <= top <= N-1, and every slot up to `top` holds a pushed element. */
  predicate Valid<T>(s: Stack<T>) {
    && |s.slots| == CAPACITY
    && -1 <= s.top < CAPACITY
    && forall i :: 0 <= i <= s.top ==> s.slots[i].Some?
  }

  /** The elements on the stack, bottom first. */
  function Contents<T>(s: Stack<T>): (c: seq<T>)
    requires Valid(s)
    ensures |c| == s.top + 1
  {
    seq(s.top + 1, i requires 0 <= i <= s.top && Valid(s) => s.slots[i].value)
  }

  function Empty<T>(): (s: Stack<T>)
    ensures Valid(s) && Contents(s) == []
  {
    Stack(-1, seq(CAPACITY, _ => None))
  }

  predicate IsFull<T>(s: Stack<T>) {
    s.top == CAPACITY - 1
  }

  predicate IsEmpty<T>(s: Stack<T>) {
    s.top == -1
  }

  /** `push_to_stack`: stores at top+1, or, on a full stack, changes nothing. */
  function Push<T>(s: Stack<T>, x: T): (r: Stack<T>)
    requires Valid(s)
    ensures Valid(r)
    ensures IsFull(s) ==> r == s
    ensures !IsFull(s) ==> r.top == s.top + 1 && r.slots[r.top] == Some(x)
    ensures !IsFull(s) ==> Contents(r) == Contents(s) + [x]
  {
    if IsFull(s) then s
    else
      var r := Stack(s.top + 1, s.slots[s.top + 1 := Some(x)]);
      assert Contents(r) == Contents(s) + [x];
      r
  }

  /** `pop_from_stack`: the top element and the shorter stack, or NULL and no change. */
  function Pop<T>(s: Stack<T>): (r: (Stack<T>, Option<T>))
    requires Valid(s)
    ensures Valid(r.0)
    ensures IsEmpty(s) ==> r == (s, None)
    ensures !IsEmpty(s) ==> r.0.top == s.top - 1 && r.1 == Some(Contents(s)[s.top])
    ensures !IsEmpty(s) ==> Contents(r.0) + [r.1.value] == Contents(s)
  {
    if IsEmpty(s) then (s, None)
    else
      var r := (s.(top := s.top - 1), s.slots[s.top]);
      assert Contents(r.0) + [r.1.value] == Contents(s);
      r
  }

  /** `peek_into_stack`: the top element; the C code reads index -1 on an empty stack. */
  function Peek<T>(s: Stack<T>): (x: T)
    requires Valid(s) && !IsEmpty(s)
    ensures x == Contents(s)[|Contents(s)| - 1]
  {
    s.slots[s.top].value
  }

  /** Pushing onto a stack that is not full and popping again yields the pushed
      element and the elements that were there before. */
  lemma PushThenPop<T>(s: Stack<T>, x: T)
    requires Valid(s) && !IsFull(s)
    ensures Pop(Push(s, x)).1 == Some(x)
    ensures Contents(Pop(Push(s, x)).0) == Contents(s)
    ensures Pop(Push(s, x)).0.top == s.top
  {
    var pushed := Push(s, x);
    assert Contents(pushed) == Contents(s) + [x];
  }
}

=== FILE: strings.dfy ===
/** The C string search the compiler relies on: `strstr(s, sub) != NULL`. */
module Strings {

  /** `sub` occurs in `s`, found by trying every start from the left as `strstr` does. */
  predicate Contains(s: string, sub: string)
    decreases |s|
  {
    |sub| <= |s| && (s[..|sub|] == sub || (|s| > 0 && Contains(s[1..], sub)))
  }

  /** `sub` occurs in `s` at index `i`. */
  predicate OccursAt(s: string, sub: string, i: nat) {
    i + |sub| <= |s| && s[i..i + |sub|] == sub
  }

  lemma ContainsPrefix(sub: string, rest: string)
    ensures Contains(sub + rest, sub)
  {
    assert (sub + rest)[..|sub|] == sub;
  }

  /** The left-to-right search finds `sub` exactly when it occurs somewhere. */
  lemma {:induction false} ContainsMeansOccurs(s: string, sub: string)
    ensures Contains(s, sub) <==> exists i: nat :: OccursAt(s, sub, i)
    decreases |s|
  {
    if |sub| <= |s| && s[..|sub|] != sub && |s| > 0 {
      ContainsMeansOccurs(s[1..], sub);
      if exists i: nat :: OccursAt(s, sub, i) {
        var i: nat :| OccursAt(s, sub, i);
        assert i != 0;
        assert s[1..][i - 1..i - 1 + |sub|] == s[i..i + |sub|];
        assert OccursAt(s[1..], sub, i - 1);
      }
      if exists i: nat :: OccursAt(s[1..], sub, i) {
        var i: nat :| OccursAt(s[1..], sub, i);
        assert s[1..][i..i + |sub|] == s[i + 1..i + 1 + |sub|];
        assert OccursAt(s, sub, i + 1);
      }
    } else if |sub| <= |s| && s[..|sub|] == sub {
      assert OccursAt(s, sub, 0);
    }
  }
}

=== FILE: symbols.dfy ===
/** The symbol tables of symbol.c: nested scopes with their symbols, the
    file-wide table of string literals and the per-procedure table of
    statement labels.

    The C tables are heap records linked by parent pointers and children
    lists, and the counters are process-wide globals. Here the tables live in
    a sequence and refer to each other by index, and every counter is a field
    of the state record.
 */
module Symbols {
  import opened Wrappers
  import opened Integers
  import opened Strings
  import opened TypeTree
  import ScopeStack

  /** `enum symbol_table_kind`. */
  datatype TableKind = FileScope | ProcedureScope | BlockScope

  /** `symbol_table_kind_map`. */
  function KindName(k: TableKind): string {
    match k
    case FileScope => "FILE_SCOPE"
    case ProcedureScope => "PROCEDURE_SCOPE"
    case BlockScope => "BLOCK_SCOPE"
  }

  /** `struct symbol`. The `result` slot the later stages fill is not kept. */
  datatype Symbol = Symbol(
    name: string,
    id: nat,
    tag: string,
    isUsed: bool,
    isFunctionDefined: bool,
    isSystemCall: bool,
    argNumber: int,
    onlyForType: bool,
    typeTree: TypeTree)

  /** `struct statement_label`; `parent` is the index of its procedure's table. */
  datatype StatementLabel = StatementLabel(labelName: string, id: nat, isDefined: bool, isUsed: bool, parent: nat)

  /** `struct string_symbol`: a literal and the assembler label it gets. */
  datatype StringSymbol = StringSymbol(text: string, id: string)

  /** `struct symbol_table`. Symbols are newest first, as the C list is.
      `procedureName` is the name a procedure table is opened for. */
  datatype Table = Table(
    kind: TableKind,
    variables: seq<Symbol>,
    parent: Option<nat>,
    children: seq<nat>,
    labels: seq<StatementLabel>,
    procedureName: string)

  /** The globals of symbol.c: every table created so far, the id counters,
      the scope levels, the scope stack and the string-literal table. */
  datatype SymState = SymState(
    tables: seq<Table>,
    nextSymbolId: nat,
    nextStringId: nat,
    nextStatementId: nat,
    fileLevel: nat,
    procedureLevel: nat,
    blockLevel: nat,
    stack: ScopeStack.Stack<nat>,
    strings: seq<StringSymbol>)

  // ---------------------------------------------------------------------------
  // System calls
  // ---------------------------------------------------------------------------

  const SYSCALL: string := "syscall"

  /** `is_syscall`: the name mentions "syscall" anywhere. */
  function IsSyscall(name: string): (r: bool)
    ensures r <==> exists i: nat :: OccursAt(name, SYSCALL, i)
  {
    ContainsMeansOccurs(name, SYSCALL);
    Contains(name, SYSCALL)
  }

  // ---------------------------------------------------------------------------
  // Well-formed states
  // ---------------------------------------------------------------------------

  /** Ids in a symbol list strictly decrease from the newest to the oldest,
      and all of them were handed out already. */
  predicate IdsDescending(vs: seq<Symbol>, next: nat) {
    && (forall i :: 0 <= i < |vs| ==> vs[i].id < next)
    && (forall i, j :: 0 <= i < j < |vs| ==> vs[i].id > vs[j].id)
  }

  /** The `n`th interned string's label. */
  function StringLabel(n: nat): string {
    "_StringLabel_" + NatToDecimal(n)
  }

  /** The string table holds each literal once, the `i`th under label `i`, and
      the counter is its length. */
  predicate StringsValid(strings: seq<StringSymbol>, next: nat) {
    && next == |strings|
    && (forall i :: 0 <= i < |strings| ==> strings[i].id == StringLabel(i))
    && (forall i, j :: 0 <= i < j < |strings| ==> strings[i].text != strings[j].text)
  }

  /** A statement-label table names each label once, with ids already handed out. */
  predicate LabelsValid(labels: seq<StatementLabel>, next: nat) {
    && (forall i :: 0 <= i < |labels| ==> 1 <= labels[i].id <= next)
    && (forall i, j :: 0 <= i < j < |labels| ==> labels[i].labelName != labels[j].labelName)
  }

  /** Parents were created before their children, and every index in use
      names an existing table. */
  predicate Linked(tables: seq<Table>) {
    forall t :: 0 <= t < |tables| ==>
      && (tables[t].parent.Some? ==> tables[t].parent.value < t)
      && (forall c :: c in tables[t].children ==> c < |tables|)
  }

  predicate Valid(st: SymState) {
    && Linked(st.tables)
    && ScopeStack.Valid(st.stack)
    && (forall x :: x in ScopeStack.Contents(st.stack) ==> x < |st.tables|)
    && (forall t :: 0 <= t < |st.tables| ==> IdsDescending(st.tables[t].variables, st.nextSymbolId))
    && (forall t :: 0 <= t < |st.tables| ==> LabelsValid(st.tables[t].labels, st.nextStatementId))
    && StringsValid(st.strings, st.nextStringId)
  }

  /** The state before the first table: every counter at 0, the stack empty. */
  function Initial(): (st: SymState)
    ensures Valid(st) && |st.tables| == 0
  {
    SymState([], 0, 0, 0, 0, 0, 0, ScopeStack.Empty(), [])
  }

  // ---------------------------------------------------------------------------
  // Tables
  // ---------------------------------------------------------------------------

  /** `symbol_create_table`: a new table without parent, children or symbols;
      its kind's level goes up by one and the table is pushed on the scope stack. */
  function CreateTable(st: SymState, kind: TableKind): (r: (SymState, nat))
    requires Valid(st)
    ensures Valid(r.0) && r.1 == |st.tables| && |r.0.tables| == |st.tables| + 1
    ensures r.0.tables == st.tables + [r.0.tables[r.1]]
    ensures r.0.tables[r.1] == Table(kind, [], None, [], [], "")
    ensures r.0.fileLevel == st.fileLevel + (if kind == FileScope then 1 else 0)
    ensures r.0.procedureLevel == st.procedureLevel + (if kind == ProcedureScope then 1 else 0)
    ensures r.0.blockLevel == st.blockLevel + (if kind == BlockScope then 1 else 0)
    ensures r.0.stack == ScopeStack.Push(st.stack, r.1)
    ensures r.0.nextSymbolId == st.nextSymbolId && r.0.strings == st.strings
  {
    var idx := |st.tables|;
    var tables := st.tables + [Table(kind, [], None, [], [], "")];
    var st1 := st.(
      tables := tables,
      fileLevel := st.fileLevel + (if kind == FileScope then 1 else 0),
      procedureLevel := st.procedureLevel + (if kind == ProcedureScope then 1 else 0),
      blockLevel := st.blockLevel + (if kind == BlockScope then 1 else 0),
      stack := ScopeStack.Push(st.stack, idx));
    assert forall x :: x in ScopeStack.Contents(st1.stack) ==> x in ScopeStack.Contents(st.stack) || x == idx;
    (st1, idx)
  }

  /** `insert_child`: the child goes to the end of the parent's children list. */
  function InsertChild(st: SymState, parent: nat, child: nat): (r: SymState)
    requires Valid(st) && parent < |st.tables| && child < |st.tables|
    ensures Valid(r) && |r.tables| == |st.tables|
    ensures r.tables[parent].children == st.tables[parent].children + [child]
    ensures forall t :: 0 <= t < |st.tables| && t != parent ==> r.tables[t] == st.tables[t]
    ensures r.tables[parent] == st.tables[parent].(children := r.tables[parent].children)
  {
    var p := st.tables[parent];
    st.(tables := st.tables[parent := p.(children := p.children + [child])])
  }

  /** What symbol.c:766-768 and 837-840 do to open a scope: create the table,
      point it at its parent and record it as the parent's last child. A
      procedure table also remembers the procedure's name. */
  function OpenTable(st: SymState, kind: TableKind, parent: nat, name: string): (r: (SymState, nat))
    requires Valid(st) && parent < |st.tables|
    ensures Valid(r.0) && r.1 == |st.tables| && |r.0.tables| == |st.tables| + 1
    ensures r.0.tables[r.1].parent == Some(parent) && r.0.tables[r.1].kind == kind
    ensures r.0.tables[r.1].variables == [] && r.0.tables[r.1].labels == []
    ensures r.0.tables[parent].children == st.tables[parent].children + [r.1]
  {
    var (st1, idx) := CreateTable(st, kind);
    var t := st1.tables[idx].(parent := Some(parent), procedureName := if kind == ProcedureScope then name else "");
    var st2 := st1.(tables := st1.tables[idx := t]);
    assert Linked(st2.tables) by {
      forall u | 0 <= u < |st2.tables|
        ensures st2.tables[u].parent.Some? ==> st2.tables[u].parent.value < u
        ensures forall c :: c in st2.tables[u].children ==> c < |st2.tables|
      {
        if u != idx {
          assert st2.tables[u] == st1.tables[u];
        }
      }
    }
    (InsertChild(st2, parent, idx), idx)
  }

  // ---------------------------------------------------------------------------
  // Symbols
  // ---------------------------------------------------------------------------

  /** `symbol_get`: the first, that is newest, symbol of that name in the list. */
  function Get(vs: seq<Symbol>, name: string): (r: Option<Symbol>)
    ensures r.Some? ==> r.value in vs && r.value.name == name
    ensures r.None? <==> forall i :: 0 <= i < |vs| ==> vs[i].name != name
  {
    if |vs| == 0 then None
    else if vs[0].name == name then Some(vs[0])
    else Get(vs[1..], name)
  }

  /** The level a table of this kind records in a new symbol's tag. */
  function Level(st: SymState, k: TableKind): nat {
    match k
    case FileScope => st.fileLevel
    case ProcedureScope => st.procedureLevel
    case BlockScope => st.blockLevel
  }

  /** `symbol_put`: a new symbol with the next id, argument number -1, every
      flag clear and the tag "<level>_<KIND>", in front of the table's list. */
  function Put(st: SymState, t: nat, name: string, tree: TypeTree): (r: (SymState, Symbol))
    requires Valid(st) && t < |st.tables|
    ensures Valid(r.0) && |r.0.tables| == |st.tables|
    ensures r.1.id == st.nextSymbolId && r.0.nextSymbolId == st.nextSymbolId + 1
    ensures r.1.name == name && r.1.argNumber == -1 && !r.1.isUsed && !r.1.isFunctionDefined
    ensures r.1.tag == NatToDecimal(Level(st, st.tables[t].kind)) + "_" + KindName(st.tables[t].kind)
    ensures r.0.tables[t].variables == [r.1] + st.tables[t].variables
    ensures forall u :: 0 <= u < |st.tables| && u != t ==> r.0.tables[u] == st.tables[u]
  {
    var table := st.tables[t];
    var tag := NatToDecimal(Level(st, table.kind)) + "_" + KindName(table.kind);
    var s := Symbol(name, st.nextSymbolId, tag, false, false, false, -1, false, tree);
    var tables := st.tables[t := table.(variables := [s] + table.variables)];
    var r := st.(tables := tables, nextSymbolId := st.nextSymbolId + 1);
    assert forall u :: 0 <= u < |tables| ==> IdsDescending(tables[u].variables, r.nextSymbolId) by {
      forall u | 0 <= u < |tables|
        ensures IdsDescending(tables[u].variables, r.nextSymbolId)
      {
        assert IdsDescending(st.tables[u].variables, st.nextSymbolId);
      }
    }
    (r, s)
  }

  /** After `Put`, looking the name up in that table finds the new symbol,
      every other name finds what it found before, and the new symbol's id is
      larger than every id already in the table. */
  lemma PutThenGet(st: SymState, t: nat, name: string, tree: TypeTree, other: string)
    requires Valid(st) && t < |st.tables| && other != name
    ensures Get(Put(st, t, name, tree).0.tables[t].variables, name) == Some(Put(st, t, name, tree).1)
    ensures Get(Put(st, t, name, tree).0.tables[t].variables, other) == Get(st.tables[t].variables, other)
    ensures forall s :: s in st.tables[t].variables ==> s.id < Put(st, t, name, tree).1.id
  {
    var vs := Put(st, t, name, tree).0.tables[t].variables;
    assert vs[1..] == st.tables[t].variables;
    assert IdsDescending(st.tables[t].variables, st.nextSymbolId);
  }

  /** The tables from `t` up to the outermost one, nearest first. */
  function Chain(tables: seq<Table>, t: nat): (c: seq<nat>)
    requires Linked(tables) && t < |tables|
    ensures |c| > 0 && c[0] == t
    ensures forall i :: 0 <= i < |c| ==> c[i] < |tables|
    decreases t
  {
    match tables[t].parent
    case None => [t]
    case Some(p) => [t] + Chain(tables, p)
  }

  /** `search_symbol_table` from an existing table: look in the table, then in
      its parent, and so on. */
  function Search(tables: seq<Table>, name: string, t: nat): (r: Option<Symbol>)
    requires Linked(tables) && t < |tables|
    decreases t
  {
    var here := Get(tables[t].variables, name);
    if here.Some? then here
    else if tables[t].parent.None? then None
    else Search(tables, name, tables[t].parent.value)
  }

  /** No table among `c` holds the name. */
  predicate AbsentFrom(tables: seq<Table>, c: seq<nat>, name: string)
    requires forall i :: 0 <= i < |c| ==> c[i] < |tables|
  {
    forall k :: 0 <= k < |c| ==> Get(tables[c[k]].variables, name).None?
  }

  /** The search answers with nothing exactly when no table on the parent
      chain holds the name. */
  lemma {:induction false} SearchFailsOnlyWhenAbsent(tables: seq<Table>, name: string, t: nat)
    requires Linked(tables) && t < |tables|
    ensures Search(tables, name, t).None? <==> AbsentFrom(tables, Chain(tables, t), name)
    decreases t
  {
    var c := Chain(tables, t);
    if tables[t].parent.Some? {
      var p := tables[t].parent.value;
      SearchFailsOnlyWhenAbsent(tables, name, p);
      var cp := Chain(tables, p);
      assert c == [t] + cp;
      if AbsentFrom(tables, c, name) {
        assert AbsentFrom(tables, cp, name) by {
          forall k | 0 <= k < |cp| ensures Get(tables[cp[k]].variables, name).None? {
            assert cp[k] == c[k + 1];
          }
        }
      }
    }
  }

  /** When the search answers, it is with the symbol of the nearest table on
      the parent chain that holds the name. */
  lemma {:induction false} SearchFindsNearest(tables: seq<Table>, name: string, t: nat)
    requires Linked(tables) && t < |tables| && Search(tables, name, t).Some?
    ensures exists k :: 0 <= k < |Chain(tables, t)|
              && Search(tables, name, t) == Get(tables[Chain(tables, t)[k]].variables, name)
              && AbsentFrom(tables, Chain(tables, t)[..k], name)
    decreases t
  {
    var c := Chain(tables, t);
    if Get(tables[t].variables, name).Some? {
      assert AbsentFrom(tables, c[..0], name);
      assert Search(tables, name, t) == Get(tables[c[0]].variables, name);
    } else {
      var p := tables[t].parent.value;
      SearchFindsNearest(tables, name, p);
      var cp := Chain(tables, p);
      assert c == [t] + cp;
      var k :| 0 <= k < |cp| && Search(tables, name, p) == Get(tables[cp[k]].variables, name)
               && AbsentFrom(tables, cp[..k], name);
      assert c[k + 1] == cp[k];
      assert c[..k + 1] == [t] + cp[..k];
      assert AbsentFrom(tables, c[..k + 1], name);
    }
  }

  // ---------------------------------------------------------------------------
  // String literals
  // ---------------------------------------------------------------------------

  /** `search_string_literal_table`: the label of the literal, or "". */
  function SearchStringLiteral(strings: seq<StringSymbol>, text: string): (r: string)
    ensures (forall i :: 0 <= i < |strings| ==> strings[i].text != text) ==> r == ""
    ensures forall i :: (0 <= i < |strings| && strings[i].text == text
                          && (forall j :: 0 <= j < i ==> strings[j].text != text)) ==> r == strings[i].id
  {
    if |strings| == 0 then ""
    else if strings[0].text == text then strings[0].id
    else
      var r := SearchStringLiteral(strings[1..], text);
      assert forall i :: 1 <= i < |strings| ==> strings[1..][i - 1] == strings[i];
      r
  }

  /** `create_node_for_string_table`: a literal already in the table gets its
      entry back and nothing changes; a new one is appended under the next label. */
  function InternString(st: SymState, text: string): (r: (SymState, StringSymbol))
    requires Valid(st)
    ensures Valid(r.0) && r.1.text == text && r.0.tables == st.tables
    ensures (exists i :: 0 <= i < |st.strings| && st.strings[i].text == text) ==> r.0 == st && r.1 in st.strings
    ensures (forall i :: 0 <= i < |st.strings| ==> st.strings[i].text != text) ==>
              r.1 == StringSymbol(text, StringLabel(|st.strings|)) && r.0.strings == st.strings + [r.1]
  {
    match FindString(st.strings, text, 0)
    case Some(i) => (st, st.strings[i])
    case None =>
      var s := StringSymbol(text, StringLabel(st.nextStringId));
      (st.(strings := st.strings + [s], nextStringId := st.nextStringId + 1), s)
  }

  /** The index of the first entry holding `text`, searching from `from`. */
  function FindString(strings: seq<StringSymbol>, text: string, from: nat): (r: Option<nat>)
    requires from <= |strings|
    ensures r.Some? ==> from <= r.value < |strings| && strings[r.value].text == text
    ensures r.None? <==> forall i :: from <= i < |strings| ==> strings[i].text != text
    decreases |strings| - from
  {
    if from == |strings| then None
    else if strings[from].text == text then Some(from)
    else FindString(strings, text, from + 1)
  }

  /** Interning a literal makes the string table answer with its label, and
      interning it again changes nothing. */
  lemma InternThenSearch(st: SymState, text: string)
    requires Valid(st)
    ensures SearchStringLiteral(InternString(st, text).0.strings, text) == InternString(st, text).1.id
    ensures InternString(InternString(st, text).0, text) == InternString(st, text)
  {
    var r := InternString(st, text);
    var ss := r.0.strings;
    var i :| 0 <= i < |ss| && ss[i] == r.1;
    assert forall j :: 0 <= j < |ss| && ss[j].text == text ==> j == i;
  }

  // ---------------------------------------------------------------------------
  // Statement labels
  // ---------------------------------------------------------------------------

  /** The table itself or its nearest ancestor of procedure scope. Running off
      the top of the chain makes the C loop read the kind through NULL. */
  function ProcedureOf(tables: seq<Table>, t: nat): (r: Result<nat>)
    requires Linked(tables) && t < |tables|
    ensures r.Ok? ==> r.value < |tables| && tables[r.value].kind == ProcedureScope && r.value in Chain(tables, t)
    ensures r.Err? <==> forall k :: 0 <= k < |Chain(tables, t)| ==> tables[Chain(tables, t)[k]].kind != ProcedureScope
    decreases t
  {
    if tables[t].kind == ProcedureScope then Ok(t)
    else
      match tables[t].parent
      case None => Err(Undefined("create_node_for_statement_label_table: no procedure scope"))
      case Some(p) =>
        var r := ProcedureOf(tables, p);
        assert Chain(tables, t) == [t] + Chain(tables, p);
        r
  }

  /** The index of the label entry with that name. */
  function FindLabel(labels: seq<StatementLabel>, name: string, from: nat): (r: Option<nat>)
    requires from <= |labels|
    ensures r.Some? ==> from <= r.value < |labels| && labels[r.value].labelName == name
    ensures r.None? <==> forall i :: from <= i < |labels| ==> labels[i].labelName != name
    decreases |labels| - from
  {
    if from == |labels| then None
    else if labels[from].labelName == name then Some(from)
    else FindLabel(labels, name, from + 1)
  }

  /** `create_node_for_statement_label_table`: record a label statement
      (`isGoto` false) or a goto (`isGoto` true) in the enclosing procedure's
      table, and count the errors it finds. A label defined twice is one
      error; a first mention is appended with the next id, counting from 1. */
  function RecordStatementLabel(st: SymState, t: nat, name: string, isGoto: bool): (r: Result<(SymState, nat)>)
    requires Valid(st) && t < |st.tables|
    ensures r.Ok? ==> Valid(r.value.0) && |r.value.0.tables| == |st.tables|
  {
    var p :- ProcedureOf(st.tables, t);
    var labels := st.tables[p].labels;
    assert LabelsValid(labels, st.nextStatementId);
    match FindLabel(labels, name, 0)
    case Some(i) =>
      var prior := labels[i];
      var errors := if !isGoto && prior.isDefined then 1 else 0;
      var updated := if isGoto then prior.(isUsed := true) else prior.(isDefined := true);
      Ok((WithLabels(st, p, labels[i := updated], st.nextStatementId), errors))
    case None =>
      var id := st.nextStatementId + 1;
      var entry := StatementLabel(name, id, !isGoto, isGoto, p);
      Ok((WithLabels(st, p, labels + [entry], id), 0))
  }

  /** The state with table `p`'s label list replaced and the label counter at `next`. */
  function WithLabels(st: SymState, p: nat, labels: seq<StatementLabel>, next: nat): (r: SymState)
    requires Valid(st) && p < |st.tables| && next >= st.nextStatementId && LabelsValid(labels, next)
    ensures Valid(r) && |r.tables| == |st.tables| && r.nextStatementId == next
    ensures r.tables[p] == st.tables[p].(labels := labels)
    ensures forall u :: 0 <= u < |st.tables| && u != p ==> r.tables[u] == st.tables[u]
  {
    var tables := st.tables[p := st.tables[p].(labels := labels)];
    var r := st.(tables := tables, nextStatementId := next);
    assert forall u :: 0 <= u < |tables| ==> LabelsValid(tables[u].labels, next) by {
      forall u | 0 <= u < |tables| ensures LabelsValid(tables[u].labels, next) {
        if u != p { assert LabelsValid(st.tables[u].labels, st.nextStatementId); }
      }
    }
    r
  }

  /** What one label mention does to the procedure's table: a goto marks the
      label used, a label statement marks it defined and is an error when it
      already was, and a first mention takes the next id. Nothing else in the
      table changes. */
  lemma RecordStatementLabelEffect(st: SymState, t: nat, name: string, isGoto: bool)
    requires Valid(st) && t < |st.tables| && ProcedureOf(st.tables, t).Ok?
    ensures var p := ProcedureOf(st.tables, t).value;
            var r := RecordStatementLabel(st, t, name, isGoto);
            var before := st.tables[p].labels;
            r.Ok? &&
            match FindLabel(before, name, 0)
            case Some(i) =>
              && r.value.1 == (if !isGoto && before[i].isDefined then 1 else 0)
              && r.value.0.tables[p].labels ==
                   before[i := if isGoto then before[i].(isUsed := true) else before[i].(isDefined := true)]
              && r.value.0.nextStatementId == st.nextStatementId
            case None =>
              && r.value.1 == 0
              && r.value.0.tables[p].labels ==
                   before + [StatementLabel(name, st.nextStatementId + 1, !isGoto, isGoto, p)]
              && r.value.0.nextStatementId == st.nextStatementId + 1
  {
  }

  /** The first procedure of src/compiler/tests/symbol/expected/statement-labels.c:
      `label:` and then `goto label` in a new procedure leave one entry, id 1,
      defined and used, and no error. */
  lemma LabelThenGoto(st: SymState, t: nat)
    requires Valid(st) && t < |st.tables| && st.tables[t].kind == ProcedureScope
    requires st.tables[t].labels == [] && st.nextStatementId == 0
    ensures var r1 := RecordStatementLabel(st, t, "label", false);
            r1.Ok? && r1.value.1 == 0 &&
            var r2 := RecordStatementLabel(r1.value.0, t, "label", true);
            r2.Ok? && r2.value.1 == 0 &&
            r2.value.0.tables[t].labels == [StatementLabel("label", 1, true, true, t)]
  {
    assert ProcedureOf(st.tables, t) == Ok(t);
    assert FindLabel([], "label", 0).None?;
    RecordStatementLabelEffect(st, t, "label", false);
    var r1 := RecordStatementLabel(st, t, "label", false);
    var s1 := r1.value.0;
    assert s1.tables[t].labels == [StatementLabel("label", 1, true, false, t)];
    assert s1.tables[t].kind == ProcedureScope && ProcedureOf(s1.tables, t) == Ok(t);
    assert FindLabel(s1.tables[t].labels, "label", 0) == Some(0);
    RecordStatementLabelEffect(s1, t, "label", true);
  }
}

=== FILE: type_tree.dfy ===
/** The type trees of helpers/type-tree.c: the declarator parts of a
    declaration, collected into a chain with the declared type at its end.

    The C chain is a linked list of pointers to syntax-tree nodes. Here it is a
    sequence of the node kinds the chain functions look at; a type node keeps
    the basic type whose spelling `get_type_string` compares.
 */
module TypeTree {
  import opened Wrappers
  import opened Types

  /** One element of a type chain. */
  datatype ChainNode =
    | PointerNode(pointsTo: Type)     // a `*`; the type node it points to
    | ArrayNode                       // a `[...]`; its size follows as the next element
    | FunctionNode                    // a function declarator; its parameters follow
    | DeclarationNode                 // a parameter declaration inside a function declarator
    | IdentifierNode(name: string)    // a parameter name, or an array size that is not constant
    | NumberNode(value: int)          // a constant array size
    | TypeNode(basic: Type)           // a basic type

  /** `struct type_tree`: the declared name, its type, and the chain. */
  datatype TypeTree = TypeTree(identifier: string, ty: Type, chain: seq<ChainNode>)

  // ---------------------------------------------------------------------------
  // Type spellings
  // ---------------------------------------------------------------------------

  function BasicWord(b: BasicType): string {
    match b
    case Int => "int"
    case Long => "long int"
    case Short => "short int"
    case Char => "char"
    case Void => "void"
    case Undef => "undef"
  }

  /** `get_type_string`: "signed " or "unsigned " (nothing for void) and the name. */
  function TypeString(t: Type): (s: string)
    ensures |s| > 0
  {
    (if t.basic == Void then "" else if t.isUnsigned then "unsigned " else "signed ") + BasicWord(t.basic)
  }

  /** Two types are spelled alike exactly when their basic types agree and,
      unless that is void, so does their signedness. */
  lemma TypeStringSame(a: Type, b: Type)
    ensures TypeString(a) == TypeString(b) <==>
              a.basic == b.basic && (a.basic == Void || a.isUnsigned == b.isUnsigned)
  {
    var sa, sb := TypeString(a), TypeString(b);
    if sa == sb {
      assert sa[0] == sb[0];
      if a.basic == Void || b.basic == Void {
        assert sa[0] == 'v' || sb[0] == 'v';
        assert a.basic == Void && b.basic == Void;
      } else {
        assert a.isUnsigned == b.isUnsigned;
        var p := if a.isUnsigned then 9 else 7;
        assert BasicWord(a.basic) == sa[p..] && BasicWord(b.basic) == sb[p..];
      }
    }
  }

  // ---------------------------------------------------------------------------
  // Chain utilities
  // ---------------------------------------------------------------------------

  /** `insert_at_bottom_of_type_chain`: the node becomes the last element and
      the earlier elements stay as they were. */
  function InsertAtBottom(tree: TypeTree, n: ChainNode): (r: TypeTree)
    ensures |r.chain| == |tree.chain| + 1 && r.chain[|tree.chain|] == n
    ensures r.chain[..|tree.chain|] == tree.chain
    ensures r.identifier == tree.identifier && r.ty == tree.ty
  {
    tree.(chain := tree.chain + [n])
  }

  /** An array node at `i` followed by a constant size. */
  predicate SizedArrayAt(chain: seq<ChainNode>, i: nat) {
    i + 1 < |chain| && chain[i].ArrayNode? && chain[i + 1].NumberNode?
  }

  /** `get_array_size`: the size after the last array node that is followed by
      a number, 0 when there is none. An array node at the very end makes the C
      loop read through a NULL `next`. */
  method GetArraySize(chain: seq<ChainNode>) returns (r: Result<int>)
    ensures r.Err? <==> |chain| > 0 && chain[|chain| - 1].ArrayNode?
    ensures r.Ok? && (forall i: nat :: !SizedArrayAt(chain, i)) ==> r.value == 0
    ensures r.Ok? && (exists i: nat :: SizedArrayAt(chain, i)) ==>
              exists i: nat :: SizedArrayAt(chain, i) && r.value == chain[i + 1].value
                && forall j: nat :: i < j ==> !SizedArrayAt(chain, j)
  {
    var size := 0;
    var last: int := -1;
    var k := 0;
    while k < |chain|
      invariant 0 <= k <= |chain|
      invariant -1 <= last < k
      invariant last == -1 ==> size == 0 && forall i: nat :: i < k && i + 1 < |chain| ==> !SizedArrayAt(chain, i)
      invariant last >= 0 ==> SizedArrayAt(chain, last) && size == chain[last + 1].value
                                && forall j: nat :: last < j < k ==> !SizedArrayAt(chain, j)
      invariant forall i :: 0 <= i < k ==> !(chain[i].ArrayNode? && i + 1 == |chain|)
    {
      if chain[k].ArrayNode? {
        if k + 1 == |chain| {
          return Err(Undefined("get_array_size: array node without a successor"));
        }
        if chain[k + 1].NumberNode? {
          size := chain[k + 1].value;
          last := k;
        }
      }
      k := k + 1;
    }
    r := Ok(size);
  }

  /** `does_array_contain_pointer`: 1 exactly when some element is a pointer. */
  method DoesArrayContainPointer(chain: seq<ChainNode>) returns (r: int)
    ensures r in {0, 1}
    ensures r == 1 <==> exists i :: 0 <= i < |chain| && chain[i].PointerNode?
  {
    r := 0;
    var k := 0;
    while k < |chain|
      invariant 0 <= k <= |chain|
      invariant r in {0, 1}
      invariant r == 1 <==> exists i :: 0 <= i < k && chain[i].PointerNode?
    {
      if chain[k].PointerNode? {
        r := 1;
      }
      k := k + 1;
    }
  }

  // ---------------------------------------------------------------------------
  // Comparing function signatures
  // ---------------------------------------------------------------------------

  /** The node kind `compare_type_trees` compares. */
  function Kind(n: ChainNode): nat {
    match n
    case PointerNode(_) => 0
    case ArrayNode => 1
    case FunctionNode => 2
    case DeclarationNode => 3
    case IdentifierNode(_) => 4
    case NumberNode(_) => 5
    case TypeNode(_) => 6
  }

  /** Whether two aligned elements differ for `compare_type_trees`: another
      kind, another type spelling, or, for two pointers that both end their
      chains, another pointee spelling. */
  predicate Differ(a: ChainNode, b: ChainNode, bothLast: bool) {
    || Kind(a) != Kind(b)
    || (a.TypeNode? && b.TypeNode? && TypeString(a.basic) != TypeString(b.basic))
    || (a.PointerNode? && b.PointerNode? && bothLast && TypeString(a.pointsTo) != TypeString(b.pointsTo))
  }

  /** The loop of `compare_type_trees` over two chains: 1 when they differ, 0
      when they agree. One identifier is skipped on either side before the
      elements are compared; skipping past the end reads through NULL. */
  function CompareChains(c1: seq<ChainNode>, c2: seq<ChainNode>): (r: Result<int>)
    ensures r.Ok? ==> r.value in {0, 1}
    decreases |c1|
  {
    if |c1| == 0 then Ok(if |c2| > 0 then 1 else 0)
    else if |c2| == 0 then Ok(1)
    else
      var a := if c1[0].IdentifierNode? then c1[1..] else c1;
      var b := if c2[0].IdentifierNode? then c2[1..] else c2;
      if |a| == 0 || |b| == 0 then Err(Undefined("compare_type_trees: identifier ends the chain"))
      else if Differ(a[0], b[0], |a| == 1 && |b| == 1) then Ok(1)
      else CompareChains(a[1..], b[1..])
  }

  /** `compare_type_trees`: 1 for a missing tree or different names, otherwise
      the verdict on the chains. */
  function CompareTypeTrees(t1: Option<TypeTree>, t2: Option<TypeTree>): (r: Result<int>)
    ensures t1.None? || t2.None? ==> r == Ok(1)
    ensures t1.Some? && t2.Some? && t1.value.identifier != t2.value.identifier ==> r == Ok(1)
    ensures t1.Some? && t2.Some? && t1.value.identifier == t2.value.identifier ==>
              r == CompareChains(t1.value.chain, t2.value.chain)
  {
    if t1.None? || t2.None? then Ok(1)
    else if t1.value.identifier != t2.value.identifier then Ok(1)
    else CompareChains(t1.value.chain, t2.value.chain)
  }

  predicate NoIdentifiers(c: seq<ChainNode>) {
    forall i :: 0 <= i < |c| ==> !c[i].IdentifierNode?
  }

  /** Chains that agree element by element: same length, and no aligned pair differs. */
  predicate Agree(c1: seq<ChainNode>, c2: seq<ChainNode>) {
    |c1| == |c2| && forall i :: 0 <= i < |c1| ==> !Differ(c1[i], c2[i], i == |c1| - 1)
  }

  /** Without parameter names the comparison is defined, and it says 0 exactly
      when the chains agree element by element. */
  lemma {:induction false} CompareChainsMeansAgree(c1: seq<ChainNode>, c2: seq<ChainNode>)
    requires NoIdentifiers(c1) && NoIdentifiers(c2)
    ensures CompareChains(c1, c2).Ok?
    ensures CompareChains(c1, c2) == Ok(0) <==> Agree(c1, c2)
    decreases |c1|
  {
    if |c1| > 0 && |c2| > 0 {
      assert !c1[0].IdentifierNode? && !c2[0].IdentifierNode?;
      CompareChainsMeansAgree(c1[1..], c2[1..]);
      if Agree(c1, c2) {
        assert !Differ(c1[0], c2[0], 0 == |c1| - 1);
        assert forall i :: 0 <= i < |c1| - 1 ==> c1[1..][i] == c1[i + 1] && c2[1..][i] == c2[i + 1];
        assert Agree(c1[1..], c2[1..]);
      }
      if !Differ(c1[0], c2[0], |c1| == 1 && |c2| == 1) && Agree(c1[1..], c2[1..]) {
        forall i | 0 <= i < |c1|
          ensures !Differ(c1[i], c2[i], i == |c1| - 1)
        {
          if i > 0 {
            assert c1[i] == c1[1..][i - 1] && c2[i] == c2[1..][i - 1];
          }
        }
      }
    }
  }

  /** The chain with its parameter names left out. */
  function WithoutNames(c: seq<ChainNode>): seq<ChainNode>
    decreases |c|
  {
    if |c| == 0 then [] else (if c[0].IdentifierNode? then [] else [c[0]]) + WithoutNames(c[1..])
  }

  /** Where a declaration puts parameter names: each one follows the
      declaration node of its parameter and is followed by that parameter's
      type, so no name ends the chain and no two names are adjacent. */
  predicate NamesPlaced(c: seq<ChainNode>) {
    && (|c| > 0 ==> !c[|c| - 1].IdentifierNode?)
    && forall i :: 0 <= i < |c| - 1 ==> !(c[i].IdentifierNode? && c[i + 1].IdentifierNode?)
  }

  lemma NamesPlacedSuffix(c: seq<ChainNode>, k: nat)
    requires NamesPlaced(c) && k <= |c|
    ensures NamesPlaced(c[k..])
  {
    var d := c[k..];
    forall i | 0 <= i < |d| - 1
      ensures !(d[i].IdentifierNode? && d[i + 1].IdentifierNode?)
    {
      assert d[i] == c[k + i] && d[i + 1] == c[k + i + 1];
    }
  }

  /** A non-empty chain keeps at least one element once names are left out. */
  lemma {:induction false} WithoutNamesNonEmpty(c: seq<ChainNode>)
    requires NamesPlaced(c)
    ensures |c| > 0 <==> |WithoutNames(c)| > 0
    decreases |c|
  {
    if |c| > 0 && c[0].IdentifierNode? {
      NamesPlacedSuffix(c, 1);
      WithoutNamesNonEmpty(c[1..]);
    }
  }

  /** Two chains agree exactly when their first elements do and the rests agree. */
  lemma AgreeStep(c1: seq<ChainNode>, c2: seq<ChainNode>)
    requires |c1| > 0 && |c2| > 0
    ensures Agree(c1, c2) <==> !Differ(c1[0], c2[0], |c1| == 1 && |c2| == 1) && Agree(c1[1..], c2[1..])
  {
    if Agree(c1, c2) {
      assert !Differ(c1[0], c2[0], 0 == |c1| - 1);
      forall i | 0 <= i < |c1| - 1
        ensures !Differ(c1[1..][i], c2[1..][i], i == |c1[1..]| - 1)
      {
        assert c1[1..][i] == c1[i + 1] && c2[1..][i] == c2[i + 1];
        assert !Differ(c1[i + 1], c2[i + 1], i + 1 == |c1| - 1);
      }
    }
    if !Differ(c1[0], c2[0], |c1| == 1 && |c2| == 1) && Agree(c1[1..], c2[1..]) {
      forall i | 0 <= i < |c1|
        ensures !Differ(c1[i], c2[i], i == |c1| - 1)
      {
        if i > 0 {
          assert c1[i] == c1[1..][i - 1] && c2[i] == c2[1..][i - 1];
        }
      }
    }
  }

  /** One step of the comparison loop: skipping a leading name leaves `a`,
      whose first element is the first element left once names are dropped. */
  lemma SkipName(c: seq<ChainNode>) returns (a: seq<ChainNode>)
    requires NamesPlaced(c) && |c| > 0
    ensures a == (if c[0].IdentifierNode? then c[1..] else c)
    ensures |a| > 0 && !a[0].IdentifierNode? && NamesPlaced(a[1..])
    ensures WithoutNames(c) == [a[0]] + WithoutNames(a[1..])
    ensures |a| == 1 <==> |WithoutNames(c)| == 1
  {
    a := if c[0].IdentifierNode? then c[1..] else c;
    if c[0].IdentifierNode? {
      NamesPlacedSuffix(c, 1);
      assert WithoutNames(c) == WithoutNames(a);
    }
    assert WithoutNames(a) == [a[0]] + WithoutNames(a[1..]);
    NamesPlacedSuffix(a, 1);
    WithoutNamesNonEmpty(a[1..]);
  }

  /** With names where declarations put them, the comparison is defined, and
      it says 0 exactly when the chains agree once the parameter names are
      left out. */
  lemma {:induction false} CompareChainsIgnoresNames(c1: seq<ChainNode>, c2: seq<ChainNode>)
    requires NamesPlaced(c1) && NamesPlaced(c2)
    ensures CompareChains(c1, c2).Ok?
    ensures CompareChains(c1, c2) == Ok(0) <==> Agree(WithoutNames(c1), WithoutNames(c2))
    decreases |c1|
  {
    WithoutNamesNonEmpty(c1);
    WithoutNamesNonEmpty(c2);
    if |c1| > 0 && |c2| > 0 {
      var a := SkipName(c1);
      var b := SkipName(c2);
      CompareChainsIgnoresNames(a[1..], b[1..]);
      AgreeStep(WithoutNames(c1), WithoutNames(c2));
      assert WithoutNames(c1)[1..] == WithoutNames(a[1..]);
      assert WithoutNames(c2)[1..] == WithoutNames(b[1..]);
    }
  }

  /** Agreement is reflexive and symmetric. */
  lemma AgreeReflexiveSymmetric(c1: seq<ChainNode>, c2: seq<ChainNode>)
    ensures Agree(c1, c1)
    ensures Agree(c1, c2) <==> Agree(c2, c1)
  {
    if Agree(c1, c2) {
      forall i | 0 <= i < |c2|
        ensures !Differ(c2[i], c1[i], i == |c2| - 1)
      {
        assert !Differ(c1[i], c2[i], i == |c1| - 1);
      }
    }
    if Agree(c2, c1) {
      forall i | 0 <= i < |c1|
        ensures !Differ(c1[i], c2[i], i == |c1| - 1)
      {
        assert !Differ(c2[i], c1[i], i == |c2| - 1);
      }
    }
  }

  /** `compare_type_trees` on two declared signatures: 0 exactly when they
      declare the same name with chains that agree once parameter names are
      left out. Hence a signature compares equal to itself and the comparison
      is symmetric. */
  lemma CompareTypeTreesReflexiveSymmetric(t1: TypeTree, t2: TypeTree)
    requires NamesPlaced(t1.chain) && NamesPlaced(t2.chain)
    ensures CompareTypeTrees(Some(t1), Some(t2)).Ok?
    ensures CompareTypeTrees(Some(t1), Some(t2)) == Ok(0) <==>
              t1.identifier == t2.identifier && Agree(WithoutNames(t1.chain), WithoutNames(t2.chain))
    ensures CompareTypeTrees(Some(t1), Some(t1)) == Ok(0)
    ensures CompareTypeTrees(Some(t1), Some(t2)) == CompareTypeTrees(Some(t2), Some(t1))
  {
    CompareChainsIgnoresNames(t1.chain, t1.chain);
    CompareChainsIgnoresNames(t1.chain, t2.chain);
    CompareChainsIgnoresNames(t2.chain, t1.chain);
    AgreeReflexiveSymmetric(WithoutNames(t1.chain), WithoutNames(t2.chain));
  }

  /** `int f(int a)` and `int f(int b)`: the chains differ only in the
      parameter name, and compare equal. */
  lemma ParameterNamesIgnored()
    ensures var i := TypeNode(Type(BasicKind, false, Int));
            var f := TypeTree("f", Type(BasicKind, false, Int), [FunctionNode, DeclarationNode, IdentifierNode("a"), i, i]);
            var g := TypeTree("f", Type(BasicKind, false, Int), [FunctionNode, DeclarationNode, IdentifierNode("b"), i, i]);
            CompareTypeTrees(Some(f), Some(g)) == Ok(0)
  {
    var i := TypeNode(Type(BasicKind, false, Int));
    var c1 := [FunctionNode, DeclarationNode, IdentifierNode("a"), i, i];
    var c2 := [FunctionNode, DeclarationNode, IdentifierNode("b"), i, i];
    assert c1[1..][1..] == [IdentifierNode("a"), i, i] && c1[1..][1..][1..] == [i, i];
    assert c2[1..][1..] == [IdentifierNode("b"), i, i] && c2[1..][1..][1..] == [i, i];
    assert [i, i][1..] == [i] && [i][1..] == [];
    assert CompareChains([i], [i]) == Ok(0);
    assert CompareChains([i, i], [i, i]) == Ok(0);
    assert CompareChains(c1[2..], c2[2..]) == Ok(0) by {
      assert c1[2..] == [IdentifierNode("a"), i, i] && c2[2..] == [IdentifierNode("b"), i, i];
    }
    assert CompareChains(c1[1..], c2[1..]) == Ok(0) by {
      assert c1[1..][1..] == c1[2..] && c2[1..][1..] == c2[2..];
    }
  }

  // ---------------------------------------------------------------------------
  // Building a type tree
  // ---------------------------------------------------------------------------

  /** The declarator side of a declaration: a bare name, or the name, chain
      and function-pointer flag that `traverse_decl_subtree` produced for it. */
  datatype Declarator =
    | Plain(name: string)
    | Traversed(name: string, chain: seq<ChainNode>, functionPointer: bool)

  /** The declared type: a basic type, or a pointer to one. */
  datatype DeclarationType = DeclarationType(isPointer: bool, basic: Type)

  /** The kind the first chain element gives the declared type. */
  function KindOfFirst(n: ChainNode): TypeKind {
    match n
    case ArrayNode => ArrayKind
    case FunctionNode => FunctionKind
    case PointerNode(_) => PointerKind
    case _ => BasicKind
  }

  /** `create_type_tree`: the kind comes from the first chain element (basic
      for a bare name), the basic type from the declared type, and the
      declared type, wrapped in a pointer for a function pointer, goes last. */
  function CreateTypeTree(d: Declarator, dt: DeclarationType): (r: Result<TypeTree>)
    ensures d.Traversed? && |d.chain| == 0 <==> r.Err?
    ensures r.Ok? && d.Plain? ==> r.value.ty.kind == BasicKind && |r.value.chain| == 1
    ensures r.Ok? && d.Traversed? ==> r.value.ty.kind == KindOfFirst(d.chain[0])
                                      && |r.value.chain| == |d.chain| + 1
                                      && r.value.chain[..|d.chain|] == d.chain
    ensures r.Ok? ==> r.value.ty.basic == dt.basic.basic && r.value.ty.isUnsigned == dt.basic.isUnsigned
    ensures r.Ok? ==> var last := r.value.chain[|r.value.chain| - 1];
                      if dt.isPointer || (d.Traversed? && d.functionPointer)
                      then last.PointerNode? else last == TypeNode(dt.basic)
  {
    var kind :-
      if d.Plain? then Ok(BasicKind)
      else if |d.chain| == 0 then Err(Undefined("create_type_tree: empty chain"))
      else Ok(KindOfFirst(d.chain[0]));
    var chain := if d.Plain? then [] else d.chain;
    var typeNode := if dt.isPointer then PointerNode(dt.basic) else TypeNode(dt.basic);
    var lastNode := if d.Traversed? && d.functionPointer then PointerNode(dt.basic) else typeNode;
    var t := TypeTree(d.name, Type(kind, dt.basic.isUnsigned, dt.basic.basic), chain);
    Ok(InsertAtBottom(t, lastNode))
  }
}

=== FILE: types.dfy ===
/** The type descriptors of type.h and the table-driven rules of type.c that
    do not need the syntax tree: sizes, conversion ranks, type equality and the
    operators a pointer may take part in. */
module Types {
  import opened Wrappers
  import opened Operators

  /** `enum type_kind`. */
  datatype TypeKind = BasicKind | PointerKind | ArrayKind | FunctionKind | LabelKind

  /** `enum type_basic_kind`. */
  datatype BasicType = Char | Short | Int | Long | Void | Undef

  /** `struct type`: a pointer or array keeps the signedness and basic type of
      what it points to or holds. */
  datatype Type = Type(kind: TypeKind, isUnsigned: bool, basic: BasicType)

  function Basic(isUnsigned: bool, basic: BasicType): Type {
    Type(BasicKind, isUnsigned, basic)
  }

  /** The four basic types that denote integers. */
  predicate IsInteger(b: BasicType) {
    b in {Char, Short, Int, Long}
  }

  /** `type_get_basic_size`: the width in bytes of the basic type, 0 when it has none.
      This is a 32-bit target, so `long` is as wide as `int`. */
  function BasicSize(t: Type): (r: nat)
    ensures r in {0, 1, 2, 4}
    ensures r == 0 <==> !IsInteger(t.basic)
  {
    match t.basic
    case Char => 1
    case Short => 2
    case Int => 4
    case Long => 4
    case _ => 0
  }

  /** `type_get_size`: a pointer is one word whatever it points to. */
  function Size(t: Type): (r: nat)
    ensures t.kind == PointerKind ==> r == 4
    ensures t.kind != PointerKind ==> r == BasicSize(t)
  {
    if t.kind == PointerKind then 4 else BasicSize(t)
  }

  /** `get_conversion_rank`. */
  function Rank(t: Type): (r: nat)
    ensures r in {0, 20, 30, 40, 50}
  {
    match t.basic
    case Long => 50
    case Int => 40
    case Short => 30
    case Char => 20
    case _ => 0
  }

  /** The rank orders the integer types as ISO C99 section 6.3.1.1 demands:
      a strictly higher rank is never narrower, and only integer types have a rank. */
  lemma RankAgreesWithSize(a: Type, b: Type)
    ensures Rank(a) > 0 <==> IsInteger(a.basic)
    ensures Rank(a) < Rank(b) ==> BasicSize(a) <= BasicSize(b)
    ensures Rank(a) == Rank(b) ==> a.basic == b.basic || (Rank(a) == 0 && BasicSize(a) == BasicSize(b) == 0)
  {
  }

  /** `type_size`: the scale of pointer arithmetic. For a pointer or a basic type it
      is the width of the basic type; a pointer to void or undef fails an assert.
      Arrays, functions and labels have size 0. */
  function PointeeSize(t: Type): (r: Result<nat>)
    ensures t.kind in {BasicKind, PointerKind} && !IsInteger(t.basic) <==> r.Err?
    ensures r.Ok? && t.kind in {BasicKind, PointerKind} ==> r.value == BasicSize(t) && r.value > 0
    ensures t.kind in {ArrayKind, FunctionKind, LabelKind} ==> r == Ok(0)
  {
    match t.kind
    case PointerKind | BasicKind =>
      (match t.basic
       case Char => Ok(1)
       case Short => Ok(2)
       case Int => Ok(4)
       case Long => Ok(4)
       case _ => Err(Aborts("type_size of a basic type without a size")))
    case _ => Ok(0)
  }

  /** The storage size and the pointer-arithmetic scale agree on the integer
      types; a pointer occupies a word however wide its pointee is. */
  lemma SizeAndPointeeSize(t: Type)
    ensures Size(t) in {0, 1, 2, 4}
    ensures t.kind == BasicKind && IsInteger(t.basic) ==> PointeeSize(t) == Ok(Size(t))
    ensures t.kind == BasicKind ==> (Size(t) > 0 <==> IsInteger(t.basic))
    ensures t.kind == PointerKind ==> Size(t) == 4 && (PointeeSize(t).Ok? ==> 0 < PointeeSize(t).value <= Size(t))
  {
  }

  /** `type_is_equal`: a pointer and an array are never equal; otherwise the kinds
      are ignored and only the signedness and basic type are compared. */
  function TypeIsEqual(left: Type, right: Type): (r: bool)
    ensures {left.kind, right.kind} == {PointerKind, ArrayKind} ==> !r
    ensures {left.kind, right.kind} != {PointerKind, ArrayKind} ==>
              (r <==> left.isUnsigned == right.isUnsigned && left.basic == right.basic)
  {
    if left.kind != right.kind
       && ((left.kind == PointerKind && right.kind == ArrayKind)
           || (right.kind == PointerKind && left.kind == ArrayKind))
    then false
    else left.isUnsigned == right.isUnsigned && left.basic == right.basic
  }

  /** Type equality is an equivalence on each kind and symmetric across kinds,
      and it cannot tell `int` from `int *`. */
  lemma TypeIsEqualProperties(a: Type, b: Type, c: Type)
    ensures TypeIsEqual(a, a)
    ensures TypeIsEqual(a, b) == TypeIsEqual(b, a)
    ensures a.kind == b.kind == c.kind && TypeIsEqual(a, b) && TypeIsEqual(b, c) ==> TypeIsEqual(a, c)
    ensures TypeIsEqual(Basic(false, Int), Type(PointerKind, false, Int))
  {
  }

  /** `type_is_binop_pointer_operation_valid`. */
  predicate PointerOperationAllowed(op: BinaryOp) {
    op in {Addition, Subtraction, Assign, Equality, Inequality, LogicalAnd, LogicalOr,
           LessThan, LessThanEq, GreaterThan, GreaterThanEq}
  }

  /** The operators allowed on pointers are exactly the truth-valued operators
      plus addition, subtraction and plain assignment; no arithmetic beyond
      `+`/`-`, no bitwise or shift operator and no compound assignment. */
  lemma PointerOperationsAreEqualityOperationsPlusArithmetic(op: BinaryOp)
    ensures PointerOperationAllowed(op) <==> IsEqualityOperation(op) || op in {Addition, Subtraction, Assign}
    ensures IsCompoundAssignment(op) ==> !PointerOperationAllowed(op)
  {
  }
}

=== FILE: util.dfy ===
/** The integer helpers of helpers/util-functions.c used by the type checker and
    by the first optimisation pass. */
module Util {
  import opened Integers
  import opened Types

  // ---------------------------------------------------------------------------
  // mylog2
  // ---------------------------------------------------------------------------

  /** `mylog2`: 0 maps to INT_MAX, every other unsigned value to the floor of its
      base-2 logarithm. */
  function MyLog2(v: nat): (r: nat)
    requires IsUInt32(v)
    ensures v == 0 ==> r == INT32_MAX
    ensures v >= 1 ==> Pow2(r) <= v < Pow2(r + 1)
    ensures v >= 1 ==> r < 32
  {
    if v == 0 then INT32_MAX
    else if v == 1 then 0
    else
      var r := 1 + MyLog2(v / 2);
      Pow2AtLeast32(r);
      r
  }

  lemma Pow2AtLeast32(r: nat)
    ensures r >= 32 ==> Pow2(r) >= TWO_TO_32
  {
    Pow2Values();
    if r > 32 { Pow2Monotone(32, r); }
  }

  /** The logarithm of a power of two is its exponent. */
  lemma MyLog2OfPower(k: nat)
    requires k < 32
    ensures IsUInt32(Pow2(k)) && MyLog2(Pow2(k)) == k
  {
    Pow2Values();
    Pow2Monotone(k, 32);
    Pow2Monotone(k, k + 1);
    MyLog2Unique(Pow2(k), k);
  }

  /** `mylog2` is determined by its bracket property. */
  lemma MyLog2Unique(v: nat, k: nat)
    requires IsUInt32(v) && Pow2(k) <= v < Pow2(k + 1)
    ensures MyLog2(v) == k
  {
    var r := MyLog2(v);
    if r < k {
      Pow2MonotoneLe(r + 1, k);
    } else if r > k {
      Pow2MonotoneLe(k + 1, r);
    }
  }

  lemma Pow2MonotoneLe(i: nat, j: nat)
    requires i <= j
    ensures Pow2(i) <= Pow2(j)
  {
    if i < j { Pow2Monotone(i, j); }
  }

  // ---------------------------------------------------------------------------
  // is_power_of_two
  // ---------------------------------------------------------------------------

  /** Bitwise and of two non-negative numbers. */
  function BitAnd(a: nat, b: nat): nat {
    if a == 0 || b == 0 then 0
    else 2 * BitAnd(a / 2, b / 2) + (if a % 2 == 1 && b % 2 == 1 then 1 else 0)
  }

  /** `is_power_of_two(c)`: `c != 0 && (c & (c - 1)) == 0` on a 32-bit int. The
      subtraction is taken to wrap, so INT_MIN (the bit pattern 0x80000000)
      counts as a power of two. */
  function IsPowerOfTwo(c: int): (r: bool)
    requires IsInt32(c)
    ensures r <==> IsPow2(ToUInt32(c))
    ensures c > 0 ==> (r <==> IsPow2(c))
    ensures c < 0 && c != INT32_MIN ==> !r
  {
    var u := ToUInt32(c);
    var r := c != 0 && BitAnd(u, ToUInt32(Wrap32(c - 1))) == 0;
    IsPowerOfTwoMeaning(c);
    r
  }

  lemma IsPowerOfTwoMeaning(c: int)
    requires IsInt32(c)
    ensures (c != 0 && BitAnd(ToUInt32(c), ToUInt32(Wrap32(c - 1))) == 0) <==> IsPow2(ToUInt32(c))
    ensures c > 0 ==> ToUInt32(c) == c
    ensures c < 0 && c != INT32_MIN ==> !IsPow2(ToUInt32(c))
  {
    var u := ToUInt32(c);
    if c == 0 {
      NotPow2Zero();
    } else {
      WrapOfUnsigned(c - 1);
      if c > 0 {
        assert u == c && ToUInt32(c - 1) == c - 1;
      } else {
        assert u == c + TWO_TO_32 && ToUInt32(c - 1) == c - 1 + TWO_TO_32;
      }
      assert ToUInt32(Wrap32(c - 1)) == u - 1;
      PowerOfTwoBits(u);
      if c < 0 && c != INT32_MIN {
        Pow2Values();
        NoPow2Between(u, 31);
      }
    }
  }

  lemma NotPow2Zero()
    ensures !IsPow2(0)
  {
  }

  lemma BitAndSelf(a: nat)
    ensures BitAnd(a, a) == a
  {
  }

  lemma Pow2Halves(m: nat)
    requires m >= 1
    ensures IsPow2(2 * m) <==> IsPow2(m)
    ensures !IsPow2(2 * m + 1)
  {
    if IsPow2(2 * m) {
      var k: nat :| Pow2(k) == 2 * m;
      assert k >= 1;
      assert Pow2(k - 1) == m;
    }
    if IsPow2(m) {
      var k: nat :| Pow2(k) == m;
      assert Pow2(k + 1) == 2 * m;
    }
    forall k: nat
      ensures Pow2(k) != 2 * m + 1
    {
      Pow2Parity(k);
    }
  }

  lemma Pow2Parity(k: nat)
    ensures Pow2(k) == 1 || Pow2(k) % 2 == 0
  {
  }

  /** For positive `u`, `u & (u - 1)` clears the lowest set bit, so it is zero
      exactly when `u` has a single set bit. */
  lemma {:induction false} PowerOfTwoBits(u: nat)
    requires u >= 1
    ensures BitAnd(u, u - 1) == 0 <==> IsPow2(u)
    decreases u
  {
    if u == 1 {
      assert Pow2(0) == 1;
    } else if u % 2 == 0 {
      var m := u / 2;
      assert BitAnd(u, u - 1) == 2 * BitAnd(m, m - 1);
      PowerOfTwoBits(m);
      Pow2Halves(m);
    } else {
      var m := u / 2;
      assert BitAnd(u, u - 1) == 2 * BitAnd(m, m);
      BitAndSelf(m);
      Pow2Halves(m);
    }
  }

  lemma NoPow2Between(u: nat, k: nat)
    requires Pow2(k) < u < Pow2(k + 1)
    ensures !IsPow2(u)
  {
    if IsPow2(u) {
      var j: nat :| Pow2(j) == u;
      if j <= k {
        if j < k { Pow2Monotone(j, k); }
      } else if j > k + 1 {
        Pow2Monotone(k + 1, j);
      }
    }
  }

  // ---------------------------------------------------------------------------
  // find_nearest_power_of_two
  // ---------------------------------------------------------------------------

  /** `power_of_twos`, of ARRAY_LENGTH (11) entries. */
  const POWERS_OF_TWO: seq<int> := [1, 2, 4, 8, 16, 32, 64, 128, 256, 512, 1024]

  lemma PowersOfTwoTable(i: nat)
    requires i < |POWERS_OF_TWO|
    ensures POWERS_OF_TWO[i] == Pow2(i)
  {
    assert Pow2(0) == 1 && Pow2(1) == 2 && Pow2(2) == 4 && Pow2(3) == 8 && Pow2(4) == 16;
    assert Pow2(5) == 32 && Pow2(6) == 64 && Pow2(7) == 128 && Pow2(8) == 256;
    assert Pow2(9) == 512 && Pow2(10) == 1024;
  }

  function Distance(c: int, i: nat): nat
    requires i < |POWERS_OF_TWO|
  {
    Abs(POWERS_OF_TWO[i] - c)
  }

  /** The first index among the first `n` table entries whose distance to `c` is least. */
  function FirstNearestIndex(c: int, n: nat): (k: nat)
    requires 1 <= n <= |POWERS_OF_TWO|
    ensures k < n
    ensures forall j :: 0 <= j < n ==> Distance(c, k) <= Distance(c, j)
    ensures forall j :: 0 <= j < k ==> Distance(c, j) > Distance(c, k)
  {
    if n == 1 then 0
    else
      var k := FirstNearestIndex(c, n - 1);
      if Distance(c, n - 1) < Distance(c, k) then n - 1 else k
  }

  /** The least `c` for which `abs(power_of_twos[i] - c)` cannot overflow. */
  const NEAREST_LOWER_BOUND: int := 1024 - INT32_MAX

  /** The value `find_nearest_power_of_two` returns: the table entry nearest to `c`,
      the smaller one on a tie. Between two neighbouring entries `e` and `2e`
      the tie falls at `3e/2`. */
  function NearestPowerOfTwo(c: int): (p: int)
    ensures 1 <= p <= 1024
  {
    if c <= 1 then 1
    else if c <= 3 then 2
    else if c <= 6 then 4
    else if c <= 12 then 8
    else if c <= 24 then 16
    else if c <= 48 then 32
    else if c <= 96 then 64
    else if c <= 192 then 128
    else if c <= 384 then 256
    else if c <= 768 then 512
    else 1024
  }

  /** The nearest entry is a table entry, no entry is nearer, and every
      smaller entry is strictly farther. */
  lemma NearestIsNearest(c: int)
    ensures NearestPowerOfTwo(c) in POWERS_OF_TWO
    ensures forall q :: q in POWERS_OF_TWO ==> Abs(NearestPowerOfTwo(c) - c) <= Abs(q - c)
    ensures forall q :: q in POWERS_OF_TWO && q < NearestPowerOfTwo(c) ==> Abs(q - c) > Abs(NearestPowerOfTwo(c) - c)
  {
    var p := NearestPowerOfTwo(c);
    forall q | q in POWERS_OF_TWO
      ensures Abs(p - c) <= Abs(q - c)
      ensures q < p ==> Abs(q - c) > Abs(p - c)
    {
      var j :| 0 <= j < |POWERS_OF_TWO| && POWERS_OF_TWO[j] == q;
    }
  }

  /** The table scan and the closed form pick the same entry. */
  lemma ScanFindsNearest(c: int)
    ensures POWERS_OF_TWO[FirstNearestIndex(c, |POWERS_OF_TWO|)] == NearestPowerOfTwo(c)
  {
    var k := FirstNearestIndex(c, |POWERS_OF_TWO|);
    var q := POWERS_OF_TWO[k];
    var p := NearestPowerOfTwo(c);
    NearestIsNearest(c);
    var m :| 0 <= m < |POWERS_OF_TWO| && POWERS_OF_TWO[m] == p;
    assert Distance(c, k) <= Distance(c, m);
  }

  /** The loop of `find_nearest_power_of_two` as written: a running minimum that
      starts at INT_MAX with the placeholder 99, replaced only on a strictly
      smaller distance. Below `NEAREST_LOWER_BOUND` the distance overflows. */
  method FindNearestPowerOfTwo(c: int) returns (p: int)
    requires NEAREST_LOWER_BOUND <= c <= INT32_MAX
    ensures p == NearestPowerOfTwo(c)
    ensures p != 99
  {
    var min := INT32_MAX;
    p := 99;
    var i := 0;
    while i < |POWERS_OF_TWO|
      invariant 0 <= i <= |POWERS_OF_TWO|
      invariant i == 0 ==> min == INT32_MAX && p == 99
      invariant i >= 1 ==> p == POWERS_OF_TWO[FirstNearestIndex(c, i)]
      invariant i >= 1 ==> min == Distance(c, FirstNearestIndex(c, i))
    {
      var d := Abs(POWERS_OF_TWO[i] - c);
      if d < min {
        min := d;
        p := POWERS_OF_TWO[i];
      }
      i := i + 1;
    }
    ScanFindsNearest(c);
  }

  // ---------------------------------------------------------------------------
  // Type ranges
  // ---------------------------------------------------------------------------

  /** A range bound and whether reading it counted a range error. */
  datatype Bound = Bound(value: int, error: bool)

  /** `get_type_max`. */
  function TypeMax(b: BasicType, isUnsigned: bool): (r: Bound)
    ensures r.error <==> !IsInteger(b)
    ensures r.error ==> r.value == 0
    ensures IsInteger(b) ==> r.value > 0
  {
    if isUnsigned then
      match b
      case Char => Bound(255, false)
      case Short => Bound(65535, false)
      case Int => Bound(4294967295, false)
      case Long => Bound(4294967295, false)
      case _ => Bound(0, true)
    else
      match b
      case Char => Bound(127, false)
      case Short => Bound(32767, false)
      case Int => Bound(2147483647, false)
      case Long => Bound(2147483647, false)
      case _ => Bound(0, true)
  }

  /** `get_type_min`: every unsigned type starts at 0 without an error. */
  function TypeMin(b: BasicType, isUnsigned: bool): (r: Bound)
    ensures r.error <==> !isUnsigned && !IsInteger(b)
    ensures isUnsigned || r.error ==> r.value == 0
    ensures !isUnsigned && IsInteger(b) ==> r.value < 0
  {
    if isUnsigned then Bound(0, false)
    else
      match b
      case Char => Bound(-127, false)
      case Short => Bound(-32768, false)
      case Int => Bound(-2147483648, false)
      case Long => Bound(-2147483648, false)
      case _ => Bound(0, true)
  }

  /** The bounds follow from the widths of `type_get_basic_size`: n bits give
      [-(2^(n-1)), 2^(n-1) - 1] signed and [0, 2^n - 1] unsigned, except that a
      signed char stops at -127. */
  lemma RangesAgreeWithSizes(b: BasicType)
    requires IsInteger(b)
    ensures var bits := 8 * BasicSize(Basic(false, b));
            && TypeMax(b, true).value == Pow2(bits) - 1
            && TypeMax(b, false).value == Pow2(bits - 1) - 1
            && (b != Char ==> TypeMin(b, false).value == -(Pow2(bits - 1) as int))
            && (b == Char ==> TypeMin(b, false).value == -(Pow2(bits - 1) as int) + 1)
  {
    Pow2Values();
  }

  /** What `can_represent_values` returns, and the value `type_range_error_count`
      holds afterwards (it is reset first). */
  datatype Representation = Representation(canRepresent: bool, rangeErrors: nat)

  function Count(b: bool): nat {
    if b then 1 else 0
  }

  /** `can_represent_values(t1, u1, t2, u2)`: whether the first type's range contains
      the second's. The `&&` short-circuits, so the minima, and any error they
      count, are only read when the maxima compare. */
  function CanRepresent(t1: BasicType, u1: bool, t2: BasicType, u2: bool): (r: Representation)
    ensures r.canRepresent <==>
              TypeMax(t1, u1).value >= TypeMax(t2, u2).value && TypeMin(t1, u1).value <= TypeMin(t2, u2).value
    ensures IsInteger(t1) && IsInteger(t2) ==> r.rangeErrors == 0
    ensures !IsInteger(t1) || !IsInteger(t2) ==> r.rangeErrors > 0
  {
    var max1 := TypeMax(t1, u1);
    var max2 := TypeMax(t2, u2);
    var maxErrors := Count(max1.error) + Count(max2.error);
    if max1.value >= max2.value then
      var min1 := TypeMin(t1, u1);
      var min2 := TypeMin(t2, u2);
      Representation(min1.value <= min2.value, maxErrors + Count(min1.error) + Count(min2.error))
    else
      Representation(false, maxErrors)
  }

  /** Range containment is a preorder on the basic types. */
  lemma CanRepresentPreorder(t1: BasicType, u1: bool, t2: BasicType, u2: bool, t3: BasicType, u3: bool)
    ensures CanRepresent(t1, u1, t1, u1).canRepresent
    ensures CanRepresent(t1, u1, t2, u2).canRepresent && CanRepresent(t2, u2, t3, u3).canRepresent
            ==> CanRepresent(t1, u1, t3, u3).canRepresent
  {
  }

  /** The facts the integer promotions rely on: `int` holds every unsigned char and
      unsigned short value but not every unsigned int or unsigned long value. */
  lemma IntRepresentsNarrowUnsigned()
    ensures CanRepresent(Int, false, Char, true) == Representation(true, 0)
    ensures CanRepresent(Int, false, Short, true) == Representation(true, 0)
    ensures CanRepresent(Int, false, Int, true) == Representation(false, 0)
    ensures CanRepresent(Int, false, Long, true) == Representation(false, 0)
  {
  }
}

=== FILE: word_count.dfy ===
/** The word-count utility: a file is split into words at spaces, tabs and
    newlines, every word is counted in a linked list kept in `strcmp` order,
    and the head node of that list counts the newlines. The list is modelled
    as the head's newline count plus the sequence of word nodes after it. */
module WordCount {
  import opened Wrappers
  import opened Integers

  /** A `struct wordCountSummary` after the head. */
  datatype Node = Node(word: string, count: int)

  /** The head node (word NULL, count = newlines seen) and the word nodes. */
  datatype Summary = Summary(newlines: int, nodes: seq<Node>)

  // ---------------------------------------------------------------------------
  // strcmp order
  // ---------------------------------------------------------------------------

  /** `strcmp(a, b) < 0` for strings without a NUL: the first differing
      character decides, and a proper prefix comes first. */
  predicate Less(a: string, b: string)
    decreases |a|
  {
    if |a| == 0 then |b| > 0
    else if |b| == 0 then false
    else if a[0] != b[0] then a[0] < b[0]
    else Less(a[1..], b[1..])
  }

  lemma {:induction false} LessIrreflexive(a: string)
    ensures !Less(a, a)
    decreases |a|
  {
    if |a| > 0 {
      LessIrreflexive(a[1..]);
    }
  }

  /** Two different strings are ordered one way or the other. */
  lemma {:induction false} LessTotal(a: string, b: string)
    requires a != b
    ensures Less(a, b) || Less(b, a)
    decreases |a|
  {
    if |a| > 0 && |b| > 0 && a[0] == b[0] {
      assert a == [a[0]] + a[1..] && b == [b[0]] + b[1..];
      LessTotal(a[1..], b[1..]);
    }
  }

  lemma {:induction false} LessAsymmetric(a: string, b: string)
    requires Less(a, b)
    ensures !Less(b, a)
    decreases |a|
  {
    if |a| > 0 && |b| > 0 && a[0] == b[0] {
      LessAsymmetric(a[1..], b[1..]);
    }
  }

  lemma {:induction false} LessTransitive(a: string, b: string, c: string)
    requires Less(a, b) && Less(b, c)
    ensures Less(a, c)
    decreases |a|
  {
    if |a| > 0 && |b| > 0 && |c| > 0 && a[0] == b[0] && b[0] == c[0] {
      LessTransitive(a[1..], b[1..], c[1..]);
    }
  }

  // ---------------------------------------------------------------------------
  // The list
  // ---------------------------------------------------------------------------

  /** Words strictly increase along the list, so each appears once. */
  predicate Sorted(nodes: seq<Node>) {
    forall i, j :: 0 <= i < j < |nodes| ==> Less(nodes[i].word, nodes[j].word)
  }

  /** Every node has been counted at least once. */
  predicate Positive(nodes: seq<Node>) {
    forall i :: 0 <= i < |nodes| ==> nodes[i].count >= 1
  }

  predicate Valid(s: Summary) {
    s.newlines >= 0 && Sorted(s.nodes) && Positive(s.nodes)
  }

  /** `setupWordCountSummary`: only the head, with no newline counted. */
  function Setup(): (s: Summary)
    ensures Valid(s) && s.nodes == [] && s.newlines == 0
  {
    Summary(0, [])
  }

  /** How often `w` has been counted: the counts of the nodes holding it. */
  function CountOf(nodes: seq<Node>, w: string): int
    decreases |nodes|
  {
    if |nodes| == 0 then 0
    else (if nodes[0].word == w then nodes[0].count else 0) + CountOf(nodes[1..], w)
  }

  /** The traversal of `insertNode` from `head->next`: an equal word is
      counted again, a greater word is passed, and the new word goes in front
      of the first word greater than it, or at the end, with count 1. */
  function InsertWord(nodes: seq<Node>, w: string): (r: seq<Node>)
    decreases |nodes|
  {
    if |nodes| == 0 then [Node(w, 1)]
    else if nodes[0].word == w then [nodes[0].(count := nodes[0].count + 1)] + nodes[1..]
    else if Less(nodes[0].word, w) then [nodes[0]] + InsertWord(nodes[1..], w)
    else [Node(w, 1)] + nodes
  }

  /** `insertNode`: the head is left alone. */
  function Insert(s: Summary, w: string): (r: Summary)
    ensures r.newlines == s.newlines
  {
    Summary(s.newlines, InsertWord(s.nodes, w))
  }

  /** `insertNewlineNode`: the head counts one more newline. */
  function InsertNewline(s: Summary): (r: Summary)
    ensures r.newlines == s.newlines + 1 && r.nodes == s.nodes
  {
    s.(newlines := s.newlines + 1)
  }

  /** Inserting counts `w` once more and nothing else. */
  lemma {:induction false} InsertCounts(nodes: seq<Node>, w: string, v: string)
    ensures CountOf(InsertWord(nodes, w), v) == CountOf(nodes, v) + (if v == w then 1 else 0)
    decreases |nodes|
  {
    if |nodes| > 0 && nodes[0].word != w && Less(nodes[0].word, w) {
      InsertCounts(nodes[1..], w, v);
      assert ([nodes[0]] + InsertWord(nodes[1..], w))[1..] == InsertWord(nodes[1..], w);
    } else if |nodes| > 0 && nodes[0].word == w {
      assert ([nodes[0].(count := nodes[0].count + 1)] + nodes[1..])[1..] == nodes[1..];
    } else if |nodes| > 0 {
      assert ([Node(w, 1)] + nodes)[1..] == nodes;
    }
  }

  /** The words the list holds. */
  function WordSet(nodes: seq<Node>): set<string>
    decreases |nodes|
  {
    if |nodes| == 0 then {} else {nodes[0].word} + WordSet(nodes[1..])
  }

  /** The words of the list after an insert are those before and `w`. */
  lemma {:induction false} InsertWords(nodes: seq<Node>, w: string)
    ensures WordSet(InsertWord(nodes, w)) == WordSet(nodes) + {w}
    decreases |nodes|
  {
    if |nodes| > 0 && nodes[0].word != w && Less(nodes[0].word, w) {
      InsertWords(nodes[1..], w);
      assert ([nodes[0]] + InsertWord(nodes[1..], w))[1..] == InsertWord(nodes[1..], w);
    } else if |nodes| > 0 && nodes[0].word == w {
      assert ([nodes[0].(count := nodes[0].count + 1)] + nodes[1..])[1..] == nodes[1..];
    } else if |nodes| > 0 {
      assert ([Node(w, 1)] + nodes)[1..] == nodes;
    }
  }

  /** Every word of the list comes after `x`. */
  predicate Above(x: string, nodes: seq<Node>) {
    forall i :: 0 <= i < |nodes| ==> Less(x, nodes[i].word)
  }

  lemma {:induction false} AboveExcludes(x: string, nodes: seq<Node>)
    requires Above(x, nodes)
    ensures x !in WordSet(nodes)
    decreases |nodes|
  {
    if |nodes| > 0 {
      LessIrreflexive(x);
      AboveExcludes(x, nodes[1..]);
    }
  }

  /** Inserting a word after `x` keeps the list after `x`. */
  lemma {:induction false} InsertStaysAbove(x: string, nodes: seq<Node>, w: string)
    requires Above(x, nodes) && Less(x, w)
    ensures Above(x, InsertWord(nodes, w))
    decreases |nodes|
  {
    if |nodes| > 0 && nodes[0].word != w && Less(nodes[0].word, w) {
      InsertStaysAbove(x, nodes[1..], w);
      var r := [nodes[0]] + InsertWord(nodes[1..], w);
      assert forall i :: 1 <= i < |r| ==> r[i] == InsertWord(nodes[1..], w)[i - 1];
    } else if |nodes| > 0 && nodes[0].word == w {
      var r := [nodes[0].(count := nodes[0].count + 1)] + nodes[1..];
      assert forall i :: 0 <= i < |r| ==> r[i].word == nodes[i].word;
    } else if |nodes| > 0 {
      var r := [Node(w, 1)] + nodes;
      assert forall i :: 1 <= i < |r| ==> r[i] == nodes[i - 1];
    }
  }

  /** Inserting keeps the list sorted and every count positive, and adds a
      node exactly when the word is new. */
  lemma {:induction false} InsertKeepsSorted(nodes: seq<Node>, w: string)
    requires Sorted(nodes) && Positive(nodes)
    ensures Sorted(InsertWord(nodes, w)) && Positive(InsertWord(nodes, w))
    ensures |InsertWord(nodes, w)| == |nodes| + (if w in WordSet(nodes) then 0 else 1)
    decreases |nodes|
  {
    if |nodes| == 0 {
    } else if nodes[0].word == w {
      var r := InsertWord(nodes, w);
      assert forall i :: 0 <= i < |nodes| ==> r[i].word == nodes[i].word;
    } else if Less(nodes[0].word, w) {
      InsertKeepsSorted(nodes[1..], w);
      SortedTail(nodes);
      InsertStaysAbove(nodes[0].word, nodes[1..], w);
      ConsSorted(nodes[0], InsertWord(nodes[1..], w));
    } else {
      LessTotal(nodes[0].word, w);
      assert Above(w, nodes) by {
        forall j | 0 < j < |nodes|
          ensures Less(w, nodes[j].word)
        {
          LessTransitive(w, nodes[0].word, nodes[j].word);
        }
      }
      AboveExcludes(w, nodes);
      ConsSorted(Node(w, 1), nodes);
    }
  }

  lemma SortedTail(nodes: seq<Node>)
    requires Sorted(nodes) && Positive(nodes) && |nodes| > 0
    ensures Sorted(nodes[1..]) && Positive(nodes[1..]) && Above(nodes[0].word, nodes[1..])
  {
    assert forall i :: 0 <= i < |nodes[1..]| ==> nodes[1..][i] == nodes[i + 1];
  }

  /** A node in front of a sorted list of greater words keeps it sorted. */
  lemma ConsSorted(n: Node, rest: seq<Node>)
    requires Sorted(rest) && Positive(rest) && Above(n.word, rest) && n.count >= 1
    ensures Sorted([n] + rest) && Positive([n] + rest)
  {
    var r := [n] + rest;
    assert forall i :: 1 <= i < |r| ==> r[i] == rest[i - 1];
  }

  /** `getTotalWordCount`: the counts of the nodes with a word and a positive
      count; the head is skipped since its word is NULL. */
  function Total(nodes: seq<Node>): int
    decreases |nodes|
  {
    if |nodes| == 0 then 0
    else (if nodes[0].count > 0 then nodes[0].count else 0) + Total(nodes[1..])
  }

  /** Every insert adds one to the total. */
  lemma {:induction false} InsertAddsOne(nodes: seq<Node>, w: string)
    requires Positive(nodes)
    ensures Total(InsertWord(nodes, w)) == Total(nodes) + 1
    decreases |nodes|
  {
    if |nodes| > 0 && nodes[0].word != w && Less(nodes[0].word, w) {
      InsertAddsOne(nodes[1..], w);
      assert ([nodes[0]] + InsertWord(nodes[1..], w))[1..] == InsertWord(nodes[1..], w);
    } else if |nodes| > 0 && nodes[0].word == w {
      assert ([nodes[0].(count := nodes[0].count + 1)] + nodes[1..])[1..] == nodes[1..];
    } else if |nodes| > 0 {
      assert ([Node(w, 1)] + nodes)[1..] == nodes;
    }
  }

  /** `getNewlineCount`: the head's count plus one, for the first line. */
  function LineCount(s: Summary): (n: int)
    ensures n == s.newlines + 1
  {
    s.newlines + 1
  }

  /** `printList` writes "word: count" for each node in list order, or
      nothing to the output file when the list is empty. */
  function Listing(s: Summary): (lines: seq<string>)
    ensures |lines| == |s.nodes|
    ensures forall i :: 0 <= i < |lines| ==> lines[i] == s.nodes[i].word + ": " + IntToDecimal(s.nodes[i].count)
  {
    seq(|s.nodes|, i requires 0 <= i < |s.nodes| => s.nodes[i].word + ": " + IntToDecimal(s.nodes[i].count))
  }

  // ---------------------------------------------------------------------------
  // Splitting the input
  // ---------------------------------------------------------------------------

  predicate IsSeparator(c: char) {
    c == ' ' || c == '\t' || c == '\n'
  }

  /** A byte 0xFF stored in the signed `char c` compares equal to EOF, so the
      read loop stops there. */
  const EOF_CHAR: char := 0xFF as char

  /** What the read loop sees of the file: everything before the first 0xFF. */
  function Readable(input: string): (text: string)
    ensures text <= input && EOF_CHAR !in text
    ensures |text| < |input| ==> input[|text|] == EOF_CHAR
    decreases |input|
  {
    if |input| == 0 || input[0] == EOF_CHAR then []
    else [input[0]] + Readable(input[1..])
  }

  /** The word `createWordForNode` copies out of the buffer: what `strlen`
      sees, up to the first NUL. */
  function CString(buffer: string): (w: string)
    ensures w <= buffer && '\0' !in w
    ensures |w| < |buffer| ==> buffer[|w|] == '\0'
    decreases |buffer|
  {
    if |buffer| == 0 || buffer[0] == '\0' then []
    else [buffer[0]] + CString(buffer[1..])
  }

  /** The pieces of `text` between separators, in order; a text with `k`
      separators has `k + 1` pieces, some of them perhaps empty. */
  function Pieces(text: string): (p: seq<string>)
    ensures |p| >= 1
    ensures forall i :: 0 <= i < |p| ==> forall c :: c in p[i] ==> !IsSeparator(c)
    decreases |text|
  {
    if |text| == 0 then [[]]
    else
      var rest := Pieces(text[1..]);
      if IsSeparator(text[0]) then [[]] + rest
      else [[text[0]] + rest[0]] + rest[1..]
  }

  /** Joining the pieces with the separators between them gives the text
      back. */
  function Join(p: seq<string>, separators: string): string
    requires |p| == |separators| + 1
    decreases |separators|
  {
    if |separators| == 0 then p[0]
    else p[0] + [separators[0]] + Join(p[1..], separators[1..])
  }

  /** The separators of `text`, in order. */
  function Separators(text: string): (s: string)
    ensures forall c :: c in s ==> IsSeparator(c)
    decreases |text|
  {
    if |text| == 0 then []
    else if IsSeparator(text[0]) then [text[0]] + Separators(text[1..])
    else Separators(text[1..])
  }

  lemma {:induction false} PiecesJoin(text: string)
    ensures |Pieces(text)| == |Separators(text)| + 1
    ensures Join(Pieces(text), Separators(text)) == text
    decreases |text|
  {
    if |text| > 0 {
      PiecesJoin(text[1..]);
      var rest, seps := Pieces(text[1..]), Separators(text[1..]);
      if IsSeparator(text[0]) {
        assert ([[]] + rest)[1..] == rest;
        assert text == [text[0]] + text[1..];
      } else {
        var p := [[text[0]] + rest[0]] + rest[1..];
        if |seps| == 0 {
          assert text == [text[0]] + text[1..];
        } else {
          assert p[1..] == rest[1..];
          assert Join(rest, seps) == rest[0] + [seps[0]] + Join(rest[1..], seps[1..]);
          assert text == [text[0]] + text[1..];
        }
      }
    }
  }

  /** The words the counter sees: each piece up to its first NUL, without the
      empty ones. */
  function Words(p: seq<string>): (w: seq<string>)
    ensures |w| <= |p|
    ensures forall i :: 0 <= i < |w| ==> |w[i]| > 0
    decreases |p|
  {
    if |p| == 0 then []
    else if |CString(p[0])| > 0 then [CString(p[0])] + Words(p[1..])
    else Words(p[1..])
  }

  /** The number of newlines in `text`. */
  function Newlines(text: string): nat
    decreases |text|
  {
    if |text| == 0 then 0 else (if text[0] == '\n' then 1 else 0) + Newlines(text[1..])
  }

  /** The list after inserting `words` in order. */
  function InsertAll(nodes: seq<Node>, words: seq<string>): seq<Node>
    decreases |words|
  {
    if |words| == 0 then nodes else InsertAll(InsertWord(nodes, words[0]), words[1..])
  }

  // ---------------------------------------------------------------------------
  // The read loop of runWordCount
  // ---------------------------------------------------------------------------

  /** The buffer of characters since the last separator and the summary. */
  datatype Scanner = Scanner(buffer: string, summary: Summary)

  /** One character of the loop: a separator ends the word in the buffer,
      which is inserted when it is not empty, then clears the buffer and, for
      a newline, counts the line; any other character is appended. */
  function Step(sc: Scanner, c: char): Scanner {
    if IsSeparator(c) then
      var w := CString(sc.buffer);
      var s := if |w| > 0 then Insert(sc.summary, w) else sc.summary;
      Scanner([], if c == '\n' then InsertNewline(s) else s)
    else Scanner(sc.buffer + [c], sc.summary)
  }

  function Feed(sc: Scanner, text: string): Scanner
    decreases |text|
  {
    if |text| == 0 then sc else Feed(Step(sc, text[0]), text[1..])
  }

  /** After the loop, a word left in the buffer is inserted too. */
  function Finish(sc: Scanner): Summary {
    var w := CString(sc.buffer);
    if |w| > 0 then Insert(sc.summary, w) else sc.summary
  }

  /** The whole read of `text` from a fresh summary. */
  function Count(text: string): Summary {
    Finish(Feed(Scanner([], Setup()), text))
  }

  /** The loop from any point inserts the words of the rest of the text, the
      first of them continuing the buffer, and counts its newlines. */
  lemma {:induction false} FeedInsertsWords(buffer: string, s: Summary, text: string)
    requires forall c :: c in buffer ==> !IsSeparator(c)
    ensures Finish(Feed(Scanner(buffer, s), text))
            == Summary(s.newlines + Newlines(text), InsertAll(s.nodes, Words(Pieces(buffer + text))))
    decreases |text|
  {
    if |text| == 0 {
      assert buffer + text == buffer;
      PiecesOfWord(buffer);
    } else {
      var c := text[0];
      assert buffer + text == (buffer + [c]) + text[1..];
      if IsSeparator(c) {
        var w := CString(buffer);
        var s' := if |w| > 0 then Insert(s, w) else s;
        var s'' := if c == '\n' then InsertNewline(s') else s';
        assert Feed(Scanner(buffer, s), text) == Feed(Scanner([], s''), text[1..]);
        FeedInsertsWords([], s'', text[1..]);
        assert [] + text[1..] == text[1..];
        PiecesAfterSeparator(buffer, c, text[1..]);
      } else {
        FeedInsertsWords(buffer + [c], s, text[1..]);
      }
    }
  }

  lemma {:induction false} PiecesOfWord(buffer: string)
    requires forall c :: c in buffer ==> !IsSeparator(c)
    ensures Pieces(buffer) == [buffer]
    decreases |buffer|
  {
    if |buffer| > 0 {
      PiecesOfWord(buffer[1..]);
      assert buffer == [buffer[0]] + buffer[1..];
    }
  }

  /** A separator after a run of word characters ends the first piece. */
  lemma {:induction false} PiecesAfterSeparator(buffer: string, c: char, rest: string)
    requires forall x :: x in buffer ==> !IsSeparator(x)
    requires IsSeparator(c)
    ensures Pieces(buffer + [c] + rest) == [buffer] + Pieces(rest)
    decreases |buffer|
  {
    if |buffer| == 0 {
      assert buffer + [c] + rest == [c] + rest;
      assert ([c] + rest)[1..] == rest;
    } else {
      var t := buffer + [c] + rest;
      assert t[1..] == buffer[1..] + [c] + rest;
      PiecesAfterSeparator(buffer[1..], c, rest);
      assert buffer == [buffer[0]] + buffer[1..];
    }
  }

  // ---------------------------------------------------------------------------
  // runWordCount
  // ---------------------------------------------------------------------------

  /** The index of the last '.' in `name`, as `strrchr` finds it. */
  function LastDot(name: string): (r: Option<nat>)
    ensures r.Some? ==> r.value < |name| && name[r.value] == '.'
                        && forall j :: r.value < j < |name| ==> name[j] != '.'
    ensures r.None? ==> '.' !in name
    decreases |name|
  {
    if |name| == 0 then None
    else if name[|name| - 1] == '.' then Some(|name| - 1)
    else LastDot(name[..|name| - 1])
  }

  /** The extension test: the text from the last '.' on must be ".txt". */
  predicate HasTextExtension(name: string) {
    match LastDot(name)
    case None => false
    case Some(i) => name[i..] == ".txt"
  }

  /** The test accepts exactly the names ending in ".txt". */
  lemma TextExtensionMeansSuffix(name: string)
    ensures HasTextExtension(name) <==> |name| >= 4 && name[|name| - 4..] == ".txt"
  {
    if |name| >= 4 && name[|name| - 4..] == ".txt" {
      assert name[|name| - 4] == '.';
      var d := LastDot(name);
      assert d.Some?;
      assert d.value == |name| - 4;
    }
  }

  /** What `runWordCount` writes: the line and word counts, a blank line,
      the heading, and the listing. */
  datatype Report = Report(lines: int, words: int, unique: seq<string>)

  /** `runWordCount` on a file name and the file's contents (None when it
      cannot be opened). A name without the ".txt" extension and a file that
      will not open end the program. */
  function RunWordCount(filename: string, contents: Option<string>): (r: Result<Report>)
    ensures r.Err? <==> !HasTextExtension(filename) || contents.None?
    ensures r.Err? ==> r.failure.Aborts?
  {
    if !HasTextExtension(filename) then Err(Aborts("File name has no/invalud extension."))
    else if contents.None? then Err(Aborts("Error opening file"))
    else
      var s := Count(Readable(contents.value));
      Ok(Report(LineCount(s), Total(s.nodes), Listing(s)))
  }

  /** The counts of a run: one more line than newlines read, one node per
      distinct word in `strcmp` order counting its occurrences, and a total
      equal to the number of words. */
  lemma CountIsCorrect(text: string)
    ensures var s := Count(text);
            && Valid(s)
            && LineCount(s) == Newlines(text) + 1
            && Total(s.nodes) == |Words(Pieces(text))|
            && forall v :: CountOf(s.nodes, v) == multiset(Words(Pieces(text)))[v]
  {
    FeedInsertsWords([], Setup(), text);
    assert [] + text == text;
    InsertAllFacts([], Words(Pieces(text)));
  }

  lemma {:induction false} InsertAllFacts(nodes: seq<Node>, words: seq<string>)
    requires Sorted(nodes) && Positive(nodes)
    ensures Sorted(InsertAll(nodes, words)) && Positive(InsertAll(nodes, words))
    ensures Total(InsertAll(nodes, words)) == Total(nodes) + |words|
    ensures forall v :: CountOf(InsertAll(nodes, words), v) == CountOf(nodes, v) + multiset(words)[v]
    decreases |words|
  {
    if |words| > 0 {
      var next := InsertWord(nodes, words[0]);
      InsertKeepsSorted(nodes, words[0]);
      InsertAddsOne(nodes, words[0]);
      forall v ensures CountOf(next, v) == CountOf(nodes, v) + (if v == words[0] then 1 else 0) {
        InsertCounts(nodes, words[0], v);
      }
      InsertAllFacts(next, words[1..]);
      assert words == [words[0]] + words[1..];
      assert multiset(words) == multiset{words[0]} + multiset(words[1..]);
    }
  }

  /** A word no node holds has not been counted. */
  lemma {:induction false} CountOfAbsent(nodes: seq<Node>, w: string)
    requires forall j :: 0 <= j < |nodes| ==> nodes[j].word != w
    ensures CountOf(nodes, w) == 0
    decreases |nodes|
  {
    if |nodes| > 0 {
      CountOfAbsent(nodes[1..], w);
    }
  }

  /** In a sorted list each word sits in one node, whose count is the word's. */
  lemma {:induction false} CountOfSorted(nodes: seq<Node>, i: nat)
    requires Sorted(nodes) && i < |nodes|
    ensures CountOf(nodes, nodes[i].word) == nodes[i].count
    decreases |nodes|
  {
    var w := nodes[i].word;
    if i == 0 {
      forall j | 0 <= j < |nodes[1..]|
        ensures nodes[1..][j].word != w
      {
        LessIrreflexive(w);
      }
      CountOfAbsent(nodes[1..], w);
    } else {
      LessIrreflexive(w);
      assert nodes[0].word != w;
      assert Sorted(nodes[1..]) by {
        forall a, b | 0 <= a < b < |nodes[1..]|
          ensures Less(nodes[1..][a].word, nodes[1..][b].word)
        {
          assert nodes[1..][a] == nodes[a + 1] && nodes[1..][b] == nodes[b + 1];
        }
      }
      CountOfSorted(nodes[1..], i - 1);
    }
  }

  /** What a run on a readable ".txt" file reports: one more line than
      newlines read, the number of words, and one "word: count" line per
      distinct word of the text, in `strcmp` order, with the number of
      times that word occurs. */
  lemma ReportIsCorrect(filename: string, contents: string)
    requires HasTextExtension(filename)
    ensures var text := Readable(contents);
            var ws := multiset(Words(Pieces(text)));
            var s := Count(text);
            var r := RunWordCount(filename, Some(contents));
            && r.Ok?
            && r.value.lines == Newlines(text) + 1
            && r.value.words == |Words(Pieces(text))|
            && |r.value.unique| == |s.nodes|
            && (forall i :: 0 <= i < |s.nodes| ==>
                  s.nodes[i].word in ws && r.value.unique[i] == s.nodes[i].word + ": " + IntToDecimal(ws[s.nodes[i].word]))
            && (forall i, j :: 0 <= i < j < |s.nodes| ==> Less(s.nodes[i].word, s.nodes[j].word))
            && (forall w :: w in ws ==> exists i :: 0 <= i < |s.nodes| && s.nodes[i].word == w)
  {
    var text := Readable(contents);
    var ws := multiset(Words(Pieces(text)));
    var s := Count(text);
    CountIsCorrect(text);
    forall i | 0 <= i < |s.nodes|
      ensures s.nodes[i].word in ws && ws[s.nodes[i].word] == s.nodes[i].count
    {
      CountOfSorted(s.nodes, i);
    }
    forall w | w in ws
      ensures exists i :: 0 <= i < |s.nodes| && s.nodes[i].word == w
    {
      if forall j :: 0 <= j < |s.nodes| ==> s.nodes[j].word != w {
        CountOfAbsent(s.nodes, w);
      }
    }
  }
}

=== FILE: wrappers.dfy ===
/** Failure-aware results shared by the whole model.

    The compiler stops in two different ways: a failed `assert` (or an explicit
    `exit`) aborts the process, while some paths read through a NULL pointer or
    past an array. The model keeps the two apart so that a contract can say which
    one an input reaches.
 */
module Wrappers {

  /** A value that may be missing: the model of a C pointer that may be NULL. */
  datatype Option<+T> = None | Some(value: T) {
    function GetOr(default: T): T {
      match this
      case Some(v) => v
      case None => default
    }
  }

  /** How a computation of the compiler stops early. */
  datatype Failure =
    | Aborts(reason: string)      // a failed assert(...) or exit(...)
    | Undefined(reason: string)   // behaviour C leaves undefined (NULL dereference, bad index)

  /** Either the value the compiler computes, or the way it stops. */
  datatype Result<+T> = Ok(value: T) | Err(failure: Failure) {
    predicate IsFailure() {
      Err?
    }

    function PropagateFailure<U>(): Result<U>
      requires Err?
    {
      Err(failure)
    }

    function Extract(): T
      requires Ok?
    {
      value
    }
  }
}
